=== FILE: README.md ===
# OpenSAND core, modelled in Dafny

This project models the sequential logic at the heart of the OpenSAND
satellite-network emulator and proves properties of that model.

The emulator runs a satellite, one or more gateways (each holding an NCC,
the network control centre) and satellite terminals. Each of them is a
stack of blocks. Its return link follows DVB-RCS and its forward link
follows DVB-S2. A Python daemon on every host starts the binaries and
installs the routes towards the other hosts.

The model covers the following parts of that system. Each part is one
Dafny module in one file:

- `OpenSandCore` (`core_types.dfy`): the identifier constants and type
  widths, `tokenize`, `strToSatType` and `getComponentName`.
- `MacFifoElement` and `DvbFifo`: the MAC FIFO element (a frame or packet
  union) and the bounded MAC FIFO. This includes its packet and byte
  counters and its statistics context.
- `FmtDefinitionTable`: the MODCOD definition-file grammar, the table's
  `add` and its getters, and the symbol-to-kbit conversion.
- `ForwardScheduling`: DVB-S2 forward scheduling. This covers the BBFrame
  payload table of Table 5a of ETSI EN 302 307, the MODCOD choice, and
  the incomplete, complete and pending BBFrame bookkeeping against each
  carrier's symbol capacity.
- `BlockDvb`: `tempSplit` and the validation rules of the band
  initialisation (`initBand`).
- `DamaCtrl` and `DamaCtrlRcs`: the legacy NCC DAMA controller. It keeps a
  terminal registry with aggregate CRA and RBDC counters, capacity
  requests (SACT), PEP commands, the FMT update and the TTP sum.
- `DamaEsa`: the integer parts of the Platine ESA DAMA controller. These
  are the round robin over logged-on terminals, the VBDC allocator, the
  FCA allocator and the order of the DAMA stages.
- `SlottedAloha` and `SlottedAlohaCrdsa`: the ordering of Slotted Aloha
  packets at the NCC, and the iterative CRDSA collision removal.
- `UleExtPadding`: the ULE Extension-Padding header of RFC 4326 (section 5,
  extension headers), built and decoded.
- `AtmPlugin` and `StackPlugin`: ATM cell chunking and per-(VPI, VCI)
  AAL5 reassembly, plus the stack-plugin upper-protocol check.
- `BlockEncap` and `EncapSat`: the encapsulation blocks of the terminal,
  gateway and satellite. This covers context wiring, link-up handling,
  flush-timer de-duplication and burst reception.
- `DvbTal`: the terminal's DVB block. It covers the superframe counter, the
  NCC-reboot rule, FIFO selection, the OBR slot, logon state, the QoS port
  check and the conf-update spot filter.
- `ConfUpdateRequest` and `InSimulationConfUpdate`: the conf-update
  request record, its `spot:gw:type:bw` command grammar, and the interface
  that reads those commands.
- `Routes` and `CommandHandler`: the daemon's per-host route table and its
  line-command dispatcher.

Everything the core takes from outside becomes a parameter of the model.
This covers the kernel's route calls, sockets, files, clocks, timers,
probes and the encapsulation plugins' formats. Each such parameter is an
outcome value, a snapshot value, or a function. Where the source's
behaviour is evidently not what its authors meant, `Mode.AsWritten`
selects the code as written and `Mode.Intended` selects the corrected
behaviour. Each case is listed under "## Findings".

## Model

| member | source | states |
|---|---|---|
| `OpenSandCore.ToU8` | opensand-core/src/common/OpenSandCore.h:153-155 | an 8-bit field (spot id, QoS, group id) keeps any value below 256 and otherwise holds the value reduced modulo 256 |
| `OpenSandCore.ToU16` | opensand-core/src/common/OpenSandCore.h:170-171 | a 16-bit counter (packet volume, kbit volume) keeps any value below 65536 and otherwise holds it modulo 65536 |
| `OpenSandCore.ToU32` | opensand-core/src/common/OpenSandCore.h:172-174 | a 32-bit counter (bit, byte and symbol volumes) keeps any value below 2^32 and otherwise holds it modulo 2^32 |
| `OpenSandCore.ToU32Shift` | opensand-core/src/common/OpenSandCore.h:172-174 | adding to a counter that has already wrapped gives the same 32-bit value as adding before wrapping |
| `OpenSandCore.ToU16Shift` | opensand-core/src/common/OpenSandCore.h:170-171 | the same compatibility of 16-bit wrap-around with later additions |
| `OpenSandCore.ComponentName` | opensand-core/src/common/OpenSandCore.h:76-92 | the abbreviated component name is never empty and is "sat", "gw" or "st" exactly for the satellite, the gateway and the terminal |
| `OpenSandCore.StrToSatType` | opensand-core/src/common/OpenSandCore.h:107-113 | the satellite is regenerative exactly when its type name is "regenerative"; every other name means transparent |
| `OpenSandCore.RunLength` | opensand-core/src/common/OpenSandCore.h:136-138 | the position find_first_of returns: every character before it is outside the delimiters and the character there (if any) is a delimiter |
| `OpenSandCore.TokenizeSound` | opensand-core/src/common/OpenSandCore.h:129-147 | every token produced is non-empty and free of delimiters, and the tokens concatenated give the input with all delimiters removed |
| `OpenSandCore.Tokenize` | opensand-core/src/common/OpenSandCore.h:129-147 | every token is non-empty and free of delimiters, and there are no tokens exactly when the string holds nothing but delimiters |
| `OpenSandCore.TokenizeJoin` | opensand-core/src/common/OpenSandCore.h:129-147 | joining delimiter-free non-empty tokens with a delimiter and tokenizing the result gives back exactly those tokens |
| `MacFifoElement.FromFrame` | opensand-core/src/dvb_rcs/utils/MacFifoElement.cpp:38-46 | an element built from a DVB frame has the frame type, holds that frame and no packet |
| `MacFifoElement.FromPacket` | opensand-core/src/dvb_rcs/utils/MacFifoElement.cpp:48-57 | an element built from a packet has the packet type, holds that packet and no frame |
| `MacFifoElement.TotalLength` | opensand-core/src/dvb_rcs/utils/MacFifoElement.cpp:79-87 | an element of unknown type has length 0; a frame or packet element has a length exactly when its content pointer is set, and it is that frame's or packet's total length |
| `MacFifoElement.SetPacket` | opensand-core/src/dvb_rcs/utils/MacFifoElement.cpp:68-71 | replacing the packet changes nothing else: type, frame and ticks are kept |
| `MacFifoElement.ConstructorsAndGetters` | opensand-core/src/dvb_rcs/utils/MacFifoElement.cpp:38-101 | the getters return what the constructors stored: the content's total length and the two ticks |
| `MacFifoElement.SetPacketLength` | opensand-core/src/dvb_rcs/utils/MacFifoElement.cpp:68-87 | after setPacket a packet element reports the new packet's length while a frame element's length is unaffected |
| `DvbFifo.CrTypeOf` | opensand-core/src/dvb_rcs/utils/DvbFifo.cpp:76-92 | the FIFO's capacity-request kind is RBDC, VBDC or NONE exactly for those three names; any other name leaves it unset |
| `DvbFifo.New` | opensand-core/src/dvb_rcs/utils/DvbFifo.cpp:61-94 | a new FIFO is empty, has zeroed statistics and no new packets, keeps its size bound and priority, and already satisfies the FIFO invariant |
| `DvbFifo.Push` | opensand-core/src/dvb_rcs/utils/DvbFifo.cpp:170-198 | a push is refused, leaving the FIFO unchanged, exactly when the FIFO is full; otherwise the element goes to the back and the new-packet counter grows by one with 16-bit wrap-around |
| `DvbFifo.PushFront` | opensand-core/src/dvb_rcs/utils/DvbFifo.cpp:200-220 | a packet put back is refused exactly when the FIFO is full; otherwise it becomes the head of the queue |
| `DvbFifo.Pop` | opensand-core/src/dvb_rcs/utils/DvbFifo.cpp:222-252 | pop yields nothing and changes nothing on an empty FIFO; otherwise it yields the head and leaves exactly the rest of the queue |
| `DvbFifo.ResetStats` | opensand-core/src/dvb_rcs/utils/DvbFifo.cpp:292-299 | the in and out counters are cleared while the current counters are kept |
| `DvbFifo.FlushAsWritten` | opensand-core/src/dvb_rcs/utils/DvbFifo.cpp:254-276 | the flush as written: the queue and new counters are emptied but only the in/out statistics are reset, so the current counters survive |
| `DvbFifo.Flush` | opensand-core/src/dvb_rcs/utils/DvbFifo.cpp:254-276 | the corrected flush: empty queue, all counters zero, configuration (size bound, request kind, priority) kept |
| `DvbFifo.GetStatsCxt` | opensand-core/src/dvb_rcs/utils/DvbFifo.cpp:279-290 | reading the statistics returns the counters as they were and then resets the in/out counters |
| `DvbFifo.ResetNew` | opensand-core/src/dvb_rcs/utils/DvbFifo.cpp:142-148 | the new-packet counter is cleared only when the FIFO has the given request kind; otherwise nothing changes |
| `DvbFifo.TickOut` | opensand-core/src/dvb_rcs/utils/DvbFifo.cpp:160-167 | the output tick is the head element's, or 0 for an empty FIFO |
| `DvbFifo.CurrentSize` | opensand-core/src/dvb_rcs/utils/DvbFifo.cpp:150-153 | on a valid FIFO the reported current size is both the current-packet counter and the number of queued elements |
| `DvbFifo.PushValid` | opensand-core/src/dvb_rcs/utils/DvbFifo.cpp:170-198 | push preserves the FIFO invariant: counters in range, size bound respected, current counters describing the queue |
| `DvbFifo.PushFrontValid` | opensand-core/src/dvb_rcs/utils/DvbFifo.cpp:200-220 | putting a packet back preserves the FIFO invariant |
| `DvbFifo.PopValid` | opensand-core/src/dvb_rcs/utils/DvbFifo.cpp:222-252 | pop preserves the FIFO invariant, including the wrapped byte counter |
| `DvbFifo.FlushValid` | opensand-core/src/dvb_rcs/utils/DvbFifo.cpp:254-276 | the corrected flush re-establishes the FIFO invariant |
| `DvbFifo.StatsAndResetValid` | opensand-core/src/dvb_rcs/utils/DvbFifo.cpp:142-148 | reading statistics and resetting the new counter both preserve the FIFO invariant |
| `DvbFifo.PushThenPop` | opensand-core/src/dvb_rcs/utils/DvbFifo.cpp:170-252 | first-in first-out: pushing onto a non-full FIFO does not change what the next pop yields unless the FIFO was empty, in which case the pushed element comes out |
| `DvbFifo.PushFrontThenPop` | opensand-core/src/dvb_rcs/utils/DvbFifo.cpp:200-252 | putting a packet back and popping returns that packet and restores the queue and current counters; only the out counter has advanced |
| `DvbFifo.FlushAsWrittenBreaksCounters` | opensand-core/src/dvb_rcs/utils/DvbFifo.cpp:254-276 | push, flush as written, push: the byte counter says 20 for a queue holding one 10-byte packet, so the invariant is broken |
| `DvbFifo.FlushThenPushValid` | opensand-core/src/dvb_rcs/utils/DvbFifo.cpp:170-276 | with the corrected flush, a push after a flush keeps the FIFO invariant |
| `FmtDefinitionTable.IntValue` | opensand-core/src/dvb_rcs/fmt/FmtDefinitionTable.cpp:190-193 | the number read from a word is its leading decimal value when the word starts with a digit, and is never positive when it starts with a minus sign |
| `FmtDefinitionTable.Classify` | opensand-core/src/dvb_rcs/fmt/FmtDefinitionTable.cpp:114-129 | a line is skipped as blank exactly when it has no word at all |
| `FmtDefinitionTable.Kinds` | opensand-core/src/dvb_rcs/fmt/FmtDefinitionTable.cpp:105-124 | each line of the file is classified on its own, position by position |
| `FmtDefinitionTable.Add` | opensand-core/src/dvb_rcs/fmt/FmtDefinitionTable.cpp:280-307 | adding is refused exactly when the id is already defined; otherwise the table gains that one definition and keeps all others |
| `FmtDefinitionTable.CountDefs` | opensand-core/src/dvb_rcs/fmt/FmtDefinitionTable.cpp:215-217 | the number of definition lines never exceeds the number of lines |
| `FmtDefinitionTable.RestOkIgnorable` | opensand-core/src/dvb_rcs/fmt/FmtDefinitionTable.cpp:125-128 | a blank or comment line after the nb_fmt line changes nothing about whether the rest of the file is acceptable |
| `FmtDefinitionTable.RestOkDef` | opensand-core/src/dvb_rcs/fmt/FmtDefinitionTable.cpp:179-246 | a definition with a fresh in-range id is acceptable exactly when the rest of the file is acceptable with that id added and one more definition read |
| `FmtDefinitionTable.StepLine` | opensand-core/src/dvb_rcs/fmt/FmtDefinitionTable.cpp:114-252 | a blank or comment line changes nothing; an nb_fmt line is accepted exactly when it is the first, has "=" and a count in 1..32; an accepted line keeps every stored definition, and an accepted definition line comes after nb_fmt, within the announced count, and adds exactly its own definition under a fresh id in 1..32 |
| `FmtDefinitionTable.Scan` | opensand-core/src/dvb_rcs/fmt/FmtDefinitionTable.cpp:104-253 | the line loop never drops or alters a stored definition, keeps the count once nb_fmt is seen, and passes a file of blank and comment lines unchanged |
| `FmtDefinitionTable.FoundPhase` | opensand-core/src/dvb_rcs/fmt/FmtDefinitionTable.cpp:129-262 | once nb_fmt is known, the line loop plus the final count check succeed exactly when the remaining lines are definitions or ignorable, with in-range distinct new ids whose number makes up the announced count |
| `FmtDefinitionTable.SearchPhase` | opensand-core/src/dvb_rcs/fmt/FmtDefinitionTable.cpp:103-262 | from the start of the file, the loop plus the final check succeed exactly for the files of the grammar |
| `FmtDefinitionTable.Load` | opensand-core/src/dvb_rcs/fmt/FmtDefinitionTable.cpp:83-277 | a file that cannot be opened leaves an empty table and fails; one that opens is accepted exactly when it is well formed (ignorable lines, one valid nb_fmt line, then exactly that many distinct in-range definitions) or holds only blank and comment lines while the uninitialised count is 0; whatever happens, every stored definition sits under its own id in 1..32; an accepted file leaves exactly the ids its definition lines name, each with the modulation and coding rate of its line |
| `FmtDefinitionTable.ScanStoresDefinitions` | opensand-core/src/dvb_rcs/fmt/FmtDefinitionTable.cpp:104-253 | a loop that reaches the end of the file has stored exactly its starting definitions plus one per definition line, each with the modulation and coding rate its line gives |
| `FmtDefinitionTable.ScanKeepsTableOk` | opensand-core/src/dvb_rcs/fmt/FmtDefinitionTable.cpp:103-253 | the line loop only ever stores a definition under its own id, with the id in 1..32 |
| `FmtDefinitionTable.GetModulation` | opensand-core/src/dvb_rcs/fmt/FmtDefinitionTable.cpp:331-339 | the modulation is unknown for an undefined id and is the definition's own modulation otherwise |
| `FmtDefinitionTable.GetCodingRate` | opensand-core/src/dvb_rcs/fmt/FmtDefinitionTable.cpp:342-350 | the coding rate is empty for an undefined id and is the definition's own rate otherwise |
| `FmtDefinitionTable.ModulationBits` | opensand-core/src/dvb_rcs/fmt/FmtDefinitionTable.cpp:409-428 | BPSK to 32APSK carry 1 to 5 bits per symbol; only an unknown modulation has none |
| `FmtDefinitionTable.CodingRateValue` | opensand-core/src/dvb_rcs/fmt/FmtDefinitionTable.cpp:430-477 | the rate is a proper fraction, and it is zero exactly for a name outside the twelve DVB-S2 rates |
| `FmtDefinitionTable.SymToKbits` | opensand-core/src/dvb_rcs/fmt/FmtDefinitionTable.cpp:393-480 | 0 kbits for an undefined id or unknown modulation; otherwise the least integer at least (wrapped symbols times bits per symbol) times the rate divided by 1000 |
| `FmtDefinitionTable.CeilDiv` | opensand-core/src/dvb_rcs/fmt/FmtDefinitionTable.cpp:479 | the result is the ceiling of the quotient: the least value whose product with the divisor reaches the dividend |
| `ForwardScheduling.PayloadSize` | opensand-core/src/dvb_rcs/dama/ForwardSchedulingS2.cpp:52-83 | a listed coding rate gets its data field length from Table 5a of ETSI EN 302 307; any other rate gets a normal FECFRAME of 8100 bytes; the size is always between 2001 and 8100 |
| `ForwardScheduling.PayloadGrowsWithRate` | opensand-core/src/dvb_rcs/dama/ForwardSchedulingS2.cpp:56-80 | the table is ordered by coding rate and a higher rate always carries a strictly larger payload, each below a normal FECFRAME |
| `ForwardScheduling.RetrieveCurrentModcod` | opensand-core/src/dvb_rcs/dama/ForwardSchedulingS2.cpp:703-734 | there is a MODCOD exactly for a registered terminal; it is the current one once advertised and never above it, otherwise no more than the previous one |
| `ForwardScheduling.AddPacket` | opensand-core/src/dvb_rcs/dama/ForwardSchedulingS2.cpp:497-509 | data enters a BBFrame exactly when it fits in the free space, which then shrinks by the data's length |
| `ForwardScheduling.NewFrame` | opensand-core/src/dvb_rcs/dama/ForwardSchedulingS2.cpp:657-700 | a created BBFrame is empty, has the requested MODCOD and the payload size of its coding rate, which is a normal FECFRAME for an undefined MODCOD |
| `ForwardScheduling.GetIncompleteBBFrame` | opensand-core/src/dvb_rcs/dama/ForwardSchedulingS2.cpp:768-826 | fails only when a new frame is needed and there is no packet handler; gives no frame, changing nothing, for an unknown terminal or a MODCOD the carrier cannot serve; otherwise reuses the frame of the carrier's nearest MODCOD or creates it and appends it to both frame lists, which stay consistent |
| `ForwardScheduling.AddCompleteBBFrame` | opensand-core/src/dvb_rcs/dama/ForwardSchedulingS2.cpp:829-884 | an error for a MODCOD without a symbol size, full when the capacity is below the frame's size (both changing nothing); otherwise the frame, with the next MODCOD advertisements, joins the complete list and its symbols leave the capacity |
| `ForwardScheduling.AddCompleteKeepsBudget` | opensand-core/src/dvb_rcs/dama/ForwardSchedulingS2.cpp:829-884 | completing a frame only moves symbols: capacity left plus symbols spent on complete frames is unchanged |
| `ForwardScheduling.SchedulePending` | opensand-core/src/dvb_rcs/dama/ForwardSchedulingS2.cpp:887-930 | the pending frames only add to the end of the complete list and never create capacity: capacity plus spent symbols is kept |
| `ForwardScheduling.SchedulePendingKeepsUnsupported` | opensand-core/src/dvb_rcs/dama/ForwardSchedulingS2.cpp:887-930 | afterwards the pending list is exactly the frames of MODCODs the carrier does not support, in their original order |
| `ForwardScheduling.SchedulePendingSendsSupported` | opensand-core/src/dvb_rcs/dama/ForwardSchedulingS2.cpp:887-930 | every frame sent from the pending list has a supported MODCOD, and no more are sent than there are such frames |
| `ForwardScheduling.Remove` | opensand-core/src/dvb_rcs/dama/ForwardSchedulingS2.cpp:589 | removing a MODCOD from the ordered list leaves exactly the other entries and keeps them distinct |
| `ForwardScheduling.RemoveKeepsConsistent` | opensand-core/src/dvb_rcs/dama/ForwardSchedulingS2.cpp:587-590 | taking a frame out of both the ordered list and the map keeps the two frame lists consistent |
| `ForwardScheduling.Complete` | opensand-core/src/dvb_rcs/dama/ForwardSchedulingS2.cpp:575-603 | the end of an iteration keeps the loop invariant and the symbol budget; a frame that fills up or leaves a fragment is completed and spends capacity; a full carrier saves its capacity for the next superframe, drops to 0 and stops the loop |
| `ForwardScheduling.Requeue` | opensand-core/src/dvb_rcs/dama/ForwardSchedulingS2.cpp:536-550 | the rest of a fragmented packet goes back at the head of the FIFO in its own element, and the FIFO invariant holds |
| `ForwardScheduling.Fill` | opensand-core/src/dvb_rcs/dama/ForwardSchedulingS2.cpp:482-603 | putting (part of) a packet into its frame keeps the loop invariant and budget, and either spends capacity or leaves the FIFO unchanged; a stop means the carrier is full |
| `ForwardScheduling.Step` | opensand-core/src/dvb_rcs/dama/ForwardSchedulingS2.cpp:402-604 | an iteration stops as not ready exactly when the head's output tick is in the future, changing nothing; otherwise it keeps the invariant and budget and either spends capacity or shortens the FIFO |
| `ForwardScheduling.Loop` | opensand-core/src/dvb_rcs/dama/ForwardSchedulingS2.cpp:402-604 | the packet loop ends with the FIFO empty, with a head not yet due, or with the carrier full at capacity 0 and its capacity saved; the budget is kept throughout |
| `ForwardScheduling.DropHeadConsistent` | opensand-core/src/dvb_rcs/dama/ForwardSchedulingS2.cpp:607-629 | the final loop's erase of the head of the ordered list, with or without erasing its frame from the map, keeps the frame lists consistent |
| `ForwardScheduling.SendIncomplete` | opensand-core/src/dvb_rcs/dama/ForwardSchedulingS2.cpp:607-629 | the final loop keeps the frame lists consistent, only appends to the complete list, and keeps capacity plus spent symbols |
| `ForwardScheduling.SendIncompleteVisitsInOrder` | opensand-core/src/dvb_rcs/dama/ForwardSchedulingS2.cpp:607-614 | the final loop visits the ordered frames from the head: what is left is a suffix, and frames are left only when no capacity is |
| `ForwardScheduling.SendIncompleteFullFrameStaysInMap` | opensand-core/src/dvb_rcs/dama/ForwardSchedulingS2.cpp:616-628 | a frame the carrier cannot take is erased from the ordered list but stays in the MODCOD map |
| `ForwardScheduling.SendIncompleteKeepsKeys` | opensand-core/src/dvb_rcs/dama/ForwardSchedulingS2.cpp:607-629 | a frame that is in the map but not in the ordered list survives the final loop and never comes back into the ordered list |
| `ForwardScheduling.AfterLoop` | opensand-core/src/dvb_rcs/dama/ForwardSchedulingS2.cpp:605-649 | after the packet loop the FIFO is unchanged, the budget of remaining, saved and spent symbols is kept, and a full carrier has 0 remaining and its capacity saved for superframe sf + 1 |
| `ForwardScheduling.LoopThenFinish` | opensand-core/src/dvb_rcs/dama/ForwardSchedulingS2.cpp:402-649 | both loops together keep the FIFO invariant, the frame lists' consistency and the symbol budget, and end for one of the three reasons with its own guarantee |
| `ForwardScheduling.ScheduleEncapPackets` | opensand-core/src/dvb_rcs/dama/ForwardSchedulingS2.cpp:355-654 | a pass keeps the FIFO and frame-list invariants, only appends complete frames, and never lets the carrier report more symbols than it had plus what was saved, minus what was spent; with nothing saved the account is exact |
| `ForwardScheduling.EmptyFifoOverbooks` | opensand-core/src/dvb_rcs/dama/ForwardSchedulingS2.cpp:383-393 | as written, on an empty FIFO a pending frame takes 120 of 150 symbols but the carrier still reports 100 remaining |
| `ForwardScheduling.EmptyFifoIntended` | opensand-core/src/dvb_rcs/dama/ForwardSchedulingS2.cpp:646 | with the remaining capacity written back, the same call leaves the carrier the 30 symbols the frame did not use |
| `ForwardScheduling.GroupTargets` | opensand-core/src/dvb_rcs/dama/ForwardSchedulingS2.cpp:250-290 | a group only yields carriers of its own; the VCM counter moves only in VCM groups for VCM FIFOs and then stops just past the FIFO's VCM id |
| `ForwardScheduling.TargetsFrom` | opensand-core/src/dvb_rcs/dama/ForwardSchedulingS2.cpp:241-306 | every carrier a FIFO is scheduled on exists in its group |
| `ForwardScheduling.GroupTargetsVcm` | opensand-core/src/dvb_rcs/dama/ForwardSchedulingS2.cpp:267-290 | in a VCM group a VCM FIFO is served on at most one carrier: the one whose position matches the FIFO's VCM id |
| `ForwardScheduling.GroupTargetsOther` | opensand-core/src/dvb_rcs/dama/ForwardSchedulingS2.cpp:255-277 | a non-VCM FIFO is served on a group exactly when it is ACM and the group has a single carrier |
| `ForwardScheduling.VcmPastIdEmpty` | opensand-core/src/dvb_rcs/dama/ForwardSchedulingS2.cpp:280-283 | once the VCM counter is past the FIFO's id no further carrier serves it |
| `ForwardScheduling.GroupTargetsNext` | opensand-core/src/dvb_rcs/dama/ForwardSchedulingS2.cpp:239-290 | the VCM counter after each group is the number of VCM carriers seen so far, capped just past the FIFO's id |
| `ForwardScheduling.TargetsFromVcmOne` | opensand-core/src/dvb_rcs/dama/ForwardSchedulingS2.cpp:241-306 | a VCM FIFO is scheduled on at most one carrier per superframe |
| `ForwardScheduling.TargetsFromVcm` | opensand-core/src/dvb_rcs/dama/ForwardSchedulingS2.cpp:241-306 | a VCM FIFO is scheduled exactly on the carrier whose index among all VCM carriers is the FIFO's VCM id |
| `ForwardScheduling.TargetsFromOther` | opensand-core/src/dvb_rcs/dama/ForwardSchedulingS2.cpp:241-306 | an ACM FIFO is scheduled on every single-carrier group and nowhere else; other FIFOs on nothing |
| `ForwardScheduling.TargetsSpec` | opensand-core/src/dvb_rcs/dama/ForwardSchedulingS2.cpp:235-307 | the carriers schedule serves a FIFO from, described without the loop: single-carrier groups for ACM, the one carrier matching the VCM id for VCM, none otherwise |
| `ForwardScheduling.InitCapacities` | opensand-core/src/dvb_rcs/dama/ForwardSchedulingS2.cpp:211-232 | each carrier's remaining capacity grows by its total capacity and nothing else changes |
| `ForwardScheduling.FinishCapacities` | opensand-core/src/dvb_rcs/dama/ForwardSchedulingS2.cpp:309-349 | the reported remaining allocation grows by all the carriers' remaining capacity, in 32 bits, and every carrier is reset to 0 |
| `ForwardScheduling.InitSums` | opensand-core/src/dvb_rcs/dama/ForwardSchedulingS2.cpp:211-232 | after initialisation the capacities available sum to the totals plus what was left over |
| `ForwardScheduling.IdleFrameReportsAll` | opensand-core/src/dvb_rcs/dama/ForwardSchedulingS2.cpp:211-349 | when nothing is sent, schedule reports as remaining exactly the capacity it made available |
| `BlockDvb.ReadUnsigned` | opensand-core/src/dvb_rcs/core/BlockDvb.h:374-381 | a word read into an `unsigned int` either fails or yields a 32-bit value |
| `BlockDvb.ReadDecimal` | opensand-core/src/dvb_rcs/core/BlockDvb.h:374-381 | the decimal writing of any 32-bit value reads back as that value |
| `BlockDvb.ReadNeedsDigit` | opensand-core/src/dvb_rcs/core/BlockDvb.h:374-380 | a word with no digit after the white space and sign fails to read and is skipped |
| `BlockDvb.ReadAll` | opensand-core/src/dvb_rcs/core/BlockDvb.h:372-382 | at most one value per word, each a 32-bit value |
| `BlockDvb.ReadAllAppend` | opensand-core/src/dvb_rcs/core/BlockDvb.h:372-382 | the words are read independently: reading two lists one after the other gives the two results concatenated |
| `BlockDvb.FlatTokenizeAppend` | opensand-core/src/dvb_rcs/core/BlockDvb.h:358-371 | splitting each word of two lists again gives the concatenation of the splits |
| `BlockDvb.TempSplit` | opensand-core/src/dvb_rcs/core/BlockDvb.h:350-386 | every value in the list read is a 32-bit value |
| `BlockDvb.RunLengthBeforeOuter` | opensand-core/src/common/OpenSandCore.h:136-144 | a word without outer separators ends at the same place whether or not the outer separators are also delimiters |
| `BlockDvb.TokenizeBeforeOuter` | opensand-core/src/common/OpenSandCore.h:129-147 | a prefix without outer separators, followed by an outer separator, tokenizes on its own |
| `BlockDvb.TokenizeNested` | opensand-core/src/dvb_rcs/core/BlockDvb.h:357-371 | splitting on one separator and each piece on another gives the words of one split on both |
| `BlockDvb.SplitDashesFlat` | opensand-core/src/dvb_rcs/core/BlockDvb.h:371-382 | the innermost loop reads the values of every '-'-separated word of every piece, in order |
| `BlockDvb.SplitCommasFlat` | opensand-core/src/dvb_rcs/core/BlockDvb.h:364-383 | the middle loop reads the values of every word of the ',' then '-' splits, in order |
| `BlockDvb.TempSplitFlat` | opensand-core/src/dvb_rcs/core/BlockDvb.h:350-386 | the three nested splits are one split on ';', ',' and '-' together, followed by reading each word |
| `BlockDvb.TempSplitKeepsReadable` | opensand-core/src/dvb_rcs/core/BlockDvb.h:374-381 | a leading word that reads as a number gives the first value of the list |
| `BlockDvb.TempSplitDropsUnreadable` | opensand-core/src/dvb_rcs/core/BlockDvb.h:377-380 | a leading word that does not read as a number is silently dropped |
| `BlockDvb.TempSplitLeading` | opensand-core/src/dvb_rcs/core/BlockDvb.h:357-372 | a leading word followed by any separator is read on its own, before the rest |
| `BlockDvb.DecimalsAreWords` | opensand-core/src/dvb_rcs/core/BlockDvb.h:357-371 | the decimal writing of a number never contains one of the three separators |
| `BlockDvb.ReadAllExact` | opensand-core/src/dvb_rcs/core/BlockDvb.h:372-382 | words that each read as a value yield exactly those values |
| `BlockDvb.TempSplitJoin` | opensand-core/src/dvb_rcs/core/BlockDvb.h:350-386 | round trip: 32-bit values written in decimal and joined by any one of ';', ',' or '-' are read back exactly |
| `BlockDvb.TempSplitNoRange` | opensand-core/src/dvb_rcs/core/BlockDvb.h:371 | "a-b" is read as the two values a and b, not as the range between them |
| `BlockDvb.LoadGroups` | opensand-core/src/dvb_rcs/core/BlockDvb.h:445-479 | the FMT group list only fails for an entry missing its id or FMT ids, and never changes a group already defined |
| `BlockDvb.LoadGroupsSpec` | opensand-core/src/dvb_rcs/core/BlockDvb.h:445-479 | the list is accepted exactly when every entry is complete, and then the groups are the earlier ones plus every id named |
| `BlockDvb.LoadGroupsFirstWins` | opensand-core/src/dvb_rcs/core/BlockDvb.h:470-478 | the first entry naming a new group id defines that group; later duplicates are ignored |
| `BlockDvb.ReadEntry` | opensand-core/src/dvb_rcs/core/BlockDvb.h:507-574 | a distribution entry is accepted exactly when all its attributes are present, its ratio and FMT group lists have the same length, and a non-VCM entry has at most one; a length mismatch is reported as such |
| `BlockDvb.AddCarriers` | opensand-core/src/dvb_rcs/core/BlockDvb.h:582-619 | an entry succeeds exactly when each of its FMT groups exists and, for several groups, none holds more than one FMT; its category is created on first use and no other category changes |
| `BlockDvb.NewGroupsSpec` | opensand-core/src/dvb_rcs/core/BlockDvb.h:582-619 | one carriers group per FMT group id, in order, each with the entry's carrier id, its own ratio, the symbol rate and the access type |
| `BlockDvb.AddCarriersAppends` | opensand-core/src/dvb_rcs/core/BlockDvb.h:606-617 | the entry's category keeps its earlier carriers groups first, followed by the entry's new ones |
| `BlockDvb.AddEntries` | opensand-core/src/dvb_rcs/core/BlockDvb.h:491-621 | the distribution loop never loses a category |
| `BlockDvb.AddEntriesReads` | opensand-core/src/dvb_rcs/core/BlockDvb.h:494-619 | the loop succeeds only when every entry reads and names usable FMT groups |
| `BlockDvb.SomeEntryAdds` | opensand-core/src/dvb_rcs/core/BlockDvb.h:494-621 | some entry of a list adds to a category exactly when the first does or some later one does |
| `BlockDvb.AddEntriesKeys` | opensand-core/src/dvb_rcs/core/BlockDvb.h:606-612 | the loop creates exactly the categories some entry adds a carriers group to |
| `BlockDvb.AddEntriesExtends` | opensand-core/src/dvb_rcs/core/BlockDvb.h:606-617 | the carriers groups a category had before the loop stay first and in order |
| `BlockDvb.AddCarriersIds` | opensand-core/src/dvb_rcs/core/BlockDvb.h:613-620 | one entry adds carriers groups under its own carrier id only |
| `BlockDvb.AddEntriesCarrierIds` | opensand-core/src/dvb_rcs/core/BlockDvb.h:491-621 | the k-th entry's carriers groups get carrier id k, so the new carriers groups of a category have ids in range and in non-decreasing order |
| `BlockDvb.KeepServed` | opensand-core/src/dvb_rcs/core/BlockDvb.h:632-645 | exactly the categories with at least one carrier survive, unchanged |
| `BlockDvb.Affect` | opensand-core/src/dvb_rcs/core/BlockDvb.h:694-742 | the affectation list only fails for an entry missing its terminal id or category, and never forgets an earlier affectation |
| `BlockDvb.AffectSpec` | opensand-core/src/dvb_rcs/core/BlockDvb.h:694-742 | the list is accepted exactly when every entry is complete, and then the terminals affected are the earlier ones plus every terminal named |
| `BlockDvb.AffectTargets` | opensand-core/src/dvb_rcs/core/BlockDvb.h:719-741 | a terminal is affected to an existing category or to NULL, unless it kept an earlier affectation |
| `BlockDvb.AffectLastWins` | opensand-core/src/dvb_rcs/core/BlockDvb.h:719-741 | the last entry for a terminal decides: the named category when it exists, an explicit NULL otherwise |
| `BlockDvb.AffectKeeps` | opensand-core/src/dvb_rcs/core/BlockDvb.h:694-742 | a terminal no entry names keeps its affectation |
| `BlockDvb.InitBand` | opensand-core/src/dvb_rcs/core/BlockDvb.h:390-748 | on success earlier FMT groups are kept, every category left has carriers, the default category exists or was left as before, and every distribution entry was read and usable |
| `BlockDvb.InitBandRejectsMismatch` | opensand-core/src/dvb_rcs/core/BlockDvb.h:552-557 | an entry whose ratio and FMT group lists differ in length makes initBand fail |
| `BlockDvb.InitBandRejectsNonVcmList` | opensand-core/src/dvb_rcs/core/BlockDvb.h:568-574 | a non-VCM entry with several FMT groups makes initBand fail |
| `DamaCtrl.Logon` | opensand-core/src/dvb_rcs/dama/DamaCtrl.cpp:276-444 | a known terminal changes nothing and succeeds; logon fails exactly for a new terminal with no category (no affectation and no default); a category that no longer exists is accepted without registering; otherwise the terminal is registered, appended to its category, counted and added to the CRA and RBDC totals |
| `DamaCtrl.RemoveFirst` | opensand-core/src/dvb_rcs/dama/DamaCtrl.cpp:479 | removal from a category succeeds exactly when the terminal is listed, and then removes one occurrence and nothing else |
| `DamaCtrl.Logoff` | opensand-core/src/dvb_rcs/dama/DamaCtrl.cpp:446-491 | an unknown terminal fails and changes nothing; otherwise the terminal is erased and the count and totals lose exactly its share |
| `DamaCtrl.LogonConsistent` | opensand-core/src/dvb_rcs/dama/DamaCtrl.cpp:276-444 | a logon keeps the registry in agreement: one count per terminal, totals that are the sums of CRA and maximum RBDC, every terminal listed once in its own category |
| `DamaCtrl.LogonCounted` | opensand-core/src/dvb_rcs/dama/DamaCtrl.cpp:387-407 | a logon keeps the terminal count and the CRA and RBDC totals equal to what the registry holds |
| `DamaCtrl.LogonMembers` | opensand-core/src/dvb_rcs/dama/DamaCtrl.cpp:387-392 | after a logon every category still lists only its own terminals, each once |
| `DamaCtrl.LogoffConsistent` | opensand-core/src/dvb_rcs/dama/DamaCtrl.cpp:446-491 | a logoff of a registered terminal from an agreeing state succeeds and keeps the registry in agreement |
| `DamaCtrl.LogoffCounted` | opensand-core/src/dvb_rcs/dama/DamaCtrl.cpp:465-472 | a logoff keeps the count and the totals equal to what the registry holds |
| `DamaCtrl.LogoffMembers` | opensand-core/src/dvb_rcs/dama/DamaCtrl.cpp:472-483 | after a logoff every category still lists only its own terminals, each once |
| `DamaCtrl.LogoffKeepsOthers` | opensand-core/src/dvb_rcs/dama/DamaCtrl.cpp:472-483 | a logoff leaves every other terminal registered and listed in its category |
| `DamaCtrl.RemoveFirstUnique` | opensand-core/src/dvb_rcs/dama/DamaCtrl.cpp:479 | removing a terminal listed once leaves exactly the other terminals, each still once |
| `DamaCtrl.LogonThenLogoff` | opensand-core/src/dvb_rcs/dama/DamaCtrl.cpp:276-491 | a logon of a new terminal followed by its logoff succeeds and restores the registry, the categories, the count and the totals |
| `DamaCtrl.LogonThenLogoffUnlisted` | opensand-core/src/dvb_rcs/dama/DamaCtrl.cpp:276-491 | the same round trip needs only that the new terminal is not yet listed in its category |
| `DamaCtrl.RemoveAppended` | opensand-core/src/dvb_rcs/dama/DamaCtrl.cpp:391-479 | removing a terminal just appended to a category that did not list it gives back the old list |
| `DamaCtrl.RunDama` | opensand-core/src/dvb_rcs/dama/DamaCtrl.cpp:517-550 | the DAMA succeeds exactly when the reset, each enabled RBDC or VBDC pass and the FCA pass succeed; it always starts with the reset, runs only enabled passes, and on success runs them in order reset, RBDC, VBDC, FCA |
| `DamaCtrl.RunOnSuperFrameChange` | opensand-core/src/dvb_rcs/dama/DamaCtrl.cpp:493-514 | the superframe is recorded and every terminal, and only those, starts a new frame; the call returns false even on success |
| `DamaCtrlRcs.LastOfKind` | opensand-core/src/dvb_rcs/dama/DamaCtrlRcs.cpp:227-265 | there is a last request of a kind exactly when the CR holds some request of that kind, and its value is one of theirs |
| `DamaCtrlRcs.RbdcRequest` | opensand-core/src/dvb_rcs/dama/DamaCtrlRcs.cpp:252-260 | the RBDC request is the 16-bit packet rate of the requested kbit/s; when the CRA is deducted it is that rate less the CRA, and 0 when the CRA covers it |
| `DamaCtrlRcs.ApplyCr` | opensand-core/src/dvb_rcs/dama/DamaCtrlRcs.cpp:241-264 | one CR request changes only the terminal's required VBDC and RBDC and the enable flags: a VBDC request enables VBDC and sets the required VBDC to its value in 16 bits; an RBDC request enables RBDC and sets the required RBDC to the converted rate less the CRA when deducted; any other type changes nothing |
| `DamaCtrlRcs.ApplyCrs` | opensand-core/src/dvb_rcs/dama/DamaCtrlRcs.cpp:227-265 | taking a CR's requests into account only changes the terminal's required VBDC and RBDC |
| `DamaCtrlRcs.ApplyCrsLastVbdc` | opensand-core/src/dvb_rcs/dama/DamaCtrlRcs.cpp:244-249 | after a CR the required VBDC is the last VBDC request (16 bits), or unchanged without one, and VBDC is enabled exactly once a VBDC request has come |
| `DamaCtrlRcs.ApplyCrsLastRbdc` | opensand-core/src/dvb_rcs/dama/DamaCtrlRcs.cpp:251-263 | after a CR the required RBDC is the last RBDC request converted (less the CRA when deducted), or unchanged without one, and RBDC is enabled exactly once an RBDC request has come |
| `DamaCtrlRcs.HereIsCr` | opensand-core/src/dvb_rcs/dama/DamaCtrlRcs.cpp:208-271 | a CR from a terminal that is not logged on fails and changes nothing; otherwise it succeeds and only the sender's context and the enable flags change |
| `DamaCtrlRcs.HereIsCrLast` | opensand-core/src/dvb_rcs/dama/DamaCtrlRcs.cpp:208-271 | the sender ends with the values of its last VBDC and RBDC requests, and each kind is enabled once a request of it came |
| `DamaCtrlRcs.RequestsOf` | opensand-core/src/dvb_rcs/dama/DamaCtrlRcs.cpp:317-347 | the requests of one terminal are a sub-list of the SACT's |
| `DamaCtrlRcs.ApplySac` | opensand-core/src/dvb_rcs/dama/DamaCtrlRcs.cpp:332-344 | one SACT request changes only the required VBDC and RBDC: a VBDC request sets the required VBDC to its packets converted to kbits, an RBDC request sets the required RBDC as it is, any other type changes nothing |
| `DamaCtrlRcs.ApplySacs` | opensand-core/src/dvb_rcs/dama/DamaCtrlRcs.cpp:317-347 | the SACT loop registers no terminal and only changes the required VBDC and RBDC of the terminals it names |
| `DamaCtrlRcs.ApplySacsLast` | opensand-core/src/dvb_rcs/dama/DamaCtrlRcs.cpp:317-347 | after a SACT each logged-on terminal has its own last VBDC request (converted from packets) and last RBDC request; requests of unknown terminals are skipped |
| `DamaCtrlRcs.HereIsSact` | opensand-core/src/dvb_rcs/dama/DamaCtrlRcs.cpp:279-351 | a SACT of another type, a negative length or a buffer shorter than announced changes nothing; the call returns -1 in every case, success included |
| `DamaCtrlRcs.ApplyPepCommand` | opensand-core/src/dvb_rcs/dama/DamaCtrlRcs.cpp:397-459 | a request for a terminal that is not logged on fails and changes nothing; otherwise each non-zero field replaces the terminal's CRA, maximum RBDC or injected RBDC (with the configured timeout) and nothing else changes; as written the totals are left as they were |
| `DamaCtrlRcs.ApplyPep` | opensand-core/src/dvb_rcs/dama/DamaCtrlRcs.cpp:417-451 | each non-zero field of a PEP request replaces the terminal's CRA, maximum RBDC or required RBDC (converted to packets per frame); an injected RBDC leaves the timeout at the controller's value; no other field of the terminal changes |
| `DamaCtrlRcs.PepKeepsConsistent` | opensand-core/src/dvb_rcs/dama/DamaCtrlRcs.cpp:418-436 | the corrected command, which moves the totals by the change, keeps the registry in agreement |
| `DamaCtrlRcs.PepKeepsCounted` | opensand-core/src/dvb_rcs/dama/DamaCtrlRcs.cpp:418-436 | the corrected command keeps the CRA and RBDC totals equal to the sums over the terminals |
| `DamaCtrlRcs.PepLeavesTotalsBehind` | opensand-core/src/dvb_rcs/dama/DamaCtrlRcs.cpp:418-426 | as written, raising a logged-on terminal's CRA from 10 to 50 leaves a total of 10, and its logoff then brings the total to -40 |
| `DamaCtrlRcs.ScanFmt` | opensand-core/src/dvb_rcs/dama/DamaCtrlRcs.cpp:489-513 | the MODCOD chosen is the simulated one if some carrier group offers it, and otherwise the best MODCOD below it that a group offers, or none |
| `DamaCtrlRcs.ScanCarrierIntended` | opensand-core/src/dvb_rcs/dama/DamaCtrlRcs.cpp:506-512 | with the carrier updated only on improvement, the chosen carrier offers the chosen MODCOD |
| `DamaCtrlRcs.ScanCarrierAsWritten` | opensand-core/src/dvb_rcs/dama/DamaCtrlRcs.cpp:506-512 | as written, with simulated MODCOD 7 and groups offering 5 then 3, the terminal gets MODCOD 5 on the group that offers only 3 |
| `DamaCtrlRcs.UpdateFmt` | opensand-core/src/dvb_rcs/dama/DamaCtrlRcs.cpp:462-529 | each terminal of a known category gets the scan's MODCOD and, if chosen, its carrier; terminals of unknown categories and everything else stay as they are |
| `DamaCtrlRcs.UpdateTerminalFmt` | opensand-core/src/dvb_rcs/dama/DamaCtrlRcs.cpp:468-528 | a terminal of unknown category is left as it is; otherwise only its MODCOD and carrier change, the MODCOD is the simulated one whenever a group of its category offers it, and as intended a carrier that changes offers the MODCOD chosen |
| `DamaCtrlRcs.UpdateFmtIntended` | opensand-core/src/dvb_rcs/dama/DamaCtrlRcs.cpp:462-529 | after the corrected update a terminal whose MODCOD some group offers gets exactly it, and a changed carrier offers the terminal's MODCOD |
| `DamaCtrlRcs.PlanOf` | opensand-core/src/dvb_rcs/dama/DamaCtrlRcs.cpp:371-383 | a terminal's time plan names it, carries its MODCOD, and allots its volume plus rate allocation in a 16-bit packet count |
| `DamaCtrlRcs.CategoryPlans` | opensand-core/src/dvb_rcs/dama/DamaCtrlRcs.cpp:367-389 | a category yields a plan exactly for each of its logged-on terminals whose plan the TTP accepts; refused plans are skipped |
| `DamaCtrlRcs.BuildTtp` | opensand-core/src/dvb_rcs/dama/DamaCtrlRcs.cpp:353-393 | building the TTP always succeeds and every plan comes from some category |
| `DamaCtrlRcs.BuildTtpCovers` | opensand-core/src/dvb_rcs/dama/DamaCtrlRcs.cpp:353-393 | every logged-on terminal whose plan is accepted gets its plan in the TTP |
| `DamaCtrlRcs.BuildTtpHas` | opensand-core/src/dvb_rcs/dama/DamaCtrlRcs.cpp:356-390 | each accepted member of each listed category has its plan in the TTP |
| `DamaCtrlRcs.PlanTotal` | opensand-core/src/dvb_rcs/dama/DamaCtrlRcs.cpp:372-375 | a plan's total is the terminal's allocation modulo 2^16 |
| `DamaEsa.IndexOf` | platine-core/src/dvb_rcs/dama/lib_dama_ctrl_esa.cpp:494-538 | a terminal id has a position in the list exactly when it is logged on, and that position holds it |
| `DamaEsa.RoundRobin` | platine-core/src/dvb_rcs/dama/lib_dama_ctrl_esa.cpp:494-538 | the round robin yields no terminal, and offset -1, exactly when none is logged on; otherwise the new offset is the id of the terminal chosen; an offset of -1, or one naming no logged-on terminal, restarts at the first |
| `DamaEsa.RoundRobinNext` | platine-core/src/dvb_rcs/dama/lib_dama_ctrl_esa.cpp:494-538 | from a logged-on terminal the round robin moves to the least greater id, or wraps to the least id when it was the greatest |
| `DamaEsa.VbdcRequest` | platine-core/src/dvb_rcs/dama/lib_dama_ctrl_esa.cpp:360-372 | the first VBDC step serves a request only up to the VBDC minimum; the second step serves the whole remaining request and never a negative one |
| `DamaEsa.GrantVbdc` | platine-core/src/dvb_rcs/dama/lib_dama_ctrl_esa.cpp:384-393 | a VBDC grant moves the slots from the terminal's room and from its VBDC request into its VBDC allocation, leaving its RBDC request and FCA allocation alone |
| `DamaEsa.VisitVbdc` | platine-core/src/dvb_rcs/dama/lib_dama_ctrl_esa.cpp:378-403 | a non-positive request changes nothing; a request within the room is granted and leaves the capacity; a larger one is granted the room only and marks the terminal as the first partly served |
| `DamaEsa.VisitVbdcBounded` | platine-core/src/dvb_rcs/dama/lib_dama_ctrl_esa.cpp:378-403 | a visit grants no more than the request, the room, or (in the first step) the VBDC minimum; the grant is taken from both the request and the room, and nothing else in the context changes |
| `DamaEsa.VbdcRound` | platine-core/src/dvb_rcs/dama/lib_dama_ctrl_esa.cpp:355-409 | a VBDC step keeps the logged-on terminals, never raises the capacity, visits each terminal at most once, stops early only when the capacity is used up, and keeps an earlier partly served terminal |
| `DamaEsa.RunDamaVbdc` | platine-core/src/dvb_rcs/dama/lib_dama_ctrl_esa.cpp:305-423 | with no capacity or no terminal nothing changes; otherwise the capacity never grows, only the contexts and the VBDC start pointer change, and the pointer ends on a logged-on terminal |
| `DamaEsa.RoundRobinStart` | platine-core/src/dvb_rcs/dama/lib_dama_ctrl_esa.cpp:318-351 | a VBDC round starts at the terminal the start pointer names when it is logged on, and at the first terminal otherwise |
| `DamaEsa.VbdcRoundNonNegative` | platine-core/src/dvb_rcs/dama/lib_dama_ctrl_esa.cpp:355-409 | a VBDC step leaves no terminal with a negative request or room |
| `DamaEsa.VbdcRoundPartial` | platine-core/src/dvb_rcs/dama/lib_dama_ctrl_esa.cpp:378-403 | the first partly served terminal of a step ends it with no room left |
| `DamaEsa.VbdcRoundGrows` | platine-core/src/dvb_rcs/dama/lib_dama_ctrl_esa.cpp:378-403 | a VBDC step never takes back a grant, and a terminal with no room stays without |
| `DamaEsa.VbdcRoundSpends` | platine-core/src/dvb_rcs/dama/lib_dama_ctrl_esa.cpp:378-403 | what a VBDC step grants a terminal is exactly what its room lost |
| `DamaEsa.RunDamaVbdcKeepsBounds` | platine-core/src/dvb_rcs/dama/lib_dama_ctrl_esa.cpp:305-423 | the whole VBDC allocation keeps requests and rooms non-negative, never takes back a grant, and takes each grant out of the terminal's room |
| `DamaEsa.RunDamaVbdcPartial` | platine-core/src/dvb_rcs/dama/lib_dama_ctrl_esa.cpp:405-413 | when a terminal was served only in part, the next VBDC allocation starts with it, and it has no room left |
| `DamaEsa.FcaLoop` | platine-core/src/dvb_rcs/dama/lib_dama_ctrl_esa.cpp:451-478 | the FCA loop keeps the logged-on terminals, ends on one of them, and never raises the capacity when the FCA grant is positive |
| `DamaEsa.GrantFca` | platine-core/src/dvb_rcs/dama/lib_dama_ctrl_esa.cpp:467 | an FCA grant moves the slots from the terminal's room into its FCA allocation, leaving its requests and VBDC allocation alone |
| `DamaEsa.RunDamaFca` | platine-core/src/dvb_rcs/dama/lib_dama_ctrl_esa.cpp:430-487 | with no FCA grant or too little capacity nothing changes; with no terminal the start pointer is reset to -1; otherwise only the contexts and the FCA start pointer change, and the capacity never grows |
| `DamaEsa.Dist` | platine-core/src/dvb_rcs/dama/lib_dama_ctrl_esa.cpp:472-477 | the steps from one position of the round to another are fewer than the terminals, and none exactly when they coincide |
| `DamaEsa.FcaLoopEnds` | platine-core/src/dvb_rcs/dama/lib_dama_ctrl_esa.cpp:451-478 | with a positive FCA grant and a stop terminal on the round, the loop ends within a bound of one round per grant |
| `DamaEsa.RunDamaFcaEnds` | platine-core/src/dvb_rcs/dama/lib_dama_ctrl_esa.cpp:430-487 | stopping at the terminal before the first one visited, the FCA allocation always ends for a positive grant |
| `DamaEsa.FcaLoopsAsWritten` | platine-core/src/dvb_rcs/dama/lib_dama_ctrl_esa.cpp:470-477 | as written, one logged-on terminal with no room and a start pointer of -1 make the FCA loop run forever, while the intended stop ends it after one visit |
| `DamaEsa.FcaLoopSpins` | platine-core/src/dvb_rcs/dama/lib_dama_ctrl_esa.cpp:470-477 | the FCA loop over a single terminal with no room, stopping at -1, runs out of any fuel |
| `DamaEsa.RequestStats` | platine-core/src/dvb_rcs/dama/lib_dama_ctrl_esa.cpp:79-93 | the number of VBDC (RBDC) requests is at most the number of terminals, and is zero exactly when no terminal requests any |
| `DamaEsa.RunDama` | platine-core/src/dvb_rcs/dama/lib_dama_ctrl_esa.cpp:50-137 | a run reports 0; the capacity less the CRA goes to RBDC, what is left to VBDC, and what is left after that to FCA only when the FCA grant is positive, never more than VBDC left |
| `Routes.Lower` | opensand-daemon/opensand_daemon/routes.py:84 | the recorded host name has the length of the given one and each character lower-cased |
| `Routes.Prefix` | opensand-daemon/opensand_daemon/routes.py:148-157 | the stored prefix is the network address followed by "/" and the prefix length, so it is never empty |
| `Routes.HostId` | opensand-daemon/opensand_daemon/routes.py:234-237 | the host id is the whole run of digits that follows the whole non-digit head of the host name (possibly empty, never missing), and no other run of digits is captured |
| `Routes.GroupOf` | opensand-daemon/opensand_daemon/routes.py:238-242 | a terminal's gateway is its own entry of the topology, else the "*" entry; the lookup fails exactly when neither exists |
| `Routes.AddTals` | opensand-daemon/opensand_daemon/routes.py:445-450 | each terminal listed under a gateway maps to it, and no other key changes |
| `Routes.ApplyChild` | opensand-daemon/opensand_daemon/routes.py:437-450 | a gateway element maps the gateway and its terminals to it, and leaves every other key as it was |
| `Routes.GwByTal` | opensand-daemon/opensand_daemon/routes.py:412-456 | a topology without a gateway table gives no map; otherwise the map always has a "*" entry |
| `Routes.GwByTalMapsMentions` | opensand-daemon/opensand_daemon/routes.py:432-450 | a gateway or terminal maps to the gateway of its last mention in the table |
| `Routes.GwByTalUnmentioned` | opensand-daemon/opensand_daemon/routes.py:432-450 | a name the table never mentions is not in the map |
| `Routes.GwByTalDefault` | opensand-daemon/opensand_daemon/routes.py:433-455 | "*" maps to the text of the last default gateway element, or to the integer 0 when there is none |
| `Routes.ScanTableLastWins` | opensand-daemon/opensand_daemon/routes.py:432-450 | scanning the gateway table, the last mention of a name decides its gateway |
| `Routes.ScanTableDefault` | opensand-daemon/opensand_daemon/routes.py:433-436 | scanning the gateway table, the last default gateway element decides the default |
| `Routes.SnapshotOf` | opensand-daemon/opensand_daemon/routes.py:383-395 | the snapshot has one pair per host of either table, holding its IPv4 and IPv6 entries, `None` for a missing family |
| `Routes.Serialize` | opensand-daemon/opensand_daemon/routes.py:377-410 | nothing is written when unused, on a workstation, or with both tables empty; otherwise the file holds the snapshot, and nothing else changes |
| `Routes.Merge` | opensand-daemon/opensand_daemon/routes.py:114-124 | each host of a snapshot takes its recorded pair, the other hosts keep theirs, and the kernel routes do not change |
| `Routes.Load` | opensand-daemon/opensand_daemon/routes.py:81-131 | load first takes the route lock, so with the lock held it blocks and changes nothing; otherwise it records the lower-cased name and the settings, merges a readable snapshot, marks the manager started after a snapshot, stopped after an empty file and unchanged otherwise, always started on a workstation, and leaves it initialised, in use and unlocked |
| `Routes.SetUnused` | opensand-daemon/opensand_daemon/routes.py:133-137 | a satellite's manager is initialised and unused, and nothing else changes |
| `Routes.SerializeLoadRoundTrip` | opensand-daemon/opensand_daemon/routes.py:81-131 | a serialised snapshot loaded into empty tables restores every host's entries in both families and marks the manager started |
| `Routes.ReloadCreatesNoneEntry` | opensand-daemon/opensand_daemon/routes.py:114-124 | after a reload a host known only in IPv6 gets a `None` IPv4 entry rather than none |
| `Routes.AddFamily` | opensand-daemon/opensand_daemon/routes.py:326-347 | one family's install counts "exists" as installed; any other error deletes that family's entry and raises, or raises `KeyError` when it has none; an empty prefix installs nothing |
| `Routes.AddRoute` | opensand-daemon/opensand_daemon/routes.py:317-347 | adding routes never blocks or raises `TypeError`, only adds kernel routes of the two entries, touches no other host, and never adds a table entry |
| `Routes.AddRouteSelf` | opensand-daemon/opensand_daemon/routes.py:321-325 | for the local host both entries are deleted and nothing is installed, succeeding exactly when both were present |
| `Routes.AddRouteOther` | opensand-daemon/opensand_daemon/routes.py:326-347 | for another host success means each install succeeded or already existed; an IPv4 error deletes only the IPv4 entry before IPv6 is tried, an IPv6 error only the IPv6 one |
| `Routes.RemoveFamily` | opensand-daemon/opensand_daemon/routes.py:355-364 | one family's delete counts "missing" as removed and reports any other error, without touching the tables |
| `Routes.RemoveRoute` | opensand-daemon/opensand_daemon/routes.py:349-375 | removing routes never edits the tables, only removes the two routes, tries IPv6 even when it is the only one, and succeeds exactly when each delete succeeded or found nothing |
| `Routes.HostEntry` | opensand-daemon/opensand_daemon/routes.py:181-190 | reading a host's entry fails, with `TypeError`, exactly when as written the table holds `None` for it |
| `Routes.AddDistantHost` | opensand-daemon/opensand_daemon/routes.py:143-168 | an unused manager changes nothing, a held lock blocks, and otherwise the lock is free again afterwards and only an install error is raised |
| `Routes.WithHost` | opensand-daemon/opensand_daemon/routes.py:148-157 | the host's entries in both tables are the two given ones |
| `Routes.AddDistantHostStopped` | opensand-daemon/opensand_daemon/routes.py:148-159 | a stopped manager records the host's two prefixes and installs nothing |
| `Routes.AddDistantHostStarted` | opensand-daemon/opensand_daemon/routes.py:160-168 | a started manager installs the host's routes and saves the tables; an install error leaves the file as it was |
| `Routes.AddDistantHostSelf` | opensand-daemon/opensand_daemon/routes.py:321-325 | adding the local host purges it from both tables |
| `Routes.AddRouteKnownHost` | opensand-daemon/opensand_daemon/routes.py:326-347 | for a host present in both tables adding routes never raises `KeyError` |
| `Routes.RemoveDistantHost` | opensand-daemon/opensand_daemon/routes.py:170-207 | unused changes nothing and a held lock blocks; a stopped manager forgets the host; a started one removes its routes, deletes only the entries that named one, saves the tables and frees the lock; as intended it never raises |
| `Routes.SetupLoop` | opensand-daemon/opensand_daemon/routes.py:231-263 | the apply loop of setup_routes never blocks, only adds kernel routes and only deletes table entries, never adds one |
| `Routes.SetupLoopFrame` | opensand-daemon/opensand_daemon/routes.py:231-263 | applying routes leaves a host of another gateway group, or not in the list, with its entries |
| `Routes.SetupLoopInstalls` | opensand-daemon/opensand_daemon/routes.py:231-263 | applying routes only adds kernel routes, and when it completes every host of the group has its routes installed |
| `Routes.SetupLoopNoTypeError` | opensand-daemon/opensand_daemon/routes.py:246-258 | reading a `None` entry as absent, applying routes never raises `TypeError` nor blocks |
| `Routes.SetupRoutes` | opensand-daemon/opensand_daemon/routes.py:209-264 | unused changes nothing; a missing topology raises before anything changes and a held lock blocks; otherwise the manager is started, the snapshot of the tables before the loop is saved, the kernel only gains routes and hosts outside the group keep their entries; on success every truthy entry of the group's other hosts is installed and the lock is free |
| `Routes.RemoveLoop` | opensand-daemon/opensand_daemon/routes.py:281-311 | the removal loop of remove_routes never blocks, never edits the tables and only takes routes from the kernel |
| `Routes.RemoveLoopSpec` | opensand-daemon/opensand_daemon/routes.py:279-311 | removing the group's routes never edits the tables and only removes kernel routes; when it completes no group host's route is left |
| `Routes.RemoveRoutes` | opensand-daemon/opensand_daemon/routes.py:266-315 | removing routes never edits the tables and only takes routes from the kernel; without a gateway table it raises TypeError and with the lock held it blocks, changing nothing either way; once the lock is taken it clears `started`; on success the group's routes are gone from the kernel, the snapshot file is deleted and the lock is free, and on an exception the lock stays held and the file stays |
| `Routes.UnusedChangesNothing` | opensand-daemon/opensand_daemon/routes.py:143-146 | every public operation of an unused manager returns at once and changes nothing |
| `Routes.ReloadedDaemon` | opensand-daemon/opensand_daemon/routes.py:114-124 | a snapshot recording only an IPv6 route for a host reloads as a `None` IPv4 entry for it |
| `Routes.SetupLoopRaisesOnNoneHead` | opensand-daemon/opensand_daemon/routes.py:248-253 | as written, applying routes raises `TypeError` when its first host of the group has a `None` IPv4 entry |
| `Routes.SetupRoutesRaisesOnNoneEntry` | opensand-daemon/opensand_daemon/routes.py:246-264 | as written, a manager whose only host has a `None` IPv4 entry raises in set-up and keeps the lock, so the next add blocks |
| `Routes.GroupOfSt2` | opensand-daemon/opensand_daemon/routes.py:234-242 | host "st2" has id "2", which a wildcard-only topology puts in gateway group 0 |
| `Routes.SetupRoutesAfterLoop` | opensand-daemon/opensand_daemon/routes.py:219-264 | set-up ends as the apply loop ends, and keeps the lock on any exception other than an install error |
| `Routes.SetupRoutesRaisesOnReloadedHost` | opensand-daemon/opensand_daemon/routes.py:81-264 | as written, a daemon reloaded from a snapshot with only an IPv6 route raises `TypeError` in set-up with the route lock held, after which every locked operation blocks |
| `Routes.SetupRoutesIntendedNoTypeError` | opensand-daemon/opensand_daemon/routes.py:246-258 | with a `None` entry read as absent, set-up on a topology with a gateway table never raises `TypeError` |
| `CommandHandler.ErrorLine` | opensand-daemon/opensand_daemon/command_handler.py:84 | a failure is reported as "ERROR " followed by its text |
| `CommandHandler.CommandOf` | opensand-daemon/opensand_daemon/command_handler.py:104-117 | DEPLOY and CONFIGURE are data requests, START, STOP and TEST their own commands, each recognised exactly by its word, anything else unknown |
| `CommandHandler.UnitsBefore` | opensand-daemon/opensand_daemon/command_handler.py:127-136 | the units acknowledged are exactly those before the first step that ends the stream |
| `CommandHandler.StreamReplyShape` | opensand-daemon/opensand_daemon/command_handler.py:123-145 | a data request's stream reply acknowledges every unit up to the one that ends it, acknowledges a last unit, and reports an error line exactly when the stream ends in an error |
| `CommandHandler.SplitOnce` | opensand-daemon/opensand_daemon/command_handler.py:196-202 | splitting at the first space fails exactly when there is none; otherwise the first part has no space and the parts rejoin to the line |
| `CommandHandler.SplitOnceJoin` | opensand-daemon/opensand_daemon/command_handler.py:196-202 | splitting an instruction without space and its command gives back both |
| `CommandHandler.IntText` | opensand-daemon/opensand_daemon/command_handler.py:240 | an exit code is written as non-empty text starting with "-" exactly when it is negative |
| `CommandHandler.TestReply` | opensand-daemon/opensand_daemon/command_handler.py:191-240 | TEST is answered by "OK" and at most one more line |
| `CommandHandler.TestReplyCases` | opensand-daemon/opensand_daemon/command_handler.py:196-240 | an instruction other than COMMAND is rejected by name; a COMMAND line reports the exit code of the run exactly when it ran and the daemon is not stopping, and writes nothing more otherwise |
| `CommandHandler.StartErrorLine` | opensand-daemon/opensand_daemon/command_handler.py:152-166 | each exception the START handler catches becomes one error line, an instruction error carrying its own message; any other escapes |
| `CommandHandler.StartBinaries` | opensand-daemon/opensand_daemon/command_handler.py:172-181 | starting refuses when the processes already run, and otherwise starts them or reports the start's exception |
| `CommandHandler.AfterRoutes` | opensand-daemon/opensand_daemon/command_handler.py:147-170 | once the routes are set, START writes at most one line, "OK" exactly when the processes were started by this call; a route failure writes nothing |
| `CommandHandler.HandleStart` | opensand-daemon/opensand_daemon/command_handler.py:147-170 | as written START answers nothing and changes nothing; as intended it writes at most one line, "OK" exactly when the routes were set up and the processes started from a stopped list, after which they run and the route manager is started |
| `CommandHandler.UnknownReply` | opensand-daemon/opensand_daemon/command_handler.py:116-117 | as written an unknown line gets no reply, since the write raises; intended, one error line naming it |
| `CommandHandler.Handle` | opensand-daemon/opensand_daemon/command_handler.py:76-121 | requests other than START and STOP leave the routes and the processes as they were; a process list not initialised gets one error line, a failed read no reply, and every recognised request other than a data request at most one line, two for TEST |
| `CommandHandler.HandleStop` | opensand-daemon/opensand_daemon/command_handler.py:183-189 | STOP always stops the processes, leaves the route manager as removing the routes left it, and answers "OK" exactly when the routes were removed, nothing otherwise |
| `CommandHandler.HandleStartAsWrittenSilent` | opensand-daemon/opensand_daemon/command_handler.py:147-151 | as written START is answered by silence and changes nothing, because the route set-up is called without its interface |
| `CommandHandler.HandleStartIntended` | opensand-daemon/opensand_daemon/command_handler.py:147-170 | intended, START answers "OK" exactly when the routes were set up and the processes started, leaving them running and the routes started |
| `CommandHandler.UnknownCommandReply` | opensand-daemon/opensand_daemon/command_handler.py:116-117 | an unknown request gets no reply as written, and one error line naming it as intended |
| `CommandHandler.DataRequestReply` | opensand-daemon/opensand_daemon/command_handler.py:123-145 | a data request is acknowledged once up front and once per unit, and an error ending the stream adds exactly one error line |
| `StackPlugin.AvailableUpperProto` | opensand-core/src/common/StackPlugin.h:256-259 | the protocols a context can carry are the plugin's list for the payload type, empty when it has none |
| `StackPlugin.SetUpperPacketHandler` | opensand-core/src/common/StackPlugin.h:275-294 | an upper handler is accepted exactly when its protocol is listed for the payload type; no handler clears the current one; a refused one leaves the context as it was |
| `StackPlugin.SetUpperKeepsAllowed` | opensand-core/src/common/StackPlugin.h:275-294 | a context whose current upper handler is an accepted protocol keeps one after any handler change |
| `StackPlugin.Create` | opensand-core/src/common/StackPlugin.h:414-435 | a plugin is returned exactly when the plugin, its context and its handler all initialise, with the given name and configuration path; the inits run in that order and stop at the first failure |
| `StackPlugin.CreateStopsAtFirstFailure` | opensand-core/src/common/StackPlugin.h:414-435 | each init runs only after every earlier one succeeded, and when nothing is returned the last one run failed |
| `AtmPlugin.AtmStack` | opensand-core/src/mandatory_plugins/aal5_atm/Atm.cpp:42-53 | for both payload types ATM carries ROHC, PHS, IP and Ethernet |
| `AtmPlugin.AtmAcceptsIp` | opensand-core/src/mandatory_plugins/aal5_atm/Atm.cpp:42-53 | an ATM context accepts IP above it on either payload and refuses GSE |
| `AtmPlugin.GetChunk` | opensand-core/src/mandatory_plugins/aal5_atm/Atm.cpp:589-604 | a cell is never split: the whole packet is sent when the room holds a cell and kept back for later otherwise |
| `AtmPlugin.Build` | opensand-core/src/mandatory_plugins/aal5_atm/Atm.cpp:562-587 | only data of the cell length makes a packet, holding that data with the QoS and terminals the cell header encodes |
| `AtmPlugin.BuildIgnoresArguments` | opensand-core/src/mandatory_plugins/aal5_atm/Atm.cpp:562-587 | the QoS and terminals passed to build play no part in the packet built |
| `AtmPlugin.EncapAal5` | opensand-core/src/mandatory_plugins/aal5_atm/Atm.cpp:458-497 | a network packet becomes an AAL5 packet exactly when the wrapped data is valid, keeping its QoS and terminals; as written its destination spot is the fresh packet's, as intended the network packet's |
| `AtmPlugin.EncapAtm` | opensand-core/src/mandatory_plugins/aal5_atm/Atm.cpp:195-289 | only an AAL5 packet is cut into cells: at most one packet per payload of its cut, each an ATM cell carrying the AAL5 packet's spot and the QoS and terminals its own header decodes to |
| `AtmPlugin.CellPacket` | opensand-core/src/mandatory_plugins/aal5_atm/Atm.cpp:249-278 | a cell is kept exactly when its encoding has the cell length; the packet holds the encoded cell, is an ATM cell, carries the AAL5 packet's spot, and its QoS and terminals are those the cell header decodes to |
| `AtmPlugin.EncapAtmKeepsEveryCell` | opensand-core/src/mandatory_plugins/aal5_atm/Atm.cpp:224-281 | when every encoded cell has the cell length, no cell is dropped: the cells emitted are those tried, one per payload, in order |
| `AtmPlugin.CellCarriesConn` | opensand-core/src/mandatory_plugins/aal5_atm/Atm.cpp:226-278 | when the QoS is below 8 and both terminal ids below 0x20, the cell built carries exactly the AAL5 packet's QoS, terminals and spot |
| `AtmPlugin.Encapsulate` | opensand-core/src/mandatory_plugins/aal5_atm/Atm.cpp:81-118 | everything a burst's encapsulation emits is an ATM cell |
| `AtmPlugin.DeencapAtm` | opensand-core/src/mandatory_plugins/aal5_atm/Atm.cpp:292-456 | a cell's payload is appended to its connection's context, created on first use, and no other context changes; a last cell empties the context and completes the AAL5 packet exactly when the gathered data is valid, with the cell's QoS, terminals and spot |
| `AtmPlugin.DeencapAal5` | opensand-core/src/mandatory_plugins/aal5_atm/Atm.cpp:500-559 | an AAL5 packet gives at most one upper packet, exactly when its payload builds one, carrying the AAL5 packet's spot |
| `AtmPlugin.Receive` | opensand-core/src/mandatory_plugins/aal5_atm/Atm.cpp:139-188 | a missing packet, one of another protocol, or one for another terminal is skipped without trace; an accepted cell goes to reassembly, and at most one packet comes out |
| `AtmPlugin.Deencapsulate` | opensand-core/src/mandatory_plugins/aal5_atm/Atm.cpp:122-193 | a burst's deencapsulation gives no more packets than the burst has cells |
| `AtmPlugin.Filter` | opensand-core/src/mandatory_plugins/aal5_atm/Atm.cpp:139-171 | the filtered burst keeps only packets that are present, ATM cells, and for this terminal or broadcast |
| `AtmPlugin.DeencapsulateFiltered` | opensand-core/src/mandatory_plugins/aal5_atm/Atm.cpp:139-171 | dropped packets leave no trace: a burst is received exactly as its filtered burst |
| `AtmPlugin.DeencapsulateKeepsContexts` | opensand-core/src/mandatory_plugins/aal5_atm/Atm.cpp:330-370 | receiving never removes a reassembly context |
| `AtmPlugin.ReceiveCell` | opensand-core/src/mandatory_plugins/aal5_atm/Atm.cpp:292-456 | one cell of a connection whose ids fit the header extends that connection's context, or, if last, empties it and completes the AAL5 packet from the gathered payloads |
| `AtmPlugin.ReassembleFrom` | opensand-core/src/mandatory_plugins/aal5_atm/Atm.cpp:292-456 | the cells of an AAL5 packet from any point on, received on a context holding the earlier payloads, give the packet its payload builds |
| `AtmPlugin.ReassembleMiddle` | opensand-core/src/mandatory_plugins/aal5_atm/Atm.cpp:384-392 | a middle cell adds its payload to the context and emits nothing |
| `AtmPlugin.ReassembleLast` | opensand-core/src/mandatory_plugins/aal5_atm/Atm.cpp:393-440 | the last cell completes the AAL5 packet from the gathered payloads |
| `AtmPlugin.DeencapsulateCons` | opensand-core/src/mandatory_plugins/aal5_atm/Atm.cpp:139-188 | receiving a burst is receiving its first packet, then the rest from the contexts it left |
| `AtmPlugin.EncapDeencapRoundTrip` | opensand-core/src/mandatory_plugins/aal5_atm/Atm.cpp:81-559 | a network packet whose QoS is below 8 and terminal ids below 0x20, cut into cells and received on a fresh connection, comes back as the packet its payload builds, with the original spot as intended and the fresh packet's spot as written |
| `AtmPlugin.SpotLostAsWritten` | opensand-core/src/mandatory_plugins/aal5_atm/Atm.cpp:458-497 | as written a packet for spot 1 comes back for spot 0, while the intended encapsulation keeps spot 1 |
| `AtmPlugin.SampleFormatsCoherent` | opensand-core/src/mandatory_plugins/aal5_atm/Atm.cpp:194-283 | a format whose cells hold an 8-bit VPI, a 16-bit VCI and a 48-byte payload, and whose AAL5 wrap pads to whole cell payloads, meets every assumption of the round trip and unwraps what it wraps |
| `AtmPlugin.SpotLostExample` | opensand-core/src/mandatory_plugins/aal5_atm/Atm.cpp:458-497 | under that format, an empty IP packet from terminal 1 to terminal 2 for spot 1 is received by terminal 2 for spot 0 as written and for spot 1 as intended |
| `BlockEncap.BuildChain` | opensand-core/src/encap/BlockEncap.cpp:217-309 | a chain that builds has one context per configured name |
| `BlockEncap.UpperNameTail` | opensand-core/src/encap/BlockEncap.cpp:248-256 | the handler above a later position of a chain is the same whether the chain is read from its top or from the next position down |
| `BlockEncap.BuildChainOk` | opensand-core/src/encap/BlockEncap.cpp:217-309 | a chain builds exactly when every position names a loaded encapsulation plugin whose context accepts the handler of the layer above; a missing name, a missing plugin or a refused handler fails |
| `BlockEncap.BuildChainContexts` | opensand-core/src/encap/BlockEncap.cpp:217-309 | one chain's loop binds, in order, the contexts of the named plugins, each to the handler of the layer above (start-up then shares the contexts per plugin, see `BlockEncap.OnInit`) |
| `BlockEncap.NewBlock` | opensand-core/src/encap/BlockEncap.cpp:49-63 | a new block has the link down, no context and no timer |
| `BlockEncap.Reverse` | opensand-core/src/encap/BlockEncap.cpp:323 | the reception chain is read bottom up: the same contexts in the opposite order |
| `BlockEncap.ReverseReverse` | opensand-core/src/encap/BlockEncap.cpp:323 | reversing twice gives the chain back |
| `BlockEncap.LastOf` | opensand-core/src/common/StackPlugin.h:392 | a plugin has one context: after a run of bindings it is in the state the last binding of that plugin left, and untouched if the run never binds it |
| `BlockEncap.LastOfLater` | opensand-core/src/encap/BlockEncap.cpp:244-309 | a later run of bindings that binds the plugin again decides its context's state alone |
| `BlockEncap.ShareSettles` | opensand-core/src/encap/BlockEncap.cpp:244-309 | positions of chains whose plugins were all bound show their plugins' settled contexts |
| `BlockEncap.SettledShared` | opensand-core/src/encap/BlockEncap.cpp:244-309 | settled positions of one plugin show the same context |
| `BlockEncap.OnInit` | opensand-core/src/encap/BlockEncap.cpp:167-328 | start-up succeeds only when the payload type and both chain lists are configured, and then only the two chains change: a terminal, or any host of a regenerative system, emits on the up/return chain and receives on the down/forward one reversed, and other hosts the other way round; each position shows its plugin's one context as both loops leave it |
| `BlockEncap.OnInitSucceeds` | opensand-core/src/encap/BlockEncap.cpp:167-328 | start-up succeeds exactly when every setting is present, the last lan adaptation plugin is found and both chains build |
| `BlockEncap.OnInitShares` | opensand-core/src/encap/BlockEncap.cpp:244-309 | after start-up all positions of one plugin, in either chain, show the same context, and a plugin the down/forward chain binds keeps the handler that chain gave it |
| `BlockEncap.ShareDistinct` | opensand-core/src/encap/BlockEncap.cpp:244-309 | when no plugin is named twice across both chains, each chain keeps exactly the contexts its own loop bound |
| `BlockEncap.TransparentPeersMirror` | opensand-core/src/encap/BlockEncap.cpp:311-323 | in a transparent system configured alike, a gateway starts whenever a terminal does, and receives in the order the terminal emits and emits in the order it receives, reversed |
| `BlockEncap.SetFilters` | opensand-core/src/encap/BlockEncap.cpp:143-148 | every context of a receiving plugin filters on the terminal id, every other context is unchanged, and no context changes otherwise |
| `BlockEncap.OnLinkUp` | opensand-core/src/encap/BlockEncap.cpp:110-150 | a second link-up is refused and changes nothing; the first records the group and terminal ids and marks the link up; when the message was forwarded every reception context, and every emission position of a plugin that also receives, filters on the terminal id; otherwise no context changes |
| `BlockEncap.LinkUpKeepsShared` | opensand-core/src/encap/BlockEncap.cpp:143-148 | link-up keeps all positions of one plugin showing the same context |
| `BlockEncap.LinkUpOnce` | opensand-core/src/encap/BlockEncap.cpp:118-123 | only the first link-up counts: a later one returns false and keeps the ids and filters the first set |
| `BlockEncap.EncapChain` | opensand-core/src/encap/BlockEncap.cpp:411-421 | an empty chain passes the burst and the timer map through, and a chain of one context is that context's step |
| `BlockEncap.EncapChainAppend` | opensand-core/src/encap/BlockEncap.cpp:411-421 | running a chain is running its first part, then the rest on the burst and the delay-keyed timer map that part leaves |
| `BlockEncap.EncapChainFails` | opensand-core/src/encap/BlockEncap.cpp:411-421 | a chain fails exactly when some context refuses the burst the ones before it give |
| `BlockEncap.ArmTimers` | opensand-core/src/encap/BlockEncap.cpp:425-457 | arming walks the delay map, hands out at most one fresh timer id per entry, and never drops or changes an existing timer |
| `BlockEncap.ArmTimersArms` | opensand-core/src/encap/BlockEncap.cpp:425-457 | after arming a context has a timer exactly when it had one or the delay map holds it under a non-zero delay |
| `BlockEncap.ArmTimersOnePerContext` | opensand-core/src/encap/BlockEncap.cpp:431-437 | arming never gives a context a second timer |
| `BlockEncap.ArmTimersInOrder` | opensand-core/src/encap/BlockEncap.cpp:426-456 | timers are armed in ascending order of delay: with non-zero delays and fresh, distinct contexts, the entry of the k-th smallest delay gets the k-th new timer id |
| `BlockEncap.OnRcvBurstFromUp` | opensand-core/src/encap/BlockEncap.cpp:391-498 | only the timers change and existing ones stay; the block reports success exactly when the burst is there, the chain encapsulates it, and an empty result or a successful send follows; the burst sent is the chain's non-empty result; a context then has a timer exactly when it had one or the chain's delay map holds it under a non-zero delay; a missing or refused burst changes nothing |
| `BlockEncap.EmptyChainArmsNothing` | opensand-core/src/encap/BlockEncap.cpp:405-457 | with no emission context nothing is encapsulated and no timer is armed |
| `BlockEncap.OnRcvBurstFromUpKeepsTimers` | opensand-core/src/encap/BlockEncap.cpp:425-457 | encapsulating keeps at most one timer per context, and timers only where an emission chain exists |
| `BlockEncap.OnTimer` | opensand-core/src/encap/BlockEncap.cpp:330-389 | an unknown timer fails and changes nothing; a known one is removed, its context flushed through the last emission context, and the flush reported as success exactly when it worked and an empty result or a send followed |
| `BlockEncap.TimerFiresOnce` | opensand-core/src/encap/BlockEncap.cpp:342-356 | once its timer fires a context has no timer left |
| `BlockEncap.OnRcvBurstFromDown` | opensand-core/src/encap/BlockEncap.cpp:500-553 | a received burst succeeds exactly when it is there and every reception context decapsulates it; it is sent up exactly when that worked, the send succeeds and the result is not empty |
| `BlockEncap.DecapAsksNoTimers` | opensand-core/src/encap/BlockEncap.cpp:500-553 | de-encapsulation never touches the timer map |
| `BlockEncap.OnDownwardEvent` | opensand-core/src/encap/BlockEncap.cpp:70-99 | timers flush and messages are encapsulated; any other event fails with nothing changed; only the timers ever change, a timer event only removing them and a burst only adding them |
| `BlockEncap.OnUpwardEvent` | opensand-core/src/encap/BlockEncap.cpp:102-165 | link-up messages are handled once, bursts are de-encapsulated without changing the block, and any other event fails with nothing changed |
| `EncapSat.Downlink` | opensand-core/src/encap/bloc_encap_sat.cpp:186-226 | the downlink never has more schemes than the down/forward list |
| `EncapSat.DownlinkMembers` | opensand-core/src/encap/bloc_encap_sat.cpp:208-226 | a scheme stays on the downlink exactly when it is a down/forward scheme the uplink does not name |
| `EncapSat.AllNames` | opensand-core/src/encap/bloc_encap_sat.cpp:152-173 | a list reads completely exactly when every position has a name, giving the names in order |
| `EncapSat.DownLoop` | opensand-core/src/encap/bloc_encap_sat.cpp:186-247 | the down/forward loop pushes at most one context per position |
| `EncapSat.DownLoopKeeps` | opensand-core/src/encap/bloc_encap_sat.cpp:186-247 | when the loop completes every position had a name, and the contexts pushed are those of the downlink schemes, in order |
| `EncapSat.DownLoopFirstIp` | opensand-core/src/encap/bloc_encap_sat.cpp:228-234 | the first context pushed takes the IP handler above it |
| `EncapSat.SatInit` | opensand-core/src/encap/bloc_encap_sat.cpp:140-253 | start-up fails with nothing pushed when a list cannot be read; it succeeds only when both are read, and then holds exactly the contexts of the completed down/forward loop |
| `EncapSat.SetUpperLayer` | opensand-core/src/encap/bloc_encap_sat.cpp:131-138 | the block takes no upper layer and changes nothing |
| `EncapSat.SatTimer` | opensand-core/src/encap/bloc_encap_sat.cpp:256-321 | an unknown timer fails with nothing changed; a known one is removed and succeeds exactly when the flush of its context through the last downlink context gives a non-empty burst that is sent down |
| `EncapSat.EncapsulatePackets` | opensand-core/src/encap/bloc_encap_sat.cpp:391-478 | only the timers change and existing ones stay; a refused burst changes nothing; success means a non-empty result of the downlink chain was sent down; a context then has a timer exactly when it had one or the chain's delay map holds it under a non-zero delay |
| `EncapSat.SatRcvBurstFromDown` | opensand-core/src/encap/bloc_encap_sat.cpp:323-389 | a missing burst fails; with no downlink context the burst is sent down unchanged, succeeding exactly when the send does |
| `EncapSat.OnEvent` | opensand-core/src/encap/bloc_encap_sat.cpp:63-129 | a start-up after a successful one is ignored; a first start-up keeps the timers and the plugins of the positions already pushed; before a successful start-up every other event fails; only bursts from the lower block and timers are handled, anything else fails with nothing changed |
| `EncapSat.OnEventKeepsTimers` | opensand-core/src/encap/bloc_encap_sat.cpp:63-129 | whatever event comes, timers stay one per context and exist only once there is a downlink chain |
| `EncapSat.InitShares` | opensand-core/src/encap/bloc_encap_sat.cpp:186-247 | after a start-up all downlink positions of one plugin show the same context |
| `DvbTal.FifoOf` | opensand-core/src/dvb/core/BlockDvbTal.cpp:569-603 | a configured FIFO starts empty, under the entry's priority |
| `DvbTal.InitFifos` | opensand-core/src/dvb/core/BlockDvbTal.cpp:542-638 | the FIFO list is read exactly when every entry has all its attributes; one missing attribute fails start-up |
| `DvbTal.InitFifosKeys` | opensand-core/src/dvb/core/BlockDvbTal.cpp:560-622 | after the FIFO list is read the FIFOs are those configured before and one per configured priority, each under its own priority |
| `DvbTal.InitFifosDefault` | opensand-core/src/dvb/core/BlockDvbTal.cpp:614-618 | the default FIFO id is the largest configured priority, or the starting value when that is larger |
| `DvbTal.DefaultFifoExists` | opensand-core/src/dvb/core/BlockDvbTal.cpp:614-618 | from an empty start, a non-empty FIFO list makes the default FIFO one that exists |
| `DvbTal.FifoForLands` | opensand-core/src/dvb/core/BlockDvbTal.cpp:1462-1473 | a packet goes to the FIFO of its QoS when there is one, to the default FIFO otherwise, and so always to an existing FIFO |
| `DvbTal.StoreBurst` | opensand-core/src/dvb/core/BlockDvbTal.cpp:1460-1516 | storing a burst never adds or removes a FIFO, and a burst is stored whole only when every packet's FIFO exists |
| `DvbTal.StoreBurstRoutes` | opensand-core/src/dvb/core/BlockDvbTal.cpp:1460-1516 | when the whole burst is stored every FIFO has gained exactly the packets bound for it, in their order, and nothing else |
| `DvbTal.StoreBurstFailsOnFull` | opensand-core/src/dvb/core/BlockDvbTal.cpp:1500-1515 | a burst whose packets all have a FIFO is refused only at a full FIFO |
| `DvbTal.SyncPeriodFrame` | opensand-core/src/dvb/core/BlockDvbTal.cpp:805-814 | the synchronisation period in frames fits the 8-bit frame type |
| `DvbTal.SyncPeriodExact` | opensand-core/src/dvb/core/BlockDvbTal.cpp:805-814 | a period that is a whole number of frames below 256 gives that number |
| `DvbTal.InitSync` | opensand-core/src/dvb/core/BlockDvbTal.cpp:803-818 | start-up computes the synchronisation period in frames and the request slot exactly when that period is not 0; the slot is then below the period, and is the MAC id when that is smaller; a period of 0 is a division by zero as written and a refused start-up as intended |
| `DvbTal.ZeroSyncPeriodDividesByZero` | opensand-core/src/dvb/core/BlockDvbTal.cpp:811-818 | a 2 ms period on 10 ms frames and a 2560 ms one both make a period of 0 frames, which as written divides by zero and as intended is refused |
| `DvbTal.ObrSlot` | opensand-core/src/dvb/core/BlockDvbTal.cpp:818 | the frame in which capacity requests are sent lies within the period, and is the MAC id itself when that is smaller |
| `DvbTal.RbdcTimeout` | opensand-core/src/dvb/core/BlockDvbTal.cpp:824 | the RBDC timeout given to the DAMA agent outlasts the synchronisation period |
| `DvbTal.SacDuePeriodic` | opensand-core/src/dvb/core/BlockDvbTal.cpp:2128 | a SAC due in a superframe is due again one period later |
| `DvbTal.NextSac` | opensand-core/src/dvb/core/BlockDvbTal.cpp:2128 | from any superframe a SAC becomes due within one period |
| `DvbTal.SacDueOnce` | opensand-core/src/dvb/core/BlockDvbTal.cpp:2128 | exactly one SAC is due in any window of one period |
| `DvbTal.ProcessOnFrameTick` | opensand-core/src/dvb/core/BlockDvbTal.cpp:2082-2143 | a SAC is sent exactly when the DAMA steps and the bursts succeeded and the superframe is the terminal's request slot; the tick succeeds when those steps did and a due SAC was sent |
| `DvbTal.NccRebootedIff` | opensand-core/src/dvb/core/BlockDvbTal.cpp:2015-2016 | the NCC is taken as rebooted exactly when the frame number went backwards, other than the 16-bit wrap from 65535 to 0 |
| `DvbTal.FlushAll` | opensand-core/src/dvb/core/BlockDvbTal.cpp:2389-2396 | every FIFO is emptied and keeps its size and priority; as written its current counters survive the flush, as intended they are zeroed |
| `DvbTal.SendLogonReq` | opensand-core/src/dvb/core/BlockDvbTal.cpp:1833-1867 | a logon request that succeeds has been sent |
| `DvbTal.HandleStartOfFrame` | opensand-core/src/dvb/core/BlockDvbTal.cpp:2000-2080 | a rebooted NCC flushes every FIFO (with the FIFO flush as written or as intended), resends the logon and fails the frame; otherwise the counter takes the frame number; success requires the start of frame and Slotted Aloha to succeed, and as intended the frame tick too |
| `DvbTal.RebootFlushValid` | opensand-core/src/dvb/core/BlockDvbTal.cpp:2015-2023 | as intended, FIFOs that kept their counters in agreement still do after a rebooted NCC flushes them |
| `DvbTal.FrameTickFailureIgnored` | opensand-core/src/dvb/core/BlockDvbTal.cpp:2053 | as written a failed frame tick still reports the start of frame handled, while as intended it fails it |
| `DvbTal.StartOfFrameCounter` | opensand-core/src/dvb/core/BlockDvbTal.cpp:2015-2035 | after a start of frame the counter is the frame number, unless a rebooted NCC's logon could not be resent |
| `DvbTal.OnTimer` | opensand-core/src/dvb/core/BlockDvbTal.cpp:1566-1600 | the logon timer resends the logon exactly while waiting for a response; other timers do nothing before the terminal runs; an unknown timer fails while running |
| `DvbTal.HandleLogonResp` | opensand-core/src/dvb/core/BlockDvbTal.cpp:2145-2168 | a logon response records the group and logon ids and, unless the DAMA agent refuses it, sets the terminal running |
| `DvbTal.StartLogon` | opensand-core/src/dvb/core/BlockDvbTal.cpp:380-391 | start-up ends waiting for a logon response, reporting whether the first request went out |
| `DvbTal.RebootThenLogon` | opensand-core/src/dvb/core/BlockDvbTal.cpp:2015-2030 | after an NCC reboot the terminal waits for a logon response, its timer resends the logon, and the response has it running again |
| `DvbTal.QosServerPort` | opensand-core/src/dvb/core/BlockDvbTal.cpp:1326-1343 | the QoS server port is accepted exactly when it is present and between 1025 and 65535 |
| `DvbTal.OfSpot` | opensand-core/src/dvb/core/BlockDvbTal.cpp:1694-1708 | the requests kept are those of the terminal's spot |
| `DvbTal.ApplyRequests` | opensand-core/src/dvb/core/BlockDvbTal.cpp:1689-1714 | the update loop succeeds exactly when every request of the terminal's spot applies; only those are applied, all of them on success, and the last one applied failed otherwise |
| `DvbTal.ApplyRequestsPrefix` | opensand-core/src/dvb/core/BlockDvbTal.cpp:1689-1714 | the requests applied are a prefix of the terminal's own, those of other spots being dropped |
| `ConfUpdateRequest.TypeCode` | opensand-core/src/dvb/ncc_interface/ConfUpdateRequest.h:15-20 | the two bandwidth requests have the codes below 2, the unknown type another |
| `ConfUpdateRequest.TypeOfCode` | opensand-core/src/dvb/ncc_interface/InSimulationConfUpdateInterface.cpp:299-305 | a received code names a request type exactly when it is 0 or 1, and then the type with that code |
| `ConfUpdateRequest.TypeCodeRoundTrip` | opensand-core/src/dvb/ncc_interface/InSimulationConfUpdateInterface.cpp:299-315 | every type that can be received is read back from its own code |
| `ConfUpdateRequest.NewRequest` | opensand-core/src/dvb/ncc_interface/ConfUpdateRequest.cpp:13-25 | a request holds the spot, gateway, type and bandwidth it was built with |
| `InSimulationConfUpdate.LineEnd` | opensand-core/src/dvb/ncc_interface/InSimulationConfUpdateInterface.cpp:222 | the first line of a message ends at its first newline, or at the end |
| `InSimulationConfUpdate.Lines` | opensand-core/src/dvb/ncc_interface/InSimulationConfUpdateInterface.cpp:222 | every line read fits the 64-character buffer with its terminator |
| `InSimulationConfUpdate.LinesOfLine` | opensand-core/src/dvb/ncc_interface/InSimulationConfUpdateInterface.cpp:222 | a line that fits the buffer, with its newline, is read as that line, then the rest |
| `InSimulationConfUpdate.LinesOfText` | opensand-core/src/dvb/ncc_interface/InSimulationConfUpdateInterface.cpp:222 | lines sent one after the other are read back one by one, then what follows them |
| `InSimulationConfUpdate.LongLineStops` | opensand-core/src/dvb/ncc_interface/InSimulationConfUpdateInterface.cpp:222 | a line too long for the buffer ends the message: nothing from it on is read |
| `InSimulationConfUpdate.ScanUnsigned` | opensand-core/src/dvb/ncc_interface/InSimulationConfUpdateInterface.cpp:285 | a %u conversion yields a 32-bit value and consumes text |
| `InSimulationConfUpdate.StoreUnsigned` | opensand-core/src/dvb/ncc_interface/InSimulationConfUpdateInterface.cpp:285 | a %u conversion stores a 32-bit value: the digits' own value when it fits and no sign was given, the 32-bit negation of the value when a minus sign was given, and 0xFFFFFFFF when the value overflows 64 bits, whatever the sign |
| `InSimulationConfUpdate.ScanFields` | opensand-core/src/dvb/ncc_interface/InSimulationConfUpdateInterface.cpp:285 | at most the requested number of conversions succeed, each a 32-bit value |
| `InSimulationConfUpdate.ParseCommand` | opensand-core/src/dvb/ncc_interface/InSimulationConfUpdateInterface.cpp:276-316 | a command becomes a request exactly when all four fields convert and the type is 0 or 1; the spot and bandwidth keep their low 8 bits and the gateway its low 16 bits |
| `InSimulationConfUpdate.ScanNumber` | opensand-core/src/dvb/ncc_interface/InSimulationConfUpdateInterface.cpp:285 | a number written in decimal scans back as its value, leaving the text after it |
| `InSimulationConfUpdate.ScanCommand` | opensand-core/src/dvb/ncc_interface/InSimulationConfUpdateInterface.cpp:285 | four 32-bit numbers written separated by ':' scan back as those four values |
| `InSimulationConfUpdate.ScanOverflowing` | opensand-core/src/dvb/ncc_interface/InSimulationConfUpdateInterface.cpp:285 | a minus sign followed by digits worth 2^64 or more converts to 0xFFFFFFFF |
| `InSimulationConfUpdate.NegativeOverflowRefused` | opensand-core/src/dvb/ncc_interface/InSimulationConfUpdateInterface.cpp:285-305 | a command whose type field is a minus sign followed by an overflowing number is refused, as its type reads 0xFFFFFFFF |
| `InSimulationConfUpdate.ParseCommandOfWritten` | opensand-core/src/dvb/ncc_interface/InSimulationConfUpdateInterface.cpp:276-316 | a command written from four 32-bit numbers with a valid type parses into the request with those values, narrowed |
| `InSimulationConfUpdate.ParseCommandRejectsType` | opensand-core/src/dvb/ncc_interface/InSimulationConfUpdateInterface.cpp:299-305 | a command whose type is neither 0 nor 1 is refused |
| `InSimulationConfUpdate.BandwidthNarrowed` | opensand-core/src/dvb/ncc_interface/InSimulationConfUpdateInterface.cpp:315 | a requested bandwidth of 256 MHz is received as 0 |
| `InSimulationConfUpdate.OfType` | opensand-core/src/dvb/ncc_interface/InSimulationConfUpdateInterface.cpp:238-252 | the requests kept are those of the given type |
| `InSimulationConfUpdate.AcceptLines` | opensand-core/src/dvb/ncc_interface/InSimulationConfUpdateInterface.cpp:222-257 | the message loop accepts at most one command per line, all of one type: the type already set, or else the type of the first command accepted |
| `InSimulationConfUpdate.AcceptLinesOfType` | opensand-core/src/dvb/ncc_interface/InSimulationConfUpdateInterface.cpp:238-252 | once the type is set, the commands accepted are the parsed commands of that type, in order |
| `InSimulationConfUpdate.AcceptLinesSpec` | opensand-core/src/dvb/ncc_interface/InSimulationConfUpdateInterface.cpp:222-257 | the commands a message has accepted are its parsed commands of the type of the first one, in order |
| `InSimulationConfUpdate.ParseMessage` | opensand-core/src/dvb/ncc_interface/InSimulationConfUpdateInterface.cpp:210-266 | the accepted commands go to the end of the queue, the queue before them unchanged; the message is refused, changing nothing, exactly when no line parses |
| `InSimulationConfUpdate.AcceptsSome` | opensand-core/src/dvb/ncc_interface/InSimulationConfUpdateInterface.cpp:238-266 | some command is accepted exactly when some line parses, the first one that does always being accepted |
| `InSimulationConfUpdate.ReadMessage` | opensand-core/src/dvb/ncc_interface/InSimulationConfUpdateInterface.cpp:164-197 | without a client nothing is read; a message succeeds exactly when some line parses, and the client stays connected exactly then |
| `InSimulationConfUpdate.NextRequest` | opensand-core/src/dvb/ncc_interface/InSimulationConfUpdateInterface.cpp:103-126 | the next request is the oldest, taken off the queue; there is none exactly when the queue is empty |
| `InSimulationConfUpdate.CurrentType` | opensand-core/src/dvb/ncc_interface/InSimulationConfUpdateInterface.cpp:80-94 | the current type is unknown exactly when the queue is empty or its oldest request is of unknown type |
| `InSimulationConfUpdate.CurrentTypeIsNext` | opensand-core/src/dvb/ncc_interface/InSimulationConfUpdateInterface.cpp:80-126 | the current type is the type of the request taken next |
| `InSimulationConfUpdate.DrainInOrder` | opensand-core/src/dvb/ncc_interface/InSimulationConfUpdateInterface.cpp:103-126 | requests come off the queue in the order they were queued, and the rest stays |
| `InSimulationConfUpdate.ReadThenDrain` | opensand-core/src/dvb/ncc_interface/InSimulationConfUpdateInterface.cpp:164-266 | a message read on an empty queue gives back, in order, exactly its accepted commands, after which the queue is empty |
| `InSimulationConfUpdate.ListenPort` | opensand-core/src/dvb/ncc_interface/InSimulationConfUpdateInterface.cpp:134-161 | a missing port fails; an accepted port is the configured one; as intended the port is accepted exactly when it lies strictly between 0 and 0xffff |
| `InSimulationConfUpdate.ListenPortAcceptsAnything` | opensand-core/src/dvb/ncc_interface/InSimulationConfUpdateInterface.cpp:149 | as written the port guard joins its two tests with a conjunction and lets every value through |
| `InSimulationConfUpdate.ListenPortNegative` | opensand-core/src/dvb/ncc_interface/InSimulationConfUpdateInterface.cpp:149 | as written port -1 is accepted, as intended it is refused |
| `SlottedAloha.SameSourceOrder` | opensand-core/src/dvb_rcs/saloha/SlottedAlohaNcc.h:187-205 | packets of one real terminal are ordered by the slot of their first replica |
| `SlottedAloha.AsWrittenUnordered` | opensand-core/src/dvb_rcs/saloha/SlottedAlohaNcc.h:201-204 | as written packets of different sources, or of simulated traffic, never compare in either direction |
| `SlottedAloha.StrictPartialOrder` | opensand-core/src/dvb_rcs/saloha/SlottedAlohaNcc.h:187-205 | the comparator is irreflexive and transitive |
| `SlottedAloha.AsWrittenNotStrictWeak` | opensand-core/src/dvb_rcs/saloha/SlottedAlohaNcc.h:201-204 | as written incomparability is not transitive, which sorting requires: two packets of terminal 1 each incomparable to one of terminal 2 are still ordered |
| `SlottedAloha.IntendedStrictWeak` | opensand-core/src/dvb_rcs/saloha/SlottedAlohaNcc.h:187-205 | ordering by source first makes incomparability transitive, and keeps every pair the written comparator orders |
| `SlottedAlohaCrdsa.Suppress` | opensand-core/src/dvb/saloha/SlottedAlohaAlgoCrdsa.cpp:80-109 | signal suppression removes exactly the replicas of decoded packets from a slot, never adding one |
| `SlottedAlohaCrdsa.Visit` | opensand-core/src/dvb/saloha/SlottedAlohaAlgoCrdsa.cpp:64-137 | visiting a slot suppresses its decoded replicas and changes no other slot; a slot left with one packet has it decoded, appended to the accepted list, and the pass goes on; otherwise nothing else changes |
| `SlottedAlohaCrdsa.PassFrom` | opensand-core/src/dvb/saloha/SlottedAlohaAlgoCrdsa.cpp:64-137 | a pass keeps the number of slots |
| `SlottedAlohaCrdsa.OnePass` | opensand-core/src/dvb/saloha/SlottedAlohaAlgoCrdsa.cpp:64-137 | a pass keeps the number of slots |
| `SlottedAlohaCrdsa.PassFromShrinks` | opensand-core/src/dvb/saloha/SlottedAlohaAlgoCrdsa.cpp:64-137 | a pass only removes packets from slots |
| `SlottedAlohaCrdsa.PassFromDecodesPresent` | opensand-core/src/dvb/saloha/SlottedAlohaAlgoCrdsa.cpp:111-126 | a pass decodes only packets received in the slots |
| `SlottedAlohaCrdsa.PassFromExtends` | opensand-core/src/dvb/saloha/SlottedAlohaAlgoCrdsa.cpp:111-126 | a pass appends one packet per newly decoded key, never two with the same key, and continues exactly when it decoded something |
| `SlottedAlohaCrdsa.VisitExtends` | opensand-core/src/dvb/saloha/SlottedAlohaAlgoCrdsa.cpp:111-126 | a visit decodes at most one new key and appends its packet |
| `SlottedAlohaCrdsa.PassFromQuiet` | opensand-core/src/dvb/saloha/SlottedAlohaAlgoCrdsa.cpp:63-139 | a pass that decodes nothing leaves every slot without decoded replicas and without a single packet |
| `SlottedAlohaCrdsa.PassFromAccounted` | opensand-core/src/dvb/saloha/SlottedAlohaAlgoCrdsa.cpp:80-109 | a pass loses no packet other than the replicas of decoded ones |
| `SlottedAlohaCrdsa.VisitShrinks` | opensand-core/src/dvb/saloha/SlottedAlohaAlgoCrdsa.cpp:80-126 | a visit only removes packets, and the packet it may append was in the visited slot |
| `SlottedAlohaCrdsa.PassFromAcceptsPresent` | opensand-core/src/dvb/saloha/SlottedAlohaAlgoCrdsa.cpp:111-126 | a pass keeps the accepted list as a prefix and appends only received packets |
| `SlottedAlohaCrdsa.PassProgress` | opensand-core/src/dvb/saloha/SlottedAlohaAlgoCrdsa.cpp:63-139 | a pass that does not stop lowers the number of present keys still to decode, so the passes end |
| `SlottedAlohaCrdsa.Rounds` | opensand-core/src/dvb/saloha/SlottedAlohaAlgoCrdsa.cpp:61-139 | the passes keep the number of slots |
| `SlottedAlohaCrdsa.RoundsEffect` | opensand-core/src/dvb/saloha/SlottedAlohaAlgoCrdsa.cpp:61-139 | the passes only remove packets, each removed packet having been decoded, and every appended packet came from the slots |
| `SlottedAlohaCrdsa.RoundsFixpoint` | opensand-core/src/dvb/saloha/SlottedAlohaAlgoCrdsa.cpp:139 | when the passes end no slot holds a replica of a decoded packet, nor a single packet |
| `SlottedAlohaCrdsa.Collided` | opensand-core/src/dvb/saloha/SlottedAlohaAlgoCrdsa.cpp:141-159 | the collided packets are no more than the packets left |
| `SlottedAlohaCrdsa.CollidedAll` | opensand-core/src/dvb/saloha/SlottedAlohaAlgoCrdsa.cpp:141-159 | with no slot holding a single packet, every packet left collided |
| `SlottedAlohaCrdsa.RemoveCollisions` | opensand-core/src/dvb/saloha/SlottedAlohaAlgoCrdsa.cpp:48-163 | the collision count fits 16 bits, every slot ends cleared, and the accepted list only grows at its end |
| `SlottedAlohaCrdsa.AcceptedOncePresent` | opensand-core/src/dvb/saloha/SlottedAlohaAlgoCrdsa.cpp:48-163 | the packets a call accepts have pairwise distinct (terminal, id) keys, and each was received in a slot |
| `SlottedAlohaCrdsa.DecodedOrCollided` | opensand-core/src/dvb/saloha/SlottedAlohaAlgoCrdsa.cpp:48-163 | every received packet is decoded or left in its slot undecoded, and the count returned is the number of packets left, wrapped to 16 bits |
| `SlottedAlohaCrdsa.LoneReplicaDecoded` | opensand-core/src/dvb/saloha/SlottedAlohaAlgoCrdsa.cpp:111-126 | a slot that received a single packet has it decoded |
| `UleExtPadding.HLen` | platine-plugins/ule/src/UleExtPadding.cpp:66-68 | the H-LEN field of a Next Header value takes 3 bits |
| `UleExtPadding.HType` | platine-plugins/ule/src/UleExtPadding.cpp:66-68 | the H-Type field of a Next Header value takes 8 bits |
| `UleExtPadding.NewPadding` | platine-plugins/ule/src/UleExtPadding.cpp:40-44 | the padding extension is optional and of type 0x00 |
| `UleExtPadding.Field16` | platine-plugins/ule/src/UleExtPadding.cpp:58-59 | a 16-bit field is written as two bytes, most significant first |
| `UleExtPadding.Build` | platine-plugins/ule/src/UleExtPadding.cpp:50-71 | building always succeeds: four zero padding fields, then the payload type, then the payload; the extension announces H-LEN 5 and its own type |
| `UleExtPadding.Decode` | platine-plugins/ule/src/UleExtPadding.cpp:73-101 | decoding succeeds exactly when H-LEN is 1 to 5 and the data holds its fields; the last field is the payload type and the rest the payload; an error changes nothing |
| `UleExtPadding.DecodeBuild` | platine-plugins/ule/src/UleExtPadding.cpp:50-101 | decoding what build produced, with the H-LEN it announces, gives back the payload type and the payload |
| `UleExtPadding.DecodeShortHeader` | platine-plugins/ule/src/UleExtPadding.cpp:73-101 | decoding with a shorter H-LEN reads a padding field as the payload type, giving type 0 and a payload that keeps the remaining fields |

## Left out

- Concurrency: the daemon's route lock and discovery threads are not modelled. Each locked operation is one atomic step, and "blocks forever" is stated as "the lock stays held".
- Kernel routes, the route snapshot file and the topology XML are inputs. The netlink calls are an outcome per family (ok, exists, missing, error), the unpickled snapshot is an optional map, and the group of each host is a map.
- Network prefix normalisation (`IPNetwork` masking) is a function parameter; the model only keeps its result.
- Process launching, socket reads and their timeouts, and `ProcessList` internals are inputs of the command handler: each read, start, stop and exit status is a given outcome. The TEST command keeps only its reply rule.
- Python 2 semantics: `except KeyError, TypeError` is read as catching `KeyError` only (it binds the exception to the name `TypeError`). The behaviour of the route set-up rests on this reading.
- Integer widths: `DvbFifo.h` and `MacFifoElement.h` are not part of this model. The FIFO counters are taken as 16-bit packet counts and 32-bit byte counts, from the type names `vol_pkt_t` and `vol_bytes_t`, and the element length is the frame length or the packet's total length. Three more fixed-width values are kept unbounded: the 32-bit carrier capacities that `ForwardScheduling.InitCapacities` increases, the 16-bit superframe number (`time_sf_t`) whose successor `sf + 1` is used by `ForwardScheduling.AfterLoop` and recorded by the DAMA controller, and the 16-bit tal ids (`tal_id_t`) that `BlockDvb.Affect` reads from the configuration.
- `DvbFifo.New`: the terminal block calls a four-argument FIFO constructor that is not part of this model; it is modelled by the five-argument one with PVC 0.
- Floating point: `symToKbits` uses exact rationals with a ceiling instead of `double`. `computeBandplan`, the BBFrame size in symbols from spectral efficiency, and `runDamaRbdc`'s fair share are left out. The RBDC stage of the DAMA runs is a function parameter, and BBFrame sizes in symbols are given naturals.
- The ETSI payload table used by the forward scheduler has no entry for coding rate 6/7, as in the code; it falls to the 8100-byte default.
- `BBFrame.cpp` is not part of this model: a BBFrame is a record holding its MODCOD, its data length and its packets.
- `BlockDvb.InitBand`: two undefined behaviours of `initBand` are modelled as their evident intent. One is a dereference of the carriers iterator before its end test; the other is an `erase` followed by `++` on the erased iterator. The model walks the list and removes entries.
- DAMA controller, legacy: the `TerminalContext` and category classes are records. Probes, logging and the per-terminal probe registration are out. A `createTerminal` allocation failure is not modelled, and neither are the SACT byte layout and the counter widths of the totals.
- `DamaEsa.RunDamaFca` and `DamaEsa.RunDama` take a fuel bound, because the FCA loop as written need not terminate. The model says nothing about runs longer than the fuel.
- `DamaEsa`: `DC_St::setAllocation` is not part of this model. A grant is taken to add to the terminal's allocation, take the same amount from its room and, for VBDC, from its request. The floating-point unit conversions and the probes are out.
- `SlottedAlohaCrdsa.RemoveCollisions`: the `erase` of a removed packet is taken to advance the iterator, as the source comment says. Freeing the discarded packets is not modelled.
- `AtmPlugin`: the ATM cell and AAL5 packet byte formats are function parameters. The round trip assumes only what a real format gives, and `AtmPlugin.SampleFormatsCoherent` shows a format that meets it. A cell with an 8-bit VPI, a 16-bit VCI and a 48-byte payload decodes to what was encoded. Every encoded cell is 53 bytes long. A connection whose ids fit gets a VPI below 0x100 and a VCI below 0x10000, and its header decodes back to it. Every part of an AAL5 cut is 48 bytes long. The cut of a wrapped packet joins back into it. Tal ids above 0x1F and QoS values above 7 are only logged, so they reach the cells as whatever the cell header makes of them; the encapsulation round trip is proved only for ids and QoS values that fit the header.
- `DvbTal.StoreBurst`: when the default FIFO is missing, as with no FIFO configured, the source looks the default FIFO up with `operator[]`, which inserts a NULL FIFO, and stores the packet through it (BlockDvbTal.cpp:1478, 1501). The model instead stops the burst there with false, keeping the FIFOs unchanged.
- `DvbFifo.Length`: a packet or frame element with a NULL payload is dereferenced by the source when its length is counted; the model counts it as 0.
- `StackPlugin.Create`: freeing the three objects after a failed initialisation is not modelled; only the NULL result is.
- `BlockEncap`: the plugins' `time_contexts` map (`std::map<long, int>`, keyed by flush delay) is modelled as its entries in ascending order of delay, one per delay. The block's own `timers` map is modelled as a map from timer ids to context ids. The encapsulation plugins' behaviour (encapsulate, flush, deencapsulate) is a function parameter, and each context's name is taken to equal its plugin's name.
- `BlockEncap.OnTimer`: `emission.back()` on an empty emission chain is undefined in the source, and the model excludes it by a precondition.
- `EncapSat.SatInit`: the null dereference of a missing upper plugin is modelled as a `MissingEncapPlugin` failure. Contexts pushed before a failed initialisation stay pushed.
- `DvbTal.SyncPeriodFrame`: a frame duration of 0 (a division by zero in the source) is excluded by a precondition, and the rounding of the floating-point division is done in integers. A rounded period of 256 frames or more does not fit `time_frame_t`; that conversion from `double` is undefined, and the model takes it to wrap modulo 256.
- `DvbTal.ObrSlot`, `DvbTal.SacDue`, `DvbTal.ProcessOnFrameTick` and `DvbTal.HandleStartOfFrame` take a synchronisation period of at least one frame. A terminal runs them only after a start-up, and `DvbTal.InitSync` models the start-up with a period of 0 frames.
- `DvbTal`: `qos_t` is 8-bit in the source, but the model does not truncate priorities or QoS values. Slotted Aloha, SCPC, the QoS-server socket, the DAMA agent and `applyConfUpdateCommand` are parameters or left out. The SAC byte pattern is out.
- Timers, clocks and event dispatch of the runtime framework are inputs: the current tick, the next free timer id and the outcome of each send are parameters.

## Findings

| source | as written | input that shows it | evidently intended | confidence | as-written member | corrected member |
|---|---|---|---|---|---|---|
| opensand-daemon/opensand_daemon/routes.py:246-258 | `except KeyError, TypeError` catches only `KeyError`, so indexing a host's `None` IPv4 entry raises `TypeError` out of `setup_routes` with the route lock held | a daemon reloaded from a snapshot whose host st2 has only an IPv6 route | a host without an IPv4 route is skipped for that family | not executed | `Routes.SetupRoutesRaisesOnReloadedHost` | `Routes.SetupRoutesIntendedNoTypeError` |
| opensand-daemon/opensand_daemon/command_handler.py:150 | START calls `setup_routes()` without the `iface` argument; the `TypeError` escapes the listed handlers and START gets no reply | any START request once the binaries are launched | the routes are set up on the daemon's interface and START is answered OK | not executed | `CommandHandler.HandleStartAsWrittenSilent` | `CommandHandler.HandleStartIntended` |
| opensand-daemon/opensand_daemon/command_handler.py:117 | an unknown command reaches a `write` call with two arguments, which raises, so nothing is replied | the request line "FOO" | one error line naming the unknown command | not executed | `CommandHandler.UnknownCommandReply` | `CommandHandler.UnknownReply` |
| opensand-core/src/dvb_rcs/utils/DvbFifo.cpp:254-276 | `flush` empties the queue but keeps `current_pkt_nbr` and `current_length_bytes` | push a 10-byte packet, flush, push it again: 20 bytes are counted for one 10-byte packet | flush also zeroes the current counters | not executed | `DvbFifo.FlushAsWrittenBreaksCounters` | `DvbFifo.Flush` |
| opensand-core/src/dvb_rcs/dama/ForwardSchedulingS2.cpp:383-393 | when the FIFO is empty the scheduler returns before storing the carrier's remaining capacity, so capacity spent on pending frames is not recorded | a carrier with 100 symbols plus 50 saved and a pending frame of 120 symbols: the frame is sent and the carrier still reports 100 | the remaining capacity is stored on every path | not executed | `ForwardScheduling.EmptyFifoOverbooks` | `ForwardScheduling.EmptyFifoIntended` |
| opensand-core/src/dvb/ncc_interface/InSimulationConfUpdateInterface.cpp:149 | the port guard `tcp_port <= 0 && tcp_port >= 0xffff` can never hold | port -1 is accepted | a port outside 1..65534 is refused | not executed | `InSimulationConfUpdate.ListenPortNegative` | `InSimulationConfUpdate.ListenPort` |
| opensand-core/src/dvb_rcs/saloha/SlottedAlohaNcc.h:201-204 | the packet comparator given to the sort is not a strict weak order, because incomparability is not transitive | packets a=(src 1, replica 0, [1]), b=(src 2, replica 0, [5]), c=(src 1, replica 1, [3]) | an order on (source, first replica) that is a strict weak order | not executed | `SlottedAloha.AsWrittenNotStrictWeak` | `SlottedAloha.IntendedStrictWeak` |
| opensand-core/src/mandatory_plugins/aal5_atm/Atm.cpp:458-492 | `encapAal5` does not copy the destination spot into the AAL5 packet | an empty IP packet from terminal 1 to terminal 2 for spot 1 comes back from deencapsulation for spot 0, under the sample formats of `AtmPlugin.SpotLostExample` | the spot survives the encapsulation round trip | not executed | `AtmPlugin.SpotLostAsWritten` | `AtmPlugin.EncapDeencapRoundTrip` |
| opensand-core/src/dvb_rcs/dama/DamaCtrlRcs.cpp:418-436 | a PEP command changes a terminal's CRA and max RBDC without updating the gateway totals | a logged-on terminal's CRA 10 raised to 50 leaves the total at 10, and its logoff brings it to -40 | the totals follow the terminal's new values | not executed | `DamaCtrlRcs.PepLeavesTotalsBehind` | `DamaCtrlRcs.PepKeepsConsistent` |
| opensand-core/src/dvb_rcs/dama/DamaCtrlRcs.cpp:506-512 | `updateFmt` keeps the largest nearest MODCOD but the carrier of the last group scanned | simulated MODCOD 7 and groups offering 5 then 3: MODCOD 5 on the group that offers 3 | the carrier is the one whose group offers the chosen MODCOD | not executed | `DamaCtrlRcs.ScanCarrierAsWritten` | `DamaCtrlRcs.ScanCarrierIntended` |
| platine-core/src/dvb_rcs/dama/lib_dama_ctrl_esa.cpp:470-477 | the FCA loop's stop tests compare against the start pointer, which never comes round when it is -1 and no terminal takes FCA | ids [1], a terminal with room 0, start pointer -1, FCA 1, capacity 5 | the loop stops after one full round of the terminals | not executed | `DamaEsa.FcaLoopsAsWritten` | `DamaEsa.RunDamaFcaEnds` |
| opensand-core/src/dvb/core/BlockDvbTal.cpp:2053 | the `bool` result of `processOnFrameTick()` is tested with `< 0`, which is never true | a frame tick that fails | a failed frame tick fails the start-of-frame handling | not executed | `DvbTal.FrameTickFailureIgnored` | `DvbTal.HandleStartOfFrame` |
| opensand-core/src/dvb/core/BlockDvbTal.cpp:811-818 | the synchronisation period in frames is cast to 8 bits and then used unchecked as the divisor of the MAC id | a 2 ms period on 10 ms frames (a 2560 ms one, 256 frames, also gives 0 if the undefined conversion of 256.0 to 8 bits wraps) | start-up refuses a period of 0 frames | not executed | `DvbTal.ZeroSyncPeriodDividesByZero` | `DvbTal.InitSync` |

=== FILE: atm.dfy ===
/** The AAL5/ATM encapsulation plugin
    (opensand-core/src/mandatory_plugins/aal5_atm/Atm.cpp).

    On emission a network packet is wrapped into an AAL5 packet, which is
    cut into ATM cells sharing one (VPI, VCI) connection; the last cell
    carries a flag. On reception the payloads of the cells of one
    connection are gathered in a reassembly context until the last cell
    arrives; the AAL5 packet they form is checked and its payload is handed
    to the upper protocol.

    The classes `AtmCell` and `Aal5Packet` (their byte layouts, the CRC
    check, the cut into cells) are not part of this model: the plugin is
    given them as the functions of a `Formats` value. */
module AtmPlugin {
  import opened Wrappers
  import opened OpenSandCore
  import opened ModelMode
  import StackPlugin

  /** The fixed length of an ATM cell: a 5-byte header and 48 bytes of
      payload, section 2 of ITU-T I.361 (Atm.h, which states the value the
      plugin uses, is not part of this model). */
  const CellLength: nat := 53

  /** The protocols a packet of this plugin can carry. */
  datatype Proto = AtmCells | Aal5 | Upper(name: string)

  /** A `NetPacket`: its bytes, protocol, QoS, source and destination
      terminal and destination spot. */
  datatype NetPacket = NetPacket(data: seq<Byte>, proto: Proto, qos: nat, src: nat, dst: nat, spot: nat)

  /** The header fields of an ATM cell the plugin uses, and its payload. */
  datatype AtmCell = AtmCell(vpi: nat, vci: nat, last: bool, payload: seq<Byte>)

  /** QoS, source and destination, as a cell header encodes them. */
  datatype Conn = Conn(qos: nat, src: nat, dst: nat)

  /** The formats the plugin relies on:
      - `encodeCell` and `decodeCell`: `AtmCell::create` and `AtmCell(data)`;
      - `connOfCell`: the QoS and terminals `AtmCell` reads from a cell;
      - `vpiOf` and `vciOf`: `AtmCell::getVpi` and `AtmCell::getVci`;
      - `aal5Wrap`: `Aal5Packet::createFromPayload`;
      - `aal5Valid`: `Aal5Packet::isValid`;
      - `aal5Payload`: `Aal5Packet::getPayload`;
      - `aal5Cells`: the payloads `Aal5Packet::atmCell(i)` returns, for
        every `i` below `nbAtmCells()`. */
  datatype Formats = Formats(
    encodeCell: AtmCell -> seq<Byte>,
    decodeCell: seq<Byte> -> AtmCell,
    connOfCell: seq<Byte> -> Conn,
    vpiOf: Conn -> nat,
    vciOf: Conn -> nat,
    aal5Wrap: seq<Byte> -> seq<Byte>,
    aal5Valid: seq<Byte> -> bool,
    aal5Payload: seq<Byte> -> seq<Byte>,
    aal5Cells: seq<Byte> -> seq<seq<Byte>>)

  /** The upper protocol's `build`: from a payload and the QoS and
      terminals, a packet or nothing. */
  type UpperBuild = (seq<Byte>, Conn) -> Option<NetPacket>

  /** The protocols ATM cells may carry, the same for both payload
      types. */
  const AtmUpper: seq<string> := ["ROHC", "PHS", "IP", "Ethernet"]

  /** The plugin as its constructor sets it up. */
  function AtmStack(etherType: nat): (p: StackPlugin.Plugin)
    ensures forall t :: StackPlugin.UpperOf(p, t) == AtmUpper
  {
    var p := StackPlugin.Plugin("", "", etherType, map[Transparent := AtmUpper, Regenerative := AtmUpper]);
    assert forall t :: StackPlugin.UpperOf(p, t) == AtmUpper by {
      forall t ensures StackPlugin.UpperOf(p, t) == AtmUpper {
        assert t == Transparent || t == Regenerative;
      }
    }
    p
  }

  /** An ATM context takes IP packets above it on either payload, and
      refuses a protocol outside its list, such as GSE, keeping its
      current handler. */
  lemma AtmAcceptsIp(ctx: StackPlugin.Context, t: SatType)
    requires ctx.plugin == AtmStack(ctx.plugin.etherType)
    ensures StackPlugin.SetUpperPacketHandler(ctx, Some(StackPlugin.Handler("IP")), t) == (ctx.(current := Some(StackPlugin.Handler("IP"))), true)
    ensures StackPlugin.SetUpperPacketHandler(ctx, Some(StackPlugin.Handler("GSE")), t) == (ctx, false)
  {
    assert "IP" == AtmUpper[2];
    assert "GSE" !in AtmUpper by {
      assert "GSE" != AtmUpper[0] && "GSE" != AtmUpper[1] && "GSE" != AtmUpper[2] && "GSE" != AtmUpper[3];
    }
  }

  // ---------------------------------------------------------------------
  // The packet handler

  /** `PacketHandler::getChunk`: a cell is never split; the whole packet
      goes into the frame if the room left holds a cell, and is kept for
      later otherwise. The call always succeeds. */
  function GetChunk(p: NetPacket, remaining: nat): (r: (Option<NetPacket>, Option<NetPacket>))
    ensures r.0.Some? <==> remaining >= CellLength
    ensures r.0.Some? != r.1.Some?
    ensures r.0.Some? ==> r.0.value == p
    ensures r.1.Some? ==> r.1.value == p
  {
    if remaining < CellLength then (None, Some(p)) else (Some(p), None)
  }

  /** `PacketHandler::build`: only data of the fixed length makes a cell;
      its QoS and terminals are read from the cell, not taken from the
      arguments. */
  function Build(f: Formats, data: seq<Byte>, length: nat, qos: nat, src: nat, dst: nat): (r: Option<NetPacket>)
    ensures r.Some? <==> length == CellLength
    ensures r.Some? ==> r.value.data == data && r.value.proto == AtmCells
    ensures r.Some? ==> Conn(r.value.qos, r.value.src, r.value.dst) == f.connOfCell(data)
  {
    if length != CellLength then None
    else
      var c := f.connOfCell(data);
      Some(NetPacket(data, AtmCells, c.qos, c.src, c.dst, 0))
  }

  /** The arguments of `build` other than the data play no part. */
  lemma BuildIgnoresArguments(f: Formats, data: seq<Byte>, length: nat, q1: nat, s1: nat, d1: nat, q2: nat, s2: nat, d2: nat)
    ensures Build(f, data, length, q1, s1, d1) == Build(f, data, length, q2, s2, d2)
  {
  }

  // ---------------------------------------------------------------------
  // Emission

  /** `encapAal5`: the network packet is wrapped into an AAL5 packet, which
      must be valid. The destination and source terminals and the QoS are
      copied; as written the destination spot is not, and the AAL5 packet
      keeps the spot a newly created packet holds, `freshSpot`. */
  function EncapAal5(mode: Mode, f: Formats, freshSpot: nat, p: NetPacket): (r: Option<NetPacket>)
    ensures r.Some? <==> f.aal5Valid(f.aal5Wrap(p.data))
    ensures r.Some? ==> r.value.data == f.aal5Wrap(p.data) && r.value.proto == Aal5
    ensures r.Some? ==> r.value.qos == p.qos && r.value.src == p.src && r.value.dst == p.dst
    ensures r.Some? ==> r.value.spot == (if mode == AsWritten then freshSpot else p.spot)
  {
    var wrapped := f.aal5Wrap(p.data);
    if !f.aal5Valid(wrapped) then None
    else Some(NetPacket(wrapped, Aal5, p.qos, p.src, p.dst, if mode == AsWritten then freshSpot else p.spot))
  }

  /** Whether QoS and terminals fit in a cell header: terminal ids up to
      0x1F and a QoS up to 7, the ranges `encapAtm` warns about. */
  predicate Fits(c: Conn) {
    c.qos < 8 && c.src < 32 && c.dst < 32
  }

  /** The bytes of the cell `AtmCell::create` makes for one payload of
      `a`, on the connection `a`'s QoS and terminals select. */
  function CellBytes(f: Formats, a: NetPacket, payload: seq<Byte>, last: bool): seq<Byte> {
    var c := Conn(a.qos, a.src, a.dst);
    f.encodeCell(AtmCell(f.vpiOf(c), f.vciOf(c), last, payload))
  }

  /** One cell of the AAL5 packet `a`, as `encapAtm` makes it: the cell is
      encoded, `createPacket` hands its bytes to `build`, which reads the
      QoS and terminals back from the header, and the packet then gets the
      spot of `a`. A cell `build` refuses is dropped. */
  function CellPacket(f: Formats, a: NetPacket, payload: seq<Byte>, last: bool): (r: Option<NetPacket>)
    ensures r.Some? <==> |CellBytes(f, a, payload, last)| == CellLength
    ensures r.Some? ==>
      && r.value.data == CellBytes(f, a, payload, last) && r.value.proto == AtmCells && r.value.spot == a.spot
      && Conn(r.value.qos, r.value.src, r.value.dst) == f.connOfCell(r.value.data)
  {
    var data := CellBytes(f, a, payload, last);
    match Build(f, data, |data|, ToU8(a.qos), ToU8(a.src), ToU8(a.dst))
    case None => None
    case Some(q) => Some(q.(spot := a.spot))
  }

  /** The cells `encapAtm` tries to make for `a`, one per payload of its
      cut, in order, the last flag on the final one only. */
  function CellOptions(f: Formats, a: NetPacket): (r: seq<Option<NetPacket>>)
    ensures |r| == |f.aal5Cells(a.data)|
  {
    var payloads := f.aal5Cells(a.data);
    seq(|payloads|, i requires 0 <= i < |payloads| => CellPacket(f, a, payloads[i], i == |payloads| - 1))
  }

  /** The values present in a sequence of options, in order. */
  function Present<T>(s: seq<Option<T>>): (r: seq<T>)
    ensures |r| <= |s|
    ensures forall k :: 0 <= k < |r| ==> Some(r[k]) in s
    ensures (forall k :: 0 <= k < |s| ==> s[k].Some?) ==> |r| == |s| && forall k :: 0 <= k < |s| ==> r[k] == s[k].value
    decreases |s|
  {
    if |s| == 0 then []
    else
      var rest := Present(s[1..]);
      assert forall k :: 0 <= k < |rest| ==> Some(rest[k]) in s by {
        forall k | 0 <= k < |rest| ensures Some(rest[k]) in s {
          assert Some(rest[k]) in s[1..];
        }
      }
      match s[0]
      case None => rest
      case Some(x) => [x] + rest
  }

  /** `encapAtm`: anything but an AAL5 packet is dropped; an AAL5 packet
      gives, in order, the cells of its cut that `build` accepts, each
      carrying the spot of the AAL5 packet and the QoS and terminals its
      header decodes to. Terminal ids above 0x1F and QoS above 7 are only
      logged, so they reach the cells as whatever the header makes of
      them. */
  function EncapAtm(f: Formats, a: NetPacket): (r: Option<seq<NetPacket>>)
    ensures r.Some? <==> a.proto == Aal5
    ensures r.Some? ==> |r.value| <= |f.aal5Cells(a.data)|
    ensures r.Some? ==> forall i :: 0 <= i < |r.value| ==>
      && r.value[i].proto == AtmCells && r.value[i].spot == a.spot
      && Conn(r.value[i].qos, r.value[i].src, r.value[i].dst) == f.connOfCell(r.value[i].data)
  {
    if a.proto != Aal5 then None
    else
      var cells := CellOptions(f, a);
      var r := Present(cells);
      assert forall i :: 0 <= i < |r| ==>
        r[i].proto == AtmCells && r[i].spot == a.spot && Conn(r[i].qos, r[i].src, r[i].dst) == f.connOfCell(r[i].data) by {
        forall i | 0 <= i < |r|
          ensures r[i].proto == AtmCells && r[i].spot == a.spot && Conn(r[i].qos, r[i].src, r[i].dst) == f.connOfCell(r[i].data)
        {
          var k :| 0 <= k < |cells| && cells[k] == Some(r[i]);
        }
      }
      Some(r)
  }

  /** `encapsulate`: every network packet of the burst is wrapped and cut
      into cells; a packet whose AAL5 packet is invalid is dropped. */
  function Encapsulate(mode: Mode, f: Formats, freshSpot: nat, burst: seq<NetPacket>): (r: seq<NetPacket>)
    ensures forall k :: 0 <= k < |r| ==> r[k].proto == AtmCells
  {
    if |burst| == 0 then []
    else
      var cells := match EncapAal5(mode, f, freshSpot, burst[0])
        case None => []
        case Some(a) => EncapAtm(f, a).value;
      cells + Encapsulate(mode, f, freshSpot, burst[1..])
  }

  // ---------------------------------------------------------------------
  // Reception

  /** The reassembly contexts, one per (VPI, VCI), holding the payloads
      received so far. */
  type Contexts = map<(nat, nat), seq<Byte>>

  /** What a context holds; a missing context holds nothing yet. */
  function Stored(ctxs: Contexts, key: (nat, nat)): seq<Byte> {
    if key in ctxs then ctxs[key] else []
  }

  /** The outcome of one cell: stored, an AAL5 packet completed, or an
      invalid AAL5 packet dropped. */
  datatype Reassembly = Kept | Completed(aal5: NetPacket) | Invalid

  /** `deencapAtm`: the cell's payload is appended to the context of its
      connection, created on first use; a last cell ends the AAL5 packet,
      which is emitted with the cell's spot, terminals and QoS if valid
      and dropped otherwise; either way the context is emptied. */
  function DeencapAtm(f: Formats, ctxs: Contexts, p: NetPacket): (r: (Contexts, Reassembly))
    ensures var cell := f.decodeCell(p.data);
      var key := (cell.vpi, cell.vci);
      && r.0.Keys == ctxs.Keys + {key}
      && (forall k :: k in ctxs && k != key ==> r.0[k] == ctxs[k])
      && (!cell.last ==> r.1 == Kept && r.0[key] == Stored(ctxs, key) + cell.payload)
      && (cell.last ==> r.0[key] == [] && r.1 != Kept)
      && (r.1.Completed? <==> cell.last && f.aal5Valid(Stored(ctxs, key) + cell.payload))
      && (r.1.Completed? ==> r.1.aal5 == NetPacket(Stored(ctxs, key) + cell.payload, Aal5, p.qos, p.src, p.dst, p.spot))
  {
    var cell := f.decodeCell(p.data);
    var key := (cell.vpi, cell.vci);
    var data := Stored(ctxs, key) + cell.payload;
    if !cell.last then (ctxs[key := data], Kept)
    else if f.aal5Valid(data) then (ctxs[key := []], Completed(NetPacket(data, Aal5, p.qos, p.src, p.dst, p.spot)))
    else (ctxs[key := []], Invalid)
  }

  /** `deencapAal5` for one AAL5 packet: the upper protocol builds a
      packet from its payload, which gets the AAL5 packet's spot; a failed
      build drops it. */
  function DeencapAal5(f: Formats, upper: UpperBuild, a: NetPacket): (r: seq<NetPacket>)
    ensures |r| <= 1
    ensures |r| == 1 <==> upper(f.aal5Payload(a.data), Conn(a.qos, a.src, a.dst)).Some?
    ensures |r| == 1 ==> r[0] == upper(f.aal5Payload(a.data), Conn(a.qos, a.src, a.dst)).value.(spot := a.spot)
  {
    match upper(f.aal5Payload(a.data), Conn(a.qos, a.src, a.dst))
    case None => []
    case Some(q) => [q.(spot := a.spot)]
  }

  /** The filter of `deencapsulate`: a packet is processed only if it is
      there, is an ATM cell, and is for this terminal or for all. */
  predicate Accepted(p: Option<NetPacket>, talId: nat) {
    p.Some? && p.value.proto == AtmCells && (p.value.dst == talId || p.value.dst == BroadcastTalId)
  }

  /** One packet of a received burst. */
  function Receive(f: Formats, upper: UpperBuild, talId: nat, ctxs: Contexts, p: Option<NetPacket>): (r: (Contexts, seq<NetPacket>))
    ensures !Accepted(p, talId) ==> r == (ctxs, [])
    ensures Accepted(p, talId) ==> r.0 == DeencapAtm(f, ctxs, p.value).0
    ensures |r.1| <= 1
  {
    if !Accepted(p, talId) then (ctxs, [])
    else
      var (ctxs', out) := DeencapAtm(f, ctxs, p.value);
      match out
      case Completed(a) => (ctxs', DeencapAal5(f, upper, a))
      case _ => (ctxs', [])
  }

  /** `deencapsulate`: the packets of the burst in order. */
  function Deencapsulate(f: Formats, upper: UpperBuild, talId: nat, ctxs: Contexts, burst: seq<Option<NetPacket>>): (r: (Contexts, seq<NetPacket>))
    ensures |r.1| <= |burst|
    decreases |burst|
  {
    if |burst| == 0 then (ctxs, [])
    else
      var (c1, o1) := Receive(f, upper, talId, ctxs, burst[0]);
      var (c2, o2) := Deencapsulate(f, upper, talId, c1, burst[1..]);
      (c2, o1 + o2)
  }

  /** The packets of a burst the filter lets through. */
  function Filter(burst: seq<Option<NetPacket>>, talId: nat): (r: seq<Option<NetPacket>>)
    ensures |r| <= |burst|
    ensures forall k :: 0 <= k < |r| ==> Accepted(r[k], talId)
  {
    if |burst| == 0 then []
    else (if Accepted(burst[0], talId) then [burst[0]] else []) + Filter(burst[1..], talId)
  }

  /** Dropped packets leave no trace: a burst is received as the burst of
      the packets the filter lets through. */
  lemma {:induction false} DeencapsulateFiltered(f: Formats, upper: UpperBuild, talId: nat, ctxs: Contexts, burst: seq<Option<NetPacket>>)
    ensures Deencapsulate(f, upper, talId, ctxs, burst) == Deencapsulate(f, upper, talId, ctxs, Filter(burst, talId))
    decreases |burst|
  {
    if |burst| > 0 {
      var (c1, o1) := Receive(f, upper, talId, ctxs, burst[0]);
      DeencapsulateFiltered(f, upper, talId, c1, burst[1..]);
      var (c2, o2) := Deencapsulate(f, upper, talId, c1, burst[1..]);
      if Accepted(burst[0], talId) {
        var fb := Filter(burst, talId);
        assert fb == [burst[0]] + Filter(burst[1..], talId);
        assert fb[0] == burst[0] && fb[1..] == Filter(burst[1..], talId);
      } else {
        assert Filter(burst, talId) == Filter(burst[1..], talId);
        assert o1 == [] && c1 == ctxs;
        assert o1 + o2 == o2;
      }
    }
  }

  /** A context is created once per connection and then reused: receiving
      never removes one. */
  lemma {:induction false} DeencapsulateKeepsContexts(f: Formats, upper: UpperBuild, talId: nat, ctxs: Contexts, burst: seq<Option<NetPacket>>)
    ensures ctxs.Keys <= Deencapsulate(f, upper, talId, ctxs, burst).0.Keys
    decreases |burst|
  {
    if |burst| > 0 {
      var c1 := Receive(f, upper, talId, ctxs, burst[0]).0;
      DeencapsulateKeepsContexts(f, upper, talId, c1, burst[1..]);
    }
  }

  // ---------------------------------------------------------------------
  // Round trip

  /** The payloads of a cut, joined. */
  function Flatten(parts: seq<seq<Byte>>): (r: seq<Byte>)
    ensures |parts| == 0 ==> r == []
  {
    if |parts| == 0 then [] else Flatten(parts[..|parts| - 1]) + parts[|parts| - 1]
  }

  /** The payload length of an ATM cell, section 2 of ITU-T I.361. */
  const CellPayload: nat := 48

  /** The cells a cell header can hold: `encapAtm` keeps the VPI in a
      `uint8_t` and the VCI in a `uint16_t` (Atm.cpp:201-202), and every
      payload of an AAL5 cut is one cell payload long. */
  predicate Carried(c: AtmCell) {
    c.vpi < 0x100 && c.vci < 0x10000 && |c.payload| == CellPayload
  }

  /** What the formats must satisfy for cells to be read back: a cell the
      header can hold decodes to what was encoded, every encoding is a full
      cell, the VPI and VCI of a connection whose ids fit are in range and
      the header decodes to that connection, the cut of an AAL5 packet is
      made of whole cell payloads, and the cut of a wrapped packet joins
      back into it. */
  ghost predicate Coherent(f: Formats) {
    && CellsDecode(f) && CellsFit(f) && IdsFit(f) && HeaderCarries(f) && CutsWhole(f)
    && forall d :: Flatten(f.aal5Cells(f.aal5Wrap(d))) == f.aal5Wrap(d)
  }

  ghost predicate CellsDecode(f: Formats) {
    forall c :: Carried(c) ==> f.decodeCell(f.encodeCell(c)) == c
  }

  ghost predicate CellsFit(f: Formats) {
    forall c :: |f.encodeCell(c)| == CellLength
  }

  ghost predicate IdsFit(f: Formats) {
    forall c :: Fits(c) ==> f.vpiOf(c) < 0x100 && f.vciOf(c) < 0x10000
  }

  ghost predicate HeaderCarries(f: Formats) {
    forall c, last, payload :: Fits(c) ==> f.connOfCell(f.encodeCell(AtmCell(f.vpiOf(c), f.vciOf(c), last, payload))) == c
  }

  ghost predicate CutsWhole(f: Formats) {
    forall d, i :: 0 <= i < |f.aal5Cells(d)| ==> |f.aal5Cells(d)[i]| == CellPayload
  }

  /** With full cells no cell is dropped: the cells emitted for `a` are
      the cells tried, in order. */
  lemma EncapAtmKeepsEveryCell(f: Formats, a: NetPacket)
    requires CellsFit(f) && a.proto == Aal5
    ensures Wrap(EncapAtm(f, a).value) == CellOptions(f, a)
  {
    var cells := CellOptions(f, a);
    assert forall k :: 0 <= k < |cells| ==> cells[k].Some?;
  }

  /** A cell whose connection fits in its header is received with the
      QoS and terminals of the AAL5 packet it comes from. */
  lemma CellCarriesConn(f: Formats, a: NetPacket, payload: seq<Byte>, last: bool)
    requires CellsFit(f) && HeaderCarries(f) && Fits(Conn(a.qos, a.src, a.dst))
    ensures CellPacket(f, a, payload, last) == Some(NetPacket(CellBytes(f, a, payload, last), AtmCells, a.qos, a.src, a.dst, a.spot))
  {
    var c := Conn(a.qos, a.src, a.dst);
    assert f.connOfCell(f.encodeCell(AtmCell(f.vpiOf(c), f.vciOf(c), last, payload))) == c;
  }

  /** One cell of `a`, on its connection: a middle cell adds its payload
      to the context, the last one completes the AAL5 packet. */
  lemma ReceiveCell(f: Formats, upper: UpperBuild, talId: nat, ctxs: Contexts, a: NetPacket, payload: seq<Byte>, last: bool)
    requires CellsFit(f) && HeaderCarries(f) && Fits(Conn(a.qos, a.src, a.dst))
    requires a.dst == talId || a.dst == BroadcastTalId
    requires var c := Conn(a.qos, a.src, a.dst);
      var cell := AtmCell(f.vpiOf(c), f.vciOf(c), last, payload);
      f.decodeCell(f.encodeCell(cell)) == cell
    ensures var c := Conn(a.qos, a.src, a.dst);
      var key := (f.vpiOf(c), f.vciOf(c));
      var data := Stored(ctxs, key) + payload;
      Receive(f, upper, talId, ctxs, CellPacket(f, a, payload, last)) ==
        if !last then (ctxs[key := data], [])
        else (ctxs[key := []], if f.aal5Valid(data) then DeencapAal5(f, upper, NetPacket(data, Aal5, a.qos, a.src, a.dst, a.spot)) else [])
  {
    CellCarriesConn(f, a, payload, last);
  }

  /** The cells of `a` from cell `k` on. */
  lemma CellsFrom(f: Formats, a: NetPacket, k: nat)
    requires k < |f.aal5Cells(a.data)|
    ensures var n := |f.aal5Cells(a.data)|;
      CellOptions(f, a)[k..] == [CellPacket(f, a, f.aal5Cells(a.data)[k], k == n - 1)] + CellOptions(f, a)[k + 1..]
  {
    var cells := CellOptions(f, a);
    assert cells[k..] == [cells[k]] + cells[k + 1..];
  }

  lemma FlattenStep(parts: seq<seq<Byte>>, k: nat)
    requires k < |parts|
    ensures Flatten(parts[..k + 1]) == Flatten(parts[..k]) + parts[k]
  {
    assert parts[..k + 1][..k] == parts[..k];
  }

  /** The cells of an AAL5 packet from cell `k` on, received with the
      first `k` payloads already gathered, complete the packet and empty
      its context; the upper packet is what the AAL5 payload builds. */
  lemma {:induction false} ReassembleFrom(f: Formats, upper: UpperBuild, talId: nat, ctxs: Contexts, a: NetPacket, k: nat)
    requires CellsDecode(f) && CellsFit(f) && IdsFit(f) && HeaderCarries(f) && CutsWhole(f) && Fits(Conn(a.qos, a.src, a.dst))
    requires Flatten(f.aal5Cells(a.data)) == a.data && a.proto == Aal5 && (a.dst == talId || a.dst == BroadcastTalId)
    requires k < |f.aal5Cells(a.data)|
    requires var c := Conn(a.qos, a.src, a.dst);
      Stored(ctxs, (f.vpiOf(c), f.vciOf(c))) == Flatten(f.aal5Cells(a.data)[..k])
    ensures var c := Conn(a.qos, a.src, a.dst);
      var key := (f.vpiOf(c), f.vciOf(c));
      var out := if f.aal5Valid(a.data) then DeencapAal5(f, upper, a) else [];
      Deencapsulate(f, upper, talId, ctxs, CellOptions(f, a)[k..]) == (ctxs[key := []], out)
    decreases |f.aal5Cells(a.data)| - k
  {
    var payloads := f.aal5Cells(a.data);
    if k == |payloads| - 1 {
      ReassembleLast(f, upper, talId, ctxs, a);
    } else {
      var c := Conn(a.qos, a.src, a.dst);
      var key := (f.vpiOf(c), f.vciOf(c));
      var c1 := ctxs[key := Flatten(payloads[..k + 1])];
      ReassembleMiddle(f, upper, talId, ctxs, a, k);
      ReassembleFrom(f, upper, talId, c1, a, k + 1);
      UpdateTwice(ctxs, key, Flatten(payloads[..k + 1]), []);
    }
  }

  /** A middle cell adds its payload to the context and emits nothing. */
  lemma ReassembleMiddle(f: Formats, upper: UpperBuild, talId: nat, ctxs: Contexts, a: NetPacket, k: nat)
    requires CellsDecode(f) && CellsFit(f) && IdsFit(f) && HeaderCarries(f) && CutsWhole(f) && Fits(Conn(a.qos, a.src, a.dst))
    requires a.proto == Aal5 && (a.dst == talId || a.dst == BroadcastTalId)
    requires k < |f.aal5Cells(a.data)| - 1
    requires var c := Conn(a.qos, a.src, a.dst);
      Stored(ctxs, (f.vpiOf(c), f.vciOf(c))) == Flatten(f.aal5Cells(a.data)[..k])
    ensures var c := Conn(a.qos, a.src, a.dst);
      var key := (f.vpiOf(c), f.vciOf(c));
      var c1 := ctxs[key := Flatten(f.aal5Cells(a.data)[..k + 1])];
      Deencapsulate(f, upper, talId, ctxs, CellOptions(f, a)[k..]) == Deencapsulate(f, upper, talId, c1, CellOptions(f, a)[k + 1..])
  {
    var payloads := f.aal5Cells(a.data);
    var cell := CellPacket(f, a, payloads[k], false);
    var rest := CellOptions(f, a)[k + 1..];
    CellsFrom(f, a, k);
    var c := Conn(a.qos, a.src, a.dst);
    assert Carried(AtmCell(f.vpiOf(c), f.vciOf(c), false, payloads[k]));
    ReceiveCell(f, upper, talId, ctxs, a, payloads[k], false);
    FlattenStep(payloads, k);
    DeencapsulateCons(f, upper, talId, ctxs, cell, rest);
    var key := (f.vpiOf(c), f.vciOf(c));
    var d := Deencapsulate(f, upper, talId, ctxs[key := Flatten(payloads[..k + 1])], rest);
    assert [] + d.1 == d.1;
  }

  /** The last cell completes the AAL5 packet. */
  lemma ReassembleLast(f: Formats, upper: UpperBuild, talId: nat, ctxs: Contexts, a: NetPacket)
    requires CellsDecode(f) && CellsFit(f) && IdsFit(f) && HeaderCarries(f) && CutsWhole(f) && Fits(Conn(a.qos, a.src, a.dst))
    requires Flatten(f.aal5Cells(a.data)) == a.data && a.proto == Aal5 && (a.dst == talId || a.dst == BroadcastTalId)
    requires |f.aal5Cells(a.data)| > 0
    requires var c := Conn(a.qos, a.src, a.dst);
      Stored(ctxs, (f.vpiOf(c), f.vciOf(c))) == Flatten(f.aal5Cells(a.data)[..|f.aal5Cells(a.data)| - 1])
    ensures var c := Conn(a.qos, a.src, a.dst);
      var key := (f.vpiOf(c), f.vciOf(c));
      var out := if f.aal5Valid(a.data) then DeencapAal5(f, upper, a) else [];
      Deencapsulate(f, upper, talId, ctxs, CellOptions(f, a)[|f.aal5Cells(a.data)| - 1..]) == (ctxs[key := []], out)
  {
    var payloads := f.aal5Cells(a.data);
    var k := |payloads| - 1;
    var cell := CellPacket(f, a, payloads[k], true);
    var rest := CellOptions(f, a)[k + 1..];
    CellsFrom(f, a, k);
    var c := Conn(a.qos, a.src, a.dst);
    assert Carried(AtmCell(f.vpiOf(c), f.vciOf(c), true, payloads[k]));
    ReceiveCell(f, upper, talId, ctxs, a, payloads[k], true);
    FlattenStep(payloads, k);
    DeencapsulateCons(f, upper, talId, ctxs, cell, rest);
    assert payloads[..k + 1] == payloads;
    assert NetPacket(a.data, Aal5, a.qos, a.src, a.dst, a.spot) == a;
    assert rest == [];
    var out := if f.aal5Valid(a.data) then DeencapAal5(f, upper, a) else [];
    assert out + [] == out;
  }

  lemma UpdateTwice<K, V>(m: map<K, V>, k: K, v: V, w: V)
    ensures m[k := v][k := w] == m[k := w]
  {
  }

  /** Receiving a burst is receiving its first packet, then the rest. */
  lemma DeencapsulateCons(f: Formats, upper: UpperBuild, talId: nat, ctxs: Contexts, p: Option<NetPacket>, rest: seq<Option<NetPacket>>)
    ensures var r := Receive(f, upper, talId, ctxs, p);
      var d := Deencapsulate(f, upper, talId, r.0, rest);
      Deencapsulate(f, upper, talId, ctxs, [p] + rest) == (d.0, r.1 + d.1)
  {
    assert ([p] + rest)[1..] == rest;
  }

  /** The cells of a burst, as the reception sees them. */
  function Wrap(ps: seq<NetPacket>): (r: seq<Option<NetPacket>>)
    ensures |r| == |ps| && forall k :: 0 <= k < |ps| ==> r[k] == Some(ps[k])
  {
    seq(|ps|, k requires 0 <= k < |ps| => Some(ps[k]))
  }

  /** Cutting a network packet into cells and receiving them, on a
      connection with no payload pending, gives back the packet the upper
      protocol builds from the network packet's data, on the intended
      spot; as written the spot is the fresh packet's. This holds when the
      QoS and terminals fit in a cell header. */
  lemma EncapDeencapRoundTrip(mode: Mode, f: Formats, upper: UpperBuild, freshSpot: nat, talId: nat, ctxs: Contexts, p: NetPacket)
    requires Coherent(f) && (forall d :: f.aal5Payload(f.aal5Wrap(d)) == d)
    requires Fits(Conn(p.qos, p.src, p.dst))
    requires f.aal5Valid(f.aal5Wrap(p.data)) && |f.aal5Cells(f.aal5Wrap(p.data))| > 0
    requires p.dst == talId || p.dst == BroadcastTalId
    requires var c := Conn(p.qos, p.src, p.dst);
      Stored(ctxs, (f.vpiOf(c), f.vciOf(c))) == []
    ensures var out := Deencapsulate(f, upper, talId, ctxs, Wrap(Encapsulate(mode, f, freshSpot, [p]))).1;
      var q := upper(p.data, Conn(p.qos, p.src, p.dst));
      && (q.None? ==> out == [])
      && (q.Some? ==> out == [q.value.(spot := if mode == AsWritten then freshSpot else p.spot)])
  {
    var a := EncapAal5(mode, f, freshSpot, p).value;
    var cells := EncapAtm(f, a).value;
    assert Encapsulate(mode, f, freshSpot, [p]) == cells + Encapsulate(mode, f, freshSpot, []);
    assert Encapsulate(mode, f, freshSpot, [p]) == cells[0..];
    EncapAtmKeepsEveryCell(f, a);
    assert f.aal5Cells(a.data)[..0] == [];
    ReassembleFrom(f, upper, talId, ctxs, a, 0);
  }

  /** The destination spot does not survive emission as written: a packet
      for spot 1 comes back for the spot a fresh packet holds. */
  lemma SpotLostAsWritten(f: Formats, upper: UpperBuild, talId: nat, ctxs: Contexts, p: NetPacket)
    requires Coherent(f) && (forall d :: f.aal5Payload(f.aal5Wrap(d)) == d)
    requires Fits(Conn(p.qos, p.src, p.dst))
    requires f.aal5Valid(f.aal5Wrap(p.data)) && |f.aal5Cells(f.aal5Wrap(p.data))| > 0
    requires p.dst == talId || p.dst == BroadcastTalId
    requires var c := Conn(p.qos, p.src, p.dst);
      Stored(ctxs, (f.vpiOf(c), f.vciOf(c))) == []
    requires upper(p.data, Conn(p.qos, p.src, p.dst)).Some? && p.spot == 1
    ensures var out := Deencapsulate(f, upper, talId, ctxs, Wrap(Encapsulate(AsWritten, f, 0, [p]))).1;
      |out| == 1 && out[0].spot == 0
    ensures var out := Deencapsulate(f, upper, talId, ctxs, Wrap(Encapsulate(Intended, f, 0, [p]))).1;
      |out| == 1 && out[0].spot == 1
  {
    EncapDeencapRoundTrip(AsWritten, f, upper, 0, talId, ctxs, p);
    EncapDeencapRoundTrip(Intended, f, upper, 0, talId, ctxs, p);
  }

  // ---------------------------------------------------------------------
  // A format meeting the assumptions

  /** `n` zero bytes. */
  function Zeros(n: nat): (r: seq<Byte>)
    ensures |r| == n && forall i :: 0 <= i < n ==> r[i] == 0
  {
    seq(n, _ => 0)
  }

  /** A payload cut or padded with zeros to one cell payload. */
  function FitPayload(payload: seq<Byte>): (r: seq<Byte>)
    ensures |r| == CellPayload
    ensures |payload| == CellPayload ==> r == payload
  {
    if |payload| >= CellPayload then payload[..CellPayload] else payload + Zeros(CellPayload - |payload|)
  }

  /** A sample cell layout: the VPI byte, the VCI on two bytes, a flag
      byte, a spare byte, then the payload. */
  function SampleEncode(c: AtmCell): (r: seq<Byte>)
    ensures |r| == CellLength
  {
    [c.vpi % 0x100, c.vci / 0x100 % 0x100, c.vci % 0x100, if c.last then 1 else 0, 0] + FitPayload(c.payload)
  }

  /** The VCI a sample header holds. */
  function SampleVci(b: seq<Byte>): nat
    requires |b| >= 3
  {
    b[1] as int * 0x100 + b[2] as int
  }

  function SampleDecode(b: seq<Byte>): AtmCell {
    if |b| < 5 then AtmCell(0, 0, false, []) else AtmCell(b[0], SampleVci(b), b[3] == 1, b[5..])
  }

  /** The sample header keeps the destination as VPI and the source and
      QoS as VCI. */
  function SampleConn(b: seq<Byte>): Conn {
    if |b| < 5 then Conn(0, 0, 0) else Conn(SampleVci(b) % 8, SampleVci(b) / 8, b[0])
  }

  function SampleVpi(c: Conn): nat { c.dst }

  function SampleVciOf(c: Conn): nat { c.src * 8 + c.qos }

  /** A sample AAL5 wrap: the data, a marker byte 1, and zeros up to a
      whole number of cell payloads. */
  function SampleWrap(d: seq<Byte>): (r: seq<Byte>)
    ensures |r| > 0 && |r| % CellPayload == 0
  {
    d + [1] + Zeros(CellPayload - 1 - |d| % CellPayload)
  }

  function SampleValid(w: seq<Byte>): bool { true }

  /** The data before the marker: trailing zeros and the marker removed. */
  function SampleUnwrap(w: seq<Byte>): seq<Byte> {
    if |w| == 0 then []
    else if w[|w| - 1] == 0 then SampleUnwrap(w[..|w| - 1])
    else w[..|w| - 1]
  }

  /** The whole cell payloads of `w`, from the front; a short tail is
      left out. */
  function SampleCut(w: seq<Byte>): (r: seq<seq<Byte>>)
    ensures forall i :: 0 <= i < |r| ==> |r[i]| == CellPayload
    ensures |w| >= CellPayload ==> |r| > 0
    decreases |w|
  {
    if |w| < CellPayload then [] else [w[..CellPayload]] + SampleCut(w[CellPayload..])
  }

  const SampleFormats: Formats := Formats(SampleEncode, SampleDecode, SampleConn, SampleVpi, SampleVciOf, SampleWrap, SampleValid, SampleUnwrap, SampleCut)

  lemma {:induction false} UnwrapPadded(d: seq<Byte>, n: nat)
    ensures SampleUnwrap(d + [1] + Zeros(n)) == d
    decreases n
  {
    var w := d + [1] + Zeros(n);
    if n == 0 {
      assert w[..|w| - 1] == d;
    } else {
      assert w[|w| - 1] == 0;
      assert w[..|w| - 1] == d + [1] + Zeros(n - 1);
      UnwrapPadded(d, n - 1);
    }
  }

  lemma {:induction false} FlattenCons(x: seq<Byte>, parts: seq<seq<Byte>>)
    ensures Flatten([x] + parts) == x + Flatten(parts)
    decreases |parts|
  {
    if |parts| > 0 {
      var xs := [x] + parts;
      var init := parts[..|parts| - 1];
      assert xs[..|xs| - 1] == [x] + init;
      assert xs[|xs| - 1] == parts[|parts| - 1];
      FlattenCons(x, init);
    } else {
      assert [x] + parts == [x];
      assert [x][..0] == [];
    }
  }

  lemma {:induction false} CutJoins(w: seq<Byte>)
    requires |w| % CellPayload == 0
    ensures Flatten(SampleCut(w)) == w
    decreases |w|
  {
    if |w| >= CellPayload {
      CutJoins(w[CellPayload..]);
      FlattenCons(w[..CellPayload], SampleCut(w[CellPayload..]));
      assert w[..CellPayload] + w[CellPayload..] == w;
    }
  }

  /** A sample cell with an 8-bit VPI, a 16-bit VCI and a full payload
      reads back as it was written. */
  lemma SampleCellDecodes(c: AtmCell)
    requires Carried(c)
    ensures SampleDecode(SampleEncode(c)) == c
  {
    var b := SampleEncode(c);
    assert b[5..] == FitPayload(c.payload);
    assert SampleVci(b) == c.vci;
  }

  /** A sample header written for a connection whose ids fit reads back
      as that connection. */
  lemma SampleHeaderCarries(c: Conn, last: bool, payload: seq<Byte>)
    requires Fits(c)
    ensures SampleConn(SampleEncode(AtmCell(SampleVpi(c), SampleVciOf(c), last, payload))) == c
  {
    var b := SampleEncode(AtmCell(c.dst, c.src * 8 + c.qos, last, payload));
    assert SampleVci(b) == c.src * 8 + c.qos;
  }

  lemma SampleCellsDecode()
    ensures CellsDecode(SampleFormats)
  {
    forall c | Carried(c) ensures SampleFormats.decodeCell(SampleFormats.encodeCell(c)) == c {
      SampleCellDecodes(c);
    }
  }

  lemma SampleHeadersCarry()
    ensures HeaderCarries(SampleFormats)
  {
    var f := SampleFormats;
    forall c: Conn, last: bool, payload: seq<Byte> | Fits(c)
      ensures f.connOfCell(f.encodeCell(AtmCell(f.vpiOf(c), f.vciOf(c), last, payload))) == c
    {
      SampleHeaderCarries(c, last, payload);
    }
  }

  lemma SampleCutsJoin()
    ensures forall d :: Flatten(SampleFormats.aal5Cells(SampleFormats.aal5Wrap(d))) == SampleFormats.aal5Wrap(d)
  {
    forall d ensures Flatten(SampleCut(SampleWrap(d))) == SampleWrap(d) {
      CutJoins(SampleWrap(d));
    }
  }

  /** The assumptions of the round trip can be met: the sample formats
      are coherent and unwrap what they wrap. */
  lemma SampleFormatsCoherent()
    ensures Coherent(SampleFormats)
    ensures forall d :: SampleFormats.aal5Payload(SampleFormats.aal5Wrap(d)) == d
  {
    SampleCellsDecode();
    SampleHeadersCarry();
    SampleCutsJoin();
    forall d ensures SampleUnwrap(SampleWrap(d)) == d {
      UnwrapPadded(d, CellPayload - 1 - |d| % CellPayload);
    }
  }

  /** An upper protocol that builds a packet from any payload. */
  function SampleUpper(d: seq<Byte>, c: Conn): Option<NetPacket> {
    Some(NetPacket(d, Upper("IP"), c.qos, c.src, c.dst, 0))
  }

  /** The input that shows the lost spot: an empty IP packet from
      terminal 1 to terminal 2 for spot 1, received by terminal 2 with no
      context yet, comes back for spot 0 as written and for spot 1 as
      intended. */
  lemma SpotLostExample()
    ensures var p := NetPacket([], Upper("IP"), 0, 1, 2, 1);
      var out := Deencapsulate(SampleFormats, SampleUpper, 2, map[], Wrap(Encapsulate(AsWritten, SampleFormats, 0, [p]))).1;
      |out| == 1 && out[0].spot == 0
    ensures var p := NetPacket([], Upper("IP"), 0, 1, 2, 1);
      var out := Deencapsulate(SampleFormats, SampleUpper, 2, map[], Wrap(Encapsulate(Intended, SampleFormats, 0, [p]))).1;
      |out| == 1 && out[0].spot == 1
  {
    SampleFormatsCoherent();
    var p := NetPacket([], Upper("IP"), 0, 1, 2, 1);
    assert |SampleFormats.aal5Cells(SampleFormats.aal5Wrap(p.data))| > 0;
    SpotLostAsWritten(SampleFormats, SampleUpper, 2, map[], p);
  }
}

=== FILE: block_dvb.dfy ===
/** The configuration helpers shared by the DVB blocks
    (opensand-core/src/dvb_rcs/core/BlockDvb.h):

      - `tempSplit`, which reads the unsigned values of a list written with
        ';', ',' and '-' as separators, in order, dropping the words that do
        not read as a number;
      - the validation rules of `initBand`, which builds the FMT groups, the
        terminal categories with their carriers groups, the default
        category and the terminal affectations of one band from its
        configuration section.

    The band plan (`computeBandplan`) works in floating point and is an
    input here: whether it succeeds, and how many carriers of the band's
    access type it gives each category. */
module BlockDvb {
  import opened Wrappers
  import opened OpenSandCore

  /* ---------------------------------------------------------------------- */
  /* Reading an unsigned value                                               */

  /** The digits `>>` reads after the white space and an optional '+'. */
  function Unsigned(t: string): string {
    var u := SkipSpace(t);
    if |u| > 0 && u[0] == '+' then u[1..] else u
  }

  /** What `str >> val` stores in an `unsigned int` read from the word `t`:
      white space is skipped, a '+' sign is allowed, and the longest run of
      decimal digits that follows is the value. The extraction fails (and
      the caller skips the word) when no digit follows or when the value
      does not fit in 32 bits. Characters after the digits are ignored. */
  function ReadUnsigned(t: string): (r: Option<nat>)
    ensures r.Some? ==> IsU32(r.value)
  {
    var v := Unsigned(t);
    if DigitRun(v) == 0 || !IsU32(LeadingValue(v)) then None
    else Some(LeadingValue(v))
  }

  /** The decimal writing of a 32-bit value reads back as that value. */
  lemma ReadDecimal(n: nat)
    requires IsU32(n)
    ensures ReadUnsigned(Decimal(n)) == Some(n)
  {
    var d := Decimal(n);
    DecimalValue(n);
    assert !IsSpace(d[0]) && d[0] != '+' by {
      assert IsDigit(d[0]);
    }
    assert SkipSpace(d) == d;
    assert Unsigned(d) == d;
  }

  /** A word whose first character, after white space and sign, is not a
      digit reads nothing. */
  lemma ReadNeedsDigit(t: string)
    requires |Unsigned(t)| == 0 || !IsDigit(Unsigned(t)[0])
    ensures ReadUnsigned(t) == None
  {
  }

  /** The values read from the words `ts`, in order, skipping the words
      that do not read. */
  function ReadAll(ts: seq<string>): (vs: seq<nat>)
    ensures |vs| <= |ts|
    ensures forall k :: 0 <= k < |vs| ==> IsU32(vs[k])
  {
    if |ts| == 0 then []
    else
      match ReadUnsigned(ts[0])
      case Some(v) => [v] + ReadAll(ts[1..])
      case None => ReadAll(ts[1..])
  }

  lemma {:induction false} ReadAllAppend(a: seq<string>, b: seq<string>)
    ensures ReadAll(a + b) == ReadAll(a) + ReadAll(b)
  {
    if |a| == 0 {
      assert a + b == b;
    } else {
      assert (a + b)[0] == a[0];
      assert (a + b)[1..] == a[1..] + b;
      ReadAllAppend(a[1..], b);
    }
  }

  /** Every word of `ts` tokenized again on `d`, the results concatenated. */
  function FlatTokenize(ts: seq<string>, d: string): seq<string> {
    if |ts| == 0 then [] else Tokenize(ts[0], d) + FlatTokenize(ts[1..], d)
  }

  lemma {:induction false} FlatTokenizeAppend(a: seq<string>, b: seq<string>, d: string)
    ensures FlatTokenize(a + b, d) == FlatTokenize(a, d) + FlatTokenize(b, d)
  {
    if |a| == 0 {
      assert a + b == b;
    } else {
      assert (a + b)[0] == a[0];
      assert (a + b)[1..] == a[1..] + b;
      FlatTokenizeAppend(a[1..], b, d);
    }
  }

  /* ---------------------------------------------------------------------- */
  /* tempSplit                                                               */

  /** The innermost loop: the values of the '-'-separated words of each
      ','-separated word. */
  function SplitDashes(ts: seq<string>): seq<nat> {
    if |ts| == 0 then [] else ReadAll(Tokenize(ts[0], "-")) + SplitDashes(ts[1..])
  }

  /** The middle loop: the ','-separated words of each ';'-separated word. */
  function SplitCommas(ts: seq<string>): seq<nat> {
    if |ts| == 0 then [] else SplitDashes(Tokenize(ts[0], ",")) + SplitCommas(ts[1..])
  }

  /** `tempSplit`: the values of a list written with ';', then ',', then '-'
      as separators. */
  function TempSplit(values: string): (r: seq<nat>)
    ensures forall k :: 0 <= k < |r| ==> IsU32(r[k])
  {
    var r := SplitCommas(Tokenize(values, ";"));
    TempSplitFlat(values);
    r
  }

  /** The three separators used together. */
  const ListDelims: string := ";,-"

  /* The nested splits are one split on the union of the separators. */

  lemma {:induction false} RunLengthBeforeOuter(p: string, r: string, d1: string, d2: string)
    requires forall i :: 0 <= i < |p| ==> p[i] !in d1
    requires |r| == 0 || r[0] in d1
    ensures RunLength(p + r, d1 + d2) == RunLength(p, d2)
    decreases |p|
  {
    if |p| == 0 {
      assert p + r == r;
    } else {
      assert (p + r)[0] == p[0];
      if p[0] !in d2 {
        assert (p + r)[1..] == p[1..] + r;
        RunLengthBeforeOuter(p[1..], r, d1, d2);
      }
    }
  }

  lemma {:induction false} TokenizeBeforeOuter(p: string, r: string, d1: string, d2: string)
    requires forall i :: 0 <= i < |p| ==> p[i] !in d1
    requires |r| == 0 || r[0] in d1
    ensures Tokenize(p + r, d1 + d2) == Tokenize(p, d2) + Tokenize(r, d1 + d2)
    decreases |p|
  {
    if |p| == 0 {
      assert p + r == r;
    } else if p[0] in d2 {
      assert (p + r)[0] == p[0];
      assert (p + r)[1..] == p[1..] + r;
      TokenizeBeforeOuter(p[1..], r, d1, d2);
      assert Tokenize(p + r, d1 + d2) == Tokenize(p[1..] + r, d1 + d2);
    } else {
      assert (p + r)[0] == p[0];
      var k := RunLength(p, d2);
      RunLengthBeforeOuter(p, r, d1, d2);
      assert (p + r)[..k] == p[..k];
      assert (p + r)[k..] == p[k..] + r;
      TokenizeBeforeOuter(p[k..], r, d1, d2);
      assert Tokenize(p + r, d1 + d2) == [p[..k]] + Tokenize(p[k..] + r, d1 + d2);
    }
  }

  /** Splitting on `d1` and then each word on `d2` yields the words of a
      single split on both. */
  lemma {:induction false} TokenizeNested(s: string, d1: string, d2: string)
    ensures FlatTokenize(Tokenize(s, d1), d2) == Tokenize(s, d1 + d2)
    decreases |s|
  {
    if |s| == 0 {
    } else if s[0] in d1 {
      TokenizeNested(s[1..], d1, d2);
    } else {
      var n := RunLength(s, d1);
      TokenizeNested(s[n..], d1, d2);
      assert s[..n] + s[n..] == s;
      TokenizeBeforeOuter(s[..n], s[n..], d1, d2);
      var ts := Tokenize(s, d1);
      assert ts[0] == s[..n];
      assert ts[1..] == Tokenize(s[n..], d1);
    }
  }

  lemma {:induction false} SplitDashesFlat(ts: seq<string>)
    ensures SplitDashes(ts) == ReadAll(FlatTokenize(ts, "-"))
  {
    if |ts| > 0 {
      SplitDashesFlat(ts[1..]);
      ReadAllAppend(Tokenize(ts[0], "-"), FlatTokenize(ts[1..], "-"));
    }
  }

  lemma {:induction false} SplitCommasFlat(ts: seq<string>)
    ensures SplitCommas(ts) == ReadAll(FlatTokenize(FlatTokenize(ts, ","), "-"))
  {
    if |ts| > 0 {
      SplitCommasFlat(ts[1..]);
      SplitDashesFlat(Tokenize(ts[0], ","));
      FlatTokenizeAppend(Tokenize(ts[0], ","), FlatTokenize(ts[1..], ","), "-");
      ReadAllAppend(FlatTokenize(Tokenize(ts[0], ","), "-"),
                    FlatTokenize(FlatTokenize(ts[1..], ","), "-"));
    }
  }

  /** `tempSplit` reads every word of a single split on ';', ',' and '-',
      left to right: the three separators are interchangeable. */
  lemma TempSplitFlat(values: string)
    ensures SplitCommas(Tokenize(values, ";")) == ReadAll(Tokenize(values, ListDelims))
  {
    SplitCommasFlat(Tokenize(values, ";"));
    TokenizeNested(values, ";", ",");
    assert ";" + "," == ";,";
    TokenizeNested(values, ";,", "-");
    assert ";," + "-" == ListDelims;
  }

  /** A leading word that reads as a number gives the first value. */
  lemma TempSplitKeepsReadable(t: string, d: char, rest: string)
    requires IsToken(t, ListDelims) && d in ListDelims
    requires ReadUnsigned(t).Some?
    ensures TempSplit(t + [d] + rest) == [ReadUnsigned(t).value] + TempSplit(rest)
  {
    var s := t + [d] + rest;
    TempSplitFlat(s);
    TempSplitFlat(rest);
    TempSplitLeading(t, d, rest);
    var ts := [t] + Tokenize(rest, ListDelims);
    assert ts[0] == t && ts[1..] == Tokenize(rest, ListDelims);
    assert ReadAll(ts) == [ReadUnsigned(t).value] + ReadAll(Tokenize(rest, ListDelims));
  }

  /** A leading word that does not read as a number is dropped. */
  lemma TempSplitDropsUnreadable(t: string, d: char, rest: string)
    requires IsToken(t, ListDelims) && d in ListDelims
    requires ReadUnsigned(t) == None
    ensures TempSplit(t + [d] + rest) == TempSplit(rest)
  {
    var s := t + [d] + rest;
    TempSplitFlat(s);
    TempSplitFlat(rest);
    TempSplitLeading(t, d, rest);
    var ts := [t] + Tokenize(rest, ListDelims);
    assert ts[0] == t && ts[1..] == Tokenize(rest, ListDelims);
  }

  lemma TempSplitLeading(t: string, d: char, rest: string)
    requires IsToken(t, ListDelims) && d in ListDelims
    ensures ReadAll(Tokenize(t + [d] + rest, ListDelims)) == ReadAll([t] + Tokenize(rest, ListDelims))
  {
    var s := t + [d] + rest;
    var tail := [d] + rest;
    assert s == t + tail;
    RunLengthOfTokenThenDelim(t, tail, ListDelims);
    assert s[0] == t[0];
    assert s[..|t|] == t;
    assert s[|t|..] == tail;
    assert tail[1..] == rest;
    assert Tokenize(s, ListDelims) == [t] + Tokenize(rest, ListDelims);
  }


  /** A decimal writing holds none of the separators. */
  lemma {:induction false} DecimalsAreWords(vs: seq<nat>)
    ensures forall k :: 0 <= k < |vs| ==> IsToken(Decimals(vs)[k], ListDelims)
  {
    if |vs| > 0 {
      var ds := Decimals(vs);
      DecimalsAreWords(vs[1..]);
      assert ds[1..] == Decimals(vs[1..]);
      var d := Decimal(vs[0]);
      forall i | 0 <= i < |d|
        ensures d[i] !in ListDelims
      {
        assert IsDigit(d[i]);
      }
      forall k | 0 <= k < |vs|
        ensures IsToken(ds[k], ListDelims)
      {
        if k > 0 {
          assert ds[k] == ds[1..][k - 1];
        }
      }
    }
  }

  /** Words that each read as the corresponding value read as the values. */
  lemma {:induction false} ReadAllExact(ds: seq<string>, vs: seq<nat>)
    requires |ds| == |vs|
    requires forall k :: 0 <= k < |ds| ==> ReadUnsigned(ds[k]) == Some(vs[k])
    ensures ReadAll(ds) == vs
  {
    if |ds| > 0 {
      ReadAllExact(ds[1..], vs[1..]);
      assert [vs[0]] + vs[1..] == vs;
    }
  }

  /** Round trip: 32-bit values written in decimal and separated by any one
      of ';', ',' or '-' are read back, in order. In particular "a-b" gives
      the two values a and b and not the range between them. */
  lemma TempSplitJoin(vs: seq<nat>, d: char)
    requires forall k :: 0 <= k < |vs| ==> IsU32(vs[k])
    requires d in ListDelims
    ensures TempSplit(Join(Decimals(vs), d)) == vs
  {
    var ds := Decimals(vs);
    DecimalsAreWords(vs);
    TokenizeJoin(ds, d, ListDelims);
    forall k | 0 <= k < |ds|
      ensures ReadUnsigned(ds[k]) == Some(vs[k])
    {
      DecimalsAt(vs, k);
      ReadDecimal(vs[k]);
    }
    ReadAllExact(ds, vs);
    TempSplitFlat(Join(ds, d));
  }

  /** A range "a-b" is two values. */
  lemma TempSplitNoRange(a: nat, b: nat)
    requires IsU32(a) && IsU32(b)
    ensures TempSplit(Decimal(a) + "-" + Decimal(b)) == [a, b]
  {
    TempSplitJoin([a, b], '-');
    assert Decimals([a, b]) == [Decimal(a), Decimal(b)];
    assert Join([Decimal(a), Decimal(b)], '-') == Decimal(a) + "-" + Decimal(b);
  }

  /* ---------------------------------------------------------------------- */
  /* initBand                                                                */

  /** Why `initBand` fails; each is one `goto error`. */
  datatype BandError =
    | MissingBandwidth | MissingRollOff | MissingGroupList | MissingGroupId | MissingFmtIds
    | MissingDistribution | MissingCategory | MissingRatio | MissingSymbolRate
    | MissingFmtGroup | RatioCountMismatch | MissingAccess | TooManyForNonVcm
    | UnknownFmtGroup | VcmGroupNotSingle | BandplanFailed | MissingDefault
    | MissingAffectations | MissingTalId | MissingAffCategory

  /** An FMT group: its id and the FMT ids it holds. */
  datatype FmtGroup = FmtGroup(id: nat, fmtIds: seq<nat>)

  /** A carriers group of a terminal category. */
  datatype CarriersGroup = CarriersGroup(carrierId: nat, group: FmtGroup, ratio: nat,
                                         symbolRate: nat, access: string)

  /** An entry of the FMT groups list; an absent attribute is `None`. */
  datatype GroupEntry = GroupEntry(id: Option<nat>, fmtIds: Option<string>)

  /** An entry of the carriers distribution list. */
  datatype DistEntry = DistEntry(category: Option<string>, ratio: Option<string>,
                                 symbolRate: Option<nat>, fmtGroup: Option<string>,
                                 access: Option<string>)

  /** An entry of the terminal affectation list. */
  datatype AffEntry = AffEntry(talId: Option<nat>, category: Option<string>)

  /** The band's configuration section. The bandwidth and the roll-off only
      feed the band plan, so only their presence is kept. */
  datatype BandConf = BandConf(hasBandwidth: bool, hasRollOff: bool,
                               groups: Option<seq<GroupEntry>>,
                               distribution: Option<seq<DistEntry>>,
                               defaultCategory: Option<string>,
                               affectations: Option<seq<AffEntry>>)

  /** What `initBand` reads and writes through its reference parameters:
      the FMT groups (shared by the bands), the categories by name with
      their carriers groups, the default category (by name, `None` for
      NULL) and the terminal affectations (`None` for an explicit NULL). */
  datatype Band = Band(groups: map<nat, FmtGroup>,
                       categories: map<string, seq<CarriersGroup>>,
                       defaultCategory: Option<string>,
                       affectation: map<nat, Option<string>>)

  /** The parts of `initBand` this model takes as given: how an FMT id list
      becomes the ids of an FMT group (FmtGroup.cpp is not part of this
      model), whether the band plan succeeds, and the number of carriers of
      the band's access type the band plan gives a category. */
  datatype BandEnv = BandEnv(fmtIdsOf: string -> seq<nat>, bandplanOk: bool,
                             carriersOf: (string, seq<CarriersGroup>) -> nat)

  /** The FMT groups list: every entry needs an id and FMT ids; an id that
      is already loaded, by an earlier entry or an earlier band, is kept. */
  function LoadGroups(entries: seq<GroupEntry>, groups: map<nat, FmtGroup>,
                      fmtIdsOf: string -> seq<nat>): (r: Result<map<nat, FmtGroup>, BandError>)
    ensures r.Failure? ==> r.error == MissingGroupId || r.error == MissingFmtIds
    ensures r.Success? ==> forall id :: id in groups ==> id in r.value && r.value[id] == groups[id]
  {
    if |entries| == 0 then Success(groups)
    else
      var e := entries[0];
      if e.id.None? then Failure(MissingGroupId)
      else if e.fmtIds.None? then Failure(MissingFmtIds)
      else
        var next := if e.id.value in groups then groups
                    else groups[e.id.value := FmtGroup(e.id.value, fmtIdsOf(e.fmtIds.value))];
        LoadGroups(entries[1..], next, fmtIdsOf)
  }

  /** The list is accepted exactly when every entry is complete, and then
      the groups are the earlier ones and those it names. */
  lemma {:induction false} LoadGroupsSpec(entries: seq<GroupEntry>, groups: map<nat, FmtGroup>,
                                          fmtIdsOf: string -> seq<nat>, id: nat)
    ensures LoadGroups(entries, groups, fmtIdsOf).Success? <==>
      forall k :: 0 <= k < |entries| ==> entries[k].id.Some? && entries[k].fmtIds.Some?
    ensures LoadGroups(entries, groups, fmtIdsOf).Success? ==>
      (id in LoadGroups(entries, groups, fmtIdsOf).value <==>
       id in groups || exists k :: 0 <= k < |entries| && entries[k].id == Some(id))
  {
    if |entries| > 0 && entries[0].id.Some? && entries[0].fmtIds.Some? {
      var e := entries[0];
      var next := if e.id.value in groups then groups
                  else groups[e.id.value := FmtGroup(e.id.value, fmtIdsOf(e.fmtIds.value))];
      LoadGroupsSpec(entries[1..], next, fmtIdsOf, id);
      if forall k :: 0 <= k < |entries[1..]| ==> entries[1..][k].id.Some? && entries[1..][k].fmtIds.Some? {
        forall k | 0 <= k < |entries|
          ensures entries[k].id.Some? && entries[k].fmtIds.Some?
        {
          if k > 0 {
            assert entries[k] == entries[1..][k - 1];
          }
        }
      } else {
        var k :| 0 <= k < |entries[1..]| && !(entries[1..][k].id.Some? && entries[1..][k].fmtIds.Some?);
        assert entries[k + 1] == entries[1..][k];
      }
      if exists k :: 0 <= k < |entries[1..]| && entries[1..][k].id == Some(id) {
        var k :| 0 <= k < |entries[1..]| && entries[1..][k].id == Some(id);
        assert entries[k + 1].id == Some(id);
      }
      if exists k :: 0 <= k < |entries| && entries[k].id == Some(id) {
        var k :| 0 <= k < |entries| && entries[k].id == Some(id);
        if k > 0 {
          assert entries[1..][k - 1].id == Some(id);
        }
      }
    }
  }

  /** The first entry that names an FMT group id creates that group from its
      own FMT ids; later entries with the same id change nothing. */
  lemma {:induction false} LoadGroupsFirstWins(entries: seq<GroupEntry>, groups: map<nat, FmtGroup>,
                                               fmtIdsOf: string -> seq<nat>, k: nat)
    requires LoadGroups(entries, groups, fmtIdsOf).Success?
    requires k < |entries| && entries[k].id.Some? && entries[k].id.value !in groups
    requires forall j :: 0 <= j < k ==> entries[j].id != entries[k].id
    ensures var r := LoadGroups(entries, groups, fmtIdsOf).value;
      && entries[k].fmtIds.Some?
      && entries[k].id.value in r
      && r[entries[k].id.value] == FmtGroup(entries[k].id.value, fmtIdsOf(entries[k].fmtIds.value))
    decreases |entries|
  {
    var e := entries[0];
    var next := if e.id.value in groups then groups
                else groups[e.id.value := FmtGroup(e.id.value, fmtIdsOf(e.fmtIds.value))];
    if k > 0 {
      forall j | 0 <= j < k - 1
        ensures entries[1..][j].id != entries[1..][k - 1].id
      {
        assert entries[1..][j] == entries[j + 1];
      }
      assert entries[0].id != entries[k].id;
      LoadGroupsFirstWins(entries[1..], next, fmtIdsOf, k - 1);
    }
  }

  /** A distribution entry once its attributes are read. */
  datatype Carriers = Carriers(name: string, ratios: seq<nat>, symbolRate: nat,
                               groupIds: seq<nat>, access: string)

  /** The attributes of a distribution entry, read in the order the source
      reads them, and the checks between them. */
  function ReadEntry(e: DistEntry): (r: Result<Carriers, BandError>)
    ensures r.Success? <==>
      && e.category.Some? && e.ratio.Some? && e.symbolRate.Some? && e.fmtGroup.Some? && e.access.Some?
      && |TempSplit(e.ratio.value)| == |TempSplit(e.fmtGroup.value)|
      && (e.access.value == "VCM" || |TempSplit(e.fmtGroup.value)| <= 1)
    ensures r.Success? ==>
      && r.value == Carriers(e.category.value, TempSplit(e.ratio.value), e.symbolRate.value,
                             TempSplit(e.fmtGroup.value), e.access.value)
      && |r.value.groupIds| == |r.value.ratios|
      && (r.value.access != "VCM" ==> |r.value.groupIds| <= 1)
    ensures e.category.Some? && e.ratio.Some? && e.symbolRate.Some? && e.fmtGroup.Some? ==>
      (r == Failure(RatioCountMismatch) <==> |TempSplit(e.ratio.value)| != |TempSplit(e.fmtGroup.value)|)
  {
    if e.category.None? then Failure(MissingCategory)
    else if e.ratio.None? then Failure(MissingRatio)
    else if e.symbolRate.None? then Failure(MissingSymbolRate)
    else if e.fmtGroup.None? then Failure(MissingFmtGroup)
    else
      var ratios := TempSplit(e.ratio.value);
      var groupIds := TempSplit(e.fmtGroup.value);
      if |groupIds| != |ratios| then Failure(RatioCountMismatch)
      else if e.access.None? then Failure(MissingAccess)
      else if e.access.value != "VCM" && (|groupIds| > 1 || |ratios| > 1) then Failure(TooManyForNonVcm)
      else Success(Carriers(e.category.value, ratios, e.symbolRate.value, groupIds, e.access.value))
  }

  /** The carriers groups of a category, none if it does not exist yet. */
  function GroupsOf(cats: map<string, seq<CarriersGroup>>, name: string): seq<CarriersGroup> {
    if name in cats then cats[name] else []
  }

  /** Whether the FMT group ids `ids` can be used by one entry: each names a
      loaded group and, when there are several (VCM), no group holds more
      than one FMT id. */
  predicate GroupsUsable(ids: seq<nat>, groups: map<nat, FmtGroup>) {
    forall i :: 0 <= i < |ids| ==>
      ids[i] in groups && (|ids| > 1 ==> |groups[ids[i]].fmtIds| <= 1)
  }

  /** The carriers groups entry `c` adds from its `j`-th group id on, all
      under the one carrier id `carrierId`, with the ratios in order
      (`AddCarriersAppends`). The category is created on its first carriers
      group. */
  function AddCarriers(cats: map<string, seq<CarriersGroup>>, groups: map<nat, FmtGroup>,
                       c: Carriers, carrierId: nat, j: nat): (r: Result<map<string, seq<CarriersGroup>>, BandError>)
    requires j <= |c.groupIds| == |c.ratios|
    ensures r.Success? <==> forall i :: j <= i < |c.groupIds| ==>
      c.groupIds[i] in groups && (|c.groupIds| > 1 ==> |groups[c.groupIds[i]].fmtIds| <= 1)
    ensures r.Failure? ==> r.error == UnknownFmtGroup || r.error == VcmGroupNotSingle
    ensures r.Success? ==>
      && (forall n :: n in r.value <==> n in cats || (n == c.name && j < |c.groupIds|))
      && (forall n :: n in cats && n != c.name ==> r.value[n] == cats[n])
    decreases |c.groupIds| - j
  {
    if j == |c.groupIds| then Success(cats)
    else
      var gid := c.groupIds[j];
      if gid !in groups then Failure(UnknownFmtGroup)
      else if |c.groupIds| > 1 && |groups[gid].fmtIds| > 1 then Failure(VcmGroupNotSingle)
      else
        var before := GroupsOf(cats, c.name);
        var added := CarriersGroup(carrierId, groups[gid], c.ratios[j], c.symbolRate, c.access);
        AddCarriers(cats[c.name := before + [added]], groups, c, carrierId, j + 1)
  }

  /** The carriers groups entry `c` adds from its `j`-th group id on. */
  function NewGroups(groups: map<nat, FmtGroup>, c: Carriers, carrierId: nat, j: nat): (r: seq<CarriersGroup>)
    requires j <= |c.groupIds| == |c.ratios|
    requires forall i :: j <= i < |c.groupIds| ==> c.groupIds[i] in groups
    decreases |c.groupIds| - j
  {
    if j == |c.groupIds| then []
    else [CarriersGroup(carrierId, groups[c.groupIds[j]], c.ratios[j], c.symbolRate, c.access)]
         + NewGroups(groups, c, carrierId, j + 1)
  }

  /** One carriers group per group id from the `j`-th on, in order, each
      with the entry's carrier id, its FMT group and ratio, symbol rate and
      access. */
  lemma {:induction false} NewGroupsSpec(groups: map<nat, FmtGroup>, c: Carriers, carrierId: nat, j: nat)
    requires j <= |c.groupIds| == |c.ratios|
    requires forall i :: j <= i < |c.groupIds| ==> c.groupIds[i] in groups
    ensures |NewGroups(groups, c, carrierId, j)| == |c.groupIds| - j
    ensures forall i :: j <= i < |c.groupIds| ==>
      NewGroups(groups, c, carrierId, j)[i - j]
      == CarriersGroup(carrierId, groups[c.groupIds[i]], c.ratios[i], c.symbolRate, c.access)
    decreases |c.groupIds| - j
  {
    if j < |c.groupIds| {
      NewGroupsSpec(groups, c, carrierId, j + 1);
    }
  }

  /** The category of `c` keeps its carriers groups first and in order, then
      gets the new carriers groups of the entry. */
  lemma {:induction false} AddCarriersAppends(cats: map<string, seq<CarriersGroup>>, groups: map<nat, FmtGroup>,
                                              c: Carriers, carrierId: nat, j: nat)
    requires j < |c.groupIds| == |c.ratios|
    requires AddCarriers(cats, groups, c, carrierId, j).Success?
    ensures AddCarriers(cats, groups, c, carrierId, j).value[c.name]
            == GroupsOf(cats, c.name) + NewGroups(groups, c, carrierId, j)
    decreases |c.groupIds| - j
  {
    var before := GroupsOf(cats, c.name);
    var added := CarriersGroup(carrierId, groups[c.groupIds[j]], c.ratios[j], c.symbolRate, c.access);
    var next := cats[c.name := before + [added]];
    assert GroupsOf(next, c.name) == before + [added];
    if j + 1 < |c.groupIds| {
      AddCarriersAppends(next, groups, c, carrierId, j + 1);
    }
    assert (before + [added]) + NewGroups(groups, c, carrierId, j + 1)
           == before + NewGroups(groups, c, carrierId, j);
  }

  /** The distribution loop: entry `k` (from 0) gets carrier id
      `first + k`, whatever the number of groups it holds. */
  function AddEntries(cats: map<string, seq<CarriersGroup>>, groups: map<nat, FmtGroup>,
                      entries: seq<DistEntry>, first: nat): (r: Result<map<string, seq<CarriersGroup>>, BandError>)
    ensures r.Success? ==> forall n :: n in cats ==> n in r.value
    decreases |entries|
  {
    if |entries| == 0 then Success(cats)
    else
      match ReadEntry(entries[0])
      case Failure(e) => Failure(e)
      case Success(c) =>
        match AddCarriers(cats, groups, c, first, 0)
        case Failure(e) => Failure(e)
        case Success(next) => AddEntries(next, groups, entries[1..], first + 1)
  }

  /** The loop succeeds only when every entry reads and names usable FMT
      groups. */
  lemma {:induction false} AddEntriesReads(cats: map<string, seq<CarriersGroup>>, groups: map<nat, FmtGroup>,
                                           entries: seq<DistEntry>, first: nat)
    requires AddEntries(cats, groups, entries, first).Success?
    ensures forall k :: 0 <= k < |entries| ==>
      ReadEntry(entries[k]).Success? && GroupsUsable(ReadEntry(entries[k]).value.groupIds, groups)
    decreases |entries|
  {
    if |entries| > 0 {
      var c := ReadEntry(entries[0]).value;
      var next := AddCarriers(cats, groups, c, first, 0).value;
      AddEntriesReads(next, groups, entries[1..], first + 1);
      forall k | 0 <= k < |entries|
        ensures ReadEntry(entries[k]).Success? && GroupsUsable(ReadEntry(entries[k]).value.groupIds, groups)
      {
        if k > 0 {
          assert entries[k] == entries[1..][k - 1];
        }
      }
    }
  }

  /** Entry `e` reads and adds at least one carriers group to category `n`. */
  predicate EntryAdds(e: DistEntry, n: string) {
    ReadEntry(e).Success? && ReadEntry(e).value.name == n && |ReadEntry(e).value.groupIds| > 0
  }

  lemma SomeEntryAdds(entries: seq<DistEntry>, n: string)
    requires |entries| > 0
    ensures (exists k :: 0 <= k < |entries| && EntryAdds(entries[k], n)) <==>
      EntryAdds(entries[0], n) || exists k :: 0 <= k < |entries[1..]| && EntryAdds(entries[1..][k], n)
  {
    if exists k :: 0 <= k < |entries[1..]| && EntryAdds(entries[1..][k], n) {
      var k :| 0 <= k < |entries[1..]| && EntryAdds(entries[1..][k], n);
      assert entries[k + 1] == entries[1..][k];
    }
    if exists k :: 0 <= k < |entries| && EntryAdds(entries[k], n) {
      var k :| 0 <= k < |entries| && EntryAdds(entries[k], n);
      if k > 0 {
        assert entries[1..][k - 1] == entries[k];
      }
    }
  }

  /** The loop creates exactly the categories that some entry adds a
      carriers group to. */
  lemma {:induction false} AddEntriesKeys(cats: map<string, seq<CarriersGroup>>, groups: map<nat, FmtGroup>,
                                          entries: seq<DistEntry>, first: nat, n: string)
    requires AddEntries(cats, groups, entries, first).Success?
    ensures n in AddEntries(cats, groups, entries, first).value <==>
      n in cats || exists k :: 0 <= k < |entries| && EntryAdds(entries[k], n)
    decreases |entries|
  {
    if |entries| > 0 {
      var c := ReadEntry(entries[0]).value;
      var next := AddCarriers(cats, groups, c, first, 0).value;
      AddEntriesKeys(next, groups, entries[1..], first + 1, n);
      SomeEntryAdds(entries, n);
    }
  }

  /** The carriers groups a category had before the loop stay, first and in
      order. */
  lemma {:induction false} AddEntriesExtends(cats: map<string, seq<CarriersGroup>>, groups: map<nat, FmtGroup>,
                                             entries: seq<DistEntry>, first: nat, n: string)
    requires AddEntries(cats, groups, entries, first).Success?
    ensures var r := AddEntries(cats, groups, entries, first).value;
      n in r ==> |GroupsOf(cats, n)| <= |r[n]| && r[n][..|GroupsOf(cats, n)|] == GroupsOf(cats, n)
    decreases |entries|
  {
    var r := AddEntries(cats, groups, entries, first).value;
    if |entries| > 0 {
      var c := ReadEntry(entries[0]).value;
      var next := AddCarriers(cats, groups, c, first, 0).value;
      AddEntriesExtends(next, groups, entries[1..], first + 1, n);
      if n == c.name && |c.groupIds| > 0 {
        AddCarriersAppends(cats, groups, c, first, 0);
        assert GroupsOf(next, n)[..|GroupsOf(cats, n)|] == GroupsOf(cats, n);
      }
      if n in r {
        PrefixOfPrefix(r[n], GroupsOf(next, n), GroupsOf(cats, n));
      }
    }
  }

  /** One entry adds carriers groups under its own carrier id only. */
  lemma AddCarriersIds(cats: map<string, seq<CarriersGroup>>, groups: map<nat, FmtGroup>,
                       c: Carriers, carrierId: nat, n: string)
    requires |c.groupIds| == |c.ratios|
    requires AddCarriers(cats, groups, c, carrierId, 0).Success?
    ensures var next := AddCarriers(cats, groups, c, carrierId, 0).value;
      && |GroupsOf(cats, n)| <= |GroupsOf(next, n)|
      && forall i :: |GroupsOf(cats, n)| <= i < |GroupsOf(next, n)| ==> GroupsOf(next, n)[i].carrierId == carrierId
  {
    var next := AddCarriers(cats, groups, c, carrierId, 0).value;
    var b := |GroupsOf(cats, n)|;
    if n == c.name && 0 < |c.groupIds| {
      AddCarriersAppends(cats, groups, c, carrierId, 0);
      NewGroupsSpec(groups, c, carrierId, 0);
      var added := NewGroups(groups, c, carrierId, 0);
      forall i | b <= i < |GroupsOf(next, n)|
        ensures GroupsOf(next, n)[i].carrierId == carrierId
      {
        var k := i - b;
        assert GroupsOf(next, n)[i] == added[k];
        assert added[k - 0] == CarriersGroup(carrierId, groups[c.groupIds[k]], c.ratios[k], c.symbolRate, c.access);
      }
    } else {
      assert GroupsOf(next, n) == GroupsOf(cats, n);
    }
  }

  /** Every carriers group the loop adds carries the carrier id of the entry
      that added it: one of `first` .. `first + |entries| - 1`, growing along
      the category's list. */
  lemma {:induction false} AddEntriesCarrierIds(cats: map<string, seq<CarriersGroup>>, groups: map<nat, FmtGroup>,
                                                entries: seq<DistEntry>, first: nat, n: string)
    requires AddEntries(cats, groups, entries, first).Success?
    requires n in AddEntries(cats, groups, entries, first).value
    ensures var r := AddEntries(cats, groups, entries, first).value;
      forall i :: |GroupsOf(cats, n)| <= i < |r[n]| ==> first <= r[n][i].carrierId < first + |entries|
    ensures var r := AddEntries(cats, groups, entries, first).value;
      forall i, j :: |GroupsOf(cats, n)| <= i <= j < |r[n]| ==> r[n][i].carrierId <= r[n][j].carrierId
    decreases |entries|
  {
    if |entries| > 0 {
      var c := ReadEntry(entries[0]).value;
      var next := AddCarriers(cats, groups, c, first, 0).value;
      var r: map<string, seq<CarriersGroup>> := AddEntries(next, groups, entries[1..], first + 1).value;
      AddEntriesCarrierIds(next, groups, entries[1..], first + 1, n);
      AddEntriesExtends(next, groups, entries[1..], first + 1, n);
      AddCarriersIds(cats, groups, c, first, n);
      var m := |GroupsOf(next, n)|;
      forall i: int | |GroupsOf(cats, n)| <= i < m
        ensures r[n][i].carrierId == first
      {
        assert r[n][i] == r[n][..m][i];
      }
    }
  }

  /** The categories the band plan gives at least one carrier of the band's
      access type; the others are deleted. */
  function KeepServed(cats: map<string, seq<CarriersGroup>>,
                      carriersOf: (string, seq<CarriersGroup>) -> nat): (r: map<string, seq<CarriersGroup>>)
    ensures forall n :: n in r <==> n in cats && carriersOf(n, cats[n]) > 0
    ensures forall n :: n in r ==> r[n] == cats[n]
  {
    map n | n in cats && carriersOf(n, cats[n]) > 0 :: cats[n]
  }

  /** The terminal affectation list: every entry needs a terminal id and a
      category; a terminal whose category is not in `cats` is affected to
      NULL explicitly. A later entry for the same terminal overrides. */
  function Affect(entries: seq<AffEntry>, cats: map<string, seq<CarriersGroup>>,
                  aff: map<nat, Option<string>>): (r: Result<map<nat, Option<string>>, BandError>)
    ensures r.Failure? ==> r.error == MissingTalId || r.error == MissingAffCategory
    ensures r.Success? ==> forall t :: t in aff ==> t in r.value
    decreases |entries|
  {
    if |entries| == 0 then Success(aff)
    else
      var e := entries[0];
      if e.talId.None? then Failure(MissingTalId)
      else if e.category.None? then Failure(MissingAffCategory)
      else
        var target := if e.category.value in cats then Some(e.category.value) else None;
        Affect(entries[1..], cats, aff[e.talId.value := target])
  }

  /** The list is accepted exactly when every entry is complete, and then
      the terminals affected are the earlier ones and those it names. */
  lemma {:induction false} AffectSpec(entries: seq<AffEntry>, cats: map<string, seq<CarriersGroup>>,
                                      aff: map<nat, Option<string>>, t: nat)
    ensures Affect(entries, cats, aff).Success? <==>
      forall k :: 0 <= k < |entries| ==> entries[k].talId.Some? && entries[k].category.Some?
    ensures Affect(entries, cats, aff).Success? ==>
      (t in Affect(entries, cats, aff).value <==>
       t in aff || exists k :: 0 <= k < |entries| && entries[k].talId == Some(t))
    decreases |entries|
  {
    if |entries| > 0 && entries[0].talId.Some? && entries[0].category.Some? {
      var e := entries[0];
      var target := if e.category.value in cats then Some(e.category.value) else None;
      var next := aff[e.talId.value := target];
      AffectSpec(entries[1..], cats, next, t);
      if forall k :: 0 <= k < |entries[1..]| ==> entries[1..][k].talId.Some? && entries[1..][k].category.Some? {
        forall k | 0 <= k < |entries|
          ensures entries[k].talId.Some? && entries[k].category.Some?
        {
          if k > 0 {
            assert entries[k] == entries[1..][k - 1];
          }
        }
      } else {
        var k :| 0 <= k < |entries[1..]| && !(entries[1..][k].talId.Some? && entries[1..][k].category.Some?);
        assert entries[k + 1] == entries[1..][k];
      }
      if (exists k :: 0 <= k < |entries[1..]| && entries[1..][k].talId == Some(t)) {
        var k :| 0 <= k < |entries[1..]| && entries[1..][k].talId == Some(t);
        assert entries[k + 1].talId == Some(t);
      }
      if exists k :: 0 <= k < |entries| && entries[k].talId == Some(t) {
        var k :| 0 <= k < |entries| && entries[k].talId == Some(t);
        if k > 0 {
          assert entries[1..][k - 1].talId == Some(t);
        }
      }
    }
  }

  /** A terminal is only ever affected to a category of `cats` or to NULL,
      unless no entry names it. */
  lemma {:induction false} AffectTargets(entries: seq<AffEntry>, cats: map<string, seq<CarriersGroup>>,
                                         aff: map<nat, Option<string>>, t: nat)
    requires Affect(entries, cats, aff).Success?
    requires t in Affect(entries, cats, aff).value
    ensures var v := Affect(entries, cats, aff).value[t];
      (v.Some? ==> v.value in cats) || (t in aff && v == aff[t])
    decreases |entries|
  {
    if |entries| > 0 {
      var e := entries[0];
      var target := if e.category.value in cats then Some(e.category.value) else None;
      AffectTargets(entries[1..], cats, aff[e.talId.value := target], t);
    }
  }

  /** The last entry for terminal `t` decides its affectation: the named
      category when it exists, an explicit NULL otherwise. */
  lemma {:induction false} AffectLastWins(entries: seq<AffEntry>, cats: map<string, seq<CarriersGroup>>,
                                          aff: map<nat, Option<string>>, k: nat)
    requires Affect(entries, cats, aff).Success?
    requires k < |entries| && entries[k].talId.Some?
    requires forall j :: k < j < |entries| ==> entries[j].talId != entries[k].talId
    ensures var r := Affect(entries, cats, aff).value;
      && entries[k].category.Some?
      && entries[k].talId.value in r
      && r[entries[k].talId.value]
         == if entries[k].category.value in cats then Some(entries[k].category.value) else None
    decreases |entries|
  {
    var e := entries[0];
    var target := if e.category.value in cats then Some(e.category.value) else None;
    var next := aff[e.talId.value := target];
    if k > 0 {
      forall j | k - 1 < j < |entries[1..]|
        ensures entries[1..][j].talId != entries[1..][k - 1].talId
      {
        assert entries[1..][j] == entries[j + 1];
      }
      AffectLastWins(entries[1..], cats, next, k - 1);
    } else {
      AffectKeeps(entries[1..], cats, next, e.talId.value);
    }
  }

  /** A terminal no entry names keeps its affectation. */
  lemma {:induction false} AffectKeeps(entries: seq<AffEntry>, cats: map<string, seq<CarriersGroup>>,
                                       aff: map<nat, Option<string>>, t: nat)
    requires Affect(entries, cats, aff).Success?
    requires t in aff
    requires forall j :: 0 <= j < |entries| ==> entries[j].talId != Some(t)
    ensures Affect(entries, cats, aff).value[t] == aff[t]
    decreases |entries|
  {
    if |entries| > 0 {
      var e := entries[0];
      var target := if e.category.value in cats then Some(e.category.value) else None;
      forall j | 0 <= j < |entries[1..]|
        ensures entries[1..][j].talId != Some(t)
      {
        assert entries[1..][j] == entries[j + 1];
      }
      AffectKeeps(entries[1..], cats, aff[e.talId.value := target], t);
    }
  }

  /** `initBand`: the band's section read in the source's order. When the
      band plan leaves no category with a carrier of the band's access type,
      the default category and the affectations are not read and stay as
      they were. */
  function InitBand(conf: BandConf, prior: Band, env: BandEnv): (r: Result<Band, BandError>)
    ensures r.Success? ==> forall id :: id in prior.groups ==>
      (id in r.value.groups && r.value.groups[id] == prior.groups[id])
    ensures r.Success? ==> forall n :: n in r.value.categories ==>
      env.carriersOf(n, r.value.categories[n]) > 0
    ensures r.Success? ==> r.value.defaultCategory.Some? ==>
      r.value.defaultCategory.value in r.value.categories || r.value.defaultCategory == prior.defaultCategory
    ensures r.Success? ==> conf.groups.Some? && conf.distribution.Some?
    ensures r.Success? ==> forall k :: 0 <= k < |conf.distribution.value| ==>
      ReadEntry(conf.distribution.value[k]).Success? &&
      GroupsUsable(ReadEntry(conf.distribution.value[k]).value.groupIds, r.value.groups)
    ensures r.Success? ==> env.bandplanOk
  {
    if !conf.hasBandwidth then Failure(MissingBandwidth)
    else if !conf.hasRollOff then Failure(MissingRollOff)
    else if conf.groups.None? then Failure(MissingGroupList)
    else
      match LoadGroups(conf.groups.value, prior.groups, env.fmtIdsOf)
      case Failure(e) => Failure(e)
      case Success(groups) =>
        if conf.distribution.None? then Failure(MissingDistribution)
        else
          match AddEntries(prior.categories, groups, conf.distribution.value, 0)
          case Failure(e) => Failure(e)
          case Success(cats) =>
            AddEntriesReads(prior.categories, groups, conf.distribution.value, 0);
            if !env.bandplanOk then Failure(BandplanFailed)
            else
              var kept := KeepServed(cats, env.carriersOf);
              if |kept| == 0 then Success(prior.(groups := groups, categories := kept))
              else if conf.defaultCategory.None? then Failure(MissingDefault)
              else
                var name := conf.defaultCategory.value;
                var dflt := if name in kept then Some(name) else None;
                if conf.affectations.None? then Failure(MissingAffectations)
                else
                  match Affect(conf.affectations.value, kept, prior.affectation)
                  case Failure(e) => Failure(e)
                  case Success(aff) => Success(Band(groups, kept, dflt, aff))
  }

  /** A distribution entry whose ratio and FMT group lists differ in length
      makes `initBand` fail, whatever else the entry holds. */
  lemma InitBandRejectsMismatch(conf: BandConf, prior: Band, env: BandEnv, k: nat)
    requires conf.distribution.Some? && k < |conf.distribution.value|
    requires conf.distribution.value[k].ratio.Some? && conf.distribution.value[k].fmtGroup.Some?
    requires |TempSplit(conf.distribution.value[k].ratio.value)|
             != |TempSplit(conf.distribution.value[k].fmtGroup.value)|
    ensures InitBand(conf, prior, env).Failure?
  {
  }

  /** A non-VCM entry with several FMT groups makes `initBand` fail. */
  lemma InitBandRejectsNonVcmList(conf: BandConf, prior: Band, env: BandEnv, k: nat)
    requires conf.distribution.Some? && k < |conf.distribution.value|
    requires conf.distribution.value[k].fmtGroup.Some? && conf.distribution.value[k].access.Some?
    requires conf.distribution.value[k].access.value != "VCM"
    requires |TempSplit(conf.distribution.value[k].fmtGroup.value)| > 1
    ensures InitBand(conf, prior, env).Failure?
  {
  }
}

=== FILE: block_encap.dfy ===
/** The generic encapsulation block (opensand-core/src/encap/BlockEncap.cpp):
    the chains of encapsulation contexts it builds at start-up, the link-up
    message from the MAC layer, encapsulation of bursts from the upper
    layer with the timers that flush pending contexts, and de-encapsulation
    of bursts from the lower layer. What each plugin context does to a
    burst is a parameter. */
module BlockEncap {
  import opened Wrappers
  import opened OpenSandCore
  import opened StackPlugin

  /** A burst of packets, named after their protocol; the packets are
      opaque to the block. */
  datatype Burst = Burst(name: string, packets: seq<nat>)

  /** An encapsulation context of a plugin, with the terminal id it filters
      on at reception (`setFilterTalId`), none until one is set. */
  datatype EncapContext = EncapContext(ctx: Context, filterTalId: Option<int>)

  /** The packet handler of a plugin carries the plugin's protocol name. */
  function HandlerOf(p: Plugin): Handler {
    Handler(p.name)
  }

  /** Whether a context of `p` takes packets from a handler named
      `upper` on a payload of type `t`. */
  predicate Accepts(p: Plugin, upper: string, t: SatType) {
    upper in UpperOf(p, t)
  }

  // ---------------------------------------------------------------------
  // Start-up: the two chains and their orientation
  // ---------------------------------------------------------------------

  datatype InitError =
    | MissingSatType
    | MissingLanList
    | MissingLanName
    | MissingLanPlugin(name: string)
    | MissingEncapList
    | MissingEncapName
    | MissingEncapPlugin(name: string)
    | UnsupportedUpper(name: string)

  /** The configuration `onInit` reads: the satellite type, and the three
      scheme lists by position, a missing list being `None` and a position
      with no name being `None`. */
  datatype Config = Config(
    satType: Option<string>,
    lanSchemes: Option<seq<Option<string>>>,
    upReturn: Option<seq<Option<string>>>,
    downForward: Option<seq<Option<string>>>)

  /** The plugins that can be loaded, by name. */
  datatype Plugins = Plugins(lan: map<string, Plugin>, encap: map<string, Plugin>)

  /** The name of the handler above position `i` of a chain whose top is
      handled by `first`: `first` itself, or the plugin at position i-1. */
  function UpperName(names: seq<Option<string>>, encap: map<string, Plugin>, first: string, i: nat): string {
    if i == 0 || i > |names| then first
    else match names[i - 1]
      case Some(n) => if n in encap then encap[n].name else ""
      case None => ""
  }

  /** Reference definition of a chain that builds: every position names a
      loaded plugin whose context accepts the handler above it. */
  predicate ChainOk(names: seq<Option<string>>, encap: map<string, Plugin>, first: string, t: SatType) {
    forall i :: 0 <= i < |names| ==>
      names[i].Some? && names[i].value in encap && Accepts(encap[names[i].value], UpperName(names, encap, first, i), t)
  }

  /** The context at position `i` of a chain that builds: that of the
      plugin named there, bound to the handler above it, with no filter. */
  function ChainContext(names: seq<Option<string>>, encap: map<string, Plugin>, first: string, i: nat): EncapContext
    requires i < |names| && names[i].Some? && names[i].value in encap
  {
    EncapContext(Context(encap[names[i].value], Some(Handler(UpperName(names, encap, first, i)))), None)
  }

  /** One of the two loops of `onInit`: from the upper layer down, each
      context is bound to the handler of the layer above it, and the first
      missing name, missing plugin or refused handler fails. */
  function BuildChain(names: seq<Option<string>>, encap: map<string, Plugin>, first: string, t: SatType): (r: Result<seq<EncapContext>, InitError>)
    ensures r.Success? ==> |r.value| == |names|
    decreases |names|
  {
    if names == [] then Success([])
    else match names[0]
      case None => Failure(MissingEncapName)
      case Some(n) =>
        if n !in encap then Failure(MissingEncapPlugin(n))
        else
          var (ctx, ok) := SetUpperPacketHandler(Context(encap[n], None), Some(Handler(first)), t);
          if !ok then Failure(UnsupportedUpper(n))
          else match BuildChain(names[1..], encap, encap[n].name, t)
            case Failure(e) => Failure(e)
            case Success(rest) => Success([EncapContext(ctx, None)] + rest)
  }

  lemma UpperNameTail(names: seq<Option<string>>, encap: map<string, Plugin>, first: string, i: nat)
    requires 0 < i < |names| && names[0].Some? && names[0].value in encap
    ensures UpperName(names, encap, first, i) == UpperName(names[1..], encap, encap[names[0].value].name, i - 1)
  {
  }

  /** The chain builds exactly when the reference definition holds. */
  lemma {:induction false} BuildChainOk(names: seq<Option<string>>, encap: map<string, Plugin>, first: string, t: SatType)
    ensures BuildChain(names, encap, first, t).Success? <==> ChainOk(names, encap, first, t)
    decreases |names|
  {
    if names != [] && names[0].Some? && names[0].value in encap {
      var n := names[0].value;
      var tail := names[1..];
      var up := encap[n].name;
      BuildChainOk(tail, encap, up, t);
      forall i | 0 < i < |names|
        ensures UpperName(names, encap, first, i) == UpperName(tail, encap, up, i - 1)
      {
        UpperNameTail(names, encap, first, i);
      }
      if ChainOk(names, encap, first, t) {
        assert Accepts(encap[n], UpperName(names, encap, first, 0), t);
        forall j | 0 <= j < |tail|
          ensures tail[j].Some? && tail[j].value in encap && Accepts(encap[tail[j].value], UpperName(tail, encap, up, j), t)
        {
          assert tail[j] == names[j + 1];
        }
      }
      if ChainOk(tail, encap, up, t) && Accepts(encap[n], first, t) {
        forall i | 0 < i < |names|
          ensures names[i].Some? && names[i].value in encap && Accepts(encap[names[i].value], UpperName(names, encap, first, i), t)
        {
          assert names[i] == tail[i - 1];
        }
      }
    }
  }

  /** A chain that builds holds, in order, the contexts of the named
      plugins, each bound to the handler of the layer above. */
  lemma {:induction false} BuildChainContexts(names: seq<Option<string>>, encap: map<string, Plugin>, first: string, t: SatType)
    requires BuildChain(names, encap, first, t).Success?
    ensures forall i :: 0 <= i < |names| ==>
      names[i].Some? && names[i].value in encap && BuildChain(names, encap, first, t).value[i] == ChainContext(names, encap, first, i)
    decreases |names|
  {
    if names != [] {
      var n := names[0].value;
      var tail := names[1..];
      var up := encap[n].name;
      BuildChainContexts(tail, encap, up, t);
      var r := BuildChain(names, encap, first, t).value;
      var rest := BuildChain(tail, encap, up, t).value;
      assert r == [EncapContext(Context(encap[n], Some(Handler(first))), None)] + rest;
      forall i | 0 < i < |names|
        ensures names[i].Some? && names[i].value in encap && r[i] == ChainContext(names, encap, first, i)
      {
        UpperNameTail(names, encap, first, i);
        assert names[i] == tail[i - 1];
        assert r[i] == rest[i - 1];
      }
    }
  }

  /** The block: the host it runs on, the ids of the link-up message, the
      emission and reception chains, and the armed flush timers, from
      timer event id to context id. */
  datatype Block = Block(
    host: Component,
    groupId: int,
    talId: int,
    linkUp: bool,
    emission: seq<EncapContext>,
    reception: seq<EncapContext>,
    timers: map<nat, nat>)

  /** The block as constructed: ids -1, link down, nothing configured. */
  function NewBlock(host: Component): (b: Block)
    ensures !b.linkUp && b.emission == [] && b.reception == [] && b.timers == map[]
  {
    Block(host, -1, -1, false, [], [], map[])
  }

  /** The sequence in the opposite order (`std::reverse`). */
  function Reverse<T>(s: seq<T>): (r: seq<T>)
    ensures |r| == |s|
    ensures forall i :: 0 <= i < |s| ==> r[i] == s[|s| - 1 - i]
  {
    seq(|s|, i requires 0 <= i < |s| => s[|s| - 1 - i])
  }

  lemma ReverseReverse<T>(s: seq<T>)
    ensures Reverse(Reverse(s)) == s
  {
    assert forall i :: 0 <= i < |s| ==> Reverse(Reverse(s))[i] == s[i];
  }

  // ---------------------------------------------------------------------
  // One context per plugin
  // ---------------------------------------------------------------------

  /** Whether some context of `ctxs` belongs to plugin `p`. */
  predicate InChain(ctxs: seq<EncapContext>, p: Plugin) {
    exists j :: 0 <= j < |ctxs| && ctxs[j].ctx.plugin == p
  }

  /** A plugin has a single context (`getContext`), so binding it again
      replaces what an earlier binding set. The state the bindings of
      `all`, made in order, leave in the context of `c`'s plugin: the last
      of them for that plugin, or `c` itself when there is none. */
  function LastOf(all: seq<EncapContext>, c: EncapContext): (r: EncapContext)
    ensures r.ctx.plugin == c.ctx.plugin
    ensures InChain(all, c.ctx.plugin) ==> r in all
    ensures !InChain(all, c.ctx.plugin) ==> r == c
    decreases |all|
  {
    if all == [] then c
    else
      var init := all[..|all| - 1];
      if all[|all| - 1].ctx.plugin == c.ctx.plugin then all[|all| - 1]
      else
        assert InChain(all, c.ctx.plugin) ==> InChain(init, c.ctx.plugin) by {
          if InChain(all, c.ctx.plugin) {
            var j :| 0 <= j < |all| && all[j].ctx.plugin == c.ctx.plugin;
            assert init[j] == all[j];
          }
        }
        assert InChain(init, c.ctx.plugin) ==> InChain(all, c.ctx.plugin) by {
          if InChain(init, c.ctx.plugin) {
            var j :| 0 <= j < |init| && init[j].ctx.plugin == c.ctx.plugin;
            assert all[j] == init[j];
          }
        }
        LastOf(init, c)
  }

  /** Once a plugin has been bound, its state does not depend on which of
      its contexts asks. */
  lemma {:induction false} LastOfPlugin(all: seq<EncapContext>, c1: EncapContext, c2: EncapContext)
    requires InChain(all, c1.ctx.plugin) && c1.ctx.plugin == c2.ctx.plugin
    ensures LastOf(all, c1) == LastOf(all, c2)
    decreases |all|
  {
    var init := all[..|all| - 1];
    if all[|all| - 1].ctx.plugin != c1.ctx.plugin {
      var j :| 0 <= j < |all| && all[j].ctx.plugin == c1.ctx.plugin;
      assert init[j] == all[j];
      LastOfPlugin(init, c1, c2);
    }
  }

  /** A later run of bindings that binds the plugin again decides its
      state alone. */
  lemma {:induction false} LastOfLater(a: seq<EncapContext>, b: seq<EncapContext>, c: EncapContext)
    requires InChain(b, c.ctx.plugin)
    ensures LastOf(a + b, c) == LastOf(b, c)
    decreases |b|
  {
    var ab := a + b;
    var binit := b[..|b| - 1];
    assert ab[..|ab| - 1] == a + binit;
    assert ab[|ab| - 1] == b[|b| - 1];
    if b[|b| - 1].ctx.plugin != c.ctx.plugin {
      var j :| 0 <= j < |b| && b[j].ctx.plugin == c.ctx.plugin;
      assert binit[j] == b[j];
      LastOfLater(a, binit, c);
    }
  }

  /** Each position of `chain` showing the state its plugin's context is
      left in by the bindings of `all`. */
  function Share(chain: seq<EncapContext>, all: seq<EncapContext>): (r: seq<EncapContext>)
    ensures |r| == |chain|
    ensures forall i :: 0 <= i < |chain| ==> r[i] == LastOf(all, chain[i])
  {
    seq(|chain|, i requires 0 <= i < |chain| => LastOf(all, chain[i]))
  }

  /** Whether positions of the same plugin show the same context. */
  predicate Shared(ctxs: seq<EncapContext>) {
    forall i, j :: 0 <= i < |ctxs| && 0 <= j < |ctxs| && ctxs[i].ctx.plugin == ctxs[j].ctx.plugin ==> ctxs[i] == ctxs[j]
  }

  /** Whether every position shows the state the bindings of `all` leave
      in its plugin's context, every plugin having been bound. */
  predicate Settled(ctxs: seq<EncapContext>, all: seq<EncapContext>) {
    forall i :: 0 <= i < |ctxs| ==> InChain(all, ctxs[i].ctx.plugin) && ctxs[i] == LastOf(all, ctxs[i])
  }

  /** Positions of chains bound within `all` are settled. */
  lemma ShareSettles(chain: seq<EncapContext>, all: seq<EncapContext>)
    requires forall i :: 0 <= i < |chain| ==> InChain(all, chain[i].ctx.plugin)
    ensures Settled(Share(chain, all), all)
  {
    var r := Share(chain, all);
    forall i | 0 <= i < |chain|
      ensures InChain(all, r[i].ctx.plugin) && r[i] == LastOf(all, r[i])
    {
      LastOfPlugin(all, chain[i], r[i]);
    }
  }

  /** Settled positions of the same plugin show the same context. */
  lemma SettledShared(ctxs: seq<EncapContext>, all: seq<EncapContext>)
    requires Settled(ctxs, all)
    ensures Shared(ctxs)
  {
    forall i, j | 0 <= i < |ctxs| && 0 <= j < |ctxs| && ctxs[i].ctx.plugin == ctxs[j].ctx.plugin
      ensures ctxs[i] == ctxs[j]
    {
      LastOfPlugin(all, ctxs[i], ctxs[j]);
    }
  }

  /** Every position of a chain belongs to a plugin of any sequence that
      contains the chain. */
  lemma ChainInside(a: seq<EncapContext>, b: seq<EncapContext>)
    ensures forall i :: 0 <= i < |a| ==> InChain(a + b, a[i].ctx.plugin)
    ensures forall i :: 0 <= i < |b| ==> InChain(a + b, b[i].ctx.plugin)
  {
    forall i | 0 <= i < |a| ensures InChain(a + b, a[i].ctx.plugin) {
      assert (a + b)[i] == a[i];
    }
    forall i | 0 <= i < |b| ensures InChain(a + b, b[i].ctx.plugin) {
      assert (a + b)[|a| + i] == b[i];
    }
  }

  lemma SettledJoin(a: seq<EncapContext>, b: seq<EncapContext>, all: seq<EncapContext>)
    requires Settled(a, all) && Settled(b, all)
    ensures Settled(a + b, all) && Settled(Reverse(b), all)
  {
    forall i | 0 <= i < |a + b|
      ensures InChain(all, (a + b)[i].ctx.plugin) && (a + b)[i] == LastOf(all, (a + b)[i])
    {
      if i >= |a| {
        assert (a + b)[i] == b[i - |a|];
      }
    }
  }

  /** The name of the last lan adaptation scheme, whose handler tops both
      chains. */
  function LastLanName(schemes: seq<Option<string>>): Option<string> {
    if schemes == [] then None else schemes[|schemes| - 1]
  }

  /** Whether the block emits on the up/return link: terminals, and every
      host of a regenerative system. */
  predicate EmitsUpReturn(host: Component, satType: string) {
    host == Terminal || satType == "regenerative"
  }

  /** `onInit`: reads the satellite type, the last lan adaptation scheme
      and its plugin, then builds the up/return and down/forward chains
      under that plugin's handler. Emission takes the up/return chain on a
      terminal or a regenerative system and the down/forward one otherwise;
      reception takes the other, reversed so that it runs from the lowest
      layer up. A plugin named more than once, in either chain, has one
      context, which keeps the handler its last binding set: the
      down/forward loop runs second, so its bindings win. Any failure
      leaves the block as it was. */
  function OnInit(b: Block, conf: Config, plugins: Plugins): (r: Result<Block, InitError>)
    ensures r.Success? ==>
      && conf.satType.Some? && conf.upReturn.Some? && conf.downForward.Some?
      && r.value == b.(emission := r.value.emission, reception := r.value.reception)
    ensures r.Success? ==>
      && conf.satType.Some? && conf.upReturn.Some? && conf.downForward.Some?
      && var t := StrToSatType(conf.satType.value);
      && BuildChain(conf.upReturn.value, plugins.encap, LanTop(conf, plugins), t).Success?
      && BuildChain(conf.downForward.value, plugins.encap, LanTop(conf, plugins), t).Success?
      && var up := BuildChain(conf.upReturn.value, plugins.encap, LanTop(conf, plugins), t).value;
      && var down := BuildChain(conf.downForward.value, plugins.encap, LanTop(conf, plugins), t).value;
      && var all := up + down;
      if EmitsUpReturn(b.host, conf.satType.value)
      then r.value.emission == Share(up, all) && r.value.reception == Reverse(Share(down, all))
      else r.value.emission == Share(down, all) && r.value.reception == Reverse(Share(up, all))
  {
    if conf.satType.None? then Failure(MissingSatType)
    else if conf.lanSchemes.None? then Failure(MissingLanList)
    else match LastLanName(conf.lanSchemes.value)
      case None => Failure(MissingLanName)
      case Some(lan) =>
        if lan !in plugins.lan then Failure(MissingLanPlugin(lan))
        else if conf.upReturn.None? then Failure(MissingEncapList)
        else
          var t := StrToSatType(conf.satType.value);
          var top := plugins.lan[lan].name;
          match BuildChain(conf.upReturn.value, plugins.encap, top, t)
          case Failure(e) => Failure(e)
          case Success(up) =>
            if conf.downForward.None? then Failure(MissingEncapList)
            else match BuildChain(conf.downForward.value, plugins.encap, top, t)
              case Failure(e) => Failure(e)
              case Success(down) =>
                var all := up + down;
                if EmitsUpReturn(b.host, conf.satType.value)
                then Success(b.(emission := Share(up, all), reception := Reverse(Share(down, all))))
                else Success(b.(emission := Share(down, all), reception := Reverse(Share(up, all))))
  }

  /** The handler name on top of both chains when the lan adaptation
      plugin is found, the empty name otherwise. */
  function LanTop(conf: Config, plugins: Plugins): string {
    if conf.lanSchemes.None? then ""
    else match LastLanName(conf.lanSchemes.value)
      case None => ""
      case Some(lan) => if lan in plugins.lan then plugins.lan[lan].name else ""
  }

  /** Start-up succeeds exactly when every setting is present and both
      chains satisfy the reference definition. */
  lemma OnInitSucceeds(b: Block, conf: Config, plugins: Plugins)
    ensures OnInit(b, conf, plugins).Success? <==>
      && conf.satType.Some? && conf.lanSchemes.Some?
      && LastLanName(conf.lanSchemes.value).Some? && LastLanName(conf.lanSchemes.value).value in plugins.lan
      && conf.upReturn.Some? && conf.downForward.Some?
      && ChainOk(conf.upReturn.value, plugins.encap, LanTop(conf, plugins), StrToSatType(conf.satType.value))
      && ChainOk(conf.downForward.value, plugins.encap, LanTop(conf, plugins), StrToSatType(conf.satType.value))
  {
    if conf.satType.Some? && conf.upReturn.Some? && conf.downForward.Some? {
      var t := StrToSatType(conf.satType.value);
      BuildChainOk(conf.upReturn.value, plugins.encap, LanTop(conf, plugins), t);
      BuildChainOk(conf.downForward.value, plugins.encap, LanTop(conf, plugins), t);
    }
  }

  /** After start-up every position of a plugin, in either chain, shows
      the one context of that plugin, in the state its last binding left,
      and a plugin the down/forward chain binds has the handler that chain
      gave it. */
  lemma OnInitShares(b: Block, conf: Config, plugins: Plugins)
    requires OnInit(b, conf, plugins).Success?
    ensures var r := OnInit(b, conf, plugins).value;
      Shared(r.emission + r.reception)
    ensures var r := OnInit(b, conf, plugins).value;
      var t := StrToSatType(conf.satType.value);
      var down := BuildChain(conf.downForward.value, plugins.encap, LanTop(conf, plugins), t).value;
      forall c :: c in r.emission + r.reception && InChain(down, c.ctx.plugin) ==> c == LastOf(down, c)
  {
    var r := OnInit(b, conf, plugins).value;
    var t := StrToSatType(conf.satType.value);
    var up := BuildChain(conf.upReturn.value, plugins.encap, LanTop(conf, plugins), t).value;
    var down := BuildChain(conf.downForward.value, plugins.encap, LanTop(conf, plugins), t).value;
    var all := up + down;
    ChainInside(up, down);
    ShareSettles(up, all);
    ShareSettles(down, all);
    SettledJoin(Share(up, all), Share(down, all), all);
    SettledJoin(Share(down, all), Share(up, all), all);
    assert Settled(r.emission + r.reception, all) by {
      if EmitsUpReturn(b.host, conf.satType.value) {
        SettledJoin(Share(up, all), Reverse(Share(down, all)), all);
      } else {
        SettledJoin(Share(down, all), Reverse(Share(up, all)), all);
      }
    }
    SettledShared(r.emission + r.reception, all);
    forall c | c in r.emission + r.reception && InChain(down, c.ctx.plugin)
      ensures c == LastOf(down, c)
    {
      LastOfLater(up, down, c);
    }
  }

  /** Whether no plugin appears twice. */
  predicate DistinctPlugins(ctxs: seq<EncapContext>) {
    forall i, j :: 0 <= i < j < |ctxs| ==> ctxs[i].ctx.plugin != ctxs[j].ctx.plugin
  }

  lemma LastOfDistinct(all: seq<EncapContext>, k: nat)
    requires k < |all| && DistinctPlugins(all)
    ensures LastOf(all, all[k]) == all[k]
    decreases |all|
  {
    if k < |all| - 1 {
      var init := all[..|all| - 1];
      assert init[k] == all[k];
      LastOfDistinct(init, k);
    }
  }

  /** When no plugin is named twice across both chains, each chain keeps
      the contexts its own loop bound. */
  lemma ShareDistinct(up: seq<EncapContext>, down: seq<EncapContext>)
    requires DistinctPlugins(up + down)
    ensures Share(up, up + down) == up && Share(down, up + down) == down
  {
    var all := up + down;
    forall i | 0 <= i < |up| ensures Share(up, all)[i] == up[i] {
      assert all[i] == up[i];
      LastOfDistinct(all, i);
    }
    forall i | 0 <= i < |down| ensures Share(down, all)[i] == down[i] {
      assert all[|up| + i] == down[i];
      LastOfDistinct(all, |up| + i);
    }
  }

  /** In a transparent system configured alike, a gateway de-encapsulates
      in exactly the reverse order in which a terminal encapsulates, and
      the other way round. */
  lemma TransparentPeersMirror(conf: Config, plugins: Plugins)
    requires conf.satType == Some("transparent")
    requires OnInit(NewBlock(Terminal), conf, plugins).Success?
    ensures OnInit(NewBlock(Gateway), conf, plugins).Success?
    ensures
      var st := OnInit(NewBlock(Terminal), conf, plugins).value;
      var gw := OnInit(NewBlock(Gateway), conf, plugins).value;
      gw.reception == Reverse(st.emission) && st.reception == Reverse(gw.emission)
  {
    var st := OnInit(NewBlock(Terminal), conf, plugins).value;
    var gw := OnInit(NewBlock(Gateway), conf, plugins).value;
    ReverseReverse(st.reception);
    ReverseReverse(gw.reception);
  }

  // ---------------------------------------------------------------------
  // Link up
  // ---------------------------------------------------------------------

  /** `setFilterTalId` on the contexts of the plugins of `recv`: every
      context of `ctxs` of one of those plugins filters on `talId`, and the
      others are unchanged. */
  function SetFilters(ctxs: seq<EncapContext>, recv: seq<EncapContext>, talId: int): (r: seq<EncapContext>)
    ensures |r| == |ctxs|
    ensures forall i :: 0 <= i < |ctxs| ==> r[i].ctx == ctxs[i].ctx
    ensures forall i :: 0 <= i < |ctxs| && InChain(recv, ctxs[i].ctx.plugin) ==> r[i].filterTalId == Some(talId)
    ensures forall i :: 0 <= i < |ctxs| && !InChain(recv, ctxs[i].ctx.plugin) ==> r[i] == ctxs[i]
  {
    seq(|ctxs|, i requires 0 <= i < |ctxs| =>
      if InChain(recv, ctxs[i].ctx.plugin) then ctxs[i].(filterTalId := Some(talId)) else ctxs[i])
  }

  /** The link-up message from the MAC layer (`onUpwardEvent`): a second
      one fails and changes nothing. The first records both ids and sets
      the link up, then is forwarded upwards; if forwarding fails the
      result is false and no filter changes, otherwise each reception
      context filters on the terminal id. A plugin has one context, so an
      emission position of a plugin that also receives gets the filter
      too. */
  function OnLinkUp(b: Block, groupId: int, talId: int, forwardOk: bool): (r: (Block, bool))
    ensures b.linkUp ==> r == (b, false)
    ensures !b.linkUp ==> r.1 == forwardOk
    ensures !b.linkUp ==>
      && r.0.linkUp && r.0.groupId == groupId && r.0.talId == talId
      && r.0.host == b.host && r.0.timers == b.timers
      && |r.0.reception| == |b.reception| && |r.0.emission| == |b.emission|
    ensures !b.linkUp && forwardOk ==>
      forall i :: 0 <= i < |b.reception| ==> r.0.reception[i] == b.reception[i].(filterTalId := Some(talId))
    ensures !b.linkUp && forwardOk ==>
      forall i :: 0 <= i < |b.emission| ==>
        r.0.emission[i] == if InChain(b.reception, b.emission[i].ctx.plugin) then b.emission[i].(filterTalId := Some(talId)) else b.emission[i]
    ensures !b.linkUp && !forwardOk ==> r.0.reception == b.reception && r.0.emission == b.emission
  {
    if b.linkUp then (b, false)
    else
      var b1 := b.(groupId := groupId, talId := talId, linkUp := true);
      if !forwardOk then (b1, false)
      else
        assert forall i :: 0 <= i < |b.reception| ==> InChain(b.reception, b.reception[i].ctx.plugin);
        (b1.(reception := SetFilters(b.reception, b.reception, talId), emission := SetFilters(b.emission, b.reception, talId)), true)
  }

  /** Link-up keeps the contexts of one plugin alike. */
  lemma LinkUpKeepsShared(b: Block, groupId: int, talId: int, forwardOk: bool)
    requires Shared(b.emission + b.reception)
    ensures var b1 := OnLinkUp(b, groupId, talId, forwardOk).0;
      Shared(b1.emission + b1.reception)
  {
    var b1 := OnLinkUp(b, groupId, talId, forwardOk).0;
    if !b.linkUp && forwardOk {
      var before := b.emission + b.reception;
      var after := b1.emission + b1.reception;
      assert forall i :: 0 <= i < |b.reception| ==> InChain(b.reception, b.reception[i].ctx.plugin);
      assert forall i :: 0 <= i < |before| ==>
        after[i] == if InChain(b.reception, before[i].ctx.plugin) then before[i].(filterTalId := Some(talId)) else before[i] by {
        forall i | 0 <= i < |before|
          ensures after[i] == if InChain(b.reception, before[i].ctx.plugin) then before[i].(filterTalId := Some(talId)) else before[i]
        {
          if i >= |b.emission| {
            assert before[i] == b.reception[i - |b.emission|];
            assert after[i] == b1.reception[i - |b.emission|];
          } else {
            assert before[i] == b.emission[i] && after[i] == b1.emission[i];
          }
        }
      }
    }
  }

  /** Only the first link-up counts: any later one returns false and keeps
      the ids and filters the first one set. */
  lemma LinkUpOnce(b: Block, g1: int, t1: int, ok1: bool, g2: int, t2: int, ok2: bool)
    ensures var b1 := OnLinkUp(b, g1, t1, ok1).0;
      OnLinkUp(b1, g2, t2, ok2) == (b1, false) && b1.linkUp
  {
  }

  // ---------------------------------------------------------------------
  // Encapsulation chains
  // ---------------------------------------------------------------------

  /** Whether the entries of a `time_contexts` map are in ascending order
      of delay, each delay once. */
  predicate Ascending(tc: seq<(int, nat)>) {
    forall i, j :: 0 <= i < j < |tc| ==> tc[i].0 < tc[j].0
  }

  /** The `time_contexts` map the emission contexts fill, from a delay to
      the id of the context left waiting for a flush after it. A
      `std::map<long, int>` holds a delay at most once and is walked in
      ascending order of delay, so it is kept as its entries in that
      order. */
  type TimeContexts = tc: seq<(int, nat)> | Ascending(tc) witness []

  /** What `encapsulate` of a context does to a burst and to the
      `time_contexts` map it is handed by reference: the burst it gives and
      the map it leaves, or none on failure. */
  type Encapsulator = (EncapContext, Burst, TimeContexts) -> Option<(Burst, TimeContexts)>

  /** The burst handed through the contexts in order, every one of them
      updating the same `time_contexts` map; the first failure aborts. An
      empty chain passes the burst and the map through, and a chain of one
      context is that context's step. */
  function EncapChain(ctxs: seq<EncapContext>, burst: Burst, tc: TimeContexts, enc: Encapsulator): (r: Option<(Burst, TimeContexts)>)
    ensures ctxs == [] ==> r == Some((burst, tc))
    ensures |ctxs| == 1 ==> r == enc(ctxs[0], burst, tc)
    decreases |ctxs|
  {
    if ctxs == [] then Some((burst, tc))
    else match enc(ctxs[0], burst, tc)
      case None => None
      case Some(step) => EncapChain(ctxs[1..], step.0, step.1, enc)
  }

  /** Running a chain is running its first part, then the rest on the
      burst and the map that part leaves. */
  lemma {:induction false} EncapChainAppend(a: seq<EncapContext>, c: seq<EncapContext>, burst: Burst, tc: TimeContexts, enc: Encapsulator)
    ensures EncapChain(a + c, burst, tc, enc) ==
      match EncapChain(a, burst, tc, enc)
      case None => None
      case Some(x) => EncapChain(c, x.0, x.1, enc)
    decreases |a|
  {
    if a != [] {
      assert (a + c)[0] == a[0];
      assert (a + c)[1..] == a[1..] + c;
      match enc(a[0], burst, tc)
      case None =>
      case Some(step) =>
        EncapChainAppend(a[1..], c, step.0, step.1, enc);
    } else {
      assert a + c == c;
    }
  }

  /** Whether context `k` is the one that fails: the contexts before it
      all succeed and it refuses the burst and map they leave. */
  predicate FailsAt(ctxs: seq<EncapContext>, burst: Burst, tc: TimeContexts, enc: Encapsulator, k: nat)
    requires k < |ctxs|
  {
    var before := EncapChain(ctxs[..k], burst, tc, enc);
    before.Some? && enc(ctxs[k], before.value.0, before.value.1).None?
  }

  /** A chain fails exactly when some context fails on what the ones
      before it leave. */
  lemma {:induction false} EncapChainFails(ctxs: seq<EncapContext>, burst: Burst, tc: TimeContexts, enc: Encapsulator)
    ensures EncapChain(ctxs, burst, tc, enc).None? <==> exists k :: 0 <= k < |ctxs| && FailsAt(ctxs, burst, tc, enc, k)
    decreases |ctxs|
  {
    if ctxs != [] {
      assert ctxs[..0] == [];
      if enc(ctxs[0], burst, tc).None? {
        assert FailsAt(ctxs, burst, tc, enc, 0);
      } else {
        var step := enc(ctxs[0], burst, tc).value;
        var tail := ctxs[1..];
        EncapChainFails(tail, step.0, step.1, enc);
        forall k | 0 < k <= |ctxs|
          ensures EncapChain(ctxs[..k], burst, tc, enc) == EncapChain(tail[..k - 1], step.0, step.1, enc)
        {
          assert ctxs[..k] == [ctxs[0]] + tail[..k - 1];
          EncapChainAppend([ctxs[0]], tail[..k - 1], burst, tc, enc);
          assert [ctxs[0]][1..] == [];
        }
        if EncapChain(ctxs, burst, tc, enc).None? {
          var j :| 0 <= j < |tail| && FailsAt(tail, step.0, step.1, enc, j);
          assert ctxs[j + 1] == tail[j];
          assert FailsAt(ctxs, burst, tc, enc, j + 1);
        } else {
          forall k | 0 <= k < |ctxs|
            ensures !FailsAt(ctxs, burst, tc, enc, k)
          {
            if k > 0 {
              assert ctxs[k] == tail[k - 1];
              assert !FailsAt(tail, step.0, step.1, enc, k - 1);
            }
          }
        }
      }
    }
  }

  /** What `deencapsulate` of a context does to a burst: the burst it
      gives, or none on failure. */
  type Decapsulator = (EncapContext, Burst) -> Option<Burst>

  /** A de-encapsulation step as an encapsulation step leaving the map as
      it is, so that the chain and its lemmas serve both directions. */
  function AsEncapsulator(dec: Decapsulator): Encapsulator {
    (c: EncapContext, b: Burst, tc: TimeContexts) =>
      match dec(c, b)
      case None => None
      case Some(x) => Some((x, tc))
  }

  // ---------------------------------------------------------------------
  // Flush timers
  // ---------------------------------------------------------------------

  /** Every timer event id is below `next`, the next id handed out. */
  predicate Fresh(timers: map<nat, nat>, next: nat) {
    forall e :: e in timers ==> e < next
  }

  /** At most one timer per context. */
  predicate OneTimerPerContext(timers: map<nat, nat>) {
    forall e1, e2 :: e1 in timers && e2 in timers && timers[e1] == timers[e2] ==> e1 == e2
  }

  /** Whether the map holds the context under a non-zero delay. */
  predicate Requested(tc: TimeContexts, id: nat) {
    exists k :: 0 <= k < |tc| && tc[k].0 != 0 && tc[k].1 == id
  }

  lemma AscendingTail(tc: TimeContexts)
    requires tc != []
    ensures Ascending(tc[1..])
  {
    forall i, j | 0 <= i < j < |tc| - 1
      ensures tc[1..][i].0 < tc[1..][j].0
    {
      assert tc[1..][i] == tc[i + 1] && tc[1..][j] == tc[j + 1];
    }
  }

  /** The timer loop after encapsulation: the entries of the map in
      ascending order of delay, each arming a timer under the next event
      id only when no timer exists for its context and the delay is not
      zero. The event ids handed out are those from `next` up to the
      second result, at most one per entry. */
  function ArmTimers(timers: map<nat, nat>, tc: TimeContexts, next: nat): (r: (map<nat, nat>, nat))
    requires Fresh(timers, next)
    ensures next <= r.1 <= next + |tc| && Fresh(r.0, r.1)
    ensures forall e :: e in r.0 <==> e in timers || next <= e < r.1
    ensures forall e :: e in timers ==> r.0[e] == timers[e]
    decreases |tc|
  {
    if tc == [] then (timers, next)
    else
      AscendingTail(tc);
      var rest: TimeContexts := tc[1..];
      if tc[0].1 !in timers.Values && tc[0].0 != 0 then ArmTimers(timers[next := tc[0].1], rest, next + 1)
      else ArmTimers(timers, rest, next)
  }

  /** After arming, a context has a timer exactly when it had one before
      or the map holds it under a non-zero delay. */
  lemma {:induction false} ArmTimersArms(timers: map<nat, nat>, tc: TimeContexts, next: nat, id: nat)
    requires Fresh(timers, next)
    ensures id in ArmTimers(timers, tc, next).0.Values <==> id in timers.Values || Requested(tc, id)
    decreases |tc|
  {
    if tc != [] {
      AscendingTail(tc);
      var tail: TimeContexts := tc[1..];
      assert Requested(tc, id) <==> (tc[0].0 != 0 && tc[0].1 == id) || Requested(tail, id) by {
        if Requested(tail, id) {
          var k :| 0 <= k < |tail| && tail[k].0 != 0 && tail[k].1 == id;
          assert tc[k + 1] == tail[k];
        }
        if Requested(tc, id) && !(tc[0].0 != 0 && tc[0].1 == id) {
          var k :| 0 <= k < |tc| && tc[k].0 != 0 && tc[k].1 == id;
          assert tail[k - 1] == tc[k];
        }
      }
      if tc[0].1 !in timers.Values && tc[0].0 != 0 {
        var t1 := timers[next := tc[0].1];
        ArmTimersArms(t1, tail, next + 1, id);
        assert next !in timers;
        assert id in t1.Values <==> id in timers.Values || id == tc[0].1 by {
          if id in timers.Values {
            var e :| e in timers && timers[e] == id;
            assert t1[e] == id;
          }
          if id in t1.Values && id != tc[0].1 {
            var e :| e in t1 && t1[e] == id;
            assert e in timers && timers[e] == id;
          }
          assert t1[next] == tc[0].1;
        }
      } else {
        ArmTimersArms(timers, tail, next, id);
      }
    }
  }

  /** Arming never gives a context a second timer. */
  lemma {:induction false} ArmTimersOnePerContext(timers: map<nat, nat>, tc: TimeContexts, next: nat)
    requires Fresh(timers, next) && OneTimerPerContext(timers)
    ensures OneTimerPerContext(ArmTimers(timers, tc, next).0)
    decreases |tc|
  {
    if tc != [] {
      AscendingTail(tc);
      var tail: TimeContexts := tc[1..];
      if tc[0].1 !in timers.Values && tc[0].0 != 0 {
        var t1 := timers[next := tc[0].1];
        assert next !in timers;
        forall e1, e2 | e1 in t1 && e2 in t1 && t1[e1] == t1[e2]
          ensures e1 == e2
        {
          if e1 != next && e2 != next {
            assert timers[e1] == timers[e2];
          }
        }
        ArmTimersOnePerContext(t1, tail, next + 1);
      } else {
        ArmTimersOnePerContext(timers, tail, next);
      }
    }
  }

  /** Timers are armed in ascending order of delay: when every entry has a
      non-zero delay, no context of the map has a timer yet and none is
      held twice, the entry with the k-th smallest delay gets event id
      `next + k`. */
  lemma {:induction false} ArmTimersInOrder(timers: map<nat, nat>, tc: TimeContexts, next: nat)
    requires Fresh(timers, next)
    requires forall k :: 0 <= k < |tc| ==> tc[k].0 != 0 && tc[k].1 !in timers.Values
    requires forall i, j :: 0 <= i < j < |tc| ==> tc[i].1 != tc[j].1
    ensures ArmTimers(timers, tc, next).1 == next + |tc|
    ensures forall k :: 0 <= k < |tc| ==> ArmTimers(timers, tc, next).0[next + k] == tc[k].1
    decreases |tc|
  {
    if tc != [] {
      AscendingTail(tc);
      var tail: TimeContexts := tc[1..];
      var t1 := timers[next := tc[0].1];
      forall k | 0 <= k < |tail|
        ensures tail[k].0 != 0 && tail[k].1 !in t1.Values
      {
        assert tail[k] == tc[k + 1];
      }
      forall i, j | 0 <= i < j < |tail|
        ensures tail[i].1 != tail[j].1
      {
        assert tail[i] == tc[i + 1] && tail[j] == tc[j + 1];
      }
      ArmTimersInOrder(t1, tail, next + 1);
      var r := ArmTimers(timers, tc, next);
      forall k | 0 <= k < |tc|
        ensures r.0[next + k] == tc[k].1
      {
        if k > 0 {
          assert tail[k - 1] == tc[k];
        }
      }
    }
  }

  // ---------------------------------------------------------------------
  // Bursts and timers
  // ---------------------------------------------------------------------

  /** A timer can only exist once there is an emission chain to flush. */
  predicate Wf(b: Block) {
    |b.timers| > 0 ==> |b.emission| > 0
  }

  /** `onRcvBurstFromUp`: the burst goes through the emission contexts
      with a `time_contexts` map that starts empty. A missing burst, or one
      some emission context refuses, fails with nothing changed. Otherwise
      the timers the map asks for are armed, then a burst with no packets is not sent and succeeds,
      and any other is sent down, the result being whether that worked.
      The third result is the burst sent, the fourth the next timer id. */
  function OnRcvBurstFromUp(b: Block, burst: Option<Burst>, enc: Encapsulator, next: nat, sendOk: bool): (r: (Block, bool, Option<Burst>, nat))
    requires Fresh(b.timers, next)
    ensures r.0 == b.(timers := r.0.timers) && Fresh(r.0.timers, r.3)
    ensures r.1 <==>
      && burst.Some? && EncapChain(b.emission, burst.value, [], enc).Some?
      && (|EncapChain(b.emission, burst.value, [], enc).value.0.packets| == 0 || sendOk)
    ensures r.2.Some? <==> r.1 && |EncapChain(b.emission, burst.value, [], enc).value.0.packets| > 0
    ensures r.2.Some? ==> r.2.value == EncapChain(b.emission, burst.value, [], enc).value.0
    ensures burst.None? || EncapChain(b.emission, burst.value, [], enc).None? ==> r == (b, false, None, next)
    ensures forall e :: e in b.timers ==> e in r.0.timers && r.0.timers[e] == b.timers[e]
    ensures burst.Some? && EncapChain(b.emission, burst.value, [], enc).Some? ==>
      forall id :: id in r.0.timers.Values <==> id in b.timers.Values || Requested(EncapChain(b.emission, burst.value, [], enc).value.1, id)
  {
    if burst.None? then (b, false, None, next)
    else match EncapChain(b.emission, burst.value, [], enc)
      case None => (b, false, None, next)
      case Some(out) =>
        var (timers, next1) := ArmTimers(b.timers, out.1, next);
        assert forall id :: id in timers.Values <==> id in b.timers.Values || Requested(out.1, id) by {
          forall id ensures id in timers.Values <==> id in b.timers.Values || Requested(out.1, id) {
            ArmTimersArms(b.timers, out.1, next, id);
          }
        }
        var b1 := b.(timers := timers);
        if |out.0.packets| == 0 then (b1, true, None, next1)
        else if !sendOk then (b1, false, None, next1)
        else (b1, true, Some(out.0), next1)
  }

  /** With no emission context nothing is encapsulated, so no timer is
      armed. */
  lemma {:induction false} EmptyChainArmsNothing(b: Block, burst: Option<Burst>, enc: Encapsulator, next: nat, sendOk: bool)
    requires Fresh(b.timers, next) && b.emission == []
    ensures OnRcvBurstFromUp(b, burst, enc, next, sendOk).0 == b
  {
    if burst.Some? {
      assert EncapChain(b.emission, burst.value, [], enc) == Some((burst.value, []));
    }
  }

  /** Encapsulating keeps at most one timer per context, and timers only
      where an emission chain exists. */
  lemma OnRcvBurstFromUpKeepsTimers(b: Block, burst: Option<Burst>, enc: Encapsulator, next: nat, sendOk: bool)
    requires Fresh(b.timers, next) && OneTimerPerContext(b.timers) && Wf(b)
    ensures var b1 := OnRcvBurstFromUp(b, burst, enc, next, sendOk).0;
      OneTimerPerContext(b1.timers) && Wf(b1)
  {
    if b.emission == [] {
      EmptyChainArmsNothing(b, burst, enc, next, sendOk);
    } else if burst.Some? && EncapChain(b.emission, burst.value, [], enc).Some? {
      ArmTimersOnePerContext(b.timers, EncapChain(b.emission, burst.value, [], enc).value.1, next);
    }
  }

  /** What `flush` of a context gives for a context id: the pending
      packets, or none on failure. */
  type Flusher = (EncapContext, nat) -> Option<Burst>

  /** `onTimer`: an unknown timer fails with nothing changed. A known one
      is removed first, then the last emission context is flushed for its
      context id; a failed flush gives false, an empty burst is not sent
      and gives true, any other is sent down, the result being whether
      that worked. */
  function OnTimer(b: Block, timerId: nat, flush: Flusher, sendOk: bool): (r: (Block, bool, Option<Burst>))
    requires timerId in b.timers ==> |b.emission| > 0
    ensures timerId !in b.timers ==> r == (b, false, None)
    ensures timerId in b.timers ==> r.0 == b.(timers := b.timers - {timerId})
    ensures r.1 <==>
      && timerId in b.timers
      && flush(b.emission[|b.emission| - 1], b.timers[timerId]).Some?
      && (|flush(b.emission[|b.emission| - 1], b.timers[timerId]).value.packets| == 0 || sendOk)
    ensures r.2.Some? ==> r.1 && r.2 == flush(b.emission[|b.emission| - 1], b.timers[timerId]) && |r.2.value.packets| > 0
  {
    if timerId !in b.timers then (b, false, None)
    else
      var b1 := b.(timers := b.timers - {timerId});
      match flush(b.emission[|b.emission| - 1], b.timers[timerId])
      case None => (b1, false, None)
      case Some(out) =>
        if |out.packets| == 0 then (b1, true, None)
        else if !sendOk then (b1, false, None)
        else (b1, true, Some(out))
  }

  /** Once its timer fires the context has no timer left, so the next
      burst that leaves it waiting arms a new one. */
  lemma TimerFiresOnce(b: Block, timerId: nat, flush: Flusher, sendOk: bool)
    requires timerId in b.timers && |b.emission| > 0 && OneTimerPerContext(b.timers)
    ensures b.timers[timerId] !in OnTimer(b, timerId, flush, sendOk).0.timers.Values
  {
  }

  /** `onRcvBurstFromDown`: a missing burst, or one some reception context
      refuses, fails. Otherwise the result is true: an empty burst is not
      sent, and a failure to send upwards is only logged. The second
      result is the burst sent up. */
  function OnRcvBurstFromDown(b: Block, burst: Option<Burst>, dec: Decapsulator, sendOk: bool): (r: (bool, Option<Burst>))
    ensures r.0 <==> burst.Some? && EncapChain(b.reception, burst.value, [], AsEncapsulator(dec)).Some?
    ensures r.1.Some? <==> r.0 && sendOk && |EncapChain(b.reception, burst.value, [], AsEncapsulator(dec)).value.0.packets| > 0
    ensures r.1.Some? ==> r.1.value == EncapChain(b.reception, burst.value, [], AsEncapsulator(dec)).value.0
  {
    if burst.None? then (false, None)
    else match EncapChain(b.reception, burst.value, [], AsEncapsulator(dec))
      case None => (false, None)
      case Some(out) =>
        if |out.0.packets| == 0 || !sendOk then (true, None)
        else (true, Some(out.0))
  }

  /** De-encapsulation never asks for a timer: the map comes out as it
      went in. */
  lemma {:induction false} DecapAsksNoTimers(ctxs: seq<EncapContext>, burst: Burst, tc: TimeContexts, dec: Decapsulator)
    ensures EncapChain(ctxs, burst, tc, AsEncapsulator(dec)).Some? ==> EncapChain(ctxs, burst, tc, AsEncapsulator(dec)).value.1 == tc
    decreases |ctxs|
  {
    if ctxs != [] && dec(ctxs[0], burst).Some? {
      DecapAsksNoTimers(ctxs[1..], dec(ctxs[0], burst).value, tc, dec);
    }
  }

  // ---------------------------------------------------------------------
  // Events
  // ---------------------------------------------------------------------

  datatype DownEvent = TimerEvent(timerId: nat) | BurstFromUp(burst: Option<Burst>) | OtherDownEvent
  datatype UpEvent = LinkUpMessage(groupId: int, talId: int) | BurstFromDown(burst: Option<Burst>) | OtherUpEvent

  /** The plugins' behaviour and the outcome of sending, for one event. */
  datatype Env = Env(enc: Encapsulator, dec: Decapsulator, flush: Flusher, nextTimer: nat, sendOk: bool)

  /** `onDownwardEvent`: timers flush, messages are encapsulated, any other
      event fails with nothing changed. Only the timers ever change. */
  function OnDownwardEvent(b: Block, ev: DownEvent, env: Env): (r: (Block, bool, Option<Burst>))
    requires Fresh(b.timers, env.nextTimer)
    requires ev.TimerEvent? && ev.timerId in b.timers ==> |b.emission| > 0
    ensures r.0 == b.(timers := r.0.timers)
    ensures ev.OtherDownEvent? ==> r == (b, false, None)
    ensures ev.TimerEvent? ==> r.0.timers.Keys <= b.timers.Keys
    ensures ev.BurstFromUp? ==> b.timers.Keys <= r.0.timers.Keys
  {
    match ev
    case TimerEvent(id) => OnTimer(b, id, env.flush, env.sendOk)
    case BurstFromUp(burst) =>
      var r := OnRcvBurstFromUp(b, burst, env.enc, env.nextTimer, env.sendOk);
      (r.0, r.1, r.2)
    case OtherDownEvent => (b, false, None)
  }

  /** `onUpwardEvent`: link-up messages are handled once, bursts are
      de-encapsulated, any other event fails with nothing changed. Only a
      link-up changes the block. */
  function OnUpwardEvent(b: Block, ev: UpEvent, env: Env): (r: (Block, bool, Option<Burst>))
    ensures ev.OtherUpEvent? ==> r == (b, false, None)
    ensures ev.BurstFromDown? ==> r.0 == b
    ensures ev.LinkUpMessage? && b.linkUp ==> r == (b, false, None)
    ensures ev.LinkUpMessage? && !b.linkUp ==> r.0.linkUp && r.0.talId == ev.talId && r.1 == env.sendOk
  {
    match ev
    case LinkUpMessage(g, t) =>
      var (b1, ok) := OnLinkUp(b, g, t, env.sendOk);
      (b1, ok, None)
    case BurstFromDown(burst) =>
      var (ok, out) := OnRcvBurstFromDown(b, burst, env.dec, env.sendOk);
      (b, ok, out)
    case OtherUpEvent => (b, false, None)
  }
}

=== FILE: command_handler.dfy ===
/** The daemon's command server (opensand-daemon/opensand_daemon/command_handler.py).

    One connection carries one request from the manager: DEPLOY or CONFIGURE
    (a stream of files, acknowledged unit by unit), START, STOP or TEST. The
    reply is the sequence of texts written to the socket. Reading the socket,
    the stream handler, the process list and the test process are inputs; the
    route manager is the `Routes` model. An exception that reaches `handle`
    is only logged, so it ends the reply. */
module CommandHandler {
  import opened Wrappers
  import opened ModelMode
  import opened OpenSandCore
  import Routes

  // In `Intended` mode the handler passes the interface argument to
  // `setup_routes`, gives `write` one argument, and uses the route manager's
  // `Intended` reading.

  /** What `read_data` gives: a line, or one of the exceptions `handle`
      catches. */
  datatype ReadResult = Received(data: string) | ReadTimeout | ReadEof | ReadFailed

  /** One call of the stream handler's `receive_content`. */
  datatype StreamStep = MoreUnits | LastUnit | StreamTimeout | StreamBadInstruction | StreamXmlError(msg: string)

  /** How `ProcessList.start` ends. `StartOther` is any exception the START
      handler does not translate. */
  datatype StartError =
    | StartInstruction(value: string)
    | StartOs
    | StartIo
    | StartPickle
    | StartConfig
    | StartOther

  datatype TestRun = Exited(code: int) | LaunchFailed

  /** Everything outside the handler that one request observes. */
  datatype Env = Env(
    listReady: bool,
    request: ReadResult,
    stream: seq<StreamStep>,
    running: bool,
    start: Option<StartError>,
    outs: seq<Routes.NlOutcome>,
    topo: Option<Routes.Topology>,
    order: seq<string>,
    testLine: ReadResult,
    testRun: TestRun,
    stopSet: bool)

  /** The reply written, the route manager afterwards, and whether the
      process list is running. */
  datatype Reply = Reply(writes: seq<string>, d: Routes.Daemon, running: bool)

  /** A line reporting a failure to the manager. */
  predicate IsErrorLine(s: string) {
    |s| >= 6 && s[..6] == "ERROR "
  }

  function ErrorLine(text: string): (r: string)
    ensures IsErrorLine(r) && r[6..] == text
  {
    assert ("ERROR " + text)[..6] == "ERROR ";
    "ERROR " + text
  }

  datatype Command = DataRequest | Start | Stop | Test | Unknown

  /** The dispatch of `handle` on the received line. */
  function CommandOf(data: string): (c: Command)
    ensures c == DataRequest <==> data == "DEPLOY" || data == "CONFIGURE"
    ensures c == Start <==> data == "START"
    ensures c == Stop <==> data == "STOP"
    ensures c == Test <==> data == "TEST"
  {
    if data == "DEPLOY" || data == "CONFIGURE" then DataRequest
    else if data == "START" then Start
    else if data == "STOP" then Stop
    else if data == "TEST" then Test
    else Unknown
  }

  /* ---------------------------------------------------------------------- */
  /* DEPLOY and CONFIGURE                                                    */

  /** The reply to a data request after the first "OK": one "OK" per unit
      received, the last included; an error writes its line and ends the
      reply. A stream that ends without a last unit leaves the handler
      waiting, so the reply stops there. */
  function StreamReply(stream: seq<StreamStep>): (w: seq<string>)
    decreases |stream|
  {
    if |stream| == 0 then []
    else
      match stream[0]
      case MoreUnits => ["OK\n"] + StreamReply(stream[1..])
      case LastUnit => ["OK\n"]
      case StreamTimeout => [ErrorLine("timeout when reading flow\n")]
      case StreamBadInstruction => [ErrorLine("bad instruction\n")]
      case StreamXmlError(msg) => [ErrorLine(msg + "\n")]
  }

  predicate IsError(s: StreamStep) {
    s.StreamTimeout? || s.StreamBadInstruction? || s.StreamXmlError?
  }

  /** The number of units before the first step that ends the stream. */
  function UnitsBefore(stream: seq<StreamStep>): (n: nat)
    ensures n <= |stream|
    ensures forall i :: 0 <= i < n ==> stream[i] == MoreUnits
    ensures n < |stream| ==> stream[n] != MoreUnits
  {
    if |stream| == 0 || stream[0] != MoreUnits then 0 else 1 + UnitsBefore(stream[1..])
  }

  /** The data-request reply acknowledges every unit up to the first step that
      ends the stream; the last write is "OK" exactly when that step is the
      last unit, and an error line exactly when it is an error. */
  lemma {:induction false} StreamReplyShape(stream: seq<StreamStep>)
    ensures var w := StreamReply(stream); var n := UnitsBefore(stream);
      && (n == |stream| ==> |w| == n)
      && (n < |stream| ==> |w| == n + 1)
      && (forall i :: 0 <= i < n ==> w[i] == "OK\n")
      && (n < |stream| && stream[n] == LastUnit ==> w[n] == "OK\n")
      && (n < |stream| && IsError(stream[n]) ==> IsErrorLine(w[n]))
    decreases |stream|
  {
    if |stream| > 0 && stream[0] == MoreUnits {
      StreamReplyShape(stream[1..]);
      var w := StreamReply(stream);
      assert w == ["OK\n"] + StreamReply(stream[1..]);
      assert forall i :: 1 <= i < |stream| ==> stream[1..][i - 1] == stream[i];
    }
  }

  /* ---------------------------------------------------------------------- */
  /* TEST                                                                    */

  /** `str.split(' ', 1)` unpacked into two names: the text before the first
      space and the rest, or `None` where the unpacking raises `ValueError`. */
  function SplitOnce(s: string): (r: Option<(string, string)>)
    ensures r.None? <==> ' ' !in s
    ensures r.Some? ==> ' ' !in r.value.0 && r.value.0 + " " + r.value.1 == s
  {
    if |s| == 0 then None
    else if s[0] == ' ' then Some(([], s[1..]))
    else
      match SplitOnce(s[1..])
      case None => None
      case Some(p) =>
        assert [s[0]] + p.0 + " " + p.1 == [s[0]] + (p.0 + " " + p.1);
        Some(([s[0]] + p.0, p.1))
  }

  /** Splitting `a + " " + b` for a space-free `a` gives back `a` and `b`. */
  lemma {:induction false} SplitOnceJoin(a: string, b: string)
    requires ' ' !in a
    ensures SplitOnce(a + " " + b) == Some((a, b))
    decreases |a|
  {
    if |a| == 0 {
      assert a + " " + b == [' '] + b;
    } else {
      assert (a + " " + b)[1..] == a[1..] + " " + b;
      SplitOnceJoin(a[1..], b);
      assert [a[0]] + a[1..] == a;
    }
  }

  /** `"%s" % n` for a Python int. */
  function IntText(n: int): (r: string)
    ensures |r| > 0
    ensures (r[0] == '-') <==> n < 0
  {
    if n < 0 then "-" + Decimal(-n) else Decimal(n)
  }

  /** The reply to TEST: "OK", then a line `COMMAND <command>`; any other
      instruction gets an error without a trailing newline; the exit code is
      written only when the daemon is not stopping. */
  function TestReply(env: Env): (w: seq<string>)
    ensures |w| >= 1 && w[0] == "OK\n"
    ensures |w| <= 2
  {
    match env.testLine
    case Received(data) =>
      (match SplitOnce(data)
       case None => ["OK\n"]
       case Some(p) =>
         if p.0 != "COMMAND" then ["OK\n", ErrorLine("bad instruction " + p.0)]
         else
           match env.testRun
           case LaunchFailed => ["OK\n"]
           case Exited(code) => if env.stopSet then ["OK\n"] else ["OK\n", IntText(code) + "\n"])
    case _ => ["OK\n"]
  }

  /** A test command runs and its exit code is reported exactly when the line
      is `COMMAND <command>`, the process launched, and the daemon is not
      stopping; a line of another instruction is rejected by name. */
  lemma TestReplyCases(env: Env, instr: string, command: string)
    requires ' ' !in instr
    requires env.testLine == Received(instr + " " + command)
    ensures instr != "COMMAND" ==> TestReply(env) == ["OK\n", ErrorLine("bad instruction " + instr)]
    ensures instr == "COMMAND" && env.testRun.Exited? && !env.stopSet ==>
      TestReply(env) == ["OK\n", IntText(env.testRun.code) + "\n"]
    ensures instr == "COMMAND" && (env.testRun.LaunchFailed? || env.stopSet) ==> TestReply(env) == ["OK\n"]
  {
    SplitOnceJoin(instr, command);
  }

  /* ---------------------------------------------------------------------- */
  /* START and STOP                                                          */

  /** The line the START handler writes for an exception of `start`; `None`
      for one it does not catch. */
  function StartErrorLine(e: StartError): (r: Option<string>)
    ensures r.Some? <==> !e.StartOther?
    ensures r.Some? ==> IsErrorLine(r.value)
    ensures e.StartInstruction? ==> r == Some(ErrorLine(e.value + "\n"))
  {
    match e
    case StartInstruction(v) => Some(ErrorLine(v + "\n"))
    case StartOs => Some(ErrorLine("cannot create directory or file\n"))
    case StartIo => Some(ErrorLine("unable to start process list\n"))
    case StartPickle => Some(ErrorLine("unable to load or serialize process list\n"))
    case StartConfig => Some(ErrorLine("cannot read binaries configuration\n"))
    case StartOther => None
  }

  const AlreadyStarted := "some process are already started"

  /** `start_binaries` after the routes are set: refuses when processes are
      already running, otherwise starts the list. */
  function StartBinaries(running: bool, start: Option<StartError>): (r: Result<bool, StartError>)
    ensures running ==> r == Failure(StartInstruction(AlreadyStarted))
    ensures !running && start.None? ==> r == Success(true)
    ensures !running && start.Some? ==> r == Failure(start.value)
  {
    if running then Failure(StartInstruction(AlreadyStarted))
    else if start.Some? then Failure(start.value)
    else Success(true)
  }

  /** `handle_start`. As written, `setup_routes()` is called without its
      `iface` argument: the call raises `TypeError` at once, which the
      handler does not catch, so nothing is written and nothing starts.
      As intended, "OK" is written exactly when the routes were set up and
      the processes started from a stopped list, which then runs with the
      route manager started. */
  function HandleStart(mode: Mode, env: Env, d: Routes.Daemon): (r: Reply)
    requires Routes.IsEnumeration(env.order, Routes.Hosts(d.rs))
    ensures mode == AsWritten ==> r == Reply([], d, env.running)
    ensures mode == Intended ==>
      var s := Routes.SetupRoutes(Intended, d, env.outs, None, env.topo, env.order);
      && r.d == s.d && |r.writes| <= 1
      && (r.writes == ["OK\n"] <==> s.status == Routes.Done && !env.running && env.start.None?)
      && (r.writes == ["OK\n"] ==> r.running && (d.unused || r.d.started))
  {
    if mode == AsWritten then Reply([], d, env.running)
    else
      AfterRoutes(Routes.SetupRoutes(Intended, d, env.outs, None, env.topo, env.order), env)
  }

  /** The rest of `handle_start` once `setup_routes` has ended as `s`: an
      exception from it is not caught; otherwise the processes are started
      and the outcome is reported in one line. */
  function AfterRoutes(s: Routes.Step, env: Env): (r: Reply)
    ensures r.d == s.d && |r.writes| <= 1
    ensures r.writes == ["OK\n"] <==> s.status == Routes.Done && !env.running && env.start.None?
    ensures r.writes == ["OK\n"] ==> r.running
    ensures r.writes != ["OK\n"] ==> r.running == env.running
    ensures s.status == Routes.Done && env.running ==>
      r.writes == [ErrorLine(AlreadyStarted + "\n")]
    ensures s.status != Routes.Done ==> r.writes == []
  {
    if s.status != Routes.Done then Reply([], s.d, env.running)
    else
      match StartBinaries(env.running, env.start)
      case Success(_) => Reply(["OK\n"], s.d, true)
      case Failure(e) =>
        assert !IsErrorLine("OK\n");
        match StartErrorLine(e)
        case Some(line) => Reply([line], s.d, env.running)
        case None => Reply([], s.d, env.running)
  }

  /** `handle_stop`: stops the processes, removes the routes, then says "OK";
      an exception from the route manager ends the reply before that. The
      process list is stopped whatever happens. */
  function HandleStop(mode: Mode, env: Env, d: Routes.Daemon): (r: Reply)
    requires Routes.IsEnumeration(env.order, Routes.Hosts(d.rs))
    ensures var s := Routes.RemoveRoutes(mode, d, env.outs, env.topo, env.order);
      && !r.running && r.d == s.d
      && (r.writes == ["OK\n"] <==> s.status == Routes.Done)
      && (r.writes == [] <==> s.status != Routes.Done)
  {
    var s := Routes.RemoveRoutes(mode, d, env.outs, env.topo, env.order);
    if s.status == Routes.Done then Reply(["OK\n"], s.d, false) else Reply([], s.d, false)
  }

  /** The reply to an unrecognised line. As written, `write` is given two
      arguments and raises `TypeError`, so nothing is written. */
  function UnknownReply(mode: Mode, data: string): (w: seq<string>)
    ensures mode == AsWritten ==> w == []
    ensures mode == Intended ==> w == [ErrorLine("unknown command '" + data + "'\n")]
  {
    if mode == AsWritten then [] else [ErrorLine("unknown command '" + data + "'\n")]
  }

  /** `handle`: one request on one connection. Only START and STOP touch
      the routes or the process list; every other request, and a
      connection that fails before a line arrives, leaves both as they
      were. A process list not initialised gets one error line, a failed
      read no reply, and every recognised request other than a data
      request at most one line, two for TEST. */
  function Handle(mode: Mode, env: Env, d: Routes.Daemon): (r: Reply)
    requires Routes.IsEnumeration(env.order, Routes.Hosts(d.rs))
    ensures !(env.listReady && env.request.Received? && CommandOf(env.request.data) in {Start, Stop}) ==>
      r.d == d && r.running == env.running
    ensures !env.listReady ==> r.writes == ["ERROR process list is not initialized\n"]
    ensures env.listReady && !env.request.Received? ==> r.writes == []
    ensures env.listReady && env.request.Received? && CommandOf(env.request.data) != DataRequest ==>
      |r.writes| <= (if CommandOf(env.request.data) == Test then 2 else 1)
  {
    if !env.listReady then Reply(["ERROR process list is not initialized\n"], d, env.running)
    else
      match env.request
      case Received(data) =>
        (match CommandOf(data)
         case DataRequest => Reply(["OK\n"] + StreamReply(env.stream), d, env.running)
         case Start => HandleStart(mode, env, d)
         case Stop => HandleStop(mode, env, d)
         case Test => Reply(TestReply(env), d, env.running)
         case Unknown => Reply(UnknownReply(mode, data), d, env.running))
      case _ => Reply([], d, env.running)
  }

  /* ---------------------------------------------------------------------- */
  /* Properties                                                              */

  /** As written, START is answered by silence and changes nothing: the
      routes are not set, the processes are not started. */
  lemma HandleStartAsWrittenSilent(env: Env, d: Routes.Daemon)
    requires Routes.IsEnumeration(env.order, Routes.Hosts(d.rs))
    requires env.listReady && env.request == Received("START")
    ensures Handle(AsWritten, env, d) == Reply([], d, env.running)
  {
  }

  /** Intended START: "OK" exactly when the routes were set up and the
      processes started from a stopped list; then the list runs and the route
      manager is started. */
  lemma HandleStartIntended(env: Env, d: Routes.Daemon)
    requires Routes.IsEnumeration(env.order, Routes.Hosts(d.rs))
    requires env.listReady && env.request == Received("START")
    ensures var r := Handle(Intended, env, d);
      var s := Routes.SetupRoutes(Intended, d, env.outs, None, env.topo, env.order);
      && (r.writes == ["OK\n"] <==> s.status == Routes.Done && !env.running && env.start.None?)
      && (r.writes == ["OK\n"] ==> r.running && (d.unused || r.d.started))
  {
  }

  /** As written, an unknown request gets no reply; intended, it gets one
      error line naming the request. */
  lemma UnknownCommandReply(mode: Mode, env: Env, d: Routes.Daemon)
    requires Routes.IsEnumeration(env.order, Routes.Hosts(d.rs))
    requires env.listReady && env.request.Received? && CommandOf(env.request.data) == Unknown
    ensures mode == AsWritten ==> Handle(mode, env, d).writes == []
    ensures mode == Intended ==>
      Handle(mode, env, d).writes == [ErrorLine("unknown command '" + env.request.data + "'\n")]
  {
  }

  /** A data request is acknowledged once up front and once per unit. */
  lemma DataRequestReply(mode: Mode, env: Env, d: Routes.Daemon)
    requires Routes.IsEnumeration(env.order, Routes.Hosts(d.rs))
    requires env.listReady && env.request.Received? && CommandOf(env.request.data) == DataRequest
    ensures var w := Handle(mode, env, d).writes; var n := UnitsBefore(env.stream);
      && |w| >= n + 1
      && (forall i :: 0 <= i <= n ==> w[i] == "OK\n")
      && (n < |env.stream| && IsError(env.stream[n]) ==> |w| == n + 2 && IsErrorLine(w[n + 1]))
  {
    StreamReplyShape(env.stream);
  }
}

=== FILE: conf_update.dfy ===
/** The NCC side of the in-simulation configuration update interface
    (opensand-core/src/dvb/ncc_interface/InSimulationConfUpdateInterface.cpp).

    A connected client sends messages; a message is a sequence of lines and
    each line a command "spot:gateway:type:bandwidth" of four unsigned
    numbers, type 0 for the forward link bandwidth and 1 for the return
    link. The commands of a message that parse and have the type of its
    first accepted command are queued; the NCC takes them off the queue
    first in, first out.

    The sockets are not modelled: a message is the text the client sent,
    up to its first NUL character, and the connection is a flag. */
module InSimulationConfUpdate {
  import opened Wrappers
  import opened OpenSandCore
  import opened ModelMode
  import opened ConfUpdateRequest

  /* ---------------------------------------------------------------------- */
  /* Lines                                                                   */

  /** The size of the buffer `getline` fills: a line holds at most 63
      characters. */
  const LineBuffer: nat := 64

  /** The length of the first line of `m`. */
  function LineEnd(m: string): (n: nat)
    ensures n <= |m|
    ensures forall i :: 0 <= i < n ==> m[i] != '\n'
    ensures n < |m| ==> m[n] == '\n'
  {
    if |m| == 0 || m[0] == '\n' then 0 else 1 + LineEnd(m[1..])
  }

  /** The lines `stream.getline(cmd, 64)` yields before it fails: a line
      without its newline, the last one also without a newline; the loop
      stops at the end of the text or at a line too long for the buffer. */
  function Lines(m: string): (ls: seq<string>)
    ensures forall k :: 0 <= k < |ls| ==> |ls[k]| < LineBuffer
    decreases |m|
  {
    if |m| == 0 then []
    else
      var n := LineEnd(m);
      if n >= LineBuffer then []
      else [m[..n]] + (if n < |m| then Lines(m[n + 1..]) else [])
  }

  /** A line that fits the buffer: fewer than 64 characters, no newline. */
  predicate IsLine(l: string) {
    |l| < LineBuffer && forall i :: 0 <= i < |l| ==> l[i] != '\n'
  }

  /** The text of `ls`, each line ended by a newline. */
  function Text(ls: seq<string>): string {
    if |ls| == 0 then [] else ls[0] + "\n" + Text(ls[1..])
  }

  lemma LineEndOfLine(l: string, rest: string)
    requires IsLine(l)
    ensures LineEnd(l + "\n" + rest) == |l|
  {
    var m := l + "\n" + rest;
    assert m[|l|] == '\n';
    assert forall i :: 0 <= i < |l| ==> m[i] == l[i];
  }

  /** A line and its newline are read as that line. */
  lemma LinesOfLine(l: string, rest: string)
    requires IsLine(l)
    ensures Lines(l + "\n" + rest) == [l] + Lines(rest)
  {
    var m := l + "\n" + rest;
    LineEndOfLine(l, rest);
    assert m[..|l|] == l && m[|l| + 1..] == rest;
  }

  /** Lines sent one after the other are read back one by one, then what
      follows them. */
  lemma {:induction false} LinesOfText(ls: seq<string>, m: string)
    requires forall k :: 0 <= k < |ls| ==> IsLine(ls[k])
    ensures Lines(Text(ls) + m) == ls + Lines(m)
  {
    if |ls| == 0 {
      assert Text(ls) + m == m;
    } else {
      assert forall k :: 0 <= k < |ls| - 1 ==> IsLine(ls[1..][k]) by {
        forall k | 0 <= k < |ls| - 1 ensures IsLine(ls[1..][k]) {
          assert ls[1..][k] == ls[k + 1];
        }
      }
      LinesOfText(ls[1..], m);
      LinesOfFirst(ls, m);
      ConsAppend(ls, Lines(m));
    }
  }

  lemma LinesOfFirst(ls: seq<string>, m: string)
    requires |ls| > 0 && IsLine(ls[0])
    ensures Lines(Text(ls) + m) == [ls[0]] + Lines(Text(ls[1..]) + m)
  {
    TextCons(ls, m);
    LinesOfLine(ls[0], Text(ls[1..]) + m);
  }

  lemma ConsAppend<T>(xs: seq<T>, ys: seq<T>)
    requires |xs| > 0
    ensures [xs[0]] + (xs[1..] + ys) == xs + ys
  {
    assert [xs[0]] + xs[1..] == xs;
  }

  lemma TextCons(ls: seq<string>, m: string)
    requires |ls| > 0
    ensures Text(ls) + m == ls[0] + "\n" + (Text(ls[1..]) + m)
  {
  }

  /** A line too long for the buffer ends the message: nothing from it on
      is read. */
  lemma LongLineStops(ls: seq<string>, tail: string)
    requires forall k :: 0 <= k < |ls| ==> IsLine(ls[k])
    requires |tail| >= LineBuffer && forall i :: 0 <= i < LineBuffer ==> tail[i] != '\n'
    ensures Lines(Text(ls) + tail) == ls
    ensures Lines(Text(ls)) == ls
  {
    LinesOfText(ls, tail);
    LinesOfText(ls, []);
    assert Text(ls) + [] == Text(ls);
    LineEndAtLeast(tail, LineBuffer);
  }

  lemma {:induction false} LineEndAtLeast(m: string, n: nat)
    requires n <= |m| && forall i :: 0 <= i < n ==> m[i] != '\n'
    ensures LineEnd(m) >= n
  {
    if n > 0 {
      LineEndAtLeast(m[1..], n - 1);
    }
  }

  /* ---------------------------------------------------------------------- */
  /* Commands                                                                */

  const ULongModulus: nat := 0x1_0000_0000_0000_0000

  /** The `%u` conversion of glibc's `sscanf`: white space is skipped, a
      sign is allowed, then at least one decimal digit. The digits are read
      as an `unsigned long` (64 bits) and negated modulo 2^64 after a '-';
      a value that does not fit in 64 bits saturates to the largest one,
      whatever the sign. The result, stored in an `unsigned int`, keeps the
      low 32 bits. It comes with the text after the digits. */
  function ScanUnsigned(s: string): (r: Option<(nat, string)>)
    ensures r.Some? ==> IsU32(r.value.0) && |r.value.1| < |s|
  {
    var u := SkipSpace(s);
    var signed := |u| > 0 && (u[0] == '+' || u[0] == '-');
    var v := if signed then u[1..] else u;
    var n := DigitRun(v);
    if n == 0 then None
    else Some((StoreUnsigned(LeadingValue(v), signed && u[0] == '-'), v[n..]))
  }

  /** The value stored for the digits `digits`, after a '-' when
      `negative`: a value that fits is kept, or negated modulo 2^32; one
      that overflows 64 bits gives all ones. */
  function StoreUnsigned(digits: nat, negative: bool): (r: nat)
    ensures IsU32(r)
    ensures !negative && IsU32(digits) ==> r == digits
    ensures negative && digits < ULongModulus ==> (r + digits) % Modulus32 == 0
    ensures digits >= ULongModulus ==> r == Modulus32 - 1
  {
    if digits >= ULongModulus then Modulus32 - 1
    else if !negative then digits % Modulus32
    else
      NegatedLowBits(digits);
      (ULongModulus - digits) % ULongModulus % Modulus32
  }

  /** The low 32 bits of a 64-bit negation negate the value modulo 2^32. */
  lemma NegatedLowBits(digits: nat)
    requires digits < ULongModulus
    ensures ((ULongModulus - digits) % ULongModulus % Modulus32 + digits) % Modulus32 == 0
  {
    if digits > 0 {
      var value := ULongModulus - digits;
      assert value % ULongModulus == value;
      ModUnique(ULongModulus, Modulus32, Modulus32, 0);
      ModShift(value, digits, Modulus32);
    }
  }

  /** The values `sscanf(cmd, "%u:%u:%u:%u", ...)` converts, at most
      `count`: between two conversions the text must hold exactly ':'. Its
      return value is the length of this sequence. */
  function ScanFields(s: string, count: nat): (fs: seq<nat>)
    ensures |fs| <= count
    ensures forall k :: 0 <= k < |fs| ==> IsU32(fs[k])
    decreases count
  {
    if count == 0 then []
    else
      match ScanUnsigned(s)
      case None => []
      case Some((v, rest)) =>
        if count > 1 && |rest| > 0 && rest[0] == ':' then [v] + ScanFields(rest[1..], count - 1)
        else [v]
  }

  /** `parseConfUpdateCommand`: the request a command line asks for, or
      `None` (NULL) when the line does not hold four numbers or the type is
      neither 0 nor 1. The ids and the bandwidth are narrowed to the widths
      of the request's fields. */
  function ParseCommand(cmd: string): (r: Option<Request>)
    ensures r.Some? <==> |ScanFields(cmd, 4)| == 4 && TypeOfCode(ScanFields(cmd, 4)[2]).Some?
    ensures r.Some? ==> ValidRequest(r.value) && r.value.requestType != UnknownRequest
    ensures r.Some? ==>
      var f := ScanFields(cmd, 4);
      && r.value.spotId == f[0] % Modulus8
      && r.value.gatewayId == f[1] % Modulus16
      && TypeCode(r.value.requestType) == f[2]
      && r.value.bandwidth == f[3] % Modulus8
  {
    var f := ScanFields(cmd, 4);
    if |f| != 4 then None
    else
      match TypeOfCode(f[2])
      case None => None
      case Some(t) => Some(NewRequest(ToU8(f[0]), ToU16(f[1]), t, ToU8(f[3])))
  }

  /** The command line for the given values, written in decimal and
      separated by ':'. */
  function Command(spot: nat, gateway: nat, code: nat, bandwidth: nat): string {
    Decimal(spot) + ":" + (Decimal(gateway) + ":" + (Decimal(code) + ":" + Decimal(bandwidth)))
  }

  lemma DigitRunBefore(p: string, rest: string)
    requires forall i :: 0 <= i < |p| ==> IsDigit(p[i])
    requires |rest| == 0 || !IsDigit(rest[0])
    ensures DigitRun(p + rest) == |p|
  {
    var s := p + rest;
    assert forall j :: 0 <= j < |p| ==> s[j] == p[j];
    assert |rest| > 0 ==> s[|p|] == rest[0];
  }

  /** A written number: a non-empty run of digits whose value fits in
      32 bits. */
  predicate IsNumber(d: string) {
    |d| > 0 && (forall i :: 0 <= i < |d| ==> IsDigit(d[i])) && IsU32(DigitsNat(d))
  }

  /** A written number scans back as its value, leaving the text after
      it. */
  lemma ScanNumber(d: string, rest: string)
    requires IsNumber(d)
    requires |rest| == 0 || rest[0] == ':'
    ensures ScanUnsigned(d + rest) == Some((DigitsNat(d), rest))
  {
    var s := d + rest;
    assert s[0] == d[0] && IsDigit(d[0]);
    assert SkipSpace(s) == s;
    DigitRunBefore(d, rest);
    assert s[..|d|] == d;
    assert s[|d|..] == rest;
    assert LeadingValue(s) == DigitsNat(d);
    assert !(|s| > 0 && (s[0] == '+' || s[0] == '-'));
  }

  /** One conversion followed by ':' leads to the next one. */
  lemma ScanFieldsStep(s: string, count: nat, v: nat, rest: string)
    requires count > 1 && ScanUnsigned(s) == Some((v, rest))
    requires |rest| > 0 && rest[0] == ':'
    ensures ScanFields(s, count) == [v] + ScanFields(rest[1..], count - 1)
  {
  }

  /** The digits in front of a non-digit are the leading value. */
  lemma LeadingDigits(d: string, rest: string)
    requires forall i :: 0 <= i < |d| ==> IsDigit(d[i])
    requires |rest| == 0 || rest[0] == ':'
    ensures DigitRun(d + rest) == |d| && LeadingValue(d + rest) == DigitsNat(d) && (d + rest)[|d|..] == rest
  {
    DigitRunBefore(d, rest);
    assert (d + rest)[..|d|] == d;
  }

  /** A '-' and a number too large for 64 bits scan as all ones: the
      saturated value is not negated. */
  lemma ScanOverflowing(d: string, rest: string)
    requires |d| > 0 && (forall i :: 0 <= i < |d| ==> IsDigit(d[i])) && DigitsNat(d) >= ULongModulus
    requires |rest| == 0 || rest[0] == ':'
    ensures ScanUnsigned(['-'] + d + rest) == Some((Modulus32 - 1, rest))
  {
    var v := d + rest;
    LeadingDigits(d, rest);
    assert ['-'] + d + rest == ['-'] + v;
    ScanNegativeBig(v, rest);
  }

  lemma ScanNegativeBig(v: string, rest: string)
    requires DigitRun(v) > 0 && LeadingValue(v) >= ULongModulus && v[DigitRun(v)..] == rest
    ensures ScanUnsigned(['-'] + v) == Some((Modulus32 - 1, rest))
  {
    var s := ['-'] + v;
    assert SkipSpace(s) == s by {
      assert s[0] == '-';
    }
    assert s[1..] == v;
  }

  /** A command whose type field is '-' and a number beyond 64 bits, such
      as "1:0:-99999999999999999999:5", has its type read as 0xFFFFFFFF and
      is refused. */
  lemma NegativeOverflowRefused(d0: string, d1: string, d2: string, d3: string)
    requires IsNumber(d0) && IsNumber(d1) && IsNumber(d3)
    requires |d2| > 0 && (forall i :: 0 <= i < |d2| ==> IsDigit(d2[i])) && DigitsNat(d2) >= ULongModulus
    ensures ParseCommand(d0 + ":" + (d1 + ":" + (['-'] + d2 + ":" + d3))) == None
  {
    TypeFieldAllOnes(d2, d3);
    RefusedType(d0, d1, ['-'] + d2 + ":" + d3, DigitsNat(d3));
  }

  /** The last two fields, the first of them a '-' and a number beyond 64
      bits, scan as 0xFFFFFFFF and the last number. */
  lemma TypeFieldAllOnes(d2: string, d3: string)
    requires IsNumber(d3)
    requires |d2| > 0 && (forall i :: 0 <= i < |d2| ==> IsDigit(d2[i])) && DigitsNat(d2) >= ULongModulus
    ensures ScanFields(['-'] + d2 + ":" + d3, 2) == [Modulus32 - 1, DigitsNat(d3)]
  {
    var tail := ['-'] + d2 + ":" + d3;
    ScanOverflowing(d2, ":" + d3);
    assert tail == ['-'] + d2 + (":" + d3);
    ScanFieldsStep(tail, 2, Modulus32 - 1, ":" + d3);
    assert (":" + d3)[1..] == d3;
    ScanOne(d3);
  }

  /** Two numbers in front of fields whose first scans as 0xFFFFFFFF make
      a command with an unknown type. */
  lemma RefusedType(d0: string, d1: string, tail: string, b: nat)
    requires IsNumber(d0) && IsNumber(d1) && ScanFields(tail, 2) == [Modulus32 - 1, b]
    ensures ParseCommand(d0 + ":" + (d1 + ":" + tail)) == None
  {
    ScanCons(d1, tail, 2, [Modulus32 - 1, b]);
    RefusedThird(d0, d1 + ":" + tail, DigitsNat(d1), b);
  }

  /** A number in front of three fields whose second scans as 0xFFFFFFFF
      makes a command with an unknown type. */
  lemma RefusedThird(d0: string, rest: string, a: nat, b: nat)
    requires IsNumber(d0) && ScanFields(rest, 3) == [a, Modulus32 - 1, b]
    ensures ParseCommand(d0 + ":" + rest) == None
  {
    ScanCons(d0, rest, 3, [a, Modulus32 - 1, b]);
  }

  /** A written number followed by ':' scans as its value, then the rest. */
  lemma ScanNumberThenField(d: string, tail: string, n: nat)
    requires IsNumber(d) && n > 0
    ensures ScanFields(d + [':'] + tail, n + 1) == [DigitsNat(d)] + ScanFields(tail, n)
  {
    var rest := [':'] + tail;
    assert d + [':'] + tail == d + rest;
    ScanNumber(d, rest);
    assert rest[1..] == tail;
    ScanFieldsStep(d + rest, n + 1, DigitsNat(d), rest);
  }

  /** A written number and ':' in front of text that scans as `vs` scan
      as its value followed by `vs`. */
  lemma ScanCons(d: string, tail: string, n: nat, vs: seq<nat>)
    requires IsNumber(d) && n > 0 && ScanFields(tail, n) == vs
    ensures ScanFields(d + ":" + tail, n + 1) == [DigitsNat(d)] + vs
  {
    assert d + ":" + tail == d + [':'] + tail;
    ScanNumberThenField(d, tail, n);
  }

  lemma ScanOne(d: string)
    requires IsNumber(d)
    ensures ScanFields(d, 1) == [DigitsNat(d)]
  {
    ScanNumber(d, []);
    assert d + [] == d;
  }

  lemma ScanTwo(d2: string, d3: string)
    requires IsNumber(d2) && IsNumber(d3)
    ensures ScanFields(d2 + ":" + d3, 2) == [DigitsNat(d2), DigitsNat(d3)]
  {
    ScanOne(d3);
    ScanCons(d2, d3, 1, [DigitsNat(d3)]);
  }

  lemma ScanThree(d1: string, d2: string, d3: string)
    requires IsNumber(d1) && IsNumber(d2) && IsNumber(d3)
    ensures ScanFields(d1 + ":" + (d2 + ":" + d3), 3) == [DigitsNat(d1), DigitsNat(d2), DigitsNat(d3)]
  {
    ScanTwo(d2, d3);
    ScanCons(d1, d2 + ":" + d3, 2, [DigitsNat(d2), DigitsNat(d3)]);
  }

  /** Four written numbers separated by ':' scan back as their values. */
  lemma ScanFour(d0: string, d1: string, d2: string, d3: string)
    requires IsNumber(d0) && IsNumber(d1) && IsNumber(d2) && IsNumber(d3)
    ensures ScanFields(d0 + ":" + (d1 + ":" + (d2 + ":" + d3)), 4)
         == [DigitsNat(d0)] + [DigitsNat(d1), DigitsNat(d2), DigitsNat(d3)]
  {
    ScanThree(d1, d2, d3);
    ScanCons(d0, d1 + ":" + (d2 + ":" + d3), 3, [DigitsNat(d1), DigitsNat(d2), DigitsNat(d3)]);
  }

  /** 32-bit numbers written in decimal scan back. */
  lemma ScanCommand(spot: nat, gateway: nat, code: nat, bandwidth: nat)
    requires IsU32(spot) && IsU32(gateway) && IsU32(code) && IsU32(bandwidth)
    ensures ScanFields(Command(spot, gateway, code, bandwidth), 4) == [spot, gateway, code, bandwidth]
  {
    DecimalValue(spot);
    DecimalValue(gateway);
    DecimalValue(code);
    DecimalValue(bandwidth);
    ScanFour(Decimal(spot), Decimal(gateway), Decimal(code), Decimal(bandwidth));
  }

  /** Round trip: a command written from four 32-bit numbers with a valid
      type parses into the request with those values, narrowed. */
  lemma ParseCommandOfWritten(spot: nat, gateway: nat, code: nat, bandwidth: nat)
    requires IsU32(spot) && IsU32(gateway) && IsU32(bandwidth)
    requires code == 0 || code == 1
    ensures ParseCommand(Command(spot, gateway, code, bandwidth))
            == Some(Request(ToU8(spot), ToU16(gateway), TypeOfCode(code).value, ToU8(bandwidth)))
  {
    ScanCommand(spot, gateway, code, bandwidth);
  }

  /** A command whose type is neither 0 nor 1 is refused. */
  lemma ParseCommandRejectsType(spot: nat, gateway: nat, code: nat, bandwidth: nat)
    requires IsU32(spot) && IsU32(gateway) && IsU32(code) && IsU32(bandwidth)
    requires code != 0 && code != 1
    ensures ParseCommand(Command(spot, gateway, code, bandwidth)) == None
  {
    ScanCommand(spot, gateway, code, bandwidth);
  }

  /** The new bandwidth is a `freq_mhz_t`: 256 MHz is received as 0. */
  lemma BandwidthNarrowed()
    ensures ParseCommand(Command(1, 0, 0, 256)) == Some(Request(1, 0, ForwardBandwidth, 0))
  {
    ParseCommandOfWritten(1, 0, 0, 256);
  }

  /* ---------------------------------------------------------------------- */
  /* Messages                                                                */

  /** The requests of the lines that parse, in order. */
  function Parsed(lines: seq<string>): seq<Request> {
    if |lines| == 0 then []
    else
      match ParseCommand(lines[0])
      case None => Parsed(lines[1..])
      case Some(req) => [req] + Parsed(lines[1..])
  }

  /** The requests of `rs` of type `t`, in order. */
  function OfType(rs: seq<Request>, t: RequestType): (r: seq<Request>)
    ensures |r| <= |rs|
    ensures forall k :: 0 <= k < |r| ==> r[k].requestType == t
  {
    if |rs| == 0 then []
    else if rs[0].requestType == t then [rs[0]] + OfType(rs[1..], t)
    else OfType(rs[1..], t)
  }

  /** The loop of `parseConfUpdateMessage` over the lines: a line that does
      not parse is skipped; the first accepted command sets the type of the
      message (`first`) and a command of another type is dropped. At most
      one command per line is accepted, all of one type: the type already
      set, or else the type of the first one accepted. */
  function AcceptLines(lines: seq<string>, first: Option<RequestType>): (r: seq<Request>)
    ensures |r| <= |lines|
    ensures first.Some? ==> forall k :: 0 <= k < |r| ==> r[k].requestType == first.value
    ensures forall k :: 0 <= k < |r| ==> r[k].requestType == r[0].requestType
  {
    if |lines| == 0 then []
    else
      match ParseCommand(lines[0])
      case None => AcceptLines(lines[1..], first)
      case Some(req) =>
        if first.Some? && req.requestType != first.value then AcceptLines(lines[1..], first)
        else [req] + AcceptLines(lines[1..], Some(req.requestType))
  }

  /** Once the type is set, the accepted commands are the parsed commands
      of that type. */
  lemma {:induction false} AcceptLinesOfType(lines: seq<string>, t: RequestType)
    ensures AcceptLines(lines, Some(t)) == OfType(Parsed(lines), t)
  {
    if |lines| > 0 {
      AcceptLinesOfType(lines[1..], t);
    }
  }

  /** The accepted commands of a message are the parsed commands that have
      the type of the first one, in order. */
  lemma {:induction false} AcceptLinesSpec(lines: seq<string>)
    ensures var ps := Parsed(lines);
      AcceptLines(lines, None) == if |ps| == 0 then [] else OfType(ps, ps[0].requestType)
  {
    if |lines| > 0 {
      AcceptLinesSpec(lines[1..]);
      match ParseCommand(lines[0])
      case None =>
      case Some(req) =>
        AcceptLinesOfType(lines[1..], req.requestType);
        assert Parsed(lines) == [req] + Parsed(lines[1..]);
        assert ([req] + Parsed(lines[1..]))[1..] == Parsed(lines[1..]);
    }
  }

  /** The interface: whether a client is connected, and the queue of
      requests. */
  datatype Interface = Interface(connected: bool, requests: seq<Request>)

  /** `parseConfUpdateMessage`: the accepted commands go to the end of the
      queue; the result is false exactly when none was accepted. */
  function ParseMessage(intf: Interface, message: string): (r: (bool, Interface))
    ensures r.1.connected == intf.connected
    ensures |r.1.requests| >= |intf.requests| && r.1.requests[..|intf.requests|] == intf.requests
    ensures r.0 <==> |Parsed(Lines(message))| > 0
    ensures !r.0 ==> r.1 == intf
    ensures forall k :: |intf.requests| <= k < |r.1.requests| ==>
      r.1.requests[k].requestType == r.1.requests[|intf.requests|].requestType
  {
    var accepted := AcceptLines(Lines(message), None);
    AcceptLinesSpec(Lines(message));
    AcceptsSome(Lines(message));
    assert (intf.requests + accepted)[..|intf.requests|] == intf.requests;
    if |accepted| == 0 then (false, intf)
    else (true, intf.(requests := intf.requests + accepted))
  }

  /** Some command is accepted exactly when some line parses: the first
      one that does always is. */
  lemma AcceptsSome(lines: seq<string>)
    ensures |AcceptLines(lines, None)| > 0 <==> |Parsed(lines)| > 0
  {
    AcceptLinesSpec(lines);
    var ps := Parsed(lines);
    if |ps| > 0 {
      assert OfType(ps, ps[0].requestType) == [ps[0]] + OfType(ps[1..], ps[0].requestType);
    }
  }

  /** `readConfUpdateMessage`: without a client nothing is read; a message
      with no accepted command closes the client. */
  function ReadMessage(intf: Interface, message: string): (r: (bool, Interface))
    ensures !intf.connected ==> r == (false, intf)
    ensures intf.connected ==> (r.0 <==> |Parsed(Lines(message))| > 0)
    ensures r.1.connected <==> r.0
    ensures r.1.requests == ParseMessage(intf, message).1.requests || !intf.connected
  {
    if !intf.connected then (false, intf)
    else
      var (ok, next) := ParseMessage(intf, message);
      if !ok then (false, next.(connected := false)) else (true, next)
  }

  /** `getNextConfUpdateRequest`: the oldest request, taken off the queue;
      `None` (NULL) when the queue is empty. */
  function NextRequest(intf: Interface): (r: (Option<Request>, Interface))
    ensures r.0.None? <==> |intf.requests| == 0
    ensures r.0.Some? ==> [r.0.value] + r.1.requests == intf.requests
    ensures r.0.None? ==> r.1 == intf
    ensures r.1.connected == intf.connected
  {
    if |intf.requests| == 0 then (None, intf)
    else (Some(intf.requests[0]), intf.(requests := intf.requests[1..]))
  }

  /** `getConfUpdateRequestType`: the type of the oldest request,
      `UnknownRequest` when there is none. */
  function CurrentType(intf: Interface): (t: RequestType)
    ensures t == UnknownRequest <==> |intf.requests| == 0 || intf.requests[0].requestType == UnknownRequest
  {
    if |intf.requests| == 0 then UnknownRequest else intf.requests[0].requestType
  }

  /** The current type is the type of the request taken next. */
  lemma CurrentTypeIsNext(intf: Interface)
    ensures CurrentType(intf) == match NextRequest(intf).0
                                 case None => UnknownRequest
                                 case Some(req) => req.requestType
  {
  }

  /** Taking `n` requests off the queue one at a time. */
  function Drain(intf: Interface, n: nat): (r: (seq<Request>, Interface))
    requires n <= |intf.requests|
    decreases n
  {
    if n == 0 then ([], intf)
    else
      var (req, next) := NextRequest(intf);
      var (more, last) := Drain(next, n - 1);
      ([req.value] + more, last)
  }

  /** First in, first out: the requests come off the queue in the order
      they were queued, and the rest stays. */
  lemma {:induction false} DrainInOrder(intf: Interface, n: nat)
    requires n <= |intf.requests|
    ensures Drain(intf, n).0 == intf.requests[..n]
    ensures Drain(intf, n).1 == intf.(requests := intf.requests[n..])
    decreases n
  {
    if n > 0 {
      var next := NextRequest(intf).1;
      DrainInOrder(next, n - 1);
      assert [intf.requests[0]] + next.requests[..n - 1] == intf.requests[..n];
      assert next.requests[n - 1..] == intf.requests[n..];
    }
  }

  /** A message read on an empty queue gives back, in order, its accepted
      commands, all of one type. */
  lemma {:induction false} ReadThenDrain(intf: Interface, message: string)
    requires intf.connected && |intf.requests| == 0
    ensures var (ok, next) := ReadMessage(intf, message);
      var accepted := AcceptLines(Lines(message), None);
      && next.requests == accepted
      && Drain(next, |accepted|).0 == accepted
      && NextRequest(Drain(next, |accepted|).1).0 == None
  {
    var (ok, next) := ReadMessage(intf, message);
    var accepted := AcceptLines(Lines(message), None);
    assert intf.requests + accepted == accepted;
    DrainInOrder(next, |next.requests|);
    assert next.requests[..|next.requests|] == next.requests;
  }

  /* ---------------------------------------------------------------------- */
  /* Listening port                                                          */

  /** The check of `initConfUpdateSocket` on the configured port: `None`
      when the parameter is missing or rejected, otherwise the port the
      listening socket is opened on. As written the bad-value test joins
      "port <= 0" and "port >= 0xffff" with `&&`, which no value meets; the
      intended test rejects a value that is not a valid port. */
  function ListenPort(mode: Mode, port: Option<int>): (r: Option<int>)
    ensures port.None? ==> r.None?
    ensures r.Some? ==> r == port
    ensures mode == Intended ==> (r.Some? <==> port.Some? && 0 < port.value < 0xffff)
  {
    if port.None? then None
    else
      var p := port.value;
      var bad := match mode
                 case AsWritten => p <= 0 && p >= 0xffff
                 case Intended => p <= 0 || p >= 0xffff;
      if bad then None else Some(p)
  }

  /** As written, every configured value passes, a negative one included. */
  lemma ListenPortAcceptsAnything(p: int)
    ensures ListenPort(AsWritten, Some(p)) == Some(p)
  {
  }

  /** The concrete input that shows it. */
  lemma ListenPortNegative()
    ensures ListenPort(AsWritten, Some(-1)) == Some(-1)
    ensures ListenPort(Intended, Some(-1)) == None
  {
  }
}

=== FILE: conf_update_request.dfy ===
/** A request to change a simulation parameter while the simulation runs
    (opensand-core/src/dvb/ncc_interface/ConfUpdateRequest.cpp): so far the
    bandwidth of the forward or of the return link of a spot. */
module ConfUpdateRequest {
  import opened Wrappers
  import opened OpenSandCore

  /** `conf_update_request_type_t`. */
  datatype RequestType = ForwardBandwidth | ReturnBandwidth | UnknownRequest

  /** The numeric value of each request type. */
  function TypeCode(t: RequestType): (c: nat)
    ensures t != UnknownRequest <==> c < 2
  {
    match t
    case ForwardBandwidth => 0
    case ReturnBandwidth => 1
    case UnknownRequest => 999
  }

  /** The request type a received code names; only the two bandwidth
      requests can be received. */
  function TypeOfCode(c: nat): (r: Option<RequestType>)
    ensures r.Some? <==> c == 0 || c == 1
    ensures r.Some? ==> TypeCode(r.value) == c
  {
    if c == 0 then Some(ForwardBandwidth)
    else if c == 1 then Some(ReturnBandwidth)
    else None
  }

  /** Every type that can be received is read back from its own code. */
  lemma TypeCodeRoundTrip(t: RequestType)
    requires t != UnknownRequest
    ensures TypeOfCode(TypeCode(t)) == Some(t)
  {
  }

  /** A request; the fields are what the getters return. The spot id is a
      `spot_id_t` (8 bits), the gateway id a `tal_id_t` (16 bits) and the
      new bandwidth a `freq_mhz_t` (8 bits). */
  datatype Request = Request(spotId: nat, gatewayId: nat, requestType: RequestType, bandwidth: nat)

  predicate ValidRequest(r: Request) {
    IsU8(r.spotId) && IsU16(r.gatewayId) && IsU8(r.bandwidth)
  }

  /** The constructor stores its arguments. */
  function NewRequest(spotId: nat, gatewayId: nat, t: RequestType, bandwidth: nat): (r: Request)
    requires IsU8(spotId) && IsU16(gatewayId) && IsU8(bandwidth)
    ensures ValidRequest(r)
    ensures r.spotId == spotId && r.gatewayId == gatewayId
    ensures r.requestType == t && r.bandwidth == bandwidth
  {
    Request(spotId, gatewayId, t, bandwidth)
  }
}

=== FILE: core_types.dfy ===
/** Identifiers, fixed-width integer types and small string helpers shared by
    every block of the emulator (opensand-core/src/common/OpenSandCore.h). */
module OpenSandCore {

  /** Highest terminal id a 5-bit field can carry; used as the broadcast id. */
  const BroadcastTalId: nat := 0x1F
  /** Terminal id of the gateway. */
  const GwTalId: nat := 0

  const Modulus8: nat := 0x100
  const Modulus16: nat := 0x1_0000
  const Modulus32: nat := 0x1_0000_0000

  /** An octet of a packet (`unsigned char`). */
  type Byte = b: int | 0 <= b < 0x100

  /** The C conversions to `uint8_t`, `uint16_t` and `uint32_t`: values wrap
      modulo the type's range (this is how `freq_mhz_t`, `spot_id_t`,
      `tal_id_t`, `vol_pkt_t` and `vol_bytes_t` behave). */
  function ToU8(x: int): (r: nat)
    ensures r < Modulus8
    ensures 0 <= x < Modulus8 ==> r == x
    ensures (r - x) % Modulus8 == 0
  {
    x % Modulus8
  }

  function ToU16(x: int): (r: nat)
    ensures r < Modulus16
    ensures 0 <= x < Modulus16 ==> r == x
    ensures (r - x) % Modulus16 == 0
  {
    x % Modulus16
  }

  function ToU32(x: int): (r: nat)
    ensures r < Modulus32
    ensures 0 <= x < Modulus32 ==> r == x
    ensures (r - x) % Modulus32 == 0
  {
    x % Modulus32
  }

  lemma MulGe(k: int, m: int)
    requires k >= 1 && m > 0
    ensures k * m >= m
  {
  }

  /** Euclidean division is unique: a quotient and remainder in range are
      the ones `/` and `%` give. */
  lemma ModUnique(a: int, m: int, q: int, r: int)
    requires m > 0 && a == q * m + r && 0 <= r < m
    ensures a / m == q && a % m == r
  {
    var q0 := a / m;
    assert a == q0 * m + a % m;
    if q > q0 {
      MulGe(q - q0, m);
      assert false;
    } else if q < q0 {
      MulGe(q0 - q, m);
      assert false;
    }
  }

  /** Wrapping once at the end is the same as wrapping after every step. */
  lemma ModShift(x: int, y: int, m: int)
    requires m > 0
    ensures (x % m + y) % m == (x + y) % m
  {
    var s := x % m + y;
    var q1 := x / m;
    var q2 := s / m;
    assert x == q1 * m + x % m;
    assert s == q2 * m + s % m;
    assert x + y == (q1 + q2) * m + s % m by {
      assert (q1 + q2) * m == q1 * m + q2 * m;
    }
    ModUnique(x + y, m, q1 + q2, s % m);
  }

  /** `uint32_t` arithmetic: adding to a wrapped value wraps the exact sum. */
  lemma ToU32Shift(x: int, y: int)
    ensures ToU32(ToU32(x) + y) == ToU32(x + y)
  {
    ModShift(x, y, Modulus32);
  }

  lemma ToU16Shift(x: int, y: int)
    ensures ToU16(ToU16(x) + y) == ToU16(x + y)
  {
    ModShift(x, y, Modulus16);
  }

  predicate IsU8(x: int) { 0 <= x < Modulus8 }
  predicate IsU16(x: int) { 0 <= x < Modulus16 }
  predicate IsU32(x: int) { 0 <= x < Modulus32 }

  /** The kinds of DVB component a block can run on. */
  datatype Component = Satellite | Gateway | Terminal

  /** Abbreviated component name; distinct components get distinct,
      non-empty names, so the name identifies the component. */
  function ComponentName(host: Component): (r: string)
    ensures r != ""
    ensures r == "sat" <==> host == Satellite
    ensures r == "gw" <==> host == Gateway
    ensures r == "st" <==> host == Terminal
  {
    match host
    case Satellite => "sat"
    case Gateway => "gw"
    case Terminal => "st"
  }

  datatype SatType = Regenerative | Transparent

  /** Only the exact text "regenerative" selects a regenerative satellite;
      anything else, including other spellings, is transparent. */
  function StrToSatType(name: string): (r: SatType)
    ensures r == Regenerative <==> name == "regenerative"
  {
    if name == "regenerative" then Regenerative else Transparent
  }

  /** The characters `std::isspace` accepts in the C locale, which also
      separate the words `>>` extracts. */
  const Whitespace: string := [' ', '\t', '\n', '\r', 11 as char, 12 as char]

  predicate IsSpace(c: char) {
    c == ' ' || c == '\t' || c == '\n' || c == '\r' || c == 11 as char || c == 12 as char
  }

  /** `s` without its leading white space. */
  function SkipSpace(s: string): (r: string)
    ensures |r| <= |s|
    ensures |r| == 0 || !IsSpace(r[0])
    ensures forall i :: 0 <= i < |s| - |r| ==> IsSpace(s[i])
  {
    if |s| > 0 && IsSpace(s[0]) then SkipSpace(s[1..]) else s
  }

  /** Length of the maximal run of non-delimiter characters at the head of `s`. */
  function RunLength(s: string, delims: string): (n: nat)
    ensures n <= |s|
    ensures forall i :: 0 <= i < n ==> s[i] !in delims
    ensures n < |s| ==> s[n] in delims
  {
    if |s| == 0 || s[0] in delims then 0 else 1 + RunLength(s[1..], delims)
  }

  /** Split `s` into the maximal runs of characters that are not in `delims`,
      skipping leading, trailing and repeated delimiters. Every token is
      non-empty and free of delimiters, and there is none exactly when `s`
      holds nothing but delimiters. */
  function Tokenize(s: string, delims: string): (tokens: seq<string>)
    ensures forall k :: 0 <= k < |tokens| ==> IsToken(tokens[k], delims)
    ensures tokens == [] <==> forall i :: 0 <= i < |s| ==> s[i] in delims
    decreases |s|
  {
    if |s| == 0 then []
    else if s[0] in delims then Tokenize(s[1..], delims)
    else
      var n := RunLength(s, delims);
      [s[..n]] + Tokenize(s[n..], delims)
  }

  /** A well-formed token: non-empty and free of delimiters. */
  predicate IsToken(t: string, delims: string) {
    |t| > 0 && forall i :: 0 <= i < |t| ==> t[i] !in delims
  }

  /** `s` with every delimiter character removed. */
  function StripDelims(s: string, delims: string): (r: string)
    ensures |r| <= |s|
  {
    if |s| == 0 then []
    else if s[0] in delims then StripDelims(s[1..], delims)
    else [s[0]] + StripDelims(s[1..], delims)
  }

  function Concat(tokens: seq<string>): string {
    if |tokens| == 0 then [] else tokens[0] + Concat(tokens[1..])
  }

  /** `tokens` separated by the single delimiter `d`. */
  function Join(tokens: seq<string>, d: char): string {
    if |tokens| == 0 then []
    else if |tokens| == 1 then tokens[0]
    else tokens[0] + [d] + Join(tokens[1..], d)
  }

  lemma {:induction false} StripDelimsOfTokenRun(s: string, n: nat, delims: string)
    requires n <= |s|
    requires forall i :: 0 <= i < n ==> s[i] !in delims
    ensures StripDelims(s, delims) == s[..n] + StripDelims(s[n..], delims)
    decreases n
  {
    if n > 0 {
      assert s[0] !in delims;
      assert StripDelims(s, delims) == [s[0]] + StripDelims(s[1..], delims);
      forall i | 0 <= i < n - 1 ensures s[1..][i] !in delims {
        assert s[1..][i] == s[i + 1];
      }
      StripDelimsOfTokenRun(s[1..], n - 1, delims);
      assert s[1..][n - 1..] == s[n..];
      assert [s[0]] + s[1..][..n - 1] == s[..n];
    }
  }

  /** Every token is non-empty and delimiter-free, and the tokens laid end to
      end give back exactly the non-delimiter characters of the input, in order. */
  lemma {:induction false} TokenizeSound(s: string, delims: string)
    ensures forall k :: 0 <= k < |Tokenize(s, delims)| ==> IsToken(Tokenize(s, delims)[k], delims)
    ensures Concat(Tokenize(s, delims)) == StripDelims(s, delims)
    decreases |s|
  {
    if |s| == 0 {
    } else if s[0] in delims {
      TokenizeSound(s[1..], delims);
    } else {
      var n := RunLength(s, delims);
      TokenizeSound(s[n..], delims);
      StripDelimsOfTokenRun(s, n, delims);
      var rest := Tokenize(s[n..], delims);
      assert Tokenize(s, delims) == [s[..n]] + rest;
      assert ([s[..n]] + rest)[1..] == rest;
    }
  }

  lemma RunLengthOfTokenThenDelim(t: string, rest: string, delims: string)
    requires IsToken(t, delims)
    requires |rest| > 0 && rest[0] in delims
    ensures RunLength(t + rest, delims) == |t|
    decreases |t|
  {
    if |t| > 1 {
      assert (t + rest)[1..] == t[1..] + rest;
      RunLengthOfTokenThenDelim(t[1..], rest, delims);
    }
  }

  lemma RunLengthOfToken(t: string, delims: string)
    requires IsToken(t, delims)
    ensures RunLength(t, delims) == |t|
    decreases |t|
  {
    if |t| > 1 {
      RunLengthOfToken(t[1..], delims);
    }
  }

  /** Partner of `Tokenize`: joining well-formed tokens with a delimiter and
      tokenising the result gives the tokens back. */
  lemma {:induction false} TokenizeJoin(tokens: seq<string>, d: char, delims: string)
    requires d in delims
    requires forall k :: 0 <= k < |tokens| ==> IsToken(tokens[k], delims)
    ensures Tokenize(Join(tokens, d), delims) == tokens
    decreases |tokens|
  {
    if |tokens| == 0 {
    } else if |tokens| == 1 {
      var t := tokens[0];
      RunLengthOfToken(t, delims);
      assert t[..|t|] == t;
      assert t[|t|..] == [];
    } else {
      var t := tokens[0];
      var rest := [d] + Join(tokens[1..], d);
      var s := t + rest;
      assert Join(tokens, d) == s;
      RunLengthOfTokenThenDelim(t, rest, delims);
      assert s[..|t|] == t;
      assert s[|t|..] == rest;
      assert rest[1..] == Join(tokens[1..], d);
      TokenizeJoin(tokens[1..], d, delims);
      assert tokens == [t] + tokens[1..];
    }
  }

  // ---------------------------------------------------------------------
  // Decimal digits
  // ---------------------------------------------------------------------

  predicate IsDigit(c: char) {
    '0' <= c <= '9'
  }

  function DigitChar(n: nat): (c: char)
    requires n < 10
    ensures IsDigit(c)
  {
    ('0' as int + n) as char
  }

  function DigitOf(c: char): nat {
    if IsDigit(c) then (c as int) - ('0' as int) else 0
  }

  /** Length of the run of digits at the head of `s`. */
  function DigitRun(s: string): (n: nat)
    ensures n <= |s|
    ensures forall j :: 0 <= j < n ==> IsDigit(s[j])
    ensures n < |s| ==> !IsDigit(s[n])
  {
    if |s| == 0 || !IsDigit(s[0]) then 0 else 1 + DigitRun(s[1..])
  }

  /** The value of a string of decimal digits, most significant first. */
  function DigitsNat(ds: string): nat {
    if |ds| == 0 then 0 else DigitsNat(ds[..|ds| - 1]) * 10 + DigitOf(ds[|ds| - 1])
  }

  /** The value of the run of digits at the head of `s`; 0 when there is none. */
  function LeadingValue(s: string): nat {
    DigitsNat(s[..DigitRun(s)])
  }

  /** Decimal text of a natural number, without leading zeros. */
  function Decimal(n: nat): (r: string)
    ensures |r| > 0
    ensures forall i :: 0 <= i < |r| ==> IsDigit(r[i])
  {
    if n < 10 then [DigitChar(n)] else Decimal(n / 10) + [DigitChar(n % 10)]
  }

  /** The decimal writings of `vs`. */
  function Decimals(vs: seq<nat>): (ds: seq<string>)
    ensures |ds| == |vs|
  {
    if |vs| == 0 then [] else [Decimal(vs[0])] + Decimals(vs[1..])
  }

  lemma {:induction false} DecimalsAt(vs: seq<nat>, k: nat)
    requires k < |vs|
    ensures Decimals(vs)[k] == Decimal(vs[k])
  {
    if k > 0 {
      DecimalsAt(vs[1..], k - 1);
    }
  }

  /** Reading back the decimal text of a number gives the number. */
  lemma {:induction false} DecimalValue(n: nat)
    ensures DigitsNat(Decimal(n)) == n
    ensures DigitRun(Decimal(n)) == |Decimal(n)|
    ensures LeadingValue(Decimal(n)) == n
  {
    var d := Decimal(n);
    AllDigitsRun(d);
    assert d[..|d|] == d;
    if n >= 10 {
      DecimalValue(n / 10);
      assert d[..|d| - 1] == Decimal(n / 10);
    }
  }

  lemma {:induction false} AllDigitsRun(s: string)
    requires forall i :: 0 <= i < |s| ==> IsDigit(s[i])
    ensures DigitRun(s) == |s|
    decreases |s|
  {
    if |s| > 0 {
      AllDigitsRun(s[1..]);
    }
  }

  /* ---------------------------------------------------------------------- */
  /* Sequence facts                                                          */

  /** A prefix of a prefix of `s` is a prefix of `s`. */
  lemma PrefixOfPrefix<T>(s: seq<T>, b: seq<T>, a: seq<T>)
    requires |b| <= |s| && s[..|b|] == b && |a| <= |b| && b[..|a|] == a
    ensures s[..|a|] == a
  {
    assert s[..|a|] == s[..|b|][..|a|];
  }

  /** A suffix of the tail of `s` is a suffix of `s`. */
  lemma SuffixOfTail<T>(s: seq<T>, r: seq<T>)
    requires |s| > 0 && |r| <= |s| - 1 && r == s[1..][|s| - 1 - |r|..]
    ensures r == s[|s| - |r|..]
  {
    assert s[1..][|s| - 1 - |r|..] == s[|s| - |r|..];
  }
}

=== FILE: crdsa.dfy ===
/** The collision removal of CRDSA, Contention Resolution Diversity
    Slotted Aloha, at the NCC
    (opensand-core/src/dvb/saloha/SlottedAlohaAlgoCrdsa.cpp).

    Every terminal sends each packet several times, in different slots of
    the frame. A slot holding a single packet decodes it; the packet's
    other replicas are then known and their signal is removed from the
    slots they share with other packets, which may leave further slots with
    a single packet. Passes over the slots repeat until one pass decodes
    nothing new; what is left in a slot is a collision and is lost. */
module SlottedAlohaCrdsa {
  import opened OpenSandCore
  import opened SlottedAloha

  /** A packet is recognised by its source and the id its source gave it:
      every replica of a packet has the same key. */
  datatype Key = Key(src: nat, id: nat)

  function KeyOf(p: AlohaPacket): Key {
    Key(p.src, p.uniqueId)
  }

  /** The packets received in one slot. The slots of a frame are visited
      in increasing slot number; here they are a sequence in that order. */
  type Slot = seq<AlohaPacket>

  /** The keys of the packets present in `slots`. */
  function Keys(slots: seq<Slot>): set<Key> {
    set j, p | 0 <= j < |slots| && p in slots[j] :: KeyOf(p)
  }

  /** Signal suppression in one slot: the replicas of packets already
      decoded are removed; the others stay, in their order. */
  function Suppress(slot: Slot, decoded: set<Key>): (r: Slot)
    ensures forall p :: p in r <==> p in slot && KeyOf(p) !in decoded
    ensures |r| <= |slot|
  {
    if |slot| == 0 then []
    else (if KeyOf(slot[0]) in decoded then [] else [slot[0]]) + Suppress(slot[1..], decoded)
  }

  /** The state of a pass: the slots, the keys decoded so far
      (`accepted_ids`), the list of decoded packets (`accepted_packets`)
      and whether the pass decoded nothing yet (`stop`). */
  datatype Pass = Pass(slots: seq<Slot>, decoded: set<Key>, accepted: seq<AlohaPacket>, stop: bool)

  /** The visit of slot `i`: an empty slot is skipped; otherwise its
      decoded replicas are removed and, if a single packet is left, that
      packet is decoded and another pass is required. The decoded packet
      stays in its slot until the next pass removes it. */
  function Visit(st: Pass, i: nat): (r: Pass)
    requires i < |st.slots|
    ensures |r.slots| == |st.slots|
    ensures forall j :: 0 <= j < |st.slots| && j != i ==> r.slots[j] == st.slots[j]
    ensures r.slots[i] == Suppress(st.slots[i], st.decoded)
    ensures |r.slots[i]| == 1 ==>
      && KeyOf(r.slots[i][0]) !in st.decoded
      && r.decoded == st.decoded + {KeyOf(r.slots[i][0])}
      && r.accepted == st.accepted + [r.slots[i][0]]
      && !r.stop
    ensures |r.slots[i]| != 1 ==> r.decoded == st.decoded && r.accepted == st.accepted && r.stop == st.stop
  {
    var slot := st.slots[i];
    if |slot| == 0 then st
    else
      var left := Suppress(slot, st.decoded);
      var slots := st.slots[i := left];
      if |left| == 1 then
        assert left[0] in left;
        Pass(slots, st.decoded + {KeyOf(left[0])}, st.accepted + [left[0]], false)
      else st.(slots := slots)
  }

  /** The rest of a pass, from slot `i` on. */
  function PassFrom(st: Pass, i: nat): (r: Pass)
    requires i <= |st.slots|
    ensures |r.slots| == |st.slots|
    decreases |st.slots| - i
  {
    if i == |st.slots| then st else PassFrom(Visit(st, i), i + 1)
  }

  /** One pass over all slots. */
  function OnePass(slots: seq<Slot>, decoded: set<Key>, accepted: seq<AlohaPacket>): (r: Pass)
    ensures |r.slots| == |slots|
  {
    PassFrom(Pass(slots, decoded, accepted, true), 0)
  }

  /** The slots of `b` hold only packets the same slots of `a` held. */
  predicate Shrinks(a: seq<Slot>, b: seq<Slot>) {
    && |a| == |b|
    && (forall j :: 0 <= j < |a| ==> |b[j]| <= |a[j]|)
    && (forall j, p :: 0 <= j < |a| && p in b[j] ==> p in a[j])
  }

  /** `r` decoded more keys than `st` and appended one packet per new key
      to the list, never two with the same key. */
  predicate Extends(st: Pass, r: Pass) {
    && st.decoded <= r.decoded
    && |st.accepted| <= |r.accepted| && r.accepted[..|st.accepted|] == st.accepted
    && (forall k :: |st.accepted| <= k < |r.accepted| ==> KeyOf(r.accepted[k]) in r.decoded - st.decoded)
    && (forall k1, k2 :: |st.accepted| <= k1 < k2 < |r.accepted| ==> KeyOf(r.accepted[k1]) != KeyOf(r.accepted[k2]))
    && (r.decoded == st.decoded ==> r.accepted == st.accepted)
    && r.decoded == st.decoded + NewKeys(r.accepted, |st.accepted|)
  }

  /** The keys of the packets appended to `acc` after its first `from`. */
  function NewKeys(acc: seq<AlohaPacket>, from: nat): set<Key> {
    set k | from <= k < |acc| :: KeyOf(acc[k])
  }

  /** The packets present in `slots`. */
  function Packets(slots: seq<Slot>): set<AlohaPacket> {
    set j, p | 0 <= j < |slots| && p in slots[j] :: p
  }

  /** Going from slots `a` to slots `b` lost no packet other than the
      replicas of decoded keys. */
  predicate Accounted(a: seq<Slot>, b: seq<Slot>, decoded: set<Key>) {
    |a| == |b| && forall j, p :: 0 <= j < |a| && p in a[j] ==> p in b[j] || KeyOf(p) in decoded
  }

  /** A pass that stops decoded nothing and left every slot it visited
      without decoded replicas and without a single packet. */
  predicate Quiet(st: Pass, i: nat, r: Pass)
    requires i <= |st.slots| && |r.slots| == |st.slots|
  {
    r.stop ==>
      && st.stop && r.decoded == st.decoded
      && forall j :: i <= j < |st.slots| ==> r.slots[j] == Suppress(st.slots[j], st.decoded) && |r.slots[j]| != 1
  }

  lemma KeysOfSlot(slots: seq<Slot>, j: nat, p: AlohaPacket)
    requires j < |slots| && p in slots[j]
    ensures KeyOf(p) in Keys(slots)
  {
  }

  lemma KeysShrink(a: seq<Slot>, b: seq<Slot>)
    requires Shrinks(a, b)
    ensures Keys(b) <= Keys(a)
  {
    forall key | key in Keys(b) ensures key in Keys(a) {
      var j, p :| 0 <= j < |b| && p in b[j] && KeyOf(p) == key;
      KeysOfSlot(a, j, p);
    }
  }

  lemma {:induction false} PassFromShrinks(st: Pass, i: nat)
    requires i <= |st.slots|
    ensures Shrinks(st.slots, PassFrom(st, i).slots)
    decreases |st.slots| - i
  {
    if i < |st.slots| {
      PassFromShrinks(Visit(st, i), i + 1);
    }
  }

  lemma {:induction false} PassFromKeeps(st: Pass, i: nat)
    requires i <= |st.slots|
    ensures forall j :: 0 <= j < i ==> PassFrom(st, i).slots[j] == st.slots[j]
    decreases |st.slots| - i
  {
    if i < |st.slots| {
      PassFromKeeps(Visit(st, i), i + 1);
    }
  }

  lemma {:induction false} PassFromDecodesPresent(st: Pass, i: nat)
    requires i <= |st.slots|
    ensures PassFrom(st, i).decoded <= st.decoded + Keys(st.slots)
    decreases |st.slots| - i
  {
    if i < |st.slots| {
      var st1 := Visit(st, i);
      PassFromDecodesPresent(st1, i + 1);
      if |st1.slots[i]| == 1 {
        assert st1.slots[i][0] in st.slots[i] by {
          assert st1.slots[i][0] in st1.slots[i];
        }
        KeysOfSlot(st.slots, i, st1.slots[i][0]);
      }
      assert Shrinks(st.slots, st1.slots);
      KeysShrink(st.slots, st1.slots);
    }
  }

  lemma {:induction false} PassFromExtends(st: Pass, i: nat)
    requires i <= |st.slots|
    ensures Extends(st, PassFrom(st, i))
    ensures PassFrom(st, i).stop ==> st.stop
    ensures st.stop && !PassFrom(st, i).stop ==> PassFrom(st, i).decoded != st.decoded
    decreases |st.slots| - i
  {
    if i < |st.slots| {
      var st1 := Visit(st, i);
      var r := PassFrom(st1, i + 1);
      PassFromExtends(st1, i + 1);
      VisitExtends(st, i);
      ExtendsTrans(st, st1, r);
    }
  }

  /** A visit decodes at most one new key and appends its packet. */
  lemma VisitExtends(st: Pass, i: nat)
    requires i < |st.slots|
    ensures Extends(st, Visit(st, i))
  {
    var r := Visit(st, i);
    if |r.slots[i]| == 1 {
      assert r.accepted[|st.accepted|] == r.slots[i][0];
      assert NewKeys(r.accepted, |st.accepted|) == {KeyOf(r.slots[i][0])};
    } else {
      assert NewKeys(r.accepted, |st.accepted|) == {};
    }
  }

  lemma ExtendsTrans(a: Pass, b: Pass, c: Pass)
    requires Extends(a, b) && Extends(b, c)
    ensures Extends(a, c)
  {
    assert NewKeys(c.accepted, |a.accepted|) == NewKeys(b.accepted, |a.accepted|) + NewKeys(c.accepted, |b.accepted|) by {
      forall key | key in NewKeys(c.accepted, |a.accepted|)
        ensures key in NewKeys(b.accepted, |a.accepted|) + NewKeys(c.accepted, |b.accepted|)
      {
        var k :| |a.accepted| <= k < |c.accepted| && KeyOf(c.accepted[k]) == key;
        if k < |b.accepted| {
          assert c.accepted[k] == b.accepted[k];
        }
      }
      forall key | key in NewKeys(b.accepted, |a.accepted|)
        ensures key in NewKeys(c.accepted, |a.accepted|)
      {
        var k :| |a.accepted| <= k < |b.accepted| && KeyOf(b.accepted[k]) == key;
        assert c.accepted[k] == b.accepted[k];
      }
    }
    assert c.accepted[..|a.accepted|] == a.accepted by {
      assert c.accepted[..|b.accepted|] == b.accepted;
      assert b.accepted[..|a.accepted|] == a.accepted;
    }
    forall k | |a.accepted| <= k < |c.accepted|
      ensures KeyOf(c.accepted[k]) in c.decoded - a.decoded
    {
      if k < |b.accepted| {
        assert c.accepted[k] == b.accepted[k];
      }
    }
    forall k1, k2 | |a.accepted| <= k1 < k2 < |c.accepted|
      ensures KeyOf(c.accepted[k1]) != KeyOf(c.accepted[k2])
    {
      if k1 < |b.accepted| {
        assert c.accepted[k1] == b.accepted[k1];
        assert KeyOf(c.accepted[k1]) in b.decoded;
      }
    }
  }

  lemma {:induction false} PassFromQuiet(st: Pass, i: nat)
    requires i <= |st.slots|
    ensures Quiet(st, i, PassFrom(st, i))
    decreases |st.slots| - i
  {
    if i < |st.slots| {
      var st1 := Visit(st, i);
      PassFromQuiet(st1, i + 1);
      PassFromKeeps(st1, i + 1);
      PassFromExtends(st1, i + 1);
    }
  }

  lemma {:induction false} PassFromAccounted(st: Pass, i: nat)
    requires i <= |st.slots|
    ensures Accounted(st.slots, PassFrom(st, i).slots, PassFrom(st, i).decoded)
    decreases |st.slots| - i
  {
    if i < |st.slots| {
      var st1 := Visit(st, i);
      var r := PassFrom(st1, i + 1);
      PassFromAccounted(st1, i + 1);
      PassFromExtends(st1, i + 1);
      forall j, p | 0 <= j < |st.slots| && p in st.slots[j]
        ensures p in r.slots[j] || KeyOf(p) in r.decoded
      {
        if p !in st1.slots[j] {
          assert j == i && KeyOf(p) in st.decoded;
        }
      }
    }
  }

  lemma PacketOfSlot(slots: seq<Slot>, j: nat, p: AlohaPacket)
    requires j < |slots| && p in slots[j]
    ensures p in Packets(slots)
  {
  }

  lemma PacketsShrink(a: seq<Slot>, b: seq<Slot>)
    requires Shrinks(a, b)
    ensures Packets(b) <= Packets(a)
  {
    forall p | p in Packets(b) ensures p in Packets(a) {
      var j :| 0 <= j < |b| && p in b[j];
      PacketOfSlot(a, j, p);
    }
  }

  /** A visit only removes packets, and the packet it may append was in
      the visited slot. */
  lemma VisitShrinks(st: Pass, i: nat)
    requires i < |st.slots|
    ensures Shrinks(st.slots, Visit(st, i).slots)
    ensures var r := Visit(st, i);
      r.accepted == st.accepted || (|r.accepted| == |st.accepted| + 1 && r.accepted[..|st.accepted|] == st.accepted && r.accepted[|st.accepted|] in Packets(st.slots))
  {
    var r := Visit(st, i);
    if |r.slots[i]| == 1 {
      var p := r.slots[i][0];
      assert p in st.slots[i] by {
        assert p in r.slots[i];
      }
      PacketOfSlot(st.slots, i, p);
      assert r.accepted[..|st.accepted|] == st.accepted;
    }
  }

  /** Every packet appended during a pass was in the slots it started
      from. */
  lemma {:induction false} PassFromAcceptsPresent(st: Pass, i: nat)
    requires i <= |st.slots|
    ensures |st.accepted| <= |PassFrom(st, i).accepted| && PassFrom(st, i).accepted[..|st.accepted|] == st.accepted
    ensures forall k :: |st.accepted| <= k < |PassFrom(st, i).accepted| ==> PassFrom(st, i).accepted[k] in Packets(st.slots)
    decreases |st.slots| - i
  {
    if i < |st.slots| {
      var st1 := Visit(st, i);
      var r := PassFrom(st1, i + 1);
      PassFromAcceptsPresent(st1, i + 1);
      VisitShrinks(st, i);
      PacketsShrink(st.slots, st1.slots);
      AppendsFrom(st.accepted, st1.accepted, r.accepted, Packets(st.slots), Packets(st1.slots));
    }
  }

  /** Two appends in a row: a list that extends `a` by at most one packet
      from `s`, then by packets from a subset of `s`, extends `a` by packets
      from `s`. */
  lemma AppendsFrom(a: seq<AlohaPacket>, b: seq<AlohaPacket>, c: seq<AlohaPacket>,
                    s: set<AlohaPacket>, s1: set<AlohaPacket>)
    requires s1 <= s
    requires b == a || (|b| == |a| + 1 && b[..|a|] == a && b[|a|] in s)
    requires |b| <= |c| && c[..|b|] == b
    requires forall k :: |b| <= k < |c| ==> c[k] in s1
    ensures |a| <= |c| && c[..|a|] == a
    ensures forall k :: |a| <= k < |c| ==> c[k] in s
  {
    assert c[..|a|] == c[..|b|][..|a|];
    forall k | |a| <= k < |c| ensures c[k] in s {
      if k < |b| {
        assert c[k] == c[..|b|][k];
      }
    }
  }

  lemma SmallerDifference(a: set<Key>, b: set<Key>, d: set<Key>, e: set<Key>, key: Key)
    requires a <= b && d <= e && key in b && key !in d && key in e
    ensures |a - e| < |b - d|
  {
    var x, y := a - e, b - d;
    assert x <= y;
    assert y == x + (y - x) && x * (y - x) == {};
    assert |y| == |x| + |y - x|;
    assert key in y - x;
  }

  /** A pass that does not stop decodes a key that was present and not
      yet decoded, and does not bring any packet back: the number of
      present keys still to decode goes down. */
  lemma PassProgress(slots: seq<Slot>, decoded: set<Key>, accepted: seq<AlohaPacket>)
    ensures var r := OnePass(slots, decoded, accepted);
      !r.stop ==> |Keys(r.slots) - r.decoded| < |Keys(slots) - decoded|
  {
    var st := Pass(slots, decoded, accepted, true);
    var r := PassFrom(st, 0);
    if !r.stop {
      PassFromExtends(st, 0);
      PassFromDecodesPresent(st, 0);
      PassFromShrinks(st, 0);
      KeysShrink(slots, r.slots);
      var key :| key in r.decoded && key !in decoded;
      SmallerDifference(Keys(r.slots), Keys(slots), decoded, r.decoded, key);
    }
  }

  /** The passes of one call, repeated until one decodes nothing. */
  function Rounds(slots: seq<Slot>, decoded: set<Key>, accepted: seq<AlohaPacket>): (r: Pass)
    ensures |r.slots| == |slots|
    decreases |Keys(slots) - decoded|
  {
    var r := OnePass(slots, decoded, accepted);
    PassProgress(slots, decoded, accepted);
    if r.stop then r else Rounds(r.slots, r.decoded, r.accepted)
  }

  /** The passes together: they only remove packets, each removed packet
      has a decoded key, the list grows by one packet per newly decoded key
      and every appended packet came from the slots. */
  lemma {:induction false} RoundsEffect(slots: seq<Slot>, decoded: set<Key>, accepted: seq<AlohaPacket>)
    ensures var r := Rounds(slots, decoded, accepted);
      && Shrinks(slots, r.slots)
      && Accounted(slots, r.slots, r.decoded)
      && Extends(Pass(slots, decoded, accepted, true), r)
      && (forall k :: |accepted| <= k < |r.accepted| ==> r.accepted[k] in Packets(slots))
    decreases |Keys(slots) - decoded|
  {
    var st := Pass(slots, decoded, accepted, true);
    var r1 := OnePass(slots, decoded, accepted);
    PassFromShrinks(st, 0);
    PassFromAccounted(st, 0);
    PassFromExtends(st, 0);
    PassFromAcceptsPresent(st, 0);
    if !r1.stop {
      PassProgress(slots, decoded, accepted);
      var r := Rounds(r1.slots, r1.decoded, r1.accepted);
      RoundsEffect(r1.slots, r1.decoded, r1.accepted);
      ExtendsTrans(st, Pass(r1.slots, r1.decoded, r1.accepted, true), r);
      PacketsShrink(slots, r1.slots);
      forall j, p | 0 <= j < |slots| && p in slots[j] ensures p in r.slots[j] || KeyOf(p) in r.decoded {
        if p !in r1.slots[j] {
          assert KeyOf(p) in r1.decoded;
        }
      }
      forall k | |accepted| <= k < |r.accepted| ensures r.accepted[k] in Packets(slots) {
        if k < |r1.accepted| {
          assert r.accepted[k] == r1.accepted[k] by {
            assert r.accepted[..|r1.accepted|] == r1.accepted;
          }
        }
      }
    }
  }

  /** When the passes end, no slot holds a replica of a decoded packet and
      no slot holds a single packet. */
  lemma {:induction false} RoundsFixpoint(slots: seq<Slot>, decoded: set<Key>, accepted: seq<AlohaPacket>)
    ensures var r := Rounds(slots, decoded, accepted);
      forall j :: 0 <= j < |r.slots| ==> |r.slots[j]| != 1 && forall p :: p in r.slots[j] ==> KeyOf(p) !in r.decoded
    decreases |Keys(slots) - decoded|
  {
    var st := Pass(slots, decoded, accepted, true);
    var r1 := OnePass(slots, decoded, accepted);
    PassProgress(slots, decoded, accepted);
    if r1.stop {
      PassFromQuiet(st, 0);
    } else {
      assert Rounds(slots, decoded, accepted) == Rounds(r1.slots, r1.decoded, r1.accepted);
      RoundsFixpoint(r1.slots, r1.decoded, r1.accepted);
    }
  }

  /** The number of packets in `slots`. */
  function Total(slots: seq<Slot>): nat {
    if |slots| == 0 then 0 else |slots[0]| + Total(slots[1..])
  }

  /** The number of packets in the slots holding more than one. */
  function Collided(slots: seq<Slot>): (n: nat)
    ensures n <= Total(slots)
  {
    if |slots| == 0 then 0
    else (if |slots[0]| > 1 then |slots[0]| else 0) + Collided(slots[1..])
  }

  /** With no slot holding a single packet, every packet left collided. */
  lemma {:induction false} CollidedAll(slots: seq<Slot>)
    requires forall j :: 0 <= j < |slots| ==> |slots[j]| != 1
    ensures Collided(slots) == Total(slots)
  {
    if |slots| > 0 {
      assert forall j :: 0 <= j < |slots| - 1 ==> |slots[1..][j]| != 1 by {
        forall j | 0 <= j < |slots| - 1 ensures |slots[1..][j]| != 1 {
          assert slots[1..][j] == slots[j + 1];
        }
      }
      CollidedAll(slots[1..]);
    }
  }

  /** What `removeCollisions` leaves: the count of collided packets
      (a `uint16_t`), the slots, all cleared, and the list of decoded
      packets. */
  datatype Outcome = Outcome(collisions: nat, slots: seq<Slot>, accepted: seq<AlohaPacket>)

  /** `removeCollisions`: passes until one decodes nothing, then the
      packets still in slots holding more than one are counted and every
      slot is cleared. The keys decoded by an earlier call are not
      remembered. */
  function RemoveCollisions(slots: seq<Slot>, accepted: seq<AlohaPacket>): (o: Outcome)
    ensures IsU16(o.collisions)
    ensures |o.slots| == |slots| && forall j :: 0 <= j < |o.slots| ==> o.slots[j] == []
    ensures |accepted| <= |o.accepted| && o.accepted[..|accepted|] == accepted
  {
    var r := Rounds(slots, {}, accepted);
    RoundsEffect(slots, {}, accepted);
    Outcome(ToU16(Collided(r.slots)), seq(|slots|, _ => []), r.accepted)
  }

  /** The packets a call appends have pairwise distinct keys and each of
      them was received in one of the slots. */
  lemma AcceptedOncePresent(slots: seq<Slot>, accepted: seq<AlohaPacket>)
    ensures var o := RemoveCollisions(slots, accepted);
      && (forall k :: |accepted| <= k < |o.accepted| ==> o.accepted[k] in Packets(slots))
      && (forall k1, k2 :: |accepted| <= k1 < k2 < |o.accepted| ==> KeyOf(o.accepted[k1]) != KeyOf(o.accepted[k2]))
  {
    RoundsEffect(slots, {}, accepted);
  }

  /** Every received packet is either decoded, in which case a packet with
      its key was appended, or left in a slot with other packets that are
      not decoded either, where it is counted as collided; the count is
      every packet left, wrapped to 16 bits. */
  lemma DecodedOrCollided(slots: seq<Slot>, accepted: seq<AlohaPacket>)
    ensures var o := RemoveCollisions(slots, accepted);
      var left := Rounds(slots, {}, accepted).slots;
      && |left| == |slots|
      && (forall j, p :: 0 <= j < |slots| && p in slots[j] ==>
            KeyOf(p) in NewKeys(o.accepted, |accepted|) || (p in left[j] && |left[j]| > 1))
      && (forall j, p :: 0 <= j < |slots| && p in left[j] ==> p in slots[j] && KeyOf(p) !in NewKeys(o.accepted, |accepted|))
      && o.collisions == ToU16(Total(left))
  {
    RoundsEffect(slots, {}, accepted);
    RoundsFixpoint(slots, {}, accepted);
    var left := Rounds(slots, {}, accepted).slots;
    CollidedAll(left);
  }

  /** A slot that received a single packet has it decoded. */
  lemma LoneReplicaDecoded(slots: seq<Slot>, accepted: seq<AlohaPacket>, j: nat)
    requires j < |slots| && |slots[j]| == 1
    ensures KeyOf(slots[j][0]) in NewKeys(RemoveCollisions(slots, accepted).accepted, |accepted|)
  {
    DecodedOrCollided(slots, accepted);
    var left := Rounds(slots, {}, accepted).slots;
    RoundsEffect(slots, {}, accepted);
    assert slots[j][0] in slots[j];
    assert |left[j]| <= 1;
  }
}

=== FILE: dama_ctrl.dfy ===
/** The DAMA controller of the NCC (opensand-core/src/dvb_rcs/dama/DamaCtrl.cpp):
    the registry of logged-on terminals, their categories, the totals it
    keeps for statistics, and the sequencing of one allocation run.

    The terminal context and category classes are not part of this model:
    a terminal is the record of the values the controller reads and
    writes, a category its label, member list and carriers. The widths of
    the totals are not visible either; they are unbounded integers. */
module DamaCtrl {
  import opened Wrappers
  import opened OpenSandCore

  /** A terminal context: id, CRA, maximum RBDC, RBDC timeout, maximum
      VBDC, the label of its category, its pending requests, its MODCOD
      and carrier, and the allocations of the last run. */
  datatype Terminal = Terminal(
    id: nat, cra: nat, maxRbdc: nat, rbdcTimeout: nat, maxVbdc: nat, category: string,
    requiredRbdc: nat, requiredVbdc: nat, fmtId: nat, carrierId: nat,
    volumeAlloc: nat, rateAlloc: nat)

  /** A DAMA category: its label, its terminals in the order they were
      added, and the ids of its carrier groups in order. */
  datatype Category = Category(name: string, members: seq<nat>, carriers: seq<nat>)

  /** The controller. `affectation` maps a terminal to the label of its
      category, or to no category at all (a NULL entry). */
  datatype Ctrl = Ctrl(
    terminals: map<nat, Terminal>,
    categories: map<string, Category>,
    affectation: map<nat, Option<string>>,
    defaultCategory: Option<string>,
    stNum: int, craTotal: int, rbdcMaxTotal: int,
    probes: set<nat>,
    superframe: nat, rbdcTimeout: nat,
    enableRbdc: bool, enableVbdc: bool, craDecrease: bool)

  // ---------------------------------------------------------------------
  // Sums over the registry

  ghost function Pick(m: map<nat, Terminal>): (k: nat)
    requires |m| > 0
    ensures k in m
  {
    assert exists k :: k in m by {
      var k :| k in m.Keys;
    }
    var k :| k in m; k
  }

  /** The sum of `f` over the terminals of `m`. */
  ghost function Total(m: map<nat, Terminal>, f: Terminal -> int): int
    decreases |m|
  {
    if |m| == 0 then 0
    else var k := Pick(m); f(m[k]) + Total(m - {k}, f)
  }

  /** The sum does not depend on the order the terminals are taken in. */
  lemma {:induction false} TotalRemove(m: map<nat, Terminal>, k: nat, f: Terminal -> int)
    requires k in m
    ensures Total(m, f) == f(m[k]) + Total(m - {k}, f)
    decreases |m|
  {
    var j := Pick(m);
    if j != k {
      TotalRemove(m - {j}, k, f);
      TotalRemove(m - {k}, j, f);
      assert m - {j} - {k} == m - {k} - {j};
    }
  }

  lemma TotalAdd(m: map<nat, Terminal>, k: nat, t: Terminal, f: Terminal -> int)
    requires k !in m
    ensures Total(m[k := t], f) == Total(m, f) + f(t)
  {
    TotalRemove(m[k := t], k, f);
    assert m[k := t] - {k} == m;
  }

  function Cra(t: Terminal): int { t.cra }

  function MaxRbdc(t: Terminal): int { t.maxRbdc }

  /** The registry and the totals agree: one count per terminal, the
      totals are the sums of the terminals' CRA and maximum RBDC, every
      terminal is listed in the category it names, and every category lists
      only its own terminals, each once. */
  ghost predicate Consistent(c: Ctrl) {
    Counted(c) && Listed(c) && Grouped(c)
  }

  ghost predicate Counted(c: Ctrl) {
    && c.stNum == |c.terminals|
    && c.craTotal == Total(c.terminals, Cra)
    && c.rbdcMaxTotal == Total(c.terminals, MaxRbdc)
  }

  predicate Listed(c: Ctrl) {
    forall id :: id in c.terminals ==> Registered(c, id)
  }

  /** Terminal `id` knows its id and is a member of its category. */
  predicate Registered(c: Ctrl, id: nat)
    requires id in c.terminals
  {
    var t := c.terminals[id];
    t.id == id && t.category in c.categories && id in c.categories[t.category].members
  }

  predicate Grouped(c: Ctrl) {
    forall l :: l in c.categories ==> c.categories[l].name == l && Members(c, l)
  }

  /** The members of category `l` are terminals of `l`, each listed once. */
  predicate Members(c: Ctrl, l: string)
    requires l in c.categories
  {
    var ms := c.categories[l].members;
    (forall x :: x in ms ==> x in c.terminals && c.terminals[x].category == l) && Unique(ms)
  }

  predicate Unique(s: seq<nat>) {
    forall i, j :: 0 <= i < j < |s| ==> s[i] != s[j]
  }

  // ---------------------------------------------------------------------
  // Logon and logoff

  /** The category a terminal belongs to: its affectation entry if it has
      one, the default category otherwise; `None` when that is NULL. */
  function CategoryOf(c: Ctrl, id: nat): Option<string> {
    if id in c.affectation then c.affectation[id] else c.defaultCategory
  }

  /** `hereIsLogon`. A terminal already registered changes nothing and the
      call succeeds. A terminal with no category fails. A terminal whose
      category is not a DAMA category succeeds without being registered.
      Otherwise the terminal is registered in its category, counted, its
      CRA and maximum RBDC added to the totals, and per-terminal probes
      created if its id is below the broadcast id. */
  function Logon(c: Ctrl, id: nat, cra: nat, maxRbdc: nat, maxVbdc: nat): (r: (Ctrl, bool))
    ensures id in c.terminals ==> r == (c, true)
    ensures !r.1 <==> id !in c.terminals && CategoryOf(c, id).None?
    ensures id !in c.terminals && CategoryOf(c, id).Some? && CategoryOf(c, id).value !in c.categories ==> r == (c, true)
    ensures r.0 != c ==>
      && id !in c.terminals
      && CategoryOf(c, id).Some?
      && var l := CategoryOf(c, id).value;
      && l in c.categories
      && r.0.terminals == c.terminals[id := NewTerminal(c, id, cra, maxRbdc, maxVbdc, l)]
      && r.0.categories == c.categories[l := c.categories[l].(members := c.categories[l].members + [id])]
      && r.0.stNum == c.stNum + 1 && r.0.craTotal == c.craTotal + cra && r.0.rbdcMaxTotal == c.rbdcMaxTotal + maxRbdc
      && r.0.probes == (if id < BroadcastTalId then c.probes + {id} else c.probes)
    ensures r.0.affectation == c.affectation && r.0.defaultCategory == c.defaultCategory
  {
    if id in c.terminals then (c, true)
    else
      match CategoryOf(c, id)
      case None => (c, false)
      case Some(l) =>
        if l !in c.categories then (c, true)
        else
          var cat := c.categories[l];
          (c.(terminals := c.terminals[id := NewTerminal(c, id, cra, maxRbdc, maxVbdc, l)],
              categories := c.categories[l := cat.(members := cat.members + [id])],
              stNum := c.stNum + 1, craTotal := c.craTotal + cra, rbdcMaxTotal := c.rbdcMaxTotal + maxRbdc,
              probes := if id < BroadcastTalId then c.probes + {id} else c.probes),
           true)
  }

  /** The context of a new terminal, with no request or allocation yet. */
  function NewTerminal(c: Ctrl, id: nat, cra: nat, maxRbdc: nat, maxVbdc: nat, l: string): Terminal {
    Terminal.Terminal(id, cra, maxRbdc, c.rbdcTimeout, maxVbdc, l, 0, 0, 0, 0, 0, 0)
  }

  /** `s` without the first occurrence of `x`, and whether there was one
      (`removeTerminal` of a category). */
  function RemoveFirst(s: seq<nat>, x: nat): (r: (seq<nat>, bool))
    ensures r.1 <==> x in s
    ensures !r.1 ==> r.0 == s
    ensures |r.0| == |s| - (if r.1 then 1 else 0)
    ensures forall y :: y in r.0 ==> y in s
  {
    if |s| == 0 then ([], false)
    else if s[0] == x then (s[1..], true)
    else var (t, found) := RemoveFirst(s[1..], x); ([s[0]] + t, found)
  }

  /** `hereIsLogoff`. An unknown terminal fails. Otherwise the count and
      totals lose the terminal's share, the terminal is erased, then it is
      removed from its category, which fails if it is not there. */
  function Logoff(c: Ctrl, id: nat): (r: (Ctrl, bool))
    ensures id !in c.terminals ==> r == (c, false)
    ensures id in c.terminals ==>
      && r.0.terminals == c.terminals - {id}
      && r.0.stNum == c.stNum - 1
      && r.0.craTotal == c.craTotal - c.terminals[id].cra
      && r.0.rbdcMaxTotal == c.rbdcMaxTotal - c.terminals[id].maxRbdc
    ensures r.0.affectation == c.affectation && r.0.probes == c.probes
  {
    if id !in c.terminals then (c, false)
    else
      var t := c.terminals[id];
      var c1 := c.(terminals := c.terminals - {id}, stNum := c.stNum - 1,
                   craTotal := c.craTotal - t.cra, rbdcMaxTotal := c.rbdcMaxTotal - t.maxRbdc);
      if t.category !in c.categories then (c1, true)
      else
        var cat := c.categories[t.category];
        var (ms, found) := RemoveFirst(cat.members, id);
        (c1.(categories := c.categories[t.category := cat.(members := ms)]), found)
  }

  /** A logon keeps the registry and the totals in agreement. */
  lemma LogonConsistent(c: Ctrl, id: nat, cra: nat, maxRbdc: nat, maxVbdc: nat)
    requires Consistent(c)
    ensures Consistent(Logon(c, id, cra, maxRbdc, maxVbdc).0)
  {
    var r := Logon(c, id, cra, maxRbdc, maxVbdc).0;
    if r != c {
      LogonCounted(c, id, cra, maxRbdc, maxVbdc);
      forall j | j in r.terminals ensures Registered(r, j) {
        if j != id {
          assert Registered(c, j);
        }
      }
      forall k | k in r.categories ensures r.categories[k].name == k && Members(r, k) {
        LogonMembers(c, id, cra, maxRbdc, maxVbdc, k);
      }
    }
  }

  lemma LogonCounted(c: Ctrl, id: nat, cra: nat, maxRbdc: nat, maxVbdc: nat)
    requires Counted(c)
    ensures Counted(Logon(c, id, cra, maxRbdc, maxVbdc).0)
  {
    var r := Logon(c, id, cra, maxRbdc, maxVbdc).0;
    if r != c {
      var t := NewTerminal(c, id, cra, maxRbdc, maxVbdc, CategoryOf(c, id).value);
      TotalAdd(c.terminals, id, t, Cra);
      TotalAdd(c.terminals, id, t, MaxRbdc);
      SizeRemove(c.terminals[id := t], id);
      assert c.terminals[id := t] - {id} == c.terminals;
    }
  }

  lemma LogonMembers(c: Ctrl, id: nat, cra: nat, maxRbdc: nat, maxVbdc: nat, k: string)
    requires Consistent(c) && k in c.categories
    ensures var r := Logon(c, id, cra, maxRbdc, maxVbdc).0;
      k in r.categories && r.categories[k].name == k && Members(r, k)
  {
    var r := Logon(c, id, cra, maxRbdc, maxVbdc).0;
    assert Members(c, k);
    if r != c && k == CategoryOf(c, id).value {
      var ms := c.categories[k].members;
      assert id !in ms;
      assert r.categories[k].members == ms + [id];
      forall i, j | 0 <= i < j < |ms| + 1 ensures (ms + [id])[i] != (ms + [id])[j] {
        if j == |ms| {
          assert (ms + [id])[i] == ms[i];
        }
      }
    }
  }

  /** A logoff of a registered terminal, from an agreeing state, succeeds
      and keeps the registry and the totals in agreement. */
  lemma LogoffConsistent(c: Ctrl, id: nat)
    requires Consistent(c) && id in c.terminals
    ensures Logoff(c, id).1
    ensures Consistent(Logoff(c, id).0)
  {
    var r := Logoff(c, id).0;
    LogoffCounted(c, id);
    assert Registered(c, id);
    forall k | k in r.categories ensures r.categories[k].name == k && Members(r, k) {
      LogoffMembers(c, id, k);
    }
    forall j | j in r.terminals ensures Registered(r, j) {
      LogoffKeepsOthers(c, id, j);
    }
  }

  lemma LogoffCounted(c: Ctrl, id: nat)
    requires Counted(c) && id in c.terminals
    ensures Counted(Logoff(c, id).0)
  {
    TotalRemove(c.terminals, id, Cra);
    TotalRemove(c.terminals, id, MaxRbdc);
    SizeRemove(c.terminals, id);
  }

  lemma SizeRemove(m: map<nat, Terminal>, k: nat)
    requires k in m
    ensures |m - {k}| == |m| - 1
  {
    assert m.Keys == (m - {k}).Keys + {k};
  }

  /** After a logoff every category still lists only its own terminals,
      each once. */
  lemma LogoffMembers(c: Ctrl, id: nat, k: string)
    requires Consistent(c) && id in c.terminals && k in c.categories
    ensures var r := Logoff(c, id).0; k in r.categories && r.categories[k].name == k && Members(r, k)
  {
    var r := Logoff(c, id).0;
    assert Registered(c, id);
    var l := c.terminals[id].category;
    assert Members(c, k);
    var ks := c.categories[k].members;
    if k == l {
      RemoveFirstUnique(ks, id);
      assert r.categories[k].members == RemoveFirst(ks, id).0;
    } else {
      assert r.categories[k] == c.categories[k];
      assert id !in ks;
    }
  }

  /** After a logoff every other terminal is still listed in its category. */
  lemma LogoffKeepsOthers(c: Ctrl, id: nat, j: nat)
    requires Consistent(c) && id in c.terminals && j in c.terminals && j != id
    ensures var r := Logoff(c, id).0; j in r.terminals && Registered(r, j)
  {
    assert Registered(c, id) && Registered(c, j);
    var l := c.terminals[id].category;
    if c.terminals[j].category == l {
      assert Members(c, l);
      RemoveFirstUnique(c.categories[l].members, id);
    }
  }

  /** Removing an element listed once leaves the others, each once. */
  lemma {:induction false} RemoveFirstUnique(s: seq<nat>, x: nat)
    requires Unique(s)
    requires x in s
    ensures var r := RemoveFirst(s, x).0;
      (forall y :: y in r <==> y in s && y != x) && Unique(r)
  {
    if s[0] != x {
      assert Unique(s[1..]) by {
        forall i, j | 0 <= i < j < |s| - 1 ensures s[1..][i] != s[1..][j] {
          assert s[1..][i] == s[i + 1] && s[1..][j] == s[j + 1];
        }
      }
      RemoveFirstUnique(s[1..], x);
      var t := RemoveFirst(s[1..], x).0;
      forall i, j | 0 <= i < j < |t| + 1 ensures ([s[0]] + t)[i] != ([s[0]] + t)[j] {
        if i == 0 {
          assert ([s[0]] + t)[j] == t[j - 1] && t[j - 1] in t;
        }
      }
    } else {
      forall y ensures y in s[1..] <==> y in s && y != x {
        if y in s[1..] {
          var k :| 0 <= k < |s[1..]| && s[1..][k] == y;
          assert s[k + 1] == y;
        }
      }
    }
  }

  /** A logon of a new terminal followed by its logoff gives back the
      registry, the categories and the totals. */
  lemma LogonThenLogoff(c: Ctrl, id: nat, cra: nat, maxRbdc: nat, maxVbdc: nat)
    requires Consistent(c)
    requires id !in c.terminals && CategoryOf(c, id).Some? && CategoryOf(c, id).value in c.categories
    ensures var r := Logoff(Logon(c, id, cra, maxRbdc, maxVbdc).0, id);
      && r.1
      && r.0.terminals == c.terminals && r.0.categories == c.categories
      && r.0.stNum == c.stNum && r.0.craTotal == c.craTotal && r.0.rbdcMaxTotal == c.rbdcMaxTotal
  {
    var l := CategoryOf(c, id).value;
    assert Grouped(c);
    assert Members(c, l);
    LogonThenLogoffUnlisted(c, id, cra, maxRbdc, maxVbdc);
  }

  /** The round trip needs only that the new terminal is not yet listed in
      its category. */
  lemma LogonThenLogoffUnlisted(c: Ctrl, id: nat, cra: nat, maxRbdc: nat, maxVbdc: nat)
    requires id !in c.terminals && CategoryOf(c, id).Some? && CategoryOf(c, id).value in c.categories
    requires id !in c.categories[CategoryOf(c, id).value].members
    ensures var r := Logoff(Logon(c, id, cra, maxRbdc, maxVbdc).0, id);
      && r.1
      && r.0.terminals == c.terminals && r.0.categories == c.categories
      && r.0.stNum == c.stNum && r.0.craTotal == c.craTotal && r.0.rbdcMaxTotal == c.rbdcMaxTotal
  {
    var l := CategoryOf(c, id).value;
    var c1 := Logon(c, id, cra, maxRbdc, maxVbdc).0;
    var ms := c.categories[l].members;
    RemoveAppended(ms, id);
    assert c1.terminals - {id} == c.terminals;
    assert c.categories[l := c.categories[l]] == c.categories;
  }

  lemma {:induction false} RemoveAppended(s: seq<nat>, x: nat)
    requires x !in s
    ensures RemoveFirst(s + [x], x) == (s, true)
  {
    if |s| > 0 {
      assert (s + [x])[1..] == s[1..] + [x];
      RemoveAppended(s[1..], x);
      assert [s[0]] + s[1..] == s;
    }
  }

  // ---------------------------------------------------------------------
  // Superframe tick

  /** The steps of `runDama`. */
  datatype Step = Reset | Rbdc | Vbdc | Fca

  /** `runDama`: reset, then RBDC if enabled, then VBDC if enabled, then
      FCA, stopping at the first step that fails. The outcome of each step
      is an input; the second result lists the steps run. */
  function RunDama(c: Ctrl, resetOk: bool, rbdcOk: bool, vbdcOk: bool, fcaOk: bool): (r: (bool, seq<Step>))
    ensures r.0 <==> resetOk && (c.enableRbdc ==> rbdcOk) && (c.enableVbdc ==> vbdcOk) && fcaOk
    ensures |r.1| > 0 && r.1[0] == Reset
    ensures Rbdc in r.1 ==> c.enableRbdc
    ensures Vbdc in r.1 ==> c.enableVbdc
    ensures r.0 ==> r.1 == [Reset] + (if c.enableRbdc then [Rbdc] else []) + (if c.enableVbdc then [Vbdc] else []) + [Fca]
  {
    if !resetOk then (false, [Reset])
    else
      var s1 := [Reset] + (if c.enableRbdc then [Rbdc] else []);
      if c.enableRbdc && !rbdcOk then (false, s1)
      else
        var s2 := s1 + (if c.enableVbdc then [Vbdc] else []);
        if c.enableVbdc && !vbdcOk then (false, s2)
        else (fcaOk, s2 + [Fca])
  }

  /** `runOnSuperFrameChange`: the superframe is recorded, every terminal
      starts a new frame (`onStartOfFrame`, given as a function), the DAMA
      runs, and the call reports false in every case, success included. */
  function RunOnSuperFrameChange(c: Ctrl, sf: nat, startOfFrame: Terminal -> Terminal,
                                 resetOk: bool, rbdcOk: bool, vbdcOk: bool, fcaOk: bool): (r: (Ctrl, bool))
    ensures !r.1
    ensures r.0.superframe == sf && r.0.terminals.Keys == c.terminals.Keys
    ensures forall id :: id in c.terminals ==> r.0.terminals[id] == startOfFrame(c.terminals[id])
  {
    var c1 := c.(superframe := sf, terminals := map id | id in c.terminals :: startOfFrame(c.terminals[id]));
    var (ok, _) := RunDama(c1, resetOk, rbdcOk, vbdcOk, fcaOk);
    if !ok then (c1, false) else (c1, false)
  }
}

=== FILE: dama_ctrl_rcs.dfy ===
/** The DVB-RCS specialisation of the DAMA controller
    (opensand-core/src/dvb_rcs/dama/DamaCtrlRcs.cpp): capacity requests
    received in CR and SACT messages, commands of the PEP component, the
    choice of MODCOD and carrier for each terminal, and the time plans of
    the TTP.

    The unit converter, the FMT simulation and the carrier groups are not
    part of this model: their answers are given as functions. */
module DamaCtrlRcs {
  import opened Wrappers
  import opened OpenSandCore
  import opened ModelMode
  import opened DamaCtrl

  /** The unit conversions the controller asks for. */
  datatype Converter = Converter(kbpsToPktpf: nat -> nat, pktToKbits: nat -> nat)

  /** The type of a capacity request. */
  datatype CrKind = CrVbdc | CrRbdc | CrOther(code: nat)

  /** One capacity request: its type and value (`cr_info_t`). */
  datatype Cr = Cr(kind: CrKind, value: nat)

  /** The value of the last request of the given type, if any: the one
      that stays in effect once the whole list is taken into account. */
  function LastOfKind(crs: seq<Cr>, k: CrKind): (r: Option<nat>)
    ensures r.Some? <==> exists i :: 0 <= i < |crs| && crs[i].kind == k
    ensures r.Some? ==> exists i :: 0 <= i < |crs| && crs[i].kind == k && crs[i].value == r.value
  {
    if |crs| == 0 then None
    else
      var rest := LastOfKind(crs[1..], k);
      if rest.Some? then (assert forall i :: 0 <= i < |crs| - 1 ==> crs[1..][i] == crs[i + 1]; rest)
      else if crs[0].kind == k then Some(crs[0].value)
      else (assert forall i :: 1 <= i < |crs| ==> crs[i] == crs[1..][i - 1]; None)
  }

  // ---------------------------------------------------------------------
  // CR

  /** The RBDC a request of `xbdc` kbit/s gives a terminal: the rate in
      packets per frame, kept in 16 bits, less the terminal's CRA (never
      below 0) when the controller subtracts the CRA. */
  function RbdcRequest(craDecrease: bool, conv: Converter, t: Terminal, xbdc: nat): (r: nat)
    ensures r <= ToU16(conv.kbpsToPktpf(ToU16(xbdc)))
    ensures !craDecrease ==> r == ToU16(conv.kbpsToPktpf(ToU16(xbdc)))
    ensures craDecrease && ToU16(conv.kbpsToPktpf(ToU16(xbdc))) <= t.cra ==> r == 0
    ensures craDecrease && ToU16(conv.kbpsToPktpf(ToU16(xbdc))) > t.cra ==> r == ToU16(conv.kbpsToPktpf(ToU16(xbdc))) - t.cra
  {
    var request := ToU16(conv.kbpsToPktpf(ToU16(xbdc)));
    if craDecrease then (if request - t.cra > 0 then request - t.cra else 0) else request
  }

  /** Which kinds of request the controller has seen. */
  datatype Enabled = Enabled(vbdc: bool, rbdc: bool)

  /** One request of a CR taken into account: a VBDC request enables VBDC
      and sets the required VBDC to its value in 16 bits; an RBDC request
      enables RBDC and sets the required RBDC; any other type is ignored. */
  function ApplyCr(craDecrease: bool, conv: Converter, e: Enabled, t: Terminal, cr: Cr): (r: (Enabled, Terminal))
    ensures r.1 == t.(requiredVbdc := r.1.requiredVbdc, requiredRbdc := r.1.requiredRbdc)
    ensures (r.0.vbdc <==> e.vbdc || cr.kind == CrVbdc) && (r.0.rbdc <==> e.rbdc || cr.kind == CrRbdc)
    ensures cr.kind == CrVbdc ==> r.1.requiredVbdc == ToU16(cr.value) && r.1.requiredRbdc == t.requiredRbdc
    ensures cr.kind == CrRbdc ==>
      r.1.requiredRbdc == RbdcRequest(craDecrease, conv, t, cr.value) && r.1.requiredVbdc == t.requiredVbdc
    ensures cr.kind.CrOther? ==> r == (e, t)
  {
    match cr.kind
    case CrVbdc => (e.(vbdc := true), t.(requiredVbdc := ToU16(cr.value)))
    case CrRbdc => (e.(rbdc := true), t.(requiredRbdc := RbdcRequest(craDecrease, conv, t, cr.value)))
    case CrOther(_) => (e, t)
  }

  /** The requests of a CR taken into account in order. */
  function ApplyCrs(craDecrease: bool, conv: Converter, e: Enabled, t: Terminal, crs: seq<Cr>): (r: (Enabled, Terminal))
    ensures r.1 == t.(requiredVbdc := r.1.requiredVbdc, requiredRbdc := r.1.requiredRbdc)
    decreases |crs|
  {
    if |crs| == 0 then (e, t)
    else
      var (e1, t1) := ApplyCr(craDecrease, conv, e, t, crs[0]);
      ApplyCrs(craDecrease, conv, e1, t1, crs[1..])
  }

  /** After a CR, the required VBDC is the value of the last VBDC request,
      or unchanged when there is none, and VBDC is enabled once any VBDC
      request has been received. */
  lemma {:induction false} ApplyCrsLastVbdc(craDecrease: bool, conv: Converter, e: Enabled, t: Terminal, crs: seq<Cr>)
    ensures var (e', t') := ApplyCrs(craDecrease, conv, e, t, crs);
      && t'.requiredVbdc == (match LastOfKind(crs, CrVbdc) case Some(v) => ToU16(v) case None => t.requiredVbdc)
      && (e'.vbdc <==> e.vbdc || LastOfKind(crs, CrVbdc).Some?)
    decreases |crs|
  {
    if |crs| > 0 {
      var (e1, t1) := ApplyCr(craDecrease, conv, e, t, crs[0]);
      ApplyCrsLastVbdc(craDecrease, conv, e1, t1, crs[1..]);
    }
  }

  /** Likewise for RBDC: the last RBDC request, less the CRA when the
      controller subtracts it, stays in effect. */
  lemma {:induction false} ApplyCrsLastRbdc(craDecrease: bool, conv: Converter, e: Enabled, t: Terminal, crs: seq<Cr>)
    ensures var (e', t') := ApplyCrs(craDecrease, conv, e, t, crs);
      && t'.requiredRbdc == (match LastOfKind(crs, CrRbdc) case Some(v) => RbdcRequest(craDecrease, conv, t, v) case None => t.requiredRbdc)
      && (e'.rbdc <==> e.rbdc || LastOfKind(crs, CrRbdc).Some?)
    decreases |crs|
  {
    if |crs| > 0 {
      var (e1, t1) := ApplyCr(craDecrease, conv, e, t, crs[0]);
      ApplyCrsLastRbdc(craDecrease, conv, e1, t1, crs[1..]);
      assert t1.cra == t.cra;
    }
  }

  /** `hereIsCR`: a CR from a terminal that is not logged on fails and
      changes nothing; otherwise its requests are taken into account and
      the call succeeds. */
  function HereIsCr(c: Ctrl, conv: Converter, talId: nat, crs: seq<Cr>): (r: (Ctrl, bool))
    ensures talId !in c.terminals ==> r == (c, false)
    ensures talId in c.terminals ==>
      && r.1
      && r.0.terminals.Keys == c.terminals.Keys
      && (forall id :: id in c.terminals && id != talId ==> r.0.terminals[id] == c.terminals[id])
      && r.0 == c.(terminals := r.0.terminals, enableVbdc := r.0.enableVbdc, enableRbdc := r.0.enableRbdc)
  {
    if talId !in c.terminals then (c, false)
    else
      var (e, t) := ApplyCrs(c.craDecrease, conv, Enabled(c.enableVbdc, c.enableRbdc), c.terminals[talId], crs);
      (c.(terminals := c.terminals[talId := t], enableVbdc := e.vbdc, enableRbdc := e.rbdc), true)
  }

  /** The terminal that sent a CR ends with the values of its last VBDC and
      RBDC requests, and each kind is enabled once a request of it came. */
  lemma HereIsCrLast(c: Ctrl, conv: Converter, talId: nat, crs: seq<Cr>)
    requires talId in c.terminals
    ensures var (c', ok) := HereIsCr(c, conv, talId, crs);
      var t := c.terminals[talId];
      && ok && talId in c'.terminals
      && c'.terminals[talId].requiredVbdc == (match LastOfKind(crs, CrVbdc) case Some(v) => ToU16(v) case None => t.requiredVbdc)
      && c'.terminals[talId].requiredRbdc == (match LastOfKind(crs, CrRbdc) case Some(v) => RbdcRequest(c.craDecrease, conv, t, v) case None => t.requiredRbdc)
      && (c'.enableVbdc <==> c.enableVbdc || LastOfKind(crs, CrVbdc).Some?)
      && (c'.enableRbdc <==> c.enableRbdc || LastOfKind(crs, CrRbdc).Some?)
  {
    var e := Enabled(c.enableVbdc, c.enableRbdc);
    ApplyCrsLastVbdc(c.craDecrease, conv, e, c.terminals[talId], crs);
    ApplyCrsLastRbdc(c.craDecrease, conv, e, c.terminals[talId], crs);
  }

  // ---------------------------------------------------------------------
  // SACT

  /** One request of a SACT, with the terminal that made it. */
  datatype SacCr = SacCr(logonId: nat, cr: Cr)

  /** A SACT message: its type, the length its header announces, and its
      requests. */
  datatype Sact = Sact(msgType: nat, announced: nat, entries: seq<SacCr>)

  /** The requests of a SACT made by terminal `id`, in order. */
  function RequestsOf(entries: seq<SacCr>, id: nat): (r: seq<Cr>)
    ensures |r| <= |entries|
  {
    if |entries| == 0 then []
    else (if entries[0].logonId == id then [entries[0].cr] else []) + RequestsOf(entries[1..], id)
  }

  /** One SACT request taken into account: a VBDC request in packets sets
      the required VBDC in kbits, an RBDC request sets the required RBDC as
      it is; any other type is ignored. */
  function ApplySac(conv: Converter, t: Terminal, cr: Cr): (r: Terminal)
    ensures r == t.(requiredVbdc := r.requiredVbdc, requiredRbdc := r.requiredRbdc)
    ensures cr.kind == CrVbdc ==> r.requiredVbdc == conv.pktToKbits(cr.value) && r.requiredRbdc == t.requiredRbdc
    ensures cr.kind == CrRbdc ==> r.requiredRbdc == cr.value && r.requiredVbdc == t.requiredVbdc
    ensures cr.kind.CrOther? ==> r == t
  {
    match cr.kind
    case CrVbdc => t.(requiredVbdc := conv.pktToKbits(cr.value))
    case CrRbdc => t.(requiredRbdc := cr.value)
    case CrOther(_) => t
  }

  /** The requests of a SACT taken into account in order; those of
      terminals that are not logged on are skipped. */
  function ApplySacs(terminals: map<nat, Terminal>, conv: Converter, entries: seq<SacCr>): (r: map<nat, Terminal>)
    ensures r.Keys == terminals.Keys
    ensures forall id :: id in terminals ==>
      r[id] == terminals[id].(requiredVbdc := r[id].requiredVbdc, requiredRbdc := r[id].requiredRbdc)
  {
    if |entries| == 0 then terminals
    else
      var e := entries[0];
      var next := if e.logonId in terminals then terminals[e.logonId := ApplySac(conv, terminals[e.logonId], e.cr)] else terminals;
      ApplySacs(next, conv, entries[1..])
  }

  /** After a SACT, each logged-on terminal has the values of its own last
      VBDC and RBDC requests, or its old ones when it made none. */
  lemma {:induction false} ApplySacsLast(terminals: map<nat, Terminal>, conv: Converter, entries: seq<SacCr>, id: nat)
    requires id in terminals
    ensures var r := ApplySacs(terminals, conv, entries);
      var crs := RequestsOf(entries, id);
      && id in r
      && r[id].requiredVbdc == (match LastOfKind(crs, CrVbdc) case Some(v) => conv.pktToKbits(v) case None => terminals[id].requiredVbdc)
      && r[id].requiredRbdc == (match LastOfKind(crs, CrRbdc) case Some(v) => v case None => terminals[id].requiredRbdc)
  {
    if |entries| > 0 {
      var e := entries[0];
      var next := if e.logonId in terminals then terminals[e.logonId := ApplySac(conv, terminals[e.logonId], e.cr)] else terminals;
      ApplySacsLast(next, conv, entries[1..], id);
      var crs := RequestsOf(entries, id);
      if e.logonId == id {
        assert crs == [e.cr] + RequestsOf(entries[1..], id);
        assert crs[1..] == RequestsOf(entries[1..], id);
      } else {
        assert crs == RequestsOf(entries[1..], id);
      }
    }
  }

  /** `hereIsSACT`: a message of another type, a negative length or a
      buffer shorter than the announced size is discarded; otherwise the
      requests are taken into account. The result is -1 in every case. */
  function HereIsSact(c: Ctrl, conv: Converter, sactType: nat, msg: Sact, len: int): (r: (Ctrl, int))
    ensures r.1 == -1
    ensures msg.msgType != sactType || len < 0 || msg.announced > len ==> r.0 == c
    ensures r.0 == c.(terminals := r.0.terminals) && r.0.terminals.Keys == c.terminals.Keys
  {
    if msg.msgType != sactType then (c, -1)
    else if len < 0 || msg.announced > len then (c, -1)
    else (c.(terminals := ApplySacs(c.terminals, conv, msg.entries)), -1)
  }

  // ---------------------------------------------------------------------
  // PEP commands

  /** A request of the PEP component: a new CRA, a new maximum RBDC and an
      RBDC to inject, in kbit/s; 0 means "no change". */
  datatype PepRequest = PepRequest(stId: nat, cra: nat, rbdcMax: nat, rbdc: nat)

  /** The RBDC timeout a terminal holds while an RBDC is injected. */
  const InjectionTimeout: nat := 100

  /** The terminal after a PEP request: each non-zero field replaces the
      terminal's value; an injected RBDC becomes the required RBDC in
      packets per frame, and the RBDC timeout, raised to 100 superframes
      while it is set, ends at the controller's timeout. */
  function ApplyPep(c: Ctrl, conv: Converter, t: Terminal, req: PepRequest): (r: Terminal)
    ensures r.cra == (if req.cra == 0 then t.cra else req.cra)
    ensures r.maxRbdc == (if req.rbdcMax == 0 then t.maxRbdc else req.rbdcMax)
    ensures r.requiredRbdc == (if req.rbdc == 0 then t.requiredRbdc else conv.kbpsToPktpf(req.rbdc))
    ensures r.rbdcTimeout == (if req.rbdc == 0 then t.rbdcTimeout else c.rbdcTimeout)
    ensures r == t.(cra := r.cra, maxRbdc := r.maxRbdc, requiredRbdc := r.requiredRbdc, rbdcTimeout := r.rbdcTimeout)
  {
    var t1 := if req.cra != 0 then t.(cra := req.cra) else t;
    var t2 := if req.rbdcMax != 0 then t1.(maxRbdc := req.rbdcMax) else t1;
    if req.rbdc != 0 then
      var t3 := t2.(rbdcTimeout := InjectionTimeout);
      var t4 := t3.(requiredRbdc := conv.kbpsToPktpf(req.rbdc));
      t4.(rbdcTimeout := c.rbdcTimeout)
    else t2
  }

  /** `applyPepCommand`: a request for a terminal that is not logged on
      fails and changes nothing; otherwise it is applied to the terminal.
      As written, the controller's CRA and maximum RBDC totals keep the
      terminal's old values; as intended they follow the new ones. */
  function ApplyPepCommand(mode: Mode, c: Ctrl, conv: Converter, req: PepRequest): (r: (Ctrl, bool))
    ensures req.stId !in c.terminals ==> r == (c, false)
    ensures r.0.terminals.Keys == c.terminals.Keys
    ensures req.stId in c.terminals ==>
      var t := c.terminals[req.stId];
      var t' := r.0.terminals[req.stId];
      && r.1
      && (forall id :: id in c.terminals && id != req.stId ==> r.0.terminals[id] == c.terminals[id])
      && t'.cra == (if req.cra == 0 then t.cra else req.cra)
      && t'.maxRbdc == (if req.rbdcMax == 0 then t.maxRbdc else req.rbdcMax)
      && t'.requiredRbdc == (if req.rbdc == 0 then t.requiredRbdc else conv.kbpsToPktpf(req.rbdc))
      && t'.rbdcTimeout == (if req.rbdc == 0 then t.rbdcTimeout else c.rbdcTimeout)
      && t' == t.(cra := t'.cra, maxRbdc := t'.maxRbdc, requiredRbdc := t'.requiredRbdc, rbdcTimeout := t'.rbdcTimeout)
      && (mode == AsWritten ==> r.0.craTotal == c.craTotal && r.0.rbdcMaxTotal == c.rbdcMaxTotal)
      && (mode == Intended ==>
            r.0.craTotal == c.craTotal - t.cra + t'.cra && r.0.rbdcMaxTotal == c.rbdcMaxTotal - t.maxRbdc + t'.maxRbdc)
  {
    if req.stId !in c.terminals then (c, false)
    else
      var t := c.terminals[req.stId];
      var t' := ApplyPep(c, conv, t, req);
      var c1 := c.(terminals := c.terminals[req.stId := t']);
      if mode == AsWritten then (c1, true)
      else (c1.(craTotal := c.craTotal - t.cra + t'.cra, rbdcMaxTotal := c.rbdcMaxTotal - t.maxRbdc + t'.maxRbdc), true)
  }

  /** The intended PEP command keeps the registry and the totals in
      agreement. */
  lemma PepKeepsConsistent(c: Ctrl, conv: Converter, req: PepRequest)
    requires Consistent(c)
    ensures Consistent(ApplyPepCommand(Intended, c, conv, req).0)
  {
    if req.stId in c.terminals {
      PepKeepsCounted(c, conv, req);
      PepKeepsRegistry(c, conv, req);
    }
  }

  /** A PEP command leaves every terminal registered in its category and
      every category listing its own members. */
  lemma PepKeepsRegistry(c: Ctrl, conv: Converter, req: PepRequest)
    requires Listed(c) && Grouped(c) && req.stId in c.terminals
    ensures var r := ApplyPepCommand(Intended, c, conv, req).0;
      Listed(r) && Grouped(r)
  {
    var r := ApplyPepCommand(Intended, c, conv, req).0;
    forall j | j in r.terminals ensures Registered(r, j) {
      assert Registered(c, j);
    }
    forall l | l in r.categories ensures r.categories[l].name == l && Members(r, l) {
      assert Members(c, l);
    }
  }

  lemma PepKeepsCounted(c: Ctrl, conv: Converter, req: PepRequest)
    requires Counted(c) && req.stId in c.terminals
    ensures Counted(ApplyPepCommand(Intended, c, conv, req).0)
  {
    var id := req.stId;
    var t' := ApplyPep(c, conv, c.terminals[id], req);
    TotalReplace(c.terminals, id, t', Cra);
    TotalReplace(c.terminals, id, t', MaxRbdc);
    assert c.terminals[id := t'].Keys == c.terminals.Keys;
  }

  /** Replacing one terminal changes a sum by the difference. */
  lemma TotalReplace(m: map<nat, Terminal>, k: nat, t: Terminal, f: Terminal -> int)
    requires k in m
    ensures Total(m[k := t], f) == Total(m, f) - f(m[k]) + f(t)
  {
    TotalRemove(m, k, f);
    TotalRemove(m[k := t], k, f);
    assert m[k := t] - {k} == m - {k};
  }

  /** As written, a PEP command that changes a terminal's CRA leaves the
      CRA total behind: a terminal logged on with a CRA of 10 kbit/s and
      raised to 50 leaves a total of 10, and its logoff then brings the
      total to -40. */
  lemma PepLeavesTotalsBehind(conv: Converter)
    ensures var c0 := OneCategory();
      var c1 := Logon(c0, 1, 10, 0, 0).0;
      var c2 := ApplyPepCommand(AsWritten, c1, conv, PepRequest(1, 50, 0, 0)).0;
      var c3 := Logoff(c2, 1).0;
      && Consistent(c1)
      && 1 in c2.terminals && c2.terminals[1].cra == 50 && c2.craTotal == 10
      && !Consistent(c2)
      && c3.terminals == map[] && c3.craTotal == -40
  {
    var c0 := OneCategory();
    assert Consistent(c0);
    LogonConsistent(c0, 1, 10, 0, 0);
    var c1 := Logon(c0, 1, 10, 0, 0).0;
    assert c1.craTotal == 10 && c1.terminals.Keys == {1};
    var c2 := ApplyPepCommand(AsWritten, c1, conv, PepRequest(1, 50, 0, 0)).0;
    assert c2.craTotal == 10 && c2.terminals[1].cra == 50;
    TotalRemove(c2.terminals, 1, Cra);
    assert c2.terminals - {1} == map[];
    assert Total(c2.terminals, Cra) == 50;
  }

  /** A controller with one empty DAMA category, the default one. */
  function OneCategory(): (c: Ctrl)
    ensures c.terminals == map[] && Consistent(c)
  {
    Ctrl(map[], map["cat" := Category("cat", [], [])], map[], Some("cat"),
         0, 0, 0, {}, 0, 0, false, false, false)
  }

  // ---------------------------------------------------------------------
  // MODCOD update

  /** The scan of a category's carrier groups for a terminal whose
      simulated MODCOD is `sim`, `nearest(g, sim)` being the MODCOD group
      `g` offers nearest to it. A group offering `sim` itself is taken and
      ends the scan; a group offering less raises the MODCOD to the best
      seen. As written, such a group also becomes the terminal's carrier
      even when it does not raise the MODCOD; as intended, only a group
      offering the MODCOD chosen so far becomes the carrier. The result is
      the MODCOD, 0 when no group serves the terminal, and the carrier. */
  function ScanCarriers(mode: Mode, groups: seq<nat>, sim: nat, nearest: (nat, nat) -> nat,
                        fmt: nat, carrier: Option<nat>): (r: (nat, Option<nat>))
    decreases |groups|
  {
    if |groups| == 0 then (fmt, carrier)
    else
      var g := groups[0];
      var n := nearest(g, sim);
      if n == sim then (sim, Some(g))
      else if n < sim then
        var best := if fmt < n then n else fmt;
        var chosen := if mode == AsWritten || carrier.None? || fmt < n then Some(g) else carrier;
        ScanCarriers(mode, groups[1..], sim, nearest, best, chosen)
      else ScanCarriers(mode, groups[1..], sim, nearest, fmt, carrier)
  }

  /** Some group offers the simulated MODCOD itself. */
  predicate Exact(groups: seq<nat>, sim: nat, nearest: (nat, nat) -> nat) {
    exists k :: 0 <= k < |groups| && nearest(groups[k], sim) == sim
  }

  /** The MODCOD of the scan is the simulated one if some group offers it;
      otherwise the best MODCOD below it any group offers, or the starting
      0 when none does. */
  lemma {:induction false} ScanFmt(mode: Mode, groups: seq<nat>, sim: nat, nearest: (nat, nat) -> nat,
                                   fmt: nat, carrier: Option<nat>)
    requires fmt < sim || fmt == 0
    ensures var (f, _) := ScanCarriers(mode, groups, sim, nearest, fmt, carrier);
      && (Exact(groups, sim, nearest) ==> f == sim)
      && (!Exact(groups, sim, nearest) ==>
            && fmt <= f
            && (forall k :: 0 <= k < |groups| && nearest(groups[k], sim) < sim ==> nearest(groups[k], sim) <= f)
            && (f == fmt || exists k :: 0 <= k < |groups| && nearest(groups[k], sim) == f))
    decreases |groups|
  {
    if |groups| > 0 {
      var g := groups[0];
      var n := nearest(g, sim);
      if n != sim {
        var best := if fmt < n && n < sim then n else fmt;
        var chosen := if n < sim && (mode == AsWritten || carrier.None? || fmt < n) then Some(g) else carrier;
        ScanFmt(mode, groups[1..], sim, nearest, best, chosen);
        assert forall k :: 0 <= k < |groups| - 1 ==> groups[1..][k] == groups[k + 1];
        if Exact(groups, sim, nearest) {
          var k :| 0 <= k < |groups| && nearest(groups[k], sim) == sim;
          assert k > 0 && nearest(groups[1..][k - 1], sim) == sim;
        }
      }
    }
  }

  /** As intended, the carrier of the scan offers the MODCOD the scan
      chose. */
  lemma {:induction false} ScanCarrierIntended(groups: seq<nat>, sim: nat, nearest: (nat, nat) -> nat,
                                               fmt: nat, carrier: Option<nat>)
    requires carrier.Some? ==> nearest(carrier.value, sim) == fmt
    requires carrier.None? ==> fmt == 0
    ensures var (f, c) := ScanCarriers(Intended, groups, sim, nearest, fmt, carrier);
      c.Some? ==> nearest(c.value, sim) == f
    decreases |groups|
  {
    if |groups| > 0 {
      var g := groups[0];
      var n := nearest(g, sim);
      if n != sim {
        var best := if n < sim && fmt < n then n else fmt;
        var chosen := if n < sim && (carrier.None? || fmt < n) then Some(g) else carrier;
        ScanCarrierIntended(groups[1..], sim, nearest, best, chosen);
      }
    }
  }

  /** As written, the carrier need not offer the chosen MODCOD: with a
      simulated MODCOD of 7 and two groups offering 5 then 3, the terminal
      gets MODCOD 5 on the second group, which offers only 3. */
  lemma ScanCarrierAsWritten()
    ensures var nearest := (g: nat, sim: nat) => if g == 1 then 5 else 3;
      && ScanCarriers(AsWritten, [1, 2], 7, nearest, 0, None) == (5, Some(2))
      && nearest(2, 7) != 5
      && ScanCarriers(Intended, [1, 2], 7, nearest, 0, None) == (5, Some(1))
  {
  }

  /** `updateFmt`: each terminal whose category is known gets the MODCOD
      of the scan of its category's carrier groups and, if the scan chose
      one, that carrier; the others are left as they are. */
  function UpdateFmt(mode: Mode, c: Ctrl, simulated: nat -> nat, nearest: (nat, nat) -> nat): (r: Ctrl)
    ensures r == c.(terminals := r.terminals) && r.terminals.Keys == c.terminals.Keys
    ensures forall id :: id in c.terminals && c.terminals[id].category !in c.categories ==>
      r.terminals[id] == c.terminals[id]
    ensures forall id :: id in c.terminals && c.terminals[id].category in c.categories ==>
      var t := c.terminals[id];
      var (f, g) := ScanCarriers(mode, c.categories[t.category].carriers, simulated(id), nearest, 0, None);
      r.terminals[id] == t.(fmtId := f, carrierId := if g.Some? then g.value else t.carrierId)
  {
    c.(terminals := map id | id in c.terminals :: UpdateTerminalFmt(mode, c, id, c.terminals[id], simulated, nearest))
  }

  /** The update of one terminal: only its MODCOD and carrier change, and
      only when its category is known. The MODCOD is the simulated one
      whenever a carrier group of the category offers it; as intended, a
      carrier that changes offers the MODCOD chosen. */
  function UpdateTerminalFmt(mode: Mode, c: Ctrl, id: nat, t: Terminal, simulated: nat -> nat, nearest: (nat, nat) -> nat): (r: Terminal)
    ensures t.category !in c.categories ==> r == t
    ensures r == t.(fmtId := r.fmtId, carrierId := r.carrierId)
    ensures t.category in c.categories && Exact(c.categories[t.category].carriers, simulated(id), nearest) ==>
      r.fmtId == simulated(id)
    ensures mode == Intended && r.carrierId != t.carrierId ==> nearest(r.carrierId, simulated(id)) == r.fmtId
  {
    if t.category !in c.categories then t
    else
      var groups := c.categories[t.category].carriers;
      ScanFmt(mode, groups, simulated(id), nearest, 0, None);
      ScanCarrierIntended(groups, simulated(id), nearest, 0, None);
      var (f, g) := ScanCarriers(mode, groups, simulated(id), nearest, 0, None);
      t.(fmtId := f, carrierId := if g.Some? then g.value else t.carrierId)
  }

  /** After the intended update, every terminal served on a carrier chosen
      by the scan gets the MODCOD that carrier offers, and the MODCOD is the
      simulated one whenever a carrier group of its category offers it. */
  lemma UpdateFmtIntended(c: Ctrl, simulated: nat -> nat, nearest: (nat, nat) -> nat, id: nat)
    requires id in c.terminals && c.terminals[id].category in c.categories
    ensures var t := c.terminals[id];
      var groups := c.categories[t.category].carriers;
      var t' := UpdateFmt(Intended, c, simulated, nearest).terminals[id];
      && (Exact(groups, simulated(id), nearest) ==> t'.fmtId == simulated(id))
      && (t'.carrierId != t.carrierId ==> nearest(t'.carrierId, simulated(id)) == t'.fmtId)
  {
    var t := c.terminals[id];
    var groups := c.categories[t.category].carriers;
    ScanFmt(Intended, groups, simulated(id), nearest, 0, None);
    ScanCarrierIntended(groups, simulated(id), nearest, 0, None);
  }

  // ---------------------------------------------------------------------
  // TTP

  /** A time plan of the TTP: the terminal, the packets it is allotted and
      its MODCOD. */
  datatype TimePlan = TimePlan(talId: nat, total: nat, fmtId: nat)

  /** The plan of one terminal: its volume and rate allocations added in a
      16-bit packet count. */
  function PlanOf(t: Terminal): (p: TimePlan)
    ensures p.talId == t.id && p.fmtId == t.fmtId
    ensures p.total < Modulus16 && (p.total - (t.volumeAlloc + t.rateAlloc)) % Modulus16 == 0
  {
    TimePlan(t.id, ToU16(ToU16(t.volumeAlloc) + t.rateAlloc), t.fmtId)
  }

  /** The plans of the terminals of one category, in their order; a plan
      the TTP refuses (`accepts` is false for it) is skipped. */
  function CategoryPlans(c: Ctrl, members: seq<nat>, accepts: nat -> bool): (r: seq<TimePlan>)
    ensures forall p :: p in r ==>
      exists i :: 0 <= i < |members| && members[i] in c.terminals && accepts(members[i]) && p == PlanOf(c.terminals[members[i]])
    ensures forall i :: 0 <= i < |members| && members[i] in c.terminals && accepts(members[i]) ==>
      PlanOf(c.terminals[members[i]]) in r
  {
    if |members| == 0 then []
    else
      var id := members[0];
      var rest := CategoryPlans(c, members[1..], accepts);
      assert forall i :: 1 <= i < |members| ==> members[i] == members[1..][i - 1];
      (if id in c.terminals && accepts(id) then [PlanOf(c.terminals[id])] else []) + rest
  }

  /** `buildTTP`: the plans of every category, the categories taken in the
      order `labels` gives (the order of their names); it always succeeds. */
  function BuildTtp(c: Ctrl, labels: seq<string>, accepts: nat -> bool): (r: (seq<TimePlan>, bool))
    ensures r.1
    ensures forall p :: p in r.0 ==>
      exists l :: l in labels && l in c.categories && p in CategoryPlans(c, c.categories[l].members, accepts)
  {
    if |labels| == 0 then ([], true)
    else
      var l := labels[0];
      var head := if l in c.categories then CategoryPlans(c, c.categories[l].members, accepts) else [];
      var rest := BuildTtp(c, labels[1..], accepts).0;
      assert forall x :: x in labels[1..] ==> x in labels;
      (head + rest, true)
  }

  /** Every logged-on terminal whose plan the TTP accepts gets a plan with
      its allocations and MODCOD, and every plan is such a terminal's. */
  lemma BuildTtpCovers(c: Ctrl, labels: seq<string>, accepts: nat -> bool, id: nat)
    requires Consistent(c)
    requires forall l :: l in c.categories ==> l in labels
    requires id in c.terminals && accepts(id)
    ensures PlanOf(c.terminals[id]) in BuildTtp(c, labels, accepts).0
  {
    assert Registered(c, id);
    var l := c.terminals[id].category;
    var ms := c.categories[l].members;
    var i :| 0 <= i < |ms| && ms[i] == id;
    BuildTtpHas(c, labels, accepts, l, i);
  }

  lemma {:induction false} BuildTtpHas(c: Ctrl, labels: seq<string>, accepts: nat -> bool, l: string, i: nat)
    requires l in labels && l in c.categories
    requires i < |c.categories[l].members|
    requires var id := c.categories[l].members[i]; id in c.terminals && accepts(id)
    ensures PlanOf(c.terminals[c.categories[l].members[i]]) in BuildTtp(c, labels, accepts).0
  {
    if labels[0] != l {
      BuildTtpHas(c, labels[1..], accepts, l, i);
    }
  }

  /** A plan's total is the terminal's allocation modulo 2^16. */
  lemma PlanTotal(t: Terminal)
    ensures PlanOf(t).total == (t.volumeAlloc + t.rateAlloc) % Modulus16
  {
    ModAdd(t.volumeAlloc, t.rateAlloc);
  }

  lemma ModAdd(a: nat, b: nat)
    ensures ((a % Modulus16) + b) % Modulus16 == (a + b) % Modulus16
  {
    var q := a / Modulus16;
    assert a == q * Modulus16 + a % Modulus16;
    assert a + b == q * Modulus16 + (a % Modulus16 + b);
  }
}

=== FILE: dama_esa.dfy ===
/** The round-robin allocators of the ESA DAMA controller
    (platine-core/src/dvb_rcs/dama/lib_dama_ctrl_esa.cpp): the choice of the
    next terminal, the VBDC allocation in two steps, the FCA allocation and
    the order of the steps of one run.

    The terminal contexts (`DC_St`) are not part of this model. A context
    is the record of the values the allocators read and write: its RBDC and
    VBDC requests, the room left for allocations (`GetMaxAllocation`) and
    what it was granted. Granting `n` slots (`SetAllocation`) adds `n` to
    the grant of its kind, takes `n` from the room and, for VBDC, from the
    request. */
module DamaEsa {
  import opened Wrappers
  import opened OpenSandCore
  import opened ModelMode

  datatype St = St(rbdc: int, vbdc: int, room: int, vbdcAlloc: int, fcaAlloc: int)

  /** The controller: the logged-on terminals in ascending id order with
      their contexts, the start pointers of the VBDC and FCA rounds (-1 for
      none), the VBDC minimum, the FCA grant, and the capacities. */
  datatype Esa = Esa(ids: seq<nat>, sts: map<nat, St>, vbdcStart: int, fcaStart: int,
                     minVbdc: int, fca: int, totalCapacity: int, totalCra: int)

  predicate Increasing(ids: seq<nat>) {
    forall i, j :: 0 <= i < j < |ids| ==> ids[i] < ids[j]
  }

  /** The context map, in its key order. */
  predicate Wf(e: Esa) {
    && Increasing(e.ids)
    && (forall i :: 0 <= i < |e.ids| ==> e.ids[i] in e.sts)
    && (forall id :: id in e.sts ==> id in e.ids)
  }

  /** The position of `k` among the ids, if it is one. */
  function IndexOf(ids: seq<nat>, k: nat): (r: Option<nat>)
    ensures r.Some? <==> k in ids
    ensures r.Some? ==> r.value < |ids| && ids[r.value] == k
  {
    if |ids| == 0 then None
    else if ids[0] == k then Some(0)
    else match IndexOf(ids[1..], k)
      case None => None
      case Some(i) => Some(i + 1)
  }

  /** `RoundRobin`: the terminal after the one the offset names, wrapping
      to the first; the first when the offset is -1 or names no terminal
      (the offset is read as a 16-bit id); none, with offset -1, when there
      is no terminal. The results are the new offset and the position. */
  function RoundRobin(ids: seq<nat>, offset: int): (r: (int, Option<nat>))
    ensures r.1.None? <==> |ids| == 0
    ensures r.1.None? ==> r.0 == -1
    ensures r.1.Some? ==> r.1.value < |ids| && r.0 == ids[r.1.value]
    ensures |ids| > 0 && (offset == -1 || ToU16(offset) !in ids) ==> r.1 == Some(0)
  {
    if |ids| == 0 then (-1, None)
    else if offset == -1 then (ids[0], Some(0))
    else match IndexOf(ids, ToU16(offset))
      case None => (ids[0], Some(0))
      case Some(i) => if i + 1 < |ids| then (ids[i + 1], Some(i + 1)) else (ids[0], Some(0))
  }

  /** In ascending ids, the terminal after `k` is the least id above `k`,
      or the least id of all when `k` is the greatest. */
  lemma RoundRobinNext(ids: seq<nat>, k: nat)
    requires Increasing(ids) && k in ids && k < Modulus16
    ensures var (o, p) := RoundRobin(ids, k);
      && p.Some?
      && ((exists x :: x in ids && x > k) ==> o > k && forall x :: x in ids && x > k ==> o <= x)
      && ((forall x :: x in ids ==> x <= k) ==> forall x :: x in ids ==> o <= x)
  {
    var i := IndexOf(ids, k).value;
    var (o, p) := RoundRobin(ids, k);
    assert ToU16(k) == k;
    if i + 1 < |ids| {
      assert ids[i + 1] in ids && ids[i + 1] > k;
      forall x | x in ids && x > k ensures o <= x {
        var j :| 0 <= j < |ids| && ids[j] == x;
        assert j > i;
      }
    } else {
      forall x | x in ids ensures o <= x {
        var j :| 0 <= j < |ids| && ids[j] == x;
      }
      forall x | x in ids ensures x <= k {
        var j :| 0 <= j < |ids| && ids[j] == x;
      }
    }
  }

  // ---------------------------------------------------------------------
  // VBDC

  function Min(a: int, b: int): int { if a < b then a else b }

  function Max(a: int, b: int): int { if a < b then b else a }

  /** The part of a terminal's VBDC request served in step 0 (up to the
      VBDC minimum) and in step 1 (the rest). */
  function VbdcRequest(step: nat, minVbdc: int, st: St): (r: int)
    ensures step == 0 ==> r <= minVbdc && r <= st.vbdc && (r == minVbdc || r == st.vbdc)
    ensures step != 0 ==> r >= 0 && (st.vbdc >= 0 ==> r == st.vbdc)
  {
    if step == 0 then Min(st.vbdc, minVbdc) else Max(st.vbdc, 0)
  }

  /** `SetAllocation(n, VBDC)`: the `n` slots granted come out of the
      room and out of the VBDC request; the RBDC request and the FCA grant
      stay as they are. */
  function GrantVbdc(st: St, n: int): (r: St)
    ensures r.vbdcAlloc == st.vbdcAlloc + n
    ensures r.vbdcAlloc + r.room == st.vbdcAlloc + st.room
    ensures r.vbdcAlloc + r.vbdc == st.vbdcAlloc + st.vbdc
    ensures r.rbdc == st.rbdc && r.fcaAlloc == st.fcaAlloc
  {
    st.(vbdc := st.vbdc - n, room := st.room - n, vbdcAlloc := st.vbdcAlloc + n)
  }

  /** One terminal served in a VBDC step: a positive request that fits the
      room is granted and taken from the capacity; a larger one is granted
      the room only, the capacity is left as it is, and the terminal
      becomes the first partly served one if there was none. */
  function VisitVbdc(step: nat, minVbdc: int, st: St, tac: int, p: nat, last: Option<nat>): (r: (St, int, Option<nat>))
    ensures VbdcRequest(step, minVbdc, st) <= 0 ==> r == (st, tac, last)
    ensures 0 < VbdcRequest(step, minVbdc, st) <= st.room ==>
      r == (GrantVbdc(st, VbdcRequest(step, minVbdc, st)), tac - VbdcRequest(step, minVbdc, st), last)
    ensures 0 < VbdcRequest(step, minVbdc, st) && st.room < VbdcRequest(step, minVbdc, st) ==>
      r == (GrantVbdc(st, st.room), tac, if last.None? then Some(p) else last)
  {
    var request := VbdcRequest(step, minVbdc, st);
    if request <= 0 then (st, tac, last)
    else if request <= st.room then (GrantVbdc(st, request), tac - request, last)
    else (GrantVbdc(st, st.room), tac, if last.None? then Some(p) else last)
  }

  /** What a terminal was granted is what its request and its room lost;
      from a context with a non-negative request and room, a visit never
      grants more than either, nor more than the VBDC minimum in step 0. */
  lemma VisitVbdcBounded(step: nat, minVbdc: int, st: St, tac: int, p: nat, last: Option<nat>)
    requires st.vbdc >= 0 && st.room >= 0
    ensures var (st', tac', _) := VisitVbdc(step, minVbdc, st, tac, p, last);
      var granted := st'.vbdcAlloc - st.vbdcAlloc;
      && 0 <= granted <= st.vbdc && granted <= st.room
      && st'.vbdc == st.vbdc - granted && st'.room == st.room - granted
      && (step == 0 ==> granted <= Max(minVbdc, 0))
      && (tac' == tac || tac' == tac - granted)
      && st' == st.(vbdc := st'.vbdc, room := st'.room, vbdcAlloc := st'.vbdcAlloc)
  {
  }

  /** The terminal at position `k` of the round that starts at `s`. */
  function At(n: nat, s: nat, k: nat): (p: nat)
    requires n > 0
    ensures p < n
  {
    (s + k) % n
  }

  /** The inner loop of one VBDC step: the terminals are served in order
      from position `s` while capacity is left, at most once each. The
      results are the contexts, the capacity, the number of terminals
      served and the first partly served position. */
  function VbdcRound(step: nat, minVbdc: int, ids: seq<nat>, sts: map<nat, St>, tac: int,
                     s: nat, k: nat, last: Option<nat>): (r: (map<nat, St>, int, nat, Option<nat>))
    requires s < |ids| && k <= |ids|
    requires forall i :: 0 <= i < |ids| ==> ids[i] in sts
    requires last.Some? ==> last.value < |ids|
    ensures r.0.Keys == sts.Keys
    ensures r.3.Some? ==> r.3.value < |ids|
    ensures k <= r.2 <= |ids|
    ensures r.1 <= tac
    ensures tac <= 0 ==> r == (sts, tac, k, last)
    ensures r.2 < |ids| ==> r.1 <= 0
    ensures last.Some? ==> r.3 == last
    decreases |ids| - k
  {
    if k == |ids| || tac <= 0 then (sts, tac, k, last)
    else
      var p := At(|ids|, s, k);
      var (st', tac', last') := VisitVbdc(step, minVbdc, sts[ids[p]], tac, p, last);
      VbdcRound(step, minVbdc, ids, sts[ids[p] := st'], tac', s, k + 1, last')
  }

  /** `runDamaVbdc`: with no capacity left, or no terminal, nothing
      changes. Otherwise both steps go once round the terminals from the
      start pointer (the first terminal if it is -1 or logged off), while
      capacity is left; the next round starts at the first partly served
      terminal, or where this one stopped. */
  function RunDamaVbdc(e: Esa, tac: int): (r: (Esa, int))
    requires Wf(e)
    ensures tac <= 0 || |e.ids| == 0 ==> r == (e, tac)
    ensures r.1 <= tac
    ensures r.0 == e.(sts := r.0.sts, vbdcStart := r.0.vbdcStart) && r.0.sts.Keys == e.sts.Keys
    ensures tac > 0 && |e.ids| > 0 ==> r.0.vbdcStart in e.ids
  {
    if tac <= 0 || |e.ids| == 0 then (e, tac)
    else
      var s := RoundRobinStart(e.ids, e.vbdcStart);
      WfContains(e);
      var (sts0, tac0, k0, last0) := VbdcRound(0, e.minVbdc, e.ids, e.sts, tac, s, 0, None);
      var (sts1, tac1, k1, last1) := VbdcRound(1, e.minVbdc, e.ids, sts0, tac0, s, 0, last0);
      var current := if k0 < |e.ids| then At(|e.ids|, s, k0) else At(|e.ids|, s, k1);
      var next := if last1.Some? then last1.value else current;
      (e.(sts := sts1, vbdcStart := e.ids[next]), tac1)
  }

  lemma WfContains(e: Esa)
    requires Wf(e)
    ensures forall i :: 0 <= i < |e.ids| ==> e.ids[i] in e.sts
  {
  }

  /** The position a round starts from: the start pointer's terminal if it
      is logged on, the first one otherwise. */
  function RoundRobinStart(ids: seq<nat>, start: int): (s: nat)
    requires |ids| > 0
    ensures s < |ids|
    ensures start != -1 && ToU16(start) in ids ==> ids[s] == ToU16(start)
    ensures start == -1 || ToU16(start) !in ids ==> s == 0
  {
    if start == -1 then 0
    else match IndexOf(ids, ToU16(start))
      case None => 0
      case Some(i) => i
  }

  /** No context ends a VBDC round with a negative request or room. */
  predicate NonNegative(sts: map<nat, St>) {
    forall id :: id in sts ==> sts[id].vbdc >= 0 && sts[id].room >= 0
  }

  /** A VBDC round keeps every request and room non-negative. */
  lemma {:induction false} VbdcRoundNonNegative(step: nat, minVbdc: int, ids: seq<nat>, sts: map<nat, St>, tac: int,
                                                s: nat, k: nat, last: Option<nat>)
    requires s < |ids| && k <= |ids|
    requires forall i :: 0 <= i < |ids| ==> ids[i] in sts
    requires NonNegative(sts)
    requires last.Some? ==> last.value < |ids|
    ensures NonNegative(VbdcRound(step, minVbdc, ids, sts, tac, s, k, last).0)
    decreases |ids| - k
  {
    if k < |ids| && tac > 0 {
      var p := At(|ids|, s, k);
      var st := sts[ids[p]];
      VisitVbdcBounded(step, minVbdc, st, tac, p, last);
      var (st', tac', last') := VisitVbdc(step, minVbdc, st, tac, p, last);
      VbdcRoundNonNegative(step, minVbdc, ids, sts[ids[p] := st'], tac', s, k + 1, last');
    }
  }

  lemma VbdcRoundNonNegativeStep(sts: map<nat, St>, id: nat, st: St)
    requires NonNegative(sts) && st.vbdc >= 0 && st.room >= 0
    ensures NonNegative(sts[id := st])
  {
  }

  /** The first terminal a VBDC round serves only in part ends it with no
      room left. */
  lemma {:induction false} VbdcRoundPartial(step: nat, minVbdc: int, ids: seq<nat>, sts: map<nat, St>, tac: int,
                                            s: nat, k: nat)
    requires s < |ids| && k <= |ids|
    requires forall i :: 0 <= i < |ids| ==> ids[i] in sts
    requires NonNegative(sts)
    ensures var (sts', _, _, last') := VbdcRound(step, minVbdc, ids, sts, tac, s, k, None);
      last'.Some? ==> last'.value < |ids| && sts'[ids[last'.value]].room == 0
    decreases |ids| - k
  {
    if k < |ids| && tac > 0 {
      var p := At(|ids|, s, k);
      var st := sts[ids[p]];
      VisitVbdcBounded(step, minVbdc, st, tac, p, None);
      var (st', tac', last') := VisitVbdc(step, minVbdc, st, tac, p, None);
      var sts1 := sts[ids[p] := st'];
      if last'.None? {
        VbdcRoundPartial(step, minVbdc, ids, sts1, tac', s, k + 1);
      } else {
        assert last'.value == p && st'.room == 0;
        VbdcRoundGrows(step, minVbdc, ids, sts1, tac', s, k + 1, last', ids[p]);
      }
    }
  }

  /** A round never takes back a grant, and a terminal that ended with no
      room keeps none. */
  lemma {:induction false} VbdcRoundGrows(step: nat, minVbdc: int, ids: seq<nat>, sts: map<nat, St>, tac: int,
                                          s: nat, k: nat, last: Option<nat>, id: nat)
    requires s < |ids| && k <= |ids|
    requires forall i :: 0 <= i < |ids| ==> ids[i] in sts
    requires NonNegative(sts)
    requires last.Some? ==> last.value < |ids|
    requires id in sts
    ensures var sts' := VbdcRound(step, minVbdc, ids, sts, tac, s, k, last).0;
      sts'[id].vbdcAlloc >= sts[id].vbdcAlloc && (sts[id].room == 0 ==> sts'[id].room == 0)
    decreases |ids| - k
  {
    if k < |ids| && tac > 0 {
      var p := At(|ids|, s, k);
      var st := sts[ids[p]];
      VisitVbdcBounded(step, minVbdc, st, tac, p, last);
      var (st', tac', last') := VisitVbdc(step, minVbdc, st, tac, p, last);
      VbdcRoundNonNegativeStep(sts, ids[p], st');
      VbdcRoundGrows(step, minVbdc, ids, sts[ids[p] := st'], tac', s, k + 1, last', id);
    }
  }

  /** A VBDC allocation from contexts with non-negative requests and rooms
      keeps them so, never takes back a grant, and takes what it grants a
      terminal out of that terminal's room. */
  lemma RunDamaVbdcKeepsBounds(e: Esa, tac: int, id: nat)
    requires Wf(e) && NonNegative(e.sts) && id in e.sts
    ensures var (e', _) := RunDamaVbdc(e, tac);
      && NonNegative(e'.sts)
      && e'.sts[id].vbdcAlloc >= e.sts[id].vbdcAlloc
      && e'.sts[id].vbdcAlloc - e.sts[id].vbdcAlloc == e.sts[id].room - e'.sts[id].room
  {
    if tac > 0 && |e.ids| > 0 {
      var s := RoundRobinStart(e.ids, e.vbdcStart);
      WfContains(e);
      var (sts0, tac0, k0, last0) := VbdcRound(0, e.minVbdc, e.ids, e.sts, tac, s, 0, None);
      VbdcRoundNonNegative(0, e.minVbdc, e.ids, e.sts, tac, s, 0, None);
      VbdcRoundNonNegative(1, e.minVbdc, e.ids, sts0, tac0, s, 0, last0);
      VbdcRoundGrows(0, e.minVbdc, e.ids, e.sts, tac, s, 0, None, id);
      VbdcRoundGrows(1, e.minVbdc, e.ids, sts0, tac0, s, 0, last0, id);
      VbdcRoundSpends(0, e.minVbdc, e.ids, e.sts, tac, s, 0, None, id);
      VbdcRoundSpends(1, e.minVbdc, e.ids, sts0, tac0, s, 0, last0, id);
    }
  }

  /** When a VBDC allocation serves a terminal in part, the next round
      starts at a terminal with no room left. */
  lemma RunDamaVbdcPartial(e: Esa, tac: int)
    requires Wf(e) && NonNegative(e.sts) && tac > 0 && |e.ids| > 0
    ensures var s := RoundRobinStart(e.ids, e.vbdcStart);
      var (e', _) := RunDamaVbdc(e, tac);
      var (sts0, tac0, _, last0) := VbdcRound(0, e.minVbdc, e.ids, e.sts, tac, s, 0, None);
      var last1 := VbdcRound(1, e.minVbdc, e.ids, sts0, tac0, s, 0, last0).3;
      last1.Some? ==> e'.vbdcStart == e.ids[last1.value] && e'.sts[e'.vbdcStart].room == 0
  {
    var s := RoundRobinStart(e.ids, e.vbdcStart);
    WfContains(e);
    var (sts0, tac0, k0, last0) := VbdcRound(0, e.minVbdc, e.ids, e.sts, tac, s, 0, None);
    VbdcRoundNonNegative(0, e.minVbdc, e.ids, e.sts, tac, s, 0, None);
    VbdcRoundPartial(0, e.minVbdc, e.ids, e.sts, tac, s, 0);
    if last0.Some? {
      VbdcRoundGrows(1, e.minVbdc, e.ids, sts0, tac0, s, 0, last0, e.ids[last0.value]);
    } else {
      VbdcRoundPartial(1, e.minVbdc, e.ids, sts0, tac0, s, 0);
    }
  }

  /** What a VBDC round grants a terminal comes out of its room. */
  lemma {:induction false} VbdcRoundSpends(step: nat, minVbdc: int, ids: seq<nat>, sts: map<nat, St>, tac: int,
                                           s: nat, k: nat, last: Option<nat>, id: nat)
    requires s < |ids| && k <= |ids|
    requires forall i :: 0 <= i < |ids| ==> ids[i] in sts
    requires NonNegative(sts)
    requires last.Some? ==> last.value < |ids|
    requires id in sts
    ensures var sts' := VbdcRound(step, minVbdc, ids, sts, tac, s, k, last).0;
      sts'[id].vbdcAlloc - sts[id].vbdcAlloc == sts[id].room - sts'[id].room
    decreases |ids| - k
  {
    if k < |ids| && tac > 0 {
      var p := At(|ids|, s, k);
      var st := sts[ids[p]];
      VisitVbdcBounded(step, minVbdc, st, tac, p, last);
      var (st', tac', last') := VisitVbdc(step, minVbdc, st, tac, p, last);
      VbdcRoundNonNegativeStep(sts, ids[p], st');
      VbdcRoundSpends(step, minVbdc, ids, sts[ids[p] := st'], tac', s, k + 1, last', id);
    }
  }

  // ---------------------------------------------------------------------
  // FCA

  /** `SetAllocation(n, FCA)`: the `n` slots granted come out of the
      room; the requests and the VBDC grant stay as they are. */
  function GrantFca(st: St, n: int): (r: St)
    ensures r.fcaAlloc == st.fcaAlloc + n
    ensures r.fcaAlloc + r.room == st.fcaAlloc + st.room
    ensures r.rbdc == st.rbdc && r.vbdc == st.vbdc && r.vbdcAlloc == st.vbdcAlloc
  {
    st.(room := st.room - n, fcaAlloc := st.fcaAlloc + n)
  }

  /** The loop of `runDamaFca` from the terminal at position `p`: a
      terminal with room for the FCA grant gets it and becomes the last one
      served; the loop stops when capacity is below the grant, when the
      last one served is reached again without a grant, or, while no
      terminal was served, when the terminal `ref` is reached without a
      grant. `fuel` bounds the number of terminals visited; `None` means
      it ran out. The results are the contexts, the capacity and the
      position of the last terminal visited. */
  function FcaLoop(ids: seq<nat>, sts: map<nat, St>, fca: int, tac: int, p: nat,
                   last: Option<nat>, ref: int, fuel: nat): (r: Option<(map<nat, St>, int, nat)>)
    requires p < |ids|
    requires forall i :: 0 <= i < |ids| ==> ids[i] in sts
    ensures r.Some? ==> r.value.0.Keys == sts.Keys && r.value.2 < |ids|
    ensures r.Some? && fca > 0 ==> r.value.1 <= tac
    decreases fuel
  {
    if fuel == 0 then None
    else
      var st := sts[ids[p]];
      var granted := fca <= st.room;
      var sts' := if granted then sts[ids[p] := GrantFca(st, fca)] else sts;
      var tac' := if granted then tac - fca else tac;
      var last' := if granted then Some(p) else last;
      if !granted && last == Some(p) then Some((sts', tac', p))
      else if last'.None? && ids[p] == ref then Some((sts', tac', p))
      else if tac' < fca then Some((sts', tac', p))
      else FcaLoop(ids, sts', fca, tac', (p + 1) % |ids|, last', ref, fuel - 1)
  }

  /** `runDamaFca`: no FCA grant, or capacity below it, changes nothing;
      with no terminal the start pointer becomes -1. Otherwise the loop
      runs from the terminal after the start pointer and the pointer ends
      on the last terminal visited. As written, the loop stops on reaching
      the start pointer's terminal again, which never happens when the
      pointer is -1 or names a terminal that logged off; as intended, the
      terminal before the first one visited plays that part. */
  function RunDamaFca(mode: Mode, e: Esa, tac: int, fuel: nat): (r: Option<(Esa, int)>)
    requires Wf(e)
    ensures e.fca == 0 || tac < e.fca ==> r == Some((e, tac))
    ensures e.fca != 0 && tac >= e.fca && |e.ids| == 0 ==> r == Some((e.(fcaStart := -1), tac))
    ensures r.Some? ==>
      r.value.0 == e.(sts := r.value.0.sts, fcaStart := r.value.0.fcaStart) && r.value.0.sts.Keys == e.sts.Keys
    ensures r.Some? && e.fca > 0 ==> r.value.1 <= tac
  {
    if e.fca == 0 || tac < e.fca then Some((e, tac))
    else if |e.ids| == 0 then Some((e.(fcaStart := -1), tac))
    else
      var p0 := RoundRobin(e.ids, e.fcaStart).1.value;
      var ref := if mode == AsWritten then e.fcaStart else e.ids[(p0 + |e.ids| - 1) % |e.ids|];
      FcaRun(e, tac, p0, ref, fuel)
  }

  /** The loop of `runDamaFca` from position `p0`, stopping at the
      terminal `ref`: it ends exactly when the loop does, and then only the
      contexts and the start pointer, now the last terminal visited, have
      changed. */
  function FcaRun(e: Esa, tac: int, p0: nat, ref: int, fuel: nat): (r: Option<(Esa, int)>)
    requires Wf(e) && p0 < |e.ids|
    ensures r.Some? <==> FcaLoop(e.ids, e.sts, e.fca, tac, p0, None, ref, fuel).Some?
    ensures r.Some? ==>
      r.value.0 == e.(sts := r.value.0.sts, fcaStart := r.value.0.fcaStart) && r.value.0.sts.Keys == e.sts.Keys
      && r.value.0.fcaStart in e.ids
    ensures r.Some? && e.fca > 0 ==> r.value.1 <= tac
  {
    match FcaLoop(e.ids, e.sts, e.fca, tac, p0, None, ref, fuel)
    case None => None
    case Some((sts', tac', p)) => Some((e.(sts := sts', fcaStart := e.ids[p]), tac'))
  }

  /** The number of moves from position `p` to position `t` in a round of
      `n` terminals. */
  function Dist(n: nat, p: nat, t: nat): (d: nat)
    requires p < n && t < n
    ensures d < n
    ensures d == 0 <==> p == t
  {
    if p <= t then t - p else n - p + t
  }

  /** A bound on the terminals the loop visits: a grant lowers the
      capacity, and between grants the loop moves towards the position it
      stops at. */
  function FcaMeasure(n: nat, fca: int, tac: int, p: nat, t: nat): nat
    requires fca > 0 && p < n && t < n
  {
    (if tac < 0 then 0 else tac) * (n + 1) + Dist(n, p, t)
  }

  /** With a positive FCA grant and the stop terminal on the round, the
      loop ends within its measure. */
  lemma {:induction false} FcaLoopEnds(ids: seq<nat>, sts: map<nat, St>, fca: int, tac: int, p: nat,
                                       last: Option<nat>, q: nat, fuel: nat)
    requires Increasing(ids) && p < |ids| && q < |ids|
    requires forall i :: 0 <= i < |ids| ==> ids[i] in sts
    requires fca > 0 && tac >= fca
    requires last.Some? ==> last.value < |ids|
    requires fuel > FcaMeasure(|ids|, fca, tac, p, if last.Some? then last.value else q)
    ensures FcaLoop(ids, sts, fca, tac, p, last, ids[q], fuel).Some?
    decreases fuel
  {
    var n := |ids|;
    var st := sts[ids[p]];
    var granted := fca <= st.room;
    var t := if last.Some? then last.value else q;
    var sts' := if granted then sts[ids[p] := GrantFca(st, fca)] else sts;
    var tac' := if granted then tac - fca else tac;
    var last' := if granted then Some(p) else last;
    var p' := (p + 1) % n;
    if !granted && last == Some(p) {
    } else if last'.None? && ids[p] == ids[q] {
    } else if tac' < fca {
    } else {
      if granted {
        MeasureDrops(n, fca, tac, Dist(n, p', p), Dist(n, p, t));
      } else {
        assert p != t;
        DistNext(n, p, t);
      }
      FcaLoopEnds(ids, sts', fca, tac', p', last', q, fuel - 1);
    }
  }

  lemma DistNext(n: nat, p: nat, t: nat)
    requires p < n && t < n && p != t
    ensures Dist(n, (p + 1) % n, t) == Dist(n, p, t) - 1
  {
    if p + 1 < n {
      assert (p + 1) % n == p + 1;
    } else {
      assert (p + 1) % n == 0;
    }
  }

  /** A grant lowers the measure whatever the distances. */
  lemma MeasureDrops(n: nat, fca: int, tac: int, d': nat, d: nat)
    requires fca > 0 && tac >= fca && d' < n
    ensures (tac - fca) * (n + 1) + d' < tac * (n + 1) + d
  {
    assert (tac - fca) * (n + 1) == tac * (n + 1) - fca * (n + 1);
    assert fca * (n + 1) >= n + 1;
  }

  /** As intended, the FCA allocation of a controller whose FCA grant is
      positive ends, given fuel for a round of the terminals per slot of
      capacity. */
  lemma RunDamaFcaEnds(e: Esa, tac: int, fuel: nat)
    requires Wf(e) && e.fca > 0
    requires fuel > (if tac < 0 then 0 else tac) * (|e.ids| + 1) + |e.ids|
    ensures RunDamaFca(Intended, e, tac, fuel).Some?
  {
    if tac >= e.fca && |e.ids| > 0 {
      var n := |e.ids|;
      var p0 := RoundRobin(e.ids, e.fcaStart).1.value;
      var q := (p0 + n - 1) % n;
      assert forall i :: 0 <= i < n ==> e.ids[i] in e.sts;
      FcaFuelEnough(n, e.fca, tac, p0, q, fuel);
      FcaLoopEnds(e.ids, e.sts, e.fca, tac, p0, None, q, fuel);
    }
  }

  /** Fuel for a round per slot of capacity covers the loop's measure. */
  lemma FcaFuelEnough(n: nat, fca: int, tac: int, p: nat, q: nat, fuel: nat)
    requires fca > 0 && tac >= fca && p < n && q < n
    requires fuel > tac * (n + 1) + n
    ensures fuel > FcaMeasure(n, fca, tac, p, q)
  {
  }

  /** As written, the FCA allocation of a controller with no start
      pointer whose only terminal has no room never ends: whatever the
      fuel, the loop runs out of it. The intended loop stops after one
      visit and moves the pointer to the terminal. */
  lemma FcaLoopsAsWritten(fuel: nat)
    ensures var e := Esa([1], map[1 := St(0, 0, 0, 0, 0)], -1, -1, 0, 1, 10, 0);
      && Wf(e)
      && RunDamaFca(AsWritten, e, 5, fuel).None?
      && RunDamaFca(Intended, e, 5, 1) == Some((e.(fcaStart := 1), 5))
  {
    var sts := map[1 := St(0, 0, 0, 0, 0)];
    FcaLoopSpins(sts, fuel);
  }

  lemma {:induction false} FcaLoopSpins(sts: map<nat, St>, fuel: nat)
    requires sts == map[1 := St(0, 0, 0, 0, 0)]
    ensures FcaLoop([1], sts, 1, 5, 0, None, -1, fuel).None?
    decreases fuel
  {
    if fuel > 0 {
      FcaLoopSpins(sts, fuel - 1);
    }
  }

  // ---------------------------------------------------------------------
  // One run

  /** The request statistics of a run: how many terminals have a non-zero
      VBDC and RBDC request, and their sums. */
  datatype Stats = Stats(vbdcNumber: nat, vbdcSum: int, rbdcNumber: nat, rbdcSum: int)

  function RequestStats(ids: seq<nat>, sts: map<nat, St>): (r: Stats)
    requires forall i :: 0 <= i < |ids| ==> ids[i] in sts
    ensures r.vbdcNumber <= |ids| && r.rbdcNumber <= |ids|
    ensures r.vbdcNumber == 0 <==> forall i :: 0 <= i < |ids| ==> sts[ids[i]].vbdc == 0
    ensures r.rbdcNumber == 0 <==> forall i :: 0 <= i < |ids| ==> sts[ids[i]].rbdc == 0
  {
    if |ids| == 0 then Stats(0, 0, 0, 0)
    else
      var rest := RequestStats(ids[1..], sts);
      assert forall i :: 1 <= i < |ids| ==> ids[i] == ids[1..][i - 1];
      var st := sts[ids[0]];
      Stats(rest.vbdcNumber + (if st.vbdc != 0 then 1 else 0), rest.vbdcSum + st.vbdc,
            rest.rbdcNumber + (if st.rbdc != 0 then 1 else 0), rest.rbdcSum + st.rbdc)
  }

  /** The stages of a run and the capacity each started with. */
  datatype Stage = RbdcStage(cap: int) | VbdcStage(cap: int) | FcaStage(cap: int)

  /** `runDama`: the capacity left once the CRA is set aside goes to the
      RBDC allocation (computed in floating point, so given here as a
      function of the contexts and the capacity), then what remains to
      VBDC, then to FCA if the FCA grant is positive. The run reports 0;
      `None` means the FCA loop ran out of fuel. */
  function RunDama(mode: Mode, e: Esa, rbdc: (map<nat, St>, int) -> (map<nat, St>, int), fuel: nat): (r: Option<(Esa, int, seq<Stage>)>)
    requires Wf(e)
    requires forall sts: map<nat, St>, c: int :: rbdc(sts, c).0.Keys == sts.Keys
    ensures r.Some? ==> r.value.1 == 0
    ensures r.Some? ==>
      var cap := e.totalCapacity - e.totalCra;
      var (sts1, cap1) := rbdc(e.sts, cap);
      && |r.value.2| >= 2 && r.value.2[..2] == [RbdcStage(cap), VbdcStage(cap1)]
      && (e.fca > 0 ==> |r.value.2| == 3 && r.value.2[2].FcaStage? && r.value.2[2].cap <= cap1)
      && (e.fca <= 0 ==> |r.value.2| == 2)
    ensures e.fca <= 0 ==> r.Some?
  {
    var cap := e.totalCapacity - e.totalCra;
    var (sts1, cap1) := rbdc(e.sts, cap);
    var e1 := e.(sts := sts1);
    var (e2, cap2) := RunDamaVbdc(e1, cap1);
    if e.fca > 0 then
      match RunDamaFca(mode, e2, cap2, fuel)
      case None => None
      case Some((e3, _)) => Some((e3, 0, [RbdcStage(cap), VbdcStage(cap1), FcaStage(cap2)]))
    else Some((e2, 0, [RbdcStage(cap), VbdcStage(cap1)]))
  }
}

=== FILE: dvb_fifo.dfy ===
/** The MAC FIFO (opensand-core/src/dvb_rcs/utils/DvbFifo.cpp): a bounded
    queue of MAC elements with counters of what arrived since the last
    capacity request ("new"), what it holds ("current"), and what went in and
    out since the last statistics read.

    Packet counters are `vol_pkt_t` (16 bits) and byte counters `vol_bytes_t`
    (32 bits); both wrap. The length the counters use is the packet's total
    length for a packet element and the frame's data length otherwise. */
module DvbFifo {
  import opened Wrappers
  import opened OpenSandCore
  import opened MacFifoElement

  /** The capacity-request kind of a FIFO. `CrUnset` is the value the
      constructor leaves for an unknown name (it only logs an error). */
  datatype CrType = CrRbdc | CrVbdc | CrNone | CrUnset

  datatype Stats = Stats(currentPkt: nat, currentBytes: nat, inPkt: nat, outPkt: nat, inBytes: nat, outBytes: nat)

  datatype Fifo = Fifo(
    queue: seq<Element>,
    priority: nat,
    name: string,
    pvc: nat,
    crType: CrType,
    maxSize: nat,
    newSize: nat,
    newBytes: nat,
    carrierId: nat,
    stats: Stats)

  /** The length the counters add and subtract for an element. A NULL payload
      is dereferenced by the source; it counts 0 here. */
  function Length(e: Element): nat {
    if e.kind == PacketType then (if e.packet.Some? then e.packet.value.totalLength else 0)
    else if e.frame.Some? then e.frame.value.dataLength else 0
  }

  function SumLen(q: seq<Element>): nat {
    if |q| == 0 then 0 else SumLen(q[..|q| - 1]) + Length(q[|q| - 1])
  }

  lemma {:induction false} SumLenFront(e: Element, q: seq<Element>)
    ensures SumLen([e] + q) == Length(e) + SumLen(q)
    decreases |q|
  {
    if |q| > 0 {
      assert ([e] + q)[..|q|] == [e] + q[..|q| - 1];
      SumLenFront(e, q[..|q| - 1]);
    } else {
      assert ([e] + q)[..0] == [];
    }
  }

  /** The FIFO's own invariant: every counter within its C type, the size
      bound, and current counters that describe the queue. */
  predicate Valid(f: Fifo) {
    && IsU16(f.maxSize) && IsU16(f.newSize) && IsU32(f.newBytes)
    && IsU16(f.stats.inPkt) && IsU16(f.stats.outPkt)
    && IsU32(f.stats.inBytes) && IsU32(f.stats.outBytes)
    && |f.queue| <= f.maxSize
    && f.stats.currentPkt == |f.queue|
    && f.stats.currentBytes == ToU32(SumLen(f.queue))
  }

  function CrTypeOf(name: string): (c: CrType)
    ensures c == CrRbdc <==> name == "RBDC"
    ensures c == CrVbdc <==> name == "VBDC"
    ensures c == CrNone <==> name == "NONE"
  {
    if name == "RBDC" then CrRbdc
    else if name == "VBDC" then CrVbdc
    else if name == "NONE" then CrNone
    else CrUnset
  }

  const ZeroStats := Stats(0, 0, 0, 0, 0, 0)

  /** The constructor with parameters. It does not initialise the new byte
      counter, whose first value is therefore an input. */
  function New(priority: nat, name: string, crName: string, pvc: nat, maxSize: nat, newBytes0: nat): (f: Fifo)
    requires IsU16(maxSize)
    ensures Valid(f) && f.queue == [] && f.newSize == 0 && f.stats == ZeroStats
    ensures f.crType == CrTypeOf(crName) && f.maxSize == maxSize && f.priority == priority
  {
    Fifo([], priority, name, pvc, CrTypeOf(crName), maxSize, 0, ToU32(newBytes0), 0, ZeroStats)
  }

  /** `push`: appends at the back unless the FIFO is full. */
  function Push(f: Fifo, e: Element): (r: (Fifo, bool))
    ensures !r.1 <==> |f.queue| >= f.maxSize
    ensures !r.1 ==> r.0 == f
    ensures r.1 ==> r.0.queue == f.queue + [e]
    ensures r.1 ==> && r.0.newSize == ToU16(f.newSize + 1)
                    && r.0.newBytes == ToU32(f.newBytes + Length(e))
                    && r.0.stats.inPkt == ToU16(f.stats.inPkt + 1)
                    && r.0.stats.inBytes == ToU32(f.stats.inBytes + Length(e))
                    && r.0.stats.outPkt == f.stats.outPkt && r.0.stats.outBytes == f.stats.outBytes
  {
    if |f.queue| >= f.maxSize then (f, false)
    else
      var q := f.queue + [e];
      var len := Length(e);
      var s := f.stats.(currentPkt := ToU16(|q|),
                        inPkt := ToU16(f.stats.inPkt + 1),
                        currentBytes := ToU32(f.stats.currentBytes + len),
                        inBytes := ToU32(f.stats.inBytes + len));
      (f.(queue := q, newSize := ToU16(f.newSize + 1), newBytes := ToU32(f.newBytes + len), stats := s), true)
  }

  /** `pushFront`: puts a packet element back at the head unless the FIFO is
      full. It is a fragment of an element already counted, so the new and in
      counters are left alone and its length is taken back from the out
      bytes. The caller must pass a packet element (the source asserts it). */
  function PushFront(f: Fifo, e: Element): (r: (Fifo, bool))
    requires e.kind == PacketType
    ensures !r.1 <==> |f.queue| >= f.maxSize
    ensures !r.1 ==> r.0 == f
    ensures r.1 ==> && r.0.queue == [e] + f.queue
                    && r.0.newSize == f.newSize && r.0.newBytes == f.newBytes
                    && r.0.stats.inPkt == f.stats.inPkt && r.0.stats.inBytes == f.stats.inBytes
                    && r.0.stats.outBytes == ToU32(f.stats.outBytes - Length(e))
  {
    if |f.queue| >= f.maxSize then (f, false)
    else
      var q := [e] + f.queue;
      var len := Length(e);
      var s := f.stats.(currentPkt := ToU16(|q|),
                        currentBytes := ToU32(f.stats.currentBytes + len),
                        outBytes := ToU32(f.stats.outBytes - len));
      (f.(queue := q, stats := s), true)
  }

  /** `pop`: takes the head, or gives NULL and changes nothing when empty. */
  function Pop(f: Fifo): (r: (Fifo, Option<Element>))
    ensures r.1.None? <==> |f.queue| == 0
    ensures r.1.None? ==> r.0 == f
    ensures r.1.Some? ==> && [r.1.value] + r.0.queue == f.queue
                          && r.0.stats.outPkt == ToU16(f.stats.outPkt + 1)
                          && r.0.stats.outBytes == ToU32(f.stats.outBytes + Length(r.1.value))
                          && r.0.stats.inPkt == f.stats.inPkt && r.0.stats.inBytes == f.stats.inBytes
                          && r.0.newSize == f.newSize && r.0.newBytes == f.newBytes
  {
    if |f.queue| == 0 then (f, None)
    else
      var e := f.queue[0];
      var q := f.queue[1..];
      var len := Length(e);
      var s := f.stats.(currentPkt := ToU16(|q|),
                        outPkt := ToU16(f.stats.outPkt + 1),
                        currentBytes := ToU32(f.stats.currentBytes - len),
                        outBytes := ToU32(f.stats.outBytes + len));
      (f.(queue := q, stats := s), Some(e))
  }

  /** `resetStats`: zeroes the in and out counters only. */
  function ResetStats(s: Stats): (r: Stats)
    ensures r.inPkt == 0 && r.outPkt == 0 && r.inBytes == 0 && r.outBytes == 0
    ensures r.currentPkt == s.currentPkt && r.currentBytes == s.currentBytes
  {
    s.(inPkt := 0, outPkt := 0, inBytes := 0, outBytes := 0)
  }

  /** `flush` as written: empties the queue and zeroes the new counters and
      the in/out statistics, but keeps the current counters. */
  function FlushAsWritten(f: Fifo): (r: Fifo)
    ensures r.queue == [] && r.newSize == 0 && r.newBytes == 0
    ensures r.stats == ResetStats(f.stats)
  {
    f.(queue := [], newSize := 0, newBytes := 0, stats := ResetStats(f.stats))
  }

  /** `flush` as intended: the current counters are zeroed as well, as `init`
      does, so that they still describe the (now empty) queue. */
  function Flush(f: Fifo): (r: Fifo)
    ensures r.queue == [] && r.newSize == 0 && r.newBytes == 0 && r.stats == ZeroStats
    ensures r.maxSize == f.maxSize && r.crType == f.crType && r.priority == f.priority
  {
    f.(queue := [], newSize := 0, newBytes := 0, stats := ZeroStats)
  }

  /** `getStatsCxt`: a copy of all six counters, then the in/out ones are
      reset in the FIFO. */
  function GetStatsCxt(f: Fifo): (r: (Stats, Fifo))
    ensures r.0 == f.stats
    ensures r.1 == f.(stats := ResetStats(f.stats))
  {
    (f.stats, f.(stats := ResetStats(f.stats)))
  }

  /** `resetNew`: the new packet count is cleared only for the FIFO's own
      capacity-request kind. */
  function ResetNew(f: Fifo, cr: CrType): (r: Fifo)
    ensures cr == f.crType ==> r == f.(newSize := 0)
    ensures cr != f.crType ==> r == f
  {
    if f.crType == cr then f.(newSize := 0) else f
  }

  /** `getTickOut`: 0 when empty, else the head's leave tick. */
  function TickOut(f: Fifo): (t: int)
    ensures |f.queue| == 0 ==> t == 0
    ensures |f.queue| > 0 ==> t == f.queue[0].tickOut
  {
    if |f.queue| > 0 then f.queue[0].tickOut else 0
  }

  /** `getCurrentSize`: the queue length, as a 16-bit count. */
  function CurrentSize(f: Fifo): (n: nat)
    requires Valid(f)
    ensures n == |f.queue| && n == f.stats.currentPkt
  {
    ToU16(|f.queue|)
  }

  /* ---------------------------------------------------------------------- */
  /* The invariant                                                           */

  lemma PushValid(f: Fifo, e: Element)
    requires Valid(f)
    ensures Valid(Push(f, e).0)
  {
    if |f.queue| < f.maxSize {
      var q := f.queue + [e];
      assert q[..|q| - 1] == f.queue;
      ToU32Shift(SumLen(f.queue), Length(e));
    }
  }

  lemma PushFrontValid(f: Fifo, e: Element)
    requires Valid(f) && e.kind == PacketType
    ensures Valid(PushFront(f, e).0)
  {
    if |f.queue| < f.maxSize {
      SumLenFront(e, f.queue);
      ToU32Shift(SumLen(f.queue), Length(e));
    }
  }

  lemma PopValid(f: Fifo)
    requires Valid(f)
    ensures Valid(Pop(f).0)
  {
    if |f.queue| > 0 {
      var e := f.queue[0];
      assert f.queue == [e] + f.queue[1..];
      SumLenFront(e, f.queue[1..]);
      ToU32Shift(SumLen(f.queue), -(Length(e) as int));
    }
  }

  lemma FlushValid(f: Fifo)
    requires Valid(f)
    ensures Valid(Flush(f))
  {
  }

  /** Reading the statistics and clearing the new count keep the invariant. */
  lemma StatsAndResetValid(f: Fifo, cr: CrType)
    requires Valid(f)
    ensures Valid(GetStatsCxt(f).1) && Valid(ResetNew(f, cr))
  {
  }

  /* ---------------------------------------------------------------------- */
  /* Queue order                                                             */

  /** FIFO order: pushing behind a non-empty queue does not change what pops
      next; pushing onto an empty queue makes the pushed element pop next. */
  lemma PushThenPop(f: Fifo, e: Element)
    requires |f.queue| < f.maxSize
    ensures |f.queue| > 0 ==> Pop(Push(f, e).0).1 == Pop(f).1
    ensures |f.queue| == 0 ==> Pop(Push(f, e).0).1 == Some(e)
    ensures Pop(Push(f, e).0).0.queue == (if |f.queue| > 0 then Pop(f).0.queue + [e] else [])
  {
  }

  /** Putting a fragment back at the head and popping it gives it back and
      restores the queue and the byte counters; only the out packet count
      has moved on by one. */
  lemma PushFrontThenPop(f: Fifo, e: Element)
    requires Valid(f) && e.kind == PacketType && |f.queue| < f.maxSize
    ensures var r := Pop(PushFront(f, e).0);
      && r.1 == Some(e)
      && r.0.queue == f.queue
      && r.0.stats == f.stats.(outPkt := ToU16(f.stats.outPkt + 1))
      && r.0 == f.(stats := r.0.stats)
  {
    var len := Length(e);
    ToU32Shift(f.stats.currentBytes + len, -(len as int));
    ToU32Shift(f.stats.outBytes - len, len);
  }

  /* ---------------------------------------------------------------------- */
  /* `flush` keeps stale current counters                                    */

  const SomePacket: Element := FromPacket(Some(Packet(10, 1)), 0, 0)

  /** As written: after a push, a flush and another push, the current byte
      counter reports 20 bytes for a queue that holds one 10-byte packet. */
  lemma FlushAsWrittenBreaksCounters()
    ensures var f0 := New(0, "EF", "NONE", 0, 2, 0);
      var f1 := Push(FlushAsWritten(Push(f0, SomePacket).0), SomePacket).0;
      && f1.queue == [SomePacket]
      && f1.stats.currentBytes == 20
      && SumLen(f1.queue) == 10
      && !Valid(f1)
  {
    var f0 := New(0, "EF", "NONE", 0, 2, 0);
    assert SumLen([SomePacket]) == SumLen([]) + 10 by {
      assert [SomePacket][..0] == [];
    }
  }

  /** Intended: the invariant holds across any number of pushes, pops,
      put-backs and flushes. */
  lemma FlushThenPushValid(f: Fifo, e: Element)
    requires Valid(f)
    ensures Valid(Push(Flush(f), e).0)
  {
    FlushValid(f);
    PushValid(Flush(f), e);
  }
}

=== FILE: dvb_tal.dfy ===
/** The downward part of the terminal's DVB block
    (opensand-core/src/dvb/core/BlockDvbTal.cpp): its MAC FIFOs keyed by
    priority with a default one, the slot of the superframe in which it
    sends its capacity requests, the start-of-frame counter that detects a
    rebooted NCC, the logon state machine, the QoS server port check and
    the spot filter on configuration-update requests.

    The DAMA agent, Slotted Aloha, SCPC scheduling, the QoS server socket
    and the sending of frames are outside the model: their outcomes are
    inputs. */
module DvbTal {
  import opened Wrappers
  import opened OpenSandCore
  import opened ModelMode
  import opened MacFifoElement
  import DvbFifo
  import ConfUpdateRequest

  // ---------------------------------------------------------------------
  // MAC FIFOs
  // ---------------------------------------------------------------------

  /** One entry of the FIFO list of the configuration; a missing attribute
      is `None`. */
  datatype FifoEntry = FifoEntry(priority: Option<nat>, name: Option<string>, size: Option<nat>, accessType: Option<string>)

  predicate Complete(e: FifoEntry) {
    e.priority.Some? && e.name.Some? && e.size.Some? && e.accessType.Some?
  }

  /** The FIFO an entry describes, empty, with its size as a 16-bit packet
      count. */
  function FifoOf(e: FifoEntry): (f: DvbFifo.Fifo)
    requires Complete(e)
    ensures f.priority == e.priority.value && f.queue == []
  {
    DvbFifo.New(e.priority.value, e.name.value, e.accessType.value, 0, ToU16(e.size.value), 0)
  }

  /** Every FIFO sits under its own priority. */
  predicate KeyedByPriority(fifos: map<nat, DvbFifo.Fifo>) {
    forall p :: p in fifos ==> fifos[p].priority == p
  }

  /** `initMacFifo` from the current entry on: an entry with a missing
      attribute releases everything and fails. Each FIFO goes under its
      priority unless one is already there (`map::insert` keeps the first),
      and the default id becomes the largest priority seen. */
  function InitFifos(entries: seq<FifoEntry>, fifos: map<nat, DvbFifo.Fifo>, defaultId: nat): (r: Option<(map<nat, DvbFifo.Fifo>, nat)>)
    ensures r.Some? <==> forall k :: 0 <= k < |entries| ==> Complete(entries[k])
    decreases |entries|
  {
    if entries == [] then Some((fifos, defaultId))
    else if !Complete(entries[0]) then None
    else
      var p := entries[0].priority.value;
      InitFifos(entries[1..], if p in fifos then fifos else fifos[p := FifoOf(entries[0])], if p > defaultId then p else defaultId)
  }

  /** The priorities the entries name. */
  function Priorities(entries: seq<FifoEntry>): set<nat> {
    set k | 0 <= k < |entries| && entries[k].priority.Some? :: entries[k].priority.value
  }

  /** After a successful start-up the FIFOs are exactly those of the
      priorities configured (plus any present before), each under its own
      priority. */
  lemma {:induction false} InitFifosKeys(entries: seq<FifoEntry>, fifos: map<nat, DvbFifo.Fifo>, defaultId: nat)
    requires KeyedByPriority(fifos)
    requires InitFifos(entries, fifos, defaultId).Some?
    ensures InitFifos(entries, fifos, defaultId).value.0.Keys == fifos.Keys + Priorities(entries)
    ensures KeyedByPriority(InitFifos(entries, fifos, defaultId).value.0)
    decreases |entries|
  {
    if entries != [] {
      var p := entries[0].priority.value;
      var f1 := if p in fifos then fifos else fifos[p := FifoOf(entries[0])];
      var d1 := if p > defaultId then p else defaultId;
      InitFifosKeys(entries[1..], f1, d1);
      assert Priorities(entries) == {p} + Priorities(entries[1..]) by {
        forall x | x in Priorities(entries)
          ensures x in {p} + Priorities(entries[1..])
        {
          var k :| 0 <= k < |entries| && entries[k].priority.Some? && entries[k].priority.value == x;
          if k > 0 {
            assert entries[1..][k - 1] == entries[k];
          }
        }
        forall x | x in Priorities(entries[1..])
          ensures x in Priorities(entries)
        {
          var k :| 0 <= k < |entries[1..]| && entries[1..][k].priority.Some? && entries[1..][k].priority.value == x;
          assert entries[k + 1] == entries[1..][k];
        }
      }
    }
  }

  /** The default id is the largest configured priority (or the starting
      value if that is larger). */
  lemma {:induction false} InitFifosDefault(entries: seq<FifoEntry>, fifos: map<nat, DvbFifo.Fifo>, defaultId: nat)
    requires InitFifos(entries, fifos, defaultId).Some?
    ensures var d := InitFifos(entries, fifos, defaultId).value.1;
      && defaultId <= d
      && (forall p :: p in Priorities(entries) ==> p <= d)
      && (d == defaultId || d in Priorities(entries))
    decreases |entries|
  {
    if entries != [] {
      var p := entries[0].priority.value;
      var f1 := if p in fifos then fifos else fifos[p := FifoOf(entries[0])];
      var d1 := if p > defaultId then p else defaultId;
      InitFifosDefault(entries[1..], f1, d1);
      var d := InitFifos(entries, fifos, defaultId).value.1;
      assert p in Priorities(entries);
      forall q | q in Priorities(entries)
        ensures q <= d
      {
        var k :| 0 <= k < |entries| && entries[k].priority.Some? && entries[k].priority.value == q;
        if k > 0 {
          assert entries[1..][k - 1] == entries[k];
          assert q in Priorities(entries[1..]);
        }
      }
      if d != defaultId && d != p {
        var k :| 0 <= k < |entries[1..]| && entries[1..][k].priority.Some? && entries[1..][k].priority.value == d;
        assert entries[k + 1] == entries[1..][k];
      }
    }
  }

  /** From an empty start, a non-empty complete FIFO list makes the default
      id a FIFO that exists: the one of largest priority. */
  lemma DefaultFifoExists(entries: seq<FifoEntry>)
    requires |entries| > 0 && InitFifos(entries, map[], 0).Some?
    ensures InitFifos(entries, map[], 0).value.1 in InitFifos(entries, map[], 0).value.0
  {
    InitFifosKeys(entries, map[], 0);
    InitFifosDefault(entries, map[], 0);
    assert entries[0].priority.value in Priorities(entries);
  }

  /** The FIFO of a packet: the one of its QoS if there is one, the default
      one otherwise. */
  function FifoFor(fifos: map<nat, DvbFifo.Fifo>, defaultId: nat, qos: nat): nat {
    if qos in fifos then qos else defaultId
  }

  /** A packet lands in a FIFO that exists whenever the default one exists,
      and in the FIFO of its own priority whenever that exists. */
  lemma FifoForLands(fifos: map<nat, DvbFifo.Fifo>, defaultId: nat, qos: nat)
    requires KeyedByPriority(fifos) && defaultId in fifos
    ensures FifoFor(fifos, defaultId, qos) in fifos
    ensures qos in fifos ==> fifos[FifoFor(fifos, defaultId, qos)].priority == qos
    ensures qos !in fifos ==> FifoFor(fifos, defaultId, qos) == defaultId
  {
  }

  /** An encapsulation packet from the upper layer, with its QoS. */
  datatype EncapPacket = EncapPacket(qos: nat, packet: Packet)

  /** The MAC element a packet becomes: stamped with the time it arrives
      and no extra delay. */
  function ElementOf(p: EncapPacket, now: int): Element {
    FromPacket(Some(p.packet), now, now)
  }

  /** The elements of `pkts` bound for FIFO `id`, in order. */
  function Routed(fifos: map<nat, DvbFifo.Fifo>, defaultId: nat, pkts: seq<EncapPacket>, id: nat, now: int): seq<Element>
    decreases |pkts|
  {
    if pkts == [] then []
    else
      var head := if FifoFor(fifos, defaultId, pkts[0].qos) == id then [ElementOf(pkts[0], now)] else [];
      head + Routed(fifos, defaultId, pkts[1..], id, now)
  }

  /** The burst loop of `onDownwardEvent`: each packet is pushed into the
      FIFO of its QoS, or the default one; the first full FIFO stops the
      loop with false, the packets before it staying stored. With no FIFO
      at all the default one is missing too: the source then looks it up
      with `operator[]`, which inserts a NULL FIFO and stores through it;
      the model stops the loop with false there instead. */
  function StoreBurst(fifos: map<nat, DvbFifo.Fifo>, defaultId: nat, pkts: seq<EncapPacket>, now: int): (r: (map<nat, DvbFifo.Fifo>, bool))
    ensures r.0.Keys == fifos.Keys
    ensures r.1 ==> forall k :: 0 <= k < |pkts| ==> FifoFor(fifos, defaultId, pkts[k].qos) in fifos
    decreases |pkts|
  {
    if pkts == [] then (fifos, true)
    else
      var id := FifoFor(fifos, defaultId, pkts[0].qos);
      if id !in fifos then (fifos, false)
      else
        var (f, ok) := DvbFifo.Push(fifos[id], ElementOf(pkts[0], now));
        if !ok then (fifos, false)
        else
          assert forall k :: 0 <= k < |pkts| - 1 ==> pkts[1..][k] == pkts[k + 1];
          assert fifos[id := f].Keys == fifos.Keys;
          assert forall q :: FifoFor(fifos[id := f], defaultId, q) == FifoFor(fifos, defaultId, q);
          StoreBurst(fifos[id := f], defaultId, pkts[1..], now)
  }

  /** When the whole burst is stored, every FIFO has gained exactly the
      packets bound for it, in their order, and nothing else. */
  lemma {:induction false} StoreBurstRoutes(fifos: map<nat, DvbFifo.Fifo>, defaultId: nat, pkts: seq<EncapPacket>, now: int, id: nat)
    requires StoreBurst(fifos, defaultId, pkts, now).1 && id in fifos
    ensures StoreBurst(fifos, defaultId, pkts, now).0[id].queue == fifos[id].queue + Routed(fifos, defaultId, pkts, id, now)
    decreases |pkts|
  {
    if pkts != [] {
      var j := FifoFor(fifos, defaultId, pkts[0].qos);
      assert j in fifos;
      var e := ElementOf(pkts[0], now);
      assert DvbFifo.Push(fifos[j], e).1;
      var f := DvbFifo.Push(fifos[j], e).0;
      var f1 := fifos[j := f];
      var rest := pkts[1..];
      assert f1.Keys == fifos.Keys;
      assert StoreBurst(fifos, defaultId, pkts, now) == StoreBurst(f1, defaultId, rest, now);
      RoutedSameKeys(f1, fifos, defaultId, rest, id, now);
      StoreBurstRoutes(f1, defaultId, rest, now, id);
      var head := if j == id then [e] else [];
      assert f1[id].queue == fifos[id].queue + head;
      assert Routed(fifos, defaultId, pkts, id, now) == head + Routed(fifos, defaultId, rest, id, now);
      assert (fifos[id].queue + head) + Routed(fifos, defaultId, rest, id, now)
        == fifos[id].queue + (head + Routed(fifos, defaultId, rest, id, now));
    }
  }

  lemma {:induction false} RoutedSameKeys(a: map<nat, DvbFifo.Fifo>, b: map<nat, DvbFifo.Fifo>, defaultId: nat, pkts: seq<EncapPacket>, id: nat, now: int)
    requires a.Keys == b.Keys
    ensures Routed(a, defaultId, pkts, id, now) == Routed(b, defaultId, pkts, id, now)
    decreases |pkts|
  {
    if pkts != [] {
      RoutedSameKeys(a, b, defaultId, pkts[1..], id, now);
    }
  }

  /** A burst whose packets all have a FIFO is refused only at a full
      one. */
  lemma {:induction false} StoreBurstFailsOnFull(fifos: map<nat, DvbFifo.Fifo>, defaultId: nat, pkts: seq<EncapPacket>, now: int)
    requires forall k :: 0 <= k < |pkts| ==> FifoFor(fifos, defaultId, pkts[k].qos) in fifos
    requires !StoreBurst(fifos, defaultId, pkts, now).1
    ensures exists id :: id in fifos && |StoreBurst(fifos, defaultId, pkts, now).0[id].queue| >= fifos[id].maxSize
    decreases |pkts|
  {
    var j := FifoFor(fifos, defaultId, pkts[0].qos);
    var (f, ok) := DvbFifo.Push(fifos[j], ElementOf(pkts[0], now));
    if !ok {
      assert j in fifos && |StoreBurst(fifos, defaultId, pkts, now).0[j].queue| >= fifos[j].maxSize;
    } else {
      var f1 := fifos[j := f];
      forall k | 0 <= k < |pkts[1..]|
        ensures FifoFor(f1, defaultId, pkts[1..][k].qos) in f1
      {
        assert pkts[1..][k] == pkts[k + 1];
      }
      StoreBurstFailsOnFull(f1, defaultId, pkts[1..], now);
      var id :| id in f1 && |StoreBurst(f1, defaultId, pkts[1..], now).0[id].queue| >= f1[id].maxSize;
      assert f1[id].maxSize == fifos[id].maxSize;
    }
  }

  // ---------------------------------------------------------------------
  // Capacity-request slot
  // ---------------------------------------------------------------------

  /** The synchronisation period in frames: the period in ms divided by the
      frame duration, rounded half away from zero, then cast to the 8-bit
      `time_frame_t`. A rounded value of 256 or more does not fit: that
      conversion from `double` is undefined in C++, and the model takes it
      as wrapping modulo 256. */
  function SyncPeriodFrame(syncPeriodMs: nat, frameMs: nat): (r: nat)
    requires frameMs > 0
    ensures IsU8(r)
  {
    ToU8((2 * syncPeriodMs + frameMs) / (2 * frameMs))
  }

  /** A period that is a whole number of frames below 256 gives that
      number. */
  lemma SyncPeriodExact(k: nat, frameMs: nat)
    requires frameMs > 0 && k < 256
    ensures SyncPeriodFrame(k * frameMs, frameMs) == k
  {
    assert 2 * (k * frameMs) + frameMs == k * (2 * frameMs) + frameMs;
    ModUnique(2 * (k * frameMs) + frameMs, 2 * frameMs, k, frameMs);
  }

  /** The frame of the synchronisation period in which the terminal sends
      its capacity requests: its MAC id modulo the period. */
  function ObrSlot(macId: nat, syncPeriod: nat): (r: nat)
    requires syncPeriod > 0
    ensures r < syncPeriod
    ensures macId < syncPeriod ==> r == macId
  {
    macId % syncPeriod
  }

  /** What can stop the start-up of the capacity-request slot. */
  datatype SyncError = DivisionByZero | ZeroSyncPeriod

  /** The synchronisation period in frames and the capacity-request slot,
      as `onInit` computes them. A period that rounds to no frame, or to a
      multiple of 256 frames that the 8-bit cast wraps to 0, leaves the
      slot as `mac_id % 0`: as written that division by zero is performed,
      which is undefined; as intended start-up refuses the period. */
  function InitSync(mode: Mode, macId: nat, syncPeriodMs: nat, frameMs: nat): (r: Result<(nat, nat), SyncError>)
    requires frameMs > 0
    ensures r.Success? <==> SyncPeriodFrame(syncPeriodMs, frameMs) > 0
    ensures r.Success? ==> r.value.0 == SyncPeriodFrame(syncPeriodMs, frameMs) && r.value.1 < r.value.0
    ensures r.Success? && macId < r.value.0 ==> r.value.1 == macId
    ensures r.Failure? ==> r.error == if mode == AsWritten then DivisionByZero else ZeroSyncPeriod
  {
    var period := SyncPeriodFrame(syncPeriodMs, frameMs);
    if period == 0 then Failure(if mode == AsWritten then DivisionByZero else ZeroSyncPeriod)
    else Success((period, ObrSlot(macId, period)))
  }

  /** As written, a 2 ms period on 10 ms frames reaches `mac_id % 0`; as
      intended it is refused, and any period start-up accepts is at least
      one frame. A 2560 ms one (256 frames) does the same only under the
      wrapping reading of the undefined conversion to 8 bits. */
  lemma ZeroSyncPeriodDividesByZero(macId: nat)
    ensures SyncPeriodFrame(2, 10) == 0 && SyncPeriodFrame(2560, 10) == 0
    ensures InitSync(AsWritten, macId, 2, 10) == Failure(DivisionByZero)
    ensures InitSync(AsWritten, macId, 2560, 10) == Failure(DivisionByZero)
    ensures InitSync(Intended, macId, 2, 10) == Failure(ZeroSyncPeriod)
    ensures InitSync(Intended, macId, 2560, 10) == Failure(ZeroSyncPeriod)
  {
    assert (2 * 2 + 10) / (2 * 10) == 0;
    assert (2 * 2560 + 10) / (2 * 10) == 256;
  }

  /** The RBDC timeout the DAMA agent gets, in superframes: one more than
      the synchronisation period, so a request outlives the period until
      the next one. */
  function RbdcTimeout(syncPeriod: nat): (r: nat)
    ensures r > syncPeriod
  {
    syncPeriod + 1
  }

  /** Whether the superframe is the one of the period where a SAC is due. */
  predicate SacDue(superframe: nat, syncPeriod: nat, slot: nat)
    requires syncPeriod > 0
  {
    superframe % syncPeriod == slot
  }

  /** The SAC comes back every synchronisation period. */
  lemma SacDuePeriodic(superframe: nat, syncPeriod: nat, slot: nat)
    requires syncPeriod > 0
    ensures SacDue(superframe, syncPeriod, slot) <==> SacDue(superframe + syncPeriod, syncPeriod, slot)
  {
    var q := superframe / syncPeriod;
    var m := superframe % syncPeriod;
    assert superframe == q * syncPeriod + m;
    assert superframe + syncPeriod == (q + 1) * syncPeriod + m;
    ModUnique(superframe + syncPeriod, syncPeriod, q + 1, m);
  }

  /** The first superframe from `a` on in which a SAC is due; it comes
      within one period. */
  function NextSac(a: nat, syncPeriod: nat, slot: nat): (r: nat)
    requires syncPeriod > 0 && slot < syncPeriod
    ensures a <= r < a + syncPeriod && SacDue(r, syncPeriod, slot)
  {
    var m := (slot - a) % syncPeriod;
    var k := (slot - a) / syncPeriod;
    assert slot - a == k * syncPeriod + m;
    assert a + m == (-k) * syncPeriod + slot;
    ModUnique(a + m, syncPeriod, -k, slot);
    a + m
  }

  /** Exactly one SAC is due in any window of one period: a due superframe
      of the window starting at `a` is `NextSac(a)`. */
  lemma SacDueOnce(a: nat, s: nat, syncPeriod: nat, slot: nat)
    requires syncPeriod > 0 && slot < syncPeriod
    requires a <= s < a + syncPeriod && SacDue(s, syncPeriod, slot)
    ensures s == NextSac(a, syncPeriod, slot)
  {
    var r := NextSac(a, syncPeriod, slot);
    var qs := s / syncPeriod;
    var qr := r / syncPeriod;
    assert s == qs * syncPeriod + slot;
    assert r == qr * syncPeriod + slot;
    assert s - r == (qs - qr) * syncPeriod;
    if qs > qr {
      MulGe(qs - qr, syncPeriod);
    } else if qs < qr {
      assert r - s == (qr - qs) * syncPeriod;
      MulGe(qr - qs, syncPeriod);
    }
  }

  /** `processOnFrameTick`: the DAMA agent (if any) starts the frame and
      schedules, the bursts are sent, and a SAC is sent when it is due.
      The outcomes of those steps are inputs; the second result is whether
      a SAC was sent. */
  function ProcessOnFrameTick(superframe: nat, syncPeriod: nat, slot: nat, dama: bool, damaTickOk: bool, scheduleOk: bool, burstsOk: bool, sacOk: bool): (r: (bool, bool))
    requires syncPeriod > 0
    ensures r.1 <==> (dama ==> damaTickOk && scheduleOk) && burstsOk && SacDue(superframe, syncPeriod, slot)
    ensures r.0 <==> (dama ==> damaTickOk && scheduleOk) && burstsOk && (SacDue(superframe, syncPeriod, slot) ==> sacOk)
  {
    if dama && !damaTickOk then (false, false)
    else if dama && !scheduleOk then (false, false)
    else if !burstsOk then (false, false)
    else if SacDue(superframe, syncPeriod, slot) then (sacOk, true)
    else (true, false)
  }

  // ---------------------------------------------------------------------
  // Start of frame and logon
  // ---------------------------------------------------------------------

  datatype LogonState = Initializing | WaitLogonResp | Running

  /** The downward channel of the terminal. */
  datatype Tal = Tal(
    state: LogonState,
    superframe: nat,
    groupId: nat,
    talId: nat,
    fifos: map<nat, DvbFifo.Fifo>,
    defaultFifo: nat,
    syncPeriod: nat,
    obrSlot: nat)

  /** Whether a start-of-frame number says the NCC restarted: it went
      backwards, other than the 16-bit wrap from 65535 to 0. */
  predicate NccRebooted(sfn: nat, counter: nat) {
    sfn < counter && (sfn != 0 || (counter + 1) % 65536 != 0)
  }

  /** For 16-bit counters, only going backwards counts, and the wrap to 0
      does not. */
  lemma NccRebootedIff(sfn: nat, counter: nat)
    requires IsU16(sfn) && IsU16(counter)
    ensures NccRebooted(sfn, counter) <==> sfn < counter && !(sfn == 0 && counter == 65535)
  {
  }

  /** Every FIFO flushed (`deletePackets`), with the FIFOs' own `flush`:
      as written it keeps each FIFO's current counters, as intended it
      zeroes them. */
  function FlushAll(mode: Mode, fifos: map<nat, DvbFifo.Fifo>): (r: map<nat, DvbFifo.Fifo>)
    ensures r.Keys == fifos.Keys
    ensures forall p :: p in r ==> r[p].queue == [] && r[p].maxSize == fifos[p].maxSize && r[p].priority == fifos[p].priority
    ensures mode == AsWritten ==> forall p :: p in r ==> r[p].stats == DvbFifo.ResetStats(fifos[p].stats)
    ensures mode == Intended ==> forall p :: p in r ==> r[p].stats == DvbFifo.ZeroStats
  {
    map p | p in fifos :: if mode == AsWritten then DvbFifo.FlushAsWritten(fifos[p]) else DvbFifo.Flush(fifos[p])
  }

  /** The outcomes of the steps `handleStartOfFrame` delegates: sending the
      logon request and arming its timer, the DAMA agent, the frame tick's
      own steps, and Slotted Aloha. */
  datatype SofEnv = SofEnv(
    logonSent: bool, timerStarted: bool,
    dama: bool, sofOk: bool, damaTickOk: bool, scheduleOk: bool, burstsOk: bool, sacOk: bool,
    saloha: bool, salohaOk: bool)

  /** `sendLogonReq`: the request goes out and the logon timer starts. */
  function SendLogonReq(env: SofEnv): (ok: bool)
    ensures ok ==> env.logonSent
  {
    env.logonSent && env.timerStarted
  }

  /** `handleStartOfFrame`, on a terminal whose start-up accepted its
      synchronisation period. A rebooted NCC flushes every FIFO and resends
      a logon; if that works the terminal waits for a logon response with
      the counter at the new number; either way the result is false.
      Otherwise the counter takes the new number, the DAMA agent hears of
      it, the frame tick runs, then Slotted Aloha. As written, a failing
      frame tick is tested with `< 0` on a `bool` and so never stops the
      handler; as intended, it fails it. */
  function HandleStartOfFrame(mode: Mode, t: Tal, sfn: nat, env: SofEnv): (r: (Tal, bool))
    requires t.syncPeriod > 0
    ensures NccRebooted(sfn, t.superframe) ==>
      && !r.1 && r.0.fifos == FlushAll(mode, t.fifos)
      && (SendLogonReq(env) ==> r.0.state == WaitLogonResp && r.0.superframe == sfn)
      && (!SendLogonReq(env) ==> r.0.state == t.state && r.0.superframe == t.superframe)
    ensures !NccRebooted(sfn, t.superframe) ==> r.0 == t.(superframe := sfn)
    ensures r.1 ==> !NccRebooted(sfn, t.superframe) && (env.dama ==> env.sofOk) && (env.saloha ==> env.salohaOk)
    ensures mode == Intended && r.1 ==> ProcessOnFrameTick(sfn, t.syncPeriod, t.obrSlot, env.dama, env.damaTickOk, env.scheduleOk, env.burstsOk, env.sacOk).0
  {
    if NccRebooted(sfn, t.superframe) then
      var t1 := t.(fifos := FlushAll(mode, t.fifos));
      if !SendLogonReq(env) then (t1, false)
      else (t1.(state := WaitLogonResp, superframe := sfn), false)
    else
      var t1 := t.(superframe := sfn);
      if env.dama && !env.sofOk then (t1, false)
      else
        var tick := ProcessOnFrameTick(sfn, t.syncPeriod, t.obrSlot, env.dama, env.damaTickOk, env.scheduleOk, env.burstsOk, env.sacOk).0;
        if mode == Intended && !tick then (t1, false)
        else if env.saloha && !env.salohaOk then (t1, false)
        else (t1, true)
  }

  /** As written, a frame tick that fails (here: the bursts cannot be sent)
      still reports the start of frame handled. */
  lemma FrameTickFailureIgnored()
    ensures var t := Tal(Running, 10, 0, 1, map[], 0, 1, 0);
      var env := SofEnv(true, true, false, true, true, true, false, true, false, true);
      && !ProcessOnFrameTick(11, 1, 0, false, true, true, false, true).0
      && HandleStartOfFrame(AsWritten, t, 11, env).1
      && !HandleStartOfFrame(Intended, t, 11, env).1
  {
  }

  /** After a successful start of frame the counter is the frame number
      received, in both modes; after a reboot it is either the new number
      or, if the logon could not be resent, unchanged. */
  lemma StartOfFrameCounter(mode: Mode, t: Tal, sfn: nat, env: SofEnv)
    requires t.syncPeriod > 0
    ensures var r := HandleStartOfFrame(mode, t, sfn, env).0;
      r.superframe == sfn || (NccRebooted(sfn, t.superframe) && !SendLogonReq(env) && r.superframe == t.superframe)
  {
  }

  /** As intended, the FIFOs a rebooted NCC has flushed satisfy the FIFO
      invariant again, so that their counters describe their queues. */
  lemma RebootFlushValid(t: Tal, sfn: nat, env: SofEnv)
    requires t.syncPeriod > 0 && NccRebooted(sfn, t.superframe)
    requires forall p :: p in t.fifos ==> DvbFifo.Valid(t.fifos[p])
    ensures var r := HandleStartOfFrame(Intended, t, sfn, env).0;
      forall p :: p in r.fifos ==> DvbFifo.Valid(r.fifos[p])
  {
    forall p | p in t.fifos
      ensures DvbFifo.Valid(DvbFifo.Flush(t.fifos[p]))
    {
      DvbFifo.FlushValid(t.fifos[p]);
    }
  }

  /** The timers of the downward channel. */
  datatype TalTimer = LogonTimer | QosServerTimer | ScpcTimer | UnknownTimer

  /** `onDownwardEvent` for a timer: the logon timer resends the request in
      `WaitLogonResp` and is otherwise ignored; any other timer is ignored
      until running; then the QoS server timer only retries a connection,
      the SCPC timer runs its scheduling (outcome `scpcOk`), and an unknown
      timer fails. The second result is whether a logon was resent. */
  function OnTimer(t: Tal, timer: TalTimer, env: SofEnv, scpcOk: bool): (r: (bool, bool))
    ensures r.1 <==> timer == LogonTimer && t.state == WaitLogonResp
    ensures r.1 ==> r.0 == SendLogonReq(env)
    ensures timer != LogonTimer && t.state != Running ==> r.0
    ensures timer == UnknownTimer && t.state == Running ==> !r.0
  {
    match timer
    case LogonTimer =>
      if t.state == WaitLogonResp then (SendLogonReq(env), true) else (true, false)
    case _ =>
      if t.state != Running then (true, false)
      else match timer
        case QosServerTimer => (true, false)
        case ScpcTimer => (scpcOk, false)
        case _ => (false, false)
  }

  /** `handleLogonResp`: the group and logon ids are kept in any case;
      unless the DAMA agent refuses the response the terminal is running. */
  function HandleLogonResp(t: Tal, groupId: nat, logonId: nat, dama: bool, damaOk: bool): (r: (Tal, bool))
    ensures r.0.groupId == groupId && r.0.talId == logonId
    ensures r.1 <==> !dama || damaOk
    ensures r.1 ==> r.0.state == Running
    ensures !r.1 ==> r.0.state == t.state
    ensures r.0.fifos == t.fifos && r.0.superframe == t.superframe
  {
    var t1 := t.(groupId := groupId, talId := logonId);
    if dama && !damaOk then (t1, false) else (t1.(state := Running), true)
  }

  /** The end of start-up: the terminal waits for a logon response and
      sends its first request. */
  function StartLogon(t: Tal, env: SofEnv): (r: (Tal, bool))
    ensures r.0 == t.(state := WaitLogonResp)
    ensures r.1 == SendLogonReq(env)
  {
    (t.(state := WaitLogonResp), SendLogonReq(env))
  }

  /** A terminal that saw its NCC reboot resends logons on its timer until
      a response arrives, and that response has it running again. */
  lemma RebootThenLogon(mode: Mode, t: Tal, sfn: nat, env: SofEnv, groupId: nat, logonId: nat)
    requires t.syncPeriod > 0 && NccRebooted(sfn, t.superframe) && SendLogonReq(env)
    ensures var t1 := HandleStartOfFrame(mode, t, sfn, env).0;
      && t1.state == WaitLogonResp
      && OnTimer(t1, LogonTimer, env, true) == (true, true)
      && HandleLogonResp(t1, groupId, logonId, false, false).0.state == Running
  {
  }

  // ---------------------------------------------------------------------
  // QoS server port and configuration updates
  // ---------------------------------------------------------------------

  /** The QoS server port read at start-up: missing, or outside the
      unprivileged 16-bit range, fails. */
  function QosServerPort(port: Option<int>): (r: Option<nat>)
    ensures r.Some? <==> port.Some? && 1025 <= port.value <= 65535
    ensures r.Some? ==> r.value == port.value && IsU16(r.value) && r.value > 1024
  {
    match port
    case None => None
    case Some(p) => if p <= 1024 || p > 0xffff then None else Some(p)
  }

  /** The requests of the terminal's spot, in order. */
  function OfSpot(reqs: seq<ConfUpdateRequest.Request>, spotId: nat): (r: seq<ConfUpdateRequest.Request>)
    ensures forall k :: 0 <= k < |r| ==> r[k].spotId == spotId
    decreases |reqs|
  {
    if reqs == [] then []
    else (if reqs[0].spotId == spotId then [reqs[0]] else []) + OfSpot(reqs[1..], spotId)
  }

  /** The request loop on the configuration-update socket: a request of
      another spot is dropped, one of the terminal's spot is applied (outcome
      `apply`), and the first that cannot be applied stops the loop with
      false. The second result lists the requests handed to `apply`. */
  function ApplyRequests(reqs: seq<ConfUpdateRequest.Request>, spotId: nat, apply: ConfUpdateRequest.Request -> bool): (r: (bool, seq<ConfUpdateRequest.Request>))
    ensures forall k :: 0 <= k < |r.1| ==> r.1[k].spotId == spotId
    ensures r.0 <==> forall k :: 0 <= k < |reqs| && reqs[k].spotId == spotId ==> apply(reqs[k])
    ensures r.0 ==> r.1 == OfSpot(reqs, spotId)
    ensures !r.0 ==> |r.1| > 0 && !apply(r.1[|r.1| - 1])
    decreases |reqs|
  {
    if reqs == [] then (true, [])
    else if reqs[0].spotId != spotId then
      ApplyRequests(reqs[1..], spotId, apply)
    else if !apply(reqs[0]) then (false, [reqs[0]])
    else
      var rest := ApplyRequests(reqs[1..], spotId, apply);
      (rest.0, [reqs[0]] + rest.1)
  }

  /** The requests handed to `apply` are a prefix of the terminal's own,
      so no request of another spot is ever applied and none of the
      terminal's is skipped. */
  lemma {:induction false} ApplyRequestsPrefix(reqs: seq<ConfUpdateRequest.Request>, spotId: nat, apply: ConfUpdateRequest.Request -> bool)
    ensures ApplyRequests(reqs, spotId, apply).1 <= OfSpot(reqs, spotId)
    decreases |reqs|
  {
    if reqs != [] {
      ApplyRequestsPrefix(reqs[1..], spotId, apply);
    }
  }
}

=== FILE: encap_sat.dfy ===
/** The encapsulation block of a regenerative satellite
    (opensand-core/src/encap/bloc_encap_sat.cpp): at start-up it keeps, of
    the down/forward encapsulation schemes, those the uplink does not
    already apply; bursts from below are encapsulated through them, or
    forwarded unchanged when there are none, and timers flush the contexts
    left waiting. Every event but the first start-up is ignored until
    start-up has succeeded. */
module EncapSat {
  import opened Wrappers
  import opened OpenSandCore
  import opened StackPlugin
  import opened BlockEncap

  /** The name of the IP packet handler that tops the downlink chain. */
  const IpName: string := "IP"

  /** The down/forward scheme names the uplink does not already apply, in
      their order. */
  function Downlink(down: seq<string>, up: seq<string>): (r: seq<string>)
    ensures |r| <= |down|
    decreases |down|
  {
    if down == [] then []
    else if down[0] in up then Downlink(down[1..], up)
    else [down[0]] + Downlink(down[1..], up)
  }

  /** A scheme stays on the downlink exactly when it is a down/forward
      scheme that the uplink does not name. */
  lemma {:induction false} DownlinkMembers(down: seq<string>, up: seq<string>, x: string)
    ensures x in Downlink(down, up) <==> x in down && x !in up
    decreases |down|
  {
    if down != [] {
      DownlinkMembers(down[1..], up, x);
      assert x in down <==> x == down[0] || x in down[1..];
    }
  }

  /** Every position of a list that has a name, the names in order, or
      nothing if some position has none. */
  function AllNames(s: seq<Option<string>>): (r: Option<seq<string>>)
    ensures r.Some? <==> forall i :: 0 <= i < |s| ==> s[i].Some?
    ensures r.Some? ==> |r.value| == |s| && forall i :: 0 <= i < |s| ==> r.value[i] == s[i].value
    decreases |s|
  {
    if s == [] then Some([])
    else if s[0].None? then None
    else match AllNames(s[1..])
      case None => None
      case Some(rest) => Some([s[0].value] + rest)
  }

  /** The configuration read at start-up: the two scheme lists by
      position. */
  datatype SatConfig = SatConfig(upReturn: Option<seq<Option<string>>>, downForward: Option<seq<Option<string>>>)

  /** The down/forward loop of `onInit` over the remaining positions, `upper` being
      the name of the scheme above (empty for none). A scheme the uplink
      applies is skipped but becomes the upper one; any other gets its
      context pushed and bound to the IP handler when nothing is above it,
      to the handler of the plugin above otherwise. Gives the contexts
      pushed, which stay pushed even when a later position fails, and the
      error that stopped the loop, if any. A refused binding is pushed with
      no upper handler; in the source the plugin's one context object keeps
      whatever handler it held before the refusal (StackPlugin.h:289-290).
      Start-up fails at that point, so the handler is never used. */
  function DownLoop(names: seq<Option<string>>, up: seq<string>, plug: map<string, Plugin>, upper: string): (r: (seq<EncapContext>, Option<InitError>))
    ensures |r.0| <= |names|
    decreases |names|
  {
    if names == [] then ([], None)
    else match names[0]
      case None => ([], Some(MissingEncapName))
      case Some(n) =>
        if n !in plug then ([], Some(MissingEncapPlugin(n)))
        else if n in up then DownLoop(names[1..], up, plug, plug[n].name)
        else if upper != "" && upper !in plug then ([], Some(MissingEncapPlugin(upper)))
        else
          var h := if upper == "" then Handler(IpName) else HandlerOf(plug[upper]);
          var (ctx, ok) := SetUpperPacketHandler(Context(plug[n], None), Some(h), Regenerative);
          if !ok then ([EncapContext(ctx, None)], Some(UnsupportedUpper(n)))
          else
            var rest := DownLoop(names[1..], up, plug, plug[n].name);
            ([EncapContext(ctx, None)] + rest.0, rest.1)
  }

  /** When the loop completes, the contexts pushed are exactly those of
      the downlink schemes, in order. */
  lemma {:induction false} DownLoopKeeps(names: seq<Option<string>>, up: seq<string>, plug: map<string, Plugin>, upper: string)
    requires DownLoop(names, up, plug, upper).1.None?
    ensures AllNames(names).Some?
    ensures var kept := Downlink(AllNames(names).value, up);
      && |DownLoop(names, up, plug, upper).0| == |kept|
      && forall j :: 0 <= j < |kept| ==> kept[j] in plug && DownLoop(names, up, plug, upper).0[j].ctx.plugin == plug[kept[j]]
    decreases |names|
  {
    if names != [] {
      var n := names[0].value;
      var tail := names[1..];
      DownLoopKeeps(tail, up, plug, plug[n].name);
      var all := AllNames(names).value;
      assert all[0] == n && all[1..] == AllNames(tail).value;
    }
  }

  /** When the loop completes and the uplink does not apply the first
      down/forward scheme, that scheme's context takes its packets from the
      IP handler. */
  lemma DownLoopFirstIp(names: seq<Option<string>>, up: seq<string>, plug: map<string, Plugin>)
    requires |names| > 0 && names[0].Some? && names[0].value !in up
    requires |DownLoop(names, up, plug, "").0| > 0 && DownLoop(names, up, plug, "").1.None?
    ensures DownLoop(names, up, plug, "").0[0].ctx.current == Some(Handler(IpName))
  {
  }

  /** `onInit`: reads the whole up/return list, then runs the down/forward
      loop. Gives the contexts pushed and whether start-up succeeded. */
  function SatInit(conf: SatConfig, plug: map<string, Plugin>): (r: (seq<EncapContext>, bool))
    ensures conf.upReturn.None? || AllNames(conf.upReturn.value).None? || conf.downForward.None? ==> r == ([], false)
    ensures r.1 ==>
      && conf.upReturn.Some? && AllNames(conf.upReturn.value).Some? && conf.downForward.Some?
      && r.0 == DownLoop(conf.downForward.value, AllNames(conf.upReturn.value).value, plug, "").0
      && DownLoop(conf.downForward.value, AllNames(conf.upReturn.value).value, plug, "").1.None?
  {
    if conf.upReturn.None? then ([], false)
    else match AllNames(conf.upReturn.value)
      case None => ([], false)
      case Some(up) =>
        if conf.downForward.None? then ([], false)
        else
          var (pushed, err) := DownLoop(conf.downForward.value, up, plug, "");
          (pushed, err.None?)
  }

  /** The block: whether start-up succeeded, the downlink chain, and the
      armed flush timers, from timer id to context id. */
  datatype Sat = Sat(initOk: bool, downlink: seq<EncapContext>, timers: map<nat, nat>)

  /** `setUpperLayer`: the block takes no upper layer, whichever is
      offered. */
  function SetUpperLayer(s: Sat, blocId: nat): (r: (Sat, bool))
    ensures r.0 == s && !r.1
  {
    (s, false)
  }

  /** `onTimer`: an unknown timer fails with nothing changed. A known one
      is removed, then the last downlink context is flushed for its
      context id; only a non-empty burst sent down succeeds. */
  function SatTimer(s: Sat, timerId: nat, flush: Flusher, sendOk: bool): (r: (Sat, bool, Option<Burst>))
    requires timerId in s.timers ==> |s.downlink| > 0
    ensures timerId !in s.timers ==> r == (s, false, None)
    ensures timerId in s.timers ==> r.0 == s.(timers := s.timers - {timerId})
    ensures r.1 <==> r.2.Some?
    ensures r.2.Some? <==>
      && timerId in s.timers && sendOk
      && flush(s.downlink[|s.downlink| - 1], s.timers[timerId]).Some?
      && |flush(s.downlink[|s.downlink| - 1], s.timers[timerId]).value.packets| > 0
    ensures r.2.Some? ==> r.2 == flush(s.downlink[|s.downlink| - 1], s.timers[timerId])
  {
    if timerId !in s.timers then (s, false, None)
    else
      var s1 := s.(timers := s.timers - {timerId});
      match flush(s.downlink[|s.downlink| - 1], s.timers[timerId])
      case None => (s1, false, None)
      case Some(out) =>
        if |out.packets| == 0 || !sendOk then (s1, false, None)
        else (s1, true, Some(out))
  }

  /** `EncapsulatePackets`: the burst goes through the downlink contexts in
      order, with a `time_contexts` map that starts empty; a refusal fails
      with the timers unchanged. Otherwise the timers the map asks for are
      armed as on the other encapsulation blocks, and only a non-empty
      burst sent down succeeds. */
  function EncapsulatePackets(s: Sat, burst: Burst, enc: Encapsulator, next: nat, sendOk: bool): (r: (Sat, bool, Option<Burst>, nat))
    requires Fresh(s.timers, next)
    ensures r.0 == s.(timers := r.0.timers) && Fresh(r.0.timers, r.3)
    ensures EncapChain(s.downlink, burst, [], enc).None? ==> r == (s, false, None, next)
    ensures r.1 <==> r.2.Some?
    ensures r.2.Some? <==>
      && sendOk && EncapChain(s.downlink, burst, [], enc).Some?
      && |EncapChain(s.downlink, burst, [], enc).value.0.packets| > 0
    ensures r.2.Some? ==> r.2.value == EncapChain(s.downlink, burst, [], enc).value.0
    ensures forall e :: e in s.timers ==> e in r.0.timers && r.0.timers[e] == s.timers[e]
    ensures EncapChain(s.downlink, burst, [], enc).Some? ==>
      forall id :: id in r.0.timers.Values <==> id in s.timers.Values || Requested(EncapChain(s.downlink, burst, [], enc).value.1, id)
  {
    match EncapChain(s.downlink, burst, [], enc)
    case None => (s, false, None, next)
    case Some(out) =>
      var (timers, next1) := ArmTimers(s.timers, out.1, next);
      assert forall id :: id in timers.Values <==> id in s.timers.Values || Requested(out.1, id) by {
        forall id ensures id in timers.Values <==> id in s.timers.Values || Requested(out.1, id) {
          ArmTimersArms(s.timers, out.1, next, id);
        }
      }
      var s1 := s.(timers := timers);
      if |out.0.packets| == 0 || !sendOk then (s1, false, None, next1)
      else (s1, true, Some(out.0), next1)
  }

  /** `onRcvBurstFromDown`: a missing burst fails; with downlink contexts
      the burst is encapsulated, without any it is sent down unchanged. */
  function SatRcvBurstFromDown(s: Sat, burst: Option<Burst>, enc: Encapsulator, next: nat, sendOk: bool): (r: (Sat, bool, Option<Burst>, nat))
    requires Fresh(s.timers, next)
    ensures r.0 == s.(timers := r.0.timers) && Fresh(r.0.timers, r.3)
    ensures r.1 <==> r.2.Some?
    ensures burst.None? ==> r == (s, false, None, next)
    ensures burst.Some? && s.downlink == [] ==> r == (s, sendOk, if sendOk then burst else None, next)
  {
    if burst.None? then (s, false, None, next)
    else if |s.downlink| > 0 then EncapsulatePackets(s, burst.value, enc, next, sendOk)
    else if !sendOk then (s, false, None, next)
    else (s, true, burst, next)
  }

  /** The events of the block: start-up, a timer, a message from a block
      (from below or not, carrying a burst or of another type), and any
      other. */
  datatype SatEvent =
    | InitEvent
    | TimerEvent(timerId: nat)
    | MessageEvent(fromLower: bool, isBurst: bool, burst: Option<Burst>)
    | OtherEvent

  /** What the plugins and the lower layer do during one event. */
  datatype SatEnv = SatEnv(conf: SatConfig, plug: map<string, Plugin>, enc: Encapsulator, flush: Flusher, nextTimer: nat, sendOk: bool)

  /** Timers exist only once a downlink chain does. */
  predicate Wf(s: Sat) {
    |s.timers| > 0 ==> |s.downlink| > 0
  }

  /** `onEvent`: a start-up after a successful one is ignored, and a failed
      one leaves the contexts it pushed; before a successful start-up every
      other event is ignored; then timers flush, bursts from below are
      handled, and anything else fails. A plugin has one context, so every
      position of a plugin shows the binding made last. */
  function OnEvent(s: Sat, ev: SatEvent, env: SatEnv): (r: (Sat, bool, Option<Burst>))
    requires Fresh(s.timers, env.nextTimer) && Wf(s)
    ensures ev.InitEvent? && s.initOk ==> r == (s, false, None)
    ensures !ev.InitEvent? && !s.initOk ==> r == (s, false, None)
    ensures ev.InitEvent? && !s.initOk ==>
      && r.0.initOk == r.1 && r.0.timers == s.timers && |s.downlink| <= |r.0.downlink|
      && forall i :: 0 <= i < |s.downlink| ==> r.0.downlink[i].ctx.plugin == s.downlink[i].ctx.plugin
    ensures ev.OtherEvent? ==> r == (s, false, None)
    ensures ev.MessageEvent? && !(ev.fromLower && ev.isBurst) ==> r == (s, false, None)
  {
    match ev
    case InitEvent =>
      if s.initOk then (s, false, None)
      else
        var (pushed, ok) := SatInit(env.conf, env.plug);
        var all := s.downlink + pushed;
        (s.(initOk := ok, downlink := Share(all, all)), ok, None)
    case TimerEvent(id) =>
      if !s.initOk then (s, false, None)
      else SatTimer(s, id, env.flush, env.sendOk)
    case MessageEvent(fromLower, isBurst, burst) =>
      if !s.initOk || !fromLower || !isBurst then (s, false, None)
      else
        var r := SatRcvBurstFromDown(s, burst, env.enc, env.nextTimer, env.sendOk);
        (r.0, r.1, r.2)
    case OtherEvent => (s, false, None)
  }

  /** Timers stay one per context and only where a downlink chain exists,
      whatever event comes. */
  lemma OnEventKeepsTimers(s: Sat, ev: SatEvent, env: SatEnv)
    requires Fresh(s.timers, env.nextTimer) && Wf(s) && OneTimerPerContext(s.timers)
    ensures Wf(OnEvent(s, ev, env).0) && OneTimerPerContext(OnEvent(s, ev, env).0.timers)
  {
    if ev.MessageEvent? && s.initOk && ev.fromLower && ev.isBurst && ev.burst.Some? && |s.downlink| > 0 {
      var c := EncapChain(s.downlink, ev.burst.value, [], env.enc);
      if c.Some? {
        ArmTimersOnePerContext(s.timers, c.value.1, env.nextTimer);
      }
    }
  }

  /** After a start-up the positions of one plugin show the same
      context. */
  lemma InitShares(s: Sat, env: SatEnv)
    requires Fresh(s.timers, env.nextTimer) && Wf(s) && !s.initOk
    ensures Shared(OnEvent(s, InitEvent, env).0.downlink)
  {
    var pushed := SatInit(env.conf, env.plug).0;
    var all := s.downlink + pushed;
    ChainInside(s.downlink, pushed);
    assert forall i :: 0 <= i < |all| ==> InChain(all, all[i].ctx.plugin);
    ShareSettles(all, all);
    SettledShared(Share(all, all), all);
  }
}

=== FILE: fmt_table.dfy ===
/** The table of MODCOD (FMT) definitions
    (opensand-core/src/dvb_rcs/fmt/FmtDefinitionTable.cpp) and the grammar of
    its definition file:

      - a blank line is skipped; a line whose first word opens a C comment
        (slash, star) is ignored;
      - "nb_fmt = N" gives the number of definitions, 1 <= N <= 32, once;
      - "ID MODULATION CODING_RATE EFFICIENCY ES_N0" defines FMT ID, 1..32,
        after the nb_fmt line, at most N of them, each ID once;
      - the file is accepted when exactly N definitions were read.

    Spectral efficiency and Es/N0 are floating-point values and are not
    modelled. The file is its sequence of lines; `None` is a file that does
    not open. */
module FmtDefinitionTable {
  import opened Wrappers
  import opened OpenSandCore

  const MaxFmt: int := 32

  datatype Modulation = Bpsk | Qpsk | Psk8 | Apsk16 | Apsk32 | ModulationUnknown

  /** An FMT definition. The modulation is kept as its name; the conversion
      to `modulation_type_t` happens in FmtDefinition.cpp, which is not part
      of this model. */
  datatype FmtDef = FmtDef(id: int, modulation: string, codingRate: string)

  type Table = map<int, FmtDef>

  /* ---------------------------------------------------------------------- */
  /* Words and numbers                                                       */

  /** What `>>` into an integer reads from a word: an optional sign and the
      digits that follow; a word with no digits gives 0 (C++11 stores 0 when
      the conversion fails). A negative value read into an unsigned variable
      becomes a large one, which the range checks below reject just as they
      reject the negative value. */
  function IntValue(w: string): (v: int)
    ensures |w| > 0 && w[0] == '-' ==> v <= 0
    ensures |w| > 0 && IsDigit(w[0]) ==> v == LeadingValue(w)
  {
    if |w| > 0 && w[0] == '-' then -(LeadingValue(w[1..]) as int)
    else if |w| > 0 && w[0] == '+' then LeadingValue(w[1..])
    else LeadingValue(w)
  }

  function Word(ws: seq<string>, i: nat): string {
    if i < |ws| then ws[i] else ""
  }

  /* ---------------------------------------------------------------------- */
  /* Lines                                                                   */

  /** A line as `load` sees it. An "nb_fmt" line carries whether its second
      word is "=" and the number after it, if any (with no number the
      variable keeps its previous value). */
  datatype Kind =
    | Blank
    | Comment
    | NbFmtLine(hasEqual: bool, value: Option<int>)
    | DefLine(id: int, modulation: string, codingRate: string)

  function Classify(line: string): (k: Kind)
    ensures k.Blank? <==> Tokenize(line, Whitespace) == []
  {
    var ws := Tokenize(line, Whitespace);
    if |ws| == 0 then Blank
    else if ws[0] == "/*" then Comment
    else if ws[0] == "nb_fmt" then
      NbFmtLine(Word(ws, 1) == "=", if |ws| > 2 then Some(IntValue(ws[2])) else None)
    else DefLine(IntValue(ws[0]), Word(ws, 1), Word(ws, 2))
  }

  function Kinds(lines: seq<string>): (ks: seq<Kind>)
    ensures |ks| == |lines|
    ensures forall i :: 0 <= i < |lines| ==> ks[i] == Classify(lines[i])
  {
    seq(|lines|, i requires 0 <= i < |lines| => Classify(lines[i]))
  }

  predicate Ignorable(k: Kind) {
    k.Blank? || k.Comment?
  }

  /* ---------------------------------------------------------------------- */
  /* The table                                                               */

  /** `add`: refuses an id already defined. */
  function Add(t: Table, id: int, modulation: string, codingRate: string): (r: Option<Table>)
    ensures r.None? <==> id in t
    ensures r.Some? ==> r.value.Keys == t.Keys + {id} && r.value[id] == FmtDef(id, modulation, codingRate)
    ensures r.Some? ==> forall k :: k in t ==> r.value[k] == t[k]
  {
    if id in t then None else Some(t[id := FmtDef(id, modulation, codingRate)])
  }

  /** `doFmtIdExist`. */
  predicate Exists(t: Table, id: int) {
    id in t
  }

  /** The parser's variables: whether nb_fmt was seen, its value, the number
      of definitions read, and the table. */
  datatype St = St(found: bool, nb: int, read: nat, table: Table)

  /** One line; `None` is "malformed". Blank and comment lines change
      nothing; an accepted line keeps every definition already stored, and
      an accepted definition line adds exactly its own definition, under a
      fresh id, within the announced count. */
  function StepLine(st: St, k: Kind): (r: Option<St>)
    ensures Ignorable(k) ==> r == Some(st)
    ensures k.NbFmtLine? ==> (r.Some? <==> !st.found && k.hasEqual && 0 < k.value.GetOr(st.nb) <= MaxFmt)
    ensures r.Some? && !Ignorable(k) ==> r.value.found
    ensures r.Some? ==> forall id :: id in st.table ==> id in r.value.table && r.value.table[id] == st.table[id]
    ensures r.Some? && !k.DefLine? ==> r.value.table == st.table
    ensures r.Some? && k.DefLine? ==>
      && st.found && 0 < k.id <= MaxFmt && k.id !in st.table && r.value.read == st.read + 1 <= st.nb
      && r.value.table.Keys == st.table.Keys + {k.id}
      && r.value.table[k.id] == FmtDef(k.id, k.modulation, k.codingRate)
  {
    match k
    case Blank => Some(st)
    case Comment => Some(st)
    case NbFmtLine(eq, v) =>
      var n := v.GetOr(st.nb);
      if st.found || !eq || n <= 0 || n > MaxFmt then None
      else Some(st.(found := true, nb := n, read := 0))
    case DefLine(id, m, c) =>
      if id <= 0 || id > MaxFmt || !st.found || st.read + 1 > st.nb then None
      else
        match Add(st.table, id, m, c)
        case None => None
        case Some(t) => Some(st.(read := st.read + 1, table := t))
  }

  /** The line loop. On a malformed line it stops, keeping the definitions
      added so far. It never drops or alters a stored definition, and once
      the nb_fmt line is seen its count stays. */
  function Scan(st: St, ks: seq<Kind>): (r: (St, bool))
    ensures forall id :: id in st.table ==> id in r.0.table && r.0.table[id] == st.table[id]
    ensures st.found ==> r.0.found && r.0.nb == st.nb
    ensures (forall i :: 0 <= i < |ks| ==> Ignorable(ks[i])) ==> r == (st, true)
    decreases |ks|
  {
    if |ks| == 0 then (st, true)
    else
      match StepLine(st, ks[0])
      case None => (st, false)
      case Some(st1) => Scan(st1, ks[1..])
  }

  /** The loop followed by the final count check. */
  predicate Finish(st: St, ks: seq<Kind>) {
    var r := Scan(st, ks);
    r.1 && r.0.read == r.0.nb
  }

  /** `load`: clears the table, then reads the file. `nb0` is the value of
      the uninitialised `nb_fmt` variable, which the final check compares
      with the count when no "nb_fmt" line supplied one. The result is the
      table left behind and whether `load` returned true: a file that does
      not open leaves an empty table and fails, and one that opens is
      accepted exactly when the grammar accepts it. Whatever happens, every
      definition stored sits under its own id, in 1..32, and an accepted file
      leaves exactly the definitions its lines give. */
  function Load(file: Option<seq<string>>, nb0: int): (r: (Table, bool))
    ensures file.None? ==> r == (map[], false)
    ensures file.Some? ==> (r.1 <==> Accepts(Kinds(file.value), nb0))
    ensures TableOk(r.0)
    ensures file.Some? && r.1 ==> var ks := Kinds(file.value);
      forall id :: id in r.0 <==> exists i :: 0 <= i < |ks| && ks[i].DefLine? && ks[i].id == id
    ensures file.Some? && r.1 ==> var ks := Kinds(file.value);
      forall i :: 0 <= i < |ks| && ks[i].DefLine? ==>
        ks[i].id in r.0 && r.0[ks[i].id] == FmtDef(ks[i].id, ks[i].modulation, ks[i].codingRate)
  {
    match file
    case None => (map[], false)
    case Some(lines) =>
      var ks := Kinds(lines);
      var st0 := St(false, nb0, 0, map[]);
      SearchPhase(nb0, ks);
      ScanKeepsTableOk(st0, ks);
      var s := Scan(st0, ks);
      if s.1 then
        ScanStoresDefinitions(st0, ks);
        (s.0.table, s.0.read == s.0.nb)
      else (s.0.table, false)
  }

  /* ---------------------------------------------------------------------- */
  /* The grammar, stated independently of the loop                           */

  function CountDefs(ks: seq<Kind>): (n: nat)
    ensures n <= |ks|
  {
    if |ks| == 0 then 0 else (if ks[0].DefLine? then 1 else 0) + CountDefs(ks[1..])
  }

  /** After the nb_fmt line: only definitions and ignorable lines, ids in
      range, distinct and not already in `t`, and `read` plus their number
      equal to `nb`. */
  ghost predicate RestOk(t: Table, read: nat, nb: int, ks: seq<Kind>) {
    && (forall i :: 0 <= i < |ks| ==> ks[i].DefLine? || Ignorable(ks[i]))
    && (forall i :: 0 <= i < |ks| && ks[i].DefLine? ==> 0 < ks[i].id <= MaxFmt && ks[i].id !in t)
    && (forall i, j :: 0 <= i < j < |ks| && ks[i].DefLine? && ks[j].DefLine? ==> ks[i].id != ks[j].id)
    && read + CountDefs(ks) == nb
  }

  /** A well-formed file with its nb_fmt line at position `p`. */
  ghost predicate WellFormedAt(ks: seq<Kind>, nb0: int, p: int) {
    && 0 <= p < |ks|
    && (forall i :: 0 <= i < p ==> Ignorable(ks[i]))
    && ks[p].NbFmtLine? && ks[p].hasEqual
    && 0 < ks[p].value.GetOr(nb0) <= MaxFmt
    && RestOk(map[], 0, ks[p].value.GetOr(nb0), ks[p + 1..])
  }

  /** The files `load` accepts: a well-formed file, or one with nothing but
      blank and comment lines while the uninitialised count happens to be 0. */
  ghost predicate Accepts(ks: seq<Kind>, nb0: int) {
    || (exists p :: WellFormedAt(ks, nb0, p))
    || ((forall i :: 0 <= i < |ks| ==> Ignorable(ks[i])) && nb0 == 0)
  }

  lemma RestOkIgnorable(t: Table, read: nat, nb: int, ks: seq<Kind>)
    requires |ks| > 0 && Ignorable(ks[0])
    ensures RestOk(t, read, nb, ks) <==> RestOk(t, read, nb, ks[1..])
  {
    var tl := ks[1..];
    assert forall i :: 0 <= i < |tl| ==> tl[i] == ks[i + 1];
    if RestOk(t, read, nb, tl) {
      forall i, j | 0 <= i < j < |ks| && ks[i].DefLine? && ks[j].DefLine?
        ensures ks[i].id != ks[j].id
      {
        assert tl[i - 1] == ks[i] && tl[j - 1] == ks[j];
      }
    }
  }

  lemma RestOkDef(t: Table, read: nat, nb: int, ks: seq<Kind>)
    requires |ks| > 0 && ks[0].DefLine? && 0 < ks[0].id <= MaxFmt && ks[0].id !in t
    ensures var k := ks[0];
      RestOk(t, read, nb, ks) <==> RestOk(t[k.id := FmtDef(k.id, k.modulation, k.codingRate)], read + 1, nb, ks[1..])
  {
    var k := ks[0];
    var t1 := t[k.id := FmtDef(k.id, k.modulation, k.codingRate)];
    var tl := ks[1..];
    assert forall i :: 0 <= i < |tl| ==> tl[i] == ks[i + 1];
    if RestOk(t1, read + 1, nb, tl) {
      forall i, j | 0 <= i < j < |ks| && ks[i].DefLine? && ks[j].DefLine?
        ensures ks[i].id != ks[j].id
      {
        if i == 0 {
          assert tl[j - 1] == ks[j];
        } else {
          assert tl[i - 1] == ks[i] && tl[j - 1] == ks[j];
        }
      }
    }
    if RestOk(t, read, nb, ks) {
      forall i | 0 <= i < |tl| && tl[i].DefLine?
        ensures tl[i].id !in t1
      {
        assert ks[0].id != ks[i + 1].id;
      }
    }
  }

  /** After the nb_fmt line, the loop and the final check succeed exactly
      when the remaining lines satisfy `RestOk`. */
  lemma {:induction false} FoundPhase(st: St, ks: seq<Kind>)
    requires st.found && st.read <= st.nb
    ensures Finish(st, ks) <==> RestOk(st.table, st.read, st.nb, ks)
    decreases |ks|
  {
    if |ks| == 0 {
    } else {
      var k := ks[0];
      match k
      case Blank =>
        RestOkIgnorable(st.table, st.read, st.nb, ks);
        FoundPhase(st, ks[1..]);
      case Comment =>
        RestOkIgnorable(st.table, st.read, st.nb, ks);
        FoundPhase(st, ks[1..]);
      case NbFmtLine(_, _) =>
        assert !RestOk(st.table, st.read, st.nb, ks) by { assert !(ks[0].DefLine? || Ignorable(ks[0])); }
      case DefLine(id, m, c) =>
        if id <= 0 || id > MaxFmt || id in st.table {
          assert !RestOk(st.table, st.read, st.nb, ks) by { assert ks[0].DefLine?; }
        } else if st.read + 1 > st.nb {
          assert CountDefs(ks) >= 1;
        } else {
          RestOkDef(st.table, st.read, st.nb, ks);
          FoundPhase(St(true, st.nb, st.read + 1, st.table[id := FmtDef(id, m, c)]), ks[1..]);
        }
    }
  }

  /** Before the nb_fmt line, the loop and the final check succeed exactly
      for the files `Accepts` describes. */
  lemma {:induction false} SearchPhase(nb0: int, ks: seq<Kind>)
    ensures Finish(St(false, nb0, 0, map[]), ks) <==> Accepts(ks, nb0)
    decreases |ks|
  {
    var st := St(false, nb0, 0, map[]);
    if |ks| == 0 {
      assert !(exists p :: WellFormedAt(ks, nb0, p));
    } else {
      var k := ks[0];
      var tl := ks[1..];
      assert forall i :: 0 <= i < |tl| ==> tl[i] == ks[i + 1];
      if Ignorable(k) {
        SearchPhase(nb0, tl);
        assert Scan(st, ks) == Scan(st, tl);
        if exists p :: WellFormedAt(tl, nb0, p) {
          var p :| WellFormedAt(tl, nb0, p);
          assert ks[p + 2..] == tl[p + 1..];
          assert WellFormedAt(ks, nb0, p + 1);
        }
        if exists p :: WellFormedAt(ks, nb0, p) {
          var p :| WellFormedAt(ks, nb0, p);
          assert p > 0;
          assert ks[p + 1..] == tl[p..];
          assert WellFormedAt(tl, nb0, p - 1);
        }
      } else if k.NbFmtLine? {
        var n := k.value.GetOr(nb0);
        assert !(forall i :: 0 <= i < |ks| ==> Ignorable(ks[i]));
        if !k.hasEqual || n <= 0 || n > MaxFmt {
          assert !WellFormedAt(ks, nb0, 0);
          assert forall p :: 0 < p < |ks| ==> !WellFormedAt(ks, nb0, p);
        } else {
          var st1 := St(true, n, 0, map[]);
          FoundPhase(st1, tl);
          assert ks[1..] == tl;
          assert WellFormedAt(ks, nb0, 0) <==> RestOk(map[], 0, n, tl);
          assert forall p :: 0 < p < |ks| ==> !WellFormedAt(ks, nb0, p);
        }
      } else {
        assert !(forall i :: 0 <= i < |ks| ==> Ignorable(ks[i]));
        assert forall p :: 0 <= p < |ks| ==> !WellFormedAt(ks, nb0, p);
      }
    }
  }

  /** Every definition in the table sits under its own id, which is in range. */
  ghost predicate TableOk(t: Table) {
    forall id :: id in t ==> 0 < id <= MaxFmt && t[id].id == id
  }

  lemma {:induction false} ScanKeepsTableOk(st: St, ks: seq<Kind>)
    requires TableOk(st.table)
    ensures TableOk(Scan(st, ks).0.table)
    decreases |ks|
  {
    if |ks| > 0 {
      var s1 := StepLine(st, ks[0]);
      if s1.Some? {
        ScanKeepsTableOk(s1.value, ks[1..]);
      }
    }
  }

  /** A loop that reaches the end of the file has stored exactly the
      definitions it started with and those of its definition lines, each
      as its line gives it. */
  lemma {:induction false} ScanStoresDefinitions(st: St, ks: seq<Kind>)
    requires Scan(st, ks).1
    ensures var t := Scan(st, ks).0.table;
      forall id :: id in t <==> id in st.table || exists i :: 0 <= i < |ks| && ks[i].DefLine? && ks[i].id == id
    ensures var t := Scan(st, ks).0.table;
      forall i :: 0 <= i < |ks| && ks[i].DefLine? ==>
        ks[i].id in t && t[ks[i].id] == FmtDef(ks[i].id, ks[i].modulation, ks[i].codingRate)
    decreases |ks|
  {
    if |ks| > 0 {
      var st1 := StepLine(st, ks[0]).value;
      var tl := ks[1..];
      ScanStoresDefinitions(st1, tl);
      var t := Scan(st1, tl).0.table;
      assert Scan(st, ks).0.table == t;
      assert forall i :: 0 <= i < |tl| ==> tl[i] == ks[i + 1];
      forall id | id in t && id !in st.table
        ensures exists i :: 0 <= i < |ks| && ks[i].DefLine? && ks[i].id == id
      {
        if id in st1.table {
          assert ks[0].DefLine? && ks[0].id == id;
        } else {
          var i :| 0 <= i < |tl| && tl[i].DefLine? && tl[i].id == id;
          assert ks[i + 1] == tl[i];
        }
      }
      forall i | 0 <= i < |ks| && ks[i].DefLine?
        ensures ks[i].id in t && t[ks[i].id] == FmtDef(ks[i].id, ks[i].modulation, ks[i].codingRate)
      {
        if i > 0 {
          assert tl[i - 1] == ks[i];
        }
      }
    }
  }

  /* ---------------------------------------------------------------------- */
  /* Getters                                                                 */

  /** The modulation names, as FmtDefinition.cpp is assumed to read them. */
  function ModulationOf(name: string): Modulation {
    if name == "BPSK" then Bpsk
    else if name == "QPSK" then Qpsk
    else if name == "8PSK" then Psk8
    else if name == "16APSK" then Apsk16
    else if name == "32APSK" then Apsk32
    else ModulationUnknown
  }

  /** `getModulation`: unknown for an id not in the table. */
  function GetModulation(t: Table, id: int): (m: Modulation)
    ensures id !in t ==> m == ModulationUnknown
    ensures id in t ==> m == ModulationOf(t[id].modulation)
  {
    if id in t then ModulationOf(t[id].modulation) else ModulationUnknown
  }

  /** `getCodingRate`: empty for an id not in the table. */
  function GetCodingRate(t: Table, id: int): (c: string)
    ensures id !in t ==> c == ""
    ensures id in t ==> c == t[id].codingRate
  {
    if id in t then t[id].codingRate else ""
  }

  /** Bits per symbol; `None` for an unknown modulation. */
  function ModulationBits(m: Modulation): (b: Option<nat>)
    ensures b.None? <==> m == ModulationUnknown
    ensures b.Some? ==> 1 <= b.value <= 5
  {
    match m
    case Bpsk => Some(1)
    case Qpsk => Some(2)
    case Psk8 => Some(3)
    case Apsk16 => Some(4)
    case Apsk32 => Some(5)
    case ModulationUnknown => None
  }

  /** A coding rate as an exact fraction; an unknown rate counts as 0. */
  function CodingRateValue(c: string): (r: (nat, nat))
    ensures r.1 > 0 && r.0 < r.1
    ensures r.0 == 0 <==> c !in ["1/4", "1/3", "2/5", "1/2", "3/5", "2/3", "3/4", "4/5", "5/6", "6/7", "8/9", "9/10"]
  {
    if c == "1/4" then (1, 4)
    else if c == "1/3" then (1, 3)
    else if c == "2/5" then (2, 5)
    else if c == "1/2" then (1, 2)
    else if c == "3/5" then (3, 5)
    else if c == "2/3" then (2, 3)
    else if c == "3/4" then (3, 4)
    else if c == "4/5" then (4, 5)
    else if c == "5/6" then (5, 6)
    else if c == "6/7" then (6, 7)
    else if c == "8/9" then (8, 9)
    else if c == "9/10" then (9, 10)
    else (0, 1)
  }

  /** `symToKbits`: kilobits carried by `valSym` symbols of FMT `id`, rounded
      up; 0 for an unknown id or modulation, or an unknown coding rate. The
      product `val_sym * mod` is an `unsigned int` and wraps. The rate is an
      exact fraction here, where the source uses a `float`. */
  function SymToKbits(t: Table, id: int, valSym: nat): (r: nat)
    ensures id !in t || ModulationBits(GetModulation(t, id)).None? ==> r == 0
    ensures id in t && ModulationBits(GetModulation(t, id)).Some? ==>
      var x := ToU32(valSym * ModulationBits(GetModulation(t, id)).value);
      var q := CodingRateValue(t[id].codingRate);
      && r * (q.1 * 1000) >= x * q.0
      && (r == 0 || (r - 1) * (q.1 * 1000) < x * q.0)
  {
    if id !in t then 0
    else
      match ModulationBits(GetModulation(t, id))
      case None => 0
      case Some(bits) =>
        var x := ToU32(valSym * bits);
        var q := CodingRateValue(t[id].codingRate);
        CeilDiv(x * q.0, q.1 * 1000)
  }

  /** The least `r` with `r * b >= a`. */
  function CeilDiv(a: nat, b: nat): (r: nat)
    requires b > 0
    ensures r * b >= a
    ensures r == 0 || (r - 1) * b < a
  {
    var r := (a + b - 1) / b;
    assert r * b + (a + b - 1) % b == a + b - 1;
    r
  }
}

=== FILE: forward_scheduling.dfy ===
/** DVB-S2 forward scheduling (opensand-core/src/dvb_rcs/dama/ForwardSchedulingS2.cpp):
    packets leave the MAC FIFOs into BBFrames, one incomplete BBFrame per
    MODCOD; a BBFrame that is full (or cannot take the next fragment) is
    sent if the carrier still has the symbols it needs, and otherwise waits
    in the pending list for the next superframe.

    The symbol size of a BBFrame comes from a floating-point spectral
    efficiency; here it is an input map from MODCOD id to a size in symbols.
    The terminal MODCOD simulation, the carriers group and the
    encapsulation plugin's `getChunk` are inputs too. */
module ForwardScheduling {
  import opened Wrappers
  import opened OpenSandCore
  import opened MacFifoElement
  import opened ModelMode
  import DvbFifo
  import FmtDefinitionTable

  // ---------------------------------------------------------------------
  // BBFrame payload sizes (Table 5a of ETSI EN 302 307, normal FECFRAME)
  // ---------------------------------------------------------------------

  /** One row of the table: the coding rate as the MODCOD file writes it,
      the rate as a fraction, and the BBFrame data field length in bytes. */
  datatype RateRow = RateRow(name: string, num: nat, den: nat, payload: nat)

  const Table5a: seq<RateRow> := [
    RateRow("1/4", 1, 4, 2001),
    RateRow("1/3", 1, 3, 2676),
    RateRow("2/5", 2, 5, 3216),
    RateRow("1/2", 1, 2, 4026),
    RateRow("3/5", 3, 5, 4836),
    RateRow("2/3", 2, 3, 5380),
    RateRow("3/4", 3, 4, 6051),
    RateRow("4/5", 4, 5, 6456),
    RateRow("5/6", 5, 6, 6730),
    RateRow("8/9", 8, 9, 7184),
    RateRow("9/10", 9, 10, 7274)
  ]

  /** The size of a normal FECFRAME, used for any other coding rate. */
  const NormalFecFrame: nat := 8100

  /** `getPayloadSize`. */
  function PayloadSize(codingRate: string): (r: nat)
    ensures forall i :: 0 <= i < |Table5a| && Table5a[i].name == codingRate ==> r == Table5a[i].payload
    ensures (forall i :: 0 <= i < |Table5a| ==> Table5a[i].name != codingRate) ==> r == NormalFecFrame
    ensures 2001 <= r <= NormalFecFrame
  {
    if codingRate == "1/4" then assert Table5a[0].name == codingRate; 2001
    else if codingRate == "1/3" then assert Table5a[1].name == codingRate; 2676
    else if codingRate == "2/5" then assert Table5a[2].name == codingRate; 3216
    else if codingRate == "1/2" then assert Table5a[3].name == codingRate; 4026
    else if codingRate == "3/5" then assert Table5a[4].name == codingRate; 4836
    else if codingRate == "2/3" then assert Table5a[5].name == codingRate; 5380
    else if codingRate == "3/4" then assert Table5a[6].name == codingRate; 6051
    else if codingRate == "4/5" then assert Table5a[7].name == codingRate; 6456
    else if codingRate == "5/6" then assert Table5a[8].name == codingRate; 6730
    else if codingRate == "8/9" then assert Table5a[9].name == codingRate; 7184
    else if codingRate == "9/10" then assert Table5a[10].name == codingRate; 7274
    else 8100
  }

  /** The table is ordered by coding rate, and a higher rate always carries
      a larger payload; every listed payload is below a normal FECFRAME. */
  lemma PayloadGrowsWithRate(i: nat, j: nat)
    requires i < j < |Table5a|
    ensures Table5a[i].num * Table5a[j].den < Table5a[j].num * Table5a[i].den
    ensures Table5a[i].payload < Table5a[j].payload < NormalFecFrame
  {
  }

  // ---------------------------------------------------------------------
  // MODCOD of a terminal
  // ---------------------------------------------------------------------

  /** What the forward MODCOD simulation knows of a registered terminal. */
  datatype TermModcod = TermModcod(current: nat, previous: nat, advertised: bool)

  /** `retrieveCurrentModcod`: the current MODCOD if it was advertised,
      otherwise the more robust (lower) of the current and previous one;
      `None` for an unregistered terminal. */
  function RetrieveCurrentModcod(terms: map<nat, TermModcod>, tal: nat): (r: Option<nat>)
    ensures r.None? <==> tal !in terms
    ensures r.Some? ==> r.value == terms[tal].current || r.value == terms[tal].previous
    ensures r.Some? ==> r.value <= terms[tal].current
    ensures r.Some? && terms[tal].advertised ==> r.value == terms[tal].current
    ensures r.Some? && !terms[tal].advertised ==> r.value <= terms[tal].previous
  {
    if tal !in terms then None
    else
      var t := terms[tal];
      if t.advertised then Some(t.current)
      else if t.current <= t.previous then Some(t.current) else Some(t.previous)
  }

  // ---------------------------------------------------------------------
  // BBFrames and the scheduler's frame lists
  // ---------------------------------------------------------------------

  /** A BBFrame: its MODCOD, its size limit and bytes used, and the MODCOD
      options (terminal, MODCOD) it advertises. */
  datatype BBFrame = BBFrame(modcod: nat, maxSize: nat, used: nat, options: seq<(nat, nat)>)

  function FreeSpace(f: BBFrame): nat {
    if f.used <= f.maxSize then f.maxSize - f.used else 0
  }

  /** `addPacket` of a BBFrame (BBFrame.cpp is not part of this model): it
      fails when the data does not fit in the free space. */
  function AddPacket(f: BBFrame, len: nat): (r: Option<BBFrame>)
    ensures r.Some? <==> len <= FreeSpace(f)
    ensures r.Some? ==> r.value == f.(used := f.used + len) && FreeSpace(r.value) == FreeSpace(f) - len
  {
    if len <= FreeSpace(f) then Some(f.(used := f.used + len)) else None
  }

  /** The incomplete BBFrames by MODCOD, the order in which they were created
      (a MODCOD stands for its frame), and the BBFrames waiting for capacity. */
  datatype Sched = Sched(incomplete: map<nat, BBFrame>, ordered: seq<nat>, pending: seq<BBFrame>)

  /** The frame lists agree: each map entry is keyed by its MODCOD, and the
      ordered list names distinct MODCODs of the map. The map may hold frames
      the ordered list no longer names. */
  predicate Consistent(s: Sched) {
    && (forall m :: m in s.incomplete ==> s.incomplete[m].modcod == m)
    && (forall i :: 0 <= i < |s.ordered| ==> s.ordered[i] in s.incomplete)
    && (forall i, j :: 0 <= i < j < |s.ordered| ==> s.ordered[i] != s.ordered[j])
  }

  /** A new, empty BBFrame for a MODCOD, limited to the payload of its coding
      rate (`createIncompleteBBFrame`). */
  function NewFrame(rates: FmtDefinitionTable.Table, modcod: nat): (f: BBFrame)
    ensures f.modcod == modcod && f.used == 0 && f.options == []
    ensures f.maxSize == PayloadSize(FmtDefinitionTable.GetCodingRate(rates, modcod))
    ensures modcod !in rates ==> f.maxSize == NormalFecFrame
  {
    BBFrame(modcod, PayloadSize(FmtDefinitionTable.GetCodingRate(rates, modcod)), 0, [])
  }

  /** A carrier of a carriers group, as the scheduler sees it. `nearest` is
      `getNearestFmtId` (CarriersGroupDama is not part of this model): the
      MODCOD the carrier can offer for a desired one, 0 for none. */
  datatype Carrier = Carrier(fmtIds: seq<nat>, nearest: nat -> nat, total: nat, remaining: nat, previous: nat, previousSf: nat)

  /** The outcome of `getIncompleteBBFrame`: whether it succeeded, the MODCOD
      of the frame to fill (`None` for NULL), and the new frame lists. */
  datatype Incomplete = Incomplete(ok: bool, frame: Option<nat>, sched: Sched)

  /** `getIncompleteBBFrame`. An unknown terminal or a desired MODCOD the
      carrier cannot serve yields success with no frame. Otherwise the frame
      of the carrier's MODCOD is reused, or created and registered in both
      the map and the ordered list; creation fails without a packet handler. */
  function GetIncompleteBBFrame(s: Sched, terms: map<nat, TermModcod>, tal: nat, c: Carrier,
                                rates: FmtDefinitionTable.Table, hasHandler: bool): (r: Incomplete)
    requires Consistent(s)
    ensures Consistent(r.sched) && r.sched.pending == s.pending
    ensures !r.ok <==> (tal in terms && c.nearest(RetrieveCurrentModcod(terms, tal).value) != 0
                        && c.nearest(RetrieveCurrentModcod(terms, tal).value) !in s.incomplete && !hasHandler)
    ensures r.frame.None? ==> r.sched == s
    ensures r.ok && r.frame.None? <==> tal !in terms || c.nearest(RetrieveCurrentModcod(terms, tal).value) == 0
    ensures r.frame.Some? ==> && r.ok
                              && r.frame.value == c.nearest(RetrieveCurrentModcod(terms, tal).value)
                              && r.frame.value in r.sched.incomplete
    ensures r.frame.Some? && r.frame.value in s.incomplete ==> r.sched == s
    ensures r.frame.Some? && r.frame.value !in s.incomplete ==>
              && r.sched.incomplete == s.incomplete[r.frame.value := NewFrame(rates, r.frame.value)]
              && r.sched.ordered == s.ordered + [r.frame.value]
  {
    var desired := RetrieveCurrentModcod(terms, tal);
    if desired.None? then Incomplete(true, None, s)
    else
      var m := c.nearest(desired.value);
      if m == 0 then Incomplete(true, None, s)
      else if m in s.incomplete then Incomplete(true, Some(m), s)
      else if !hasHandler then Incomplete(false, None, s)
      else
        var s' := s.(incomplete := s.incomplete[m := NewFrame(rates, m)], ordered := s.ordered + [m]);
        assert s'.ordered[|s.ordered|] == m;
        Incomplete(true, Some(m), s')
  }

  // ---------------------------------------------------------------------
  // Completing a BBFrame against the carrier capacity
  // ---------------------------------------------------------------------

  datatype Status = StatusOk | StatusFull | StatusError

  /** What completing frames changes: the list of complete frames, the
      capacity left in symbols, and the queue of MODCODs still to advertise. */
  datatype Out = Out(complete: seq<BBFrame>, capacity: nat, adverts: seq<(nat, nat)>)

  /** The symbols a frame takes on the carrier; 0 for a MODCOD with no size,
      which never reaches the complete list. */
  function SymSize(frameSym: map<nat, nat>, f: BBFrame): nat {
    if f.modcod in frameSym then frameSym[f.modcod] else 0
  }

  /** The symbols taken by a list of frames. */
  function Spent(frameSym: map<nat, nat>, fs: seq<BBFrame>): nat {
    if |fs| == 0 then 0 else Spent(frameSym, fs[..|fs| - 1]) + SymSize(frameSym, fs[|fs| - 1])
  }

  lemma {:induction false} SpentAppend(frameSym: map<nat, nat>, a: seq<BBFrame>, b: seq<BBFrame>)
    ensures Spent(frameSym, a + b) == Spent(frameSym, a) + Spent(frameSym, b)
    decreases |b|
  {
    if |b| == 0 {
      assert a + b == a;
    } else {
      assert (a + b)[..|a + b| - 1] == a + b[..|b| - 1];
      SpentAppend(frameSym, a, b[..|b| - 1]);
    }
  }

  /** `addCompleteBBFrame`. An error for a MODCOD with no symbol size; full,
      with nothing changed, when the capacity is below the frame's size;
      otherwise the frame receives up to `maxOptions` MODCOD advertisements
      from the queue, is appended to the complete list, and its size is
      taken from the capacity. */
  function AddCompleteBBFrame(o: Out, f: BBFrame, frameSym: map<nat, nat>, maxOptions: nat): (r: (Status, Out))
    ensures r.0 == StatusError <==> f.modcod !in frameSym
    ensures r.0 == StatusFull <==> f.modcod in frameSym && o.capacity < frameSym[f.modcod]
    ensures r.0 != StatusOk ==> r.1 == o
    ensures r.0 == StatusOk ==>
              && r.1.capacity + frameSym[f.modcod] == o.capacity
              && |r.1.complete| == |o.complete| + 1 && r.1.complete[..|o.complete|] == o.complete
              && Added(f, r.1.complete[|o.complete|], o.adverts, r.1.adverts, maxOptions)
  {
    if f.modcod !in frameSym then (StatusError, o)
    else if o.capacity < frameSym[f.modcod] then (StatusFull, o)
    else
      var k := if |o.adverts| < maxOptions then |o.adverts| else maxOptions;
      var sent := f.(options := f.options + o.adverts[..k]);
      (StatusOk, Out(o.complete + [sent], o.capacity - frameSym[f.modcod], o.adverts[k..]))
  }

  /** The frame that was sent is the frame given, with at most `maxOptions`
      advertisements taken, in order, from the head of the queue; fewer only
      when the queue ran out. */
  predicate Added(f: BBFrame, sent: BBFrame, adverts: seq<(nat, nat)>, adverts': seq<(nat, nat)>, maxOptions: nat) {
    && sent.modcod == f.modcod && sent.maxSize == f.maxSize && sent.used == f.used
    && |sent.options| >= |f.options| && sent.options[..|f.options|] == f.options
    && sent.options[|f.options|..] + adverts' == adverts
    && |sent.options| - |f.options| <= maxOptions
    && (|sent.options| - |f.options| < maxOptions ==> adverts' == [])
  }

  /** Completing a frame spends exactly its symbols: what is left plus what
      the complete list has spent is unchanged. */
  lemma AddCompleteKeepsBudget(o: Out, f: BBFrame, frameSym: map<nat, nat>, maxOptions: nat)
    ensures var r := AddCompleteBBFrame(o, f, frameSym, maxOptions);
            r.1.capacity + Spent(frameSym, r.1.complete) == o.capacity + Spent(frameSym, o.complete)
  {
    var r := AddCompleteBBFrame(o, f, frameSym, maxOptions);
    if r.0 == StatusOk {
      assert r.1.complete == o.complete + [r.1.complete[|o.complete|]];
      SpentAppend(frameSym, o.complete, [r.1.complete[|o.complete|]]);
      assert Spent(frameSym, [r.1.complete[|o.complete|]]) == frameSym[f.modcod] by {
        assert [r.1.complete[|o.complete|]][..0] == [];
      }
    }
  }

  // ---------------------------------------------------------------------
  // Pending BBFrames
  // ---------------------------------------------------------------------

  /** The frames of a list whose MODCOD is, or is not, among `supported`. */
  function Supported(fs: seq<BBFrame>, supported: seq<nat>, keep: bool): (r: seq<BBFrame>)
    ensures |r| <= |fs|
    ensures forall i :: 0 <= i < |r| ==> (r[i].modcod in supported) == keep
    ensures forall f :: f in r ==> f in fs
  {
    if |fs| == 0 then []
    else
      var rest := Supported(fs[1..], supported, keep);
      if (fs[0].modcod in supported) == keep then [fs[0]] + rest else rest
  }

  /** `schedulePending`: each pending frame of a supported MODCOD is offered
      to the complete list (and dropped from the pending list whatever the
      outcome); the others stay pending in their order. */
  function SchedulePending(pending: seq<BBFrame>, supported: seq<nat>, o: Out,
                           frameSym: map<nat, nat>, maxOptions: nat): (r: (seq<BBFrame>, Out))
    ensures r.1.capacity <= o.capacity
    ensures |r.1.complete| >= |o.complete| && r.1.complete[..|o.complete|] == o.complete
    ensures r.1.capacity + Spent(frameSym, r.1.complete) == o.capacity + Spent(frameSym, o.complete)
    decreases |pending|
  {
    if |pending| == 0 then ([], o)
    else
      var f := pending[0];
      if f.modcod in supported then
        var a := AddCompleteBBFrame(o, f, frameSym, maxOptions);
        AddCompleteKeepsBudget(o, f, frameSym, maxOptions);
        var rest := SchedulePending(pending[1..], supported, a.1, frameSym, maxOptions);
        assert rest.1.complete[..|o.complete|] == rest.1.complete[..|a.1.complete|][..|o.complete|];
        rest
      else
        var rest := SchedulePending(pending[1..], supported, o, frameSym, maxOptions);
        ([f] + rest.0, rest.1)
  }

  /** After `schedulePending` the pending list is exactly the frames of an
      unsupported MODCOD, in their original order. */
  lemma {:induction false} SchedulePendingKeepsUnsupported(pending: seq<BBFrame>, supported: seq<nat>, o: Out,
                                                          frameSym: map<nat, nat>, maxOptions: nat)
    ensures SchedulePending(pending, supported, o, frameSym, maxOptions).0 == Supported(pending, supported, false)
    decreases |pending|
  {
    if |pending| > 0 {
      var f := pending[0];
      if f.modcod in supported {
        var a := AddCompleteBBFrame(o, f, frameSym, maxOptions);
        SchedulePendingKeepsUnsupported(pending[1..], supported, a.1, frameSym, maxOptions);
      } else {
        SchedulePendingKeepsUnsupported(pending[1..], supported, o, frameSym, maxOptions);
      }
    }
  }

  /** Every frame `schedulePending` adds to the complete list has a supported
      MODCOD, and there are at most as many as there were supported pending
      frames. */
  lemma {:induction false} SchedulePendingSendsSupported(pending: seq<BBFrame>, supported: seq<nat>, o: Out,
                                                         frameSym: map<nat, nat>, maxOptions: nat)
    ensures var r := SchedulePending(pending, supported, o, frameSym, maxOptions);
            && |r.1.complete| - |o.complete| <= |Supported(pending, supported, true)|
            && forall i :: |o.complete| <= i < |r.1.complete| ==> r.1.complete[i].modcod in supported
    decreases |pending|
  {
    if |pending| > 0 {
      var f := pending[0];
      if f.modcod in supported {
        var a := AddCompleteBBFrame(o, f, frameSym, maxOptions);
        SchedulePendingSendsSupported(pending[1..], supported, a.1, frameSym, maxOptions);
        var r := SchedulePending(pending[1..], supported, a.1, frameSym, maxOptions);
        forall i | |o.complete| <= i < |r.1.complete|
          ensures r.1.complete[i].modcod in supported
        {
          if i < |a.1.complete| {
            assert r.1.complete[i] == r.1.complete[..|a.1.complete|][i];
          }
        }
      } else {
        SchedulePendingSendsSupported(pending[1..], supported, o, frameSym, maxOptions);
      }
    }
  }

  // ---------------------------------------------------------------------
  // Filling BBFrames from a MAC FIFO (the packet loop of scheduleEncapPackets)
  // ---------------------------------------------------------------------

  /** What a packet handler's `getChunk` gives for a packet and the free
      space of a BBFrame: success, the part that goes into the frame, and the
      part that stays in the FIFO. */
  datatype Chunk = Chunk(ok: bool, data: Option<Packet>, remaining: Option<Packet>)

  /** The inputs of one scheduling pass over a FIFO on one carrier. */
  datatype Env = Env(
    terms: map<nat, TermModcod>,
    lowestTal: nat,
    carrier: Carrier,
    frameSym: map<nat, nat>,
    rates: FmtDefinitionTable.Table,
    maxOptions: nat,
    hasHandler: bool,
    getChunk: (Packet, nat) -> Chunk,
    now: int)

  /** Every BBFrame takes some symbols (a payload of at least 2001 bytes at a
      finite spectral efficiency). */
  predicate PositiveSizes(frameSym: map<nat, nat>) {
    forall m :: m in frameSym ==> frameSym[m] > 0
  }

  /** The state the packet loop changes: the FIFO, the frame lists, the
      complete frames and capacity, the capacity saved for the next
      superframe when a frame did not fit, and the packets sent. */
  datatype Run = Run(fifo: DvbFifo.Fifo, sched: Sched, out: Out, saved: Option<nat>, sent: nat)

  predicate RunInv(l: Run) {
    DvbFifo.Valid(l.fifo) && Consistent(l.sched)
  }

  /** Symbols left, spent on complete frames, and saved for the next
      superframe: the loop never changes their sum. */
  function Budget(frameSym: map<nat, nat>, l: Run): nat {
    l.out.capacity + Spent(frameSym, l.out.complete) + (if l.saved.Some? then l.saved.value else 0)
  }

  /** `l'` is a state the loop may reach from `l`: the invariant holds, the
      budget is kept and the complete list only grows at its end. */
  predicate Follows(frameSym: map<nat, nat>, l: Run, l': Run) {
    && RunInv(l')
    && Budget(frameSym, l') == Budget(frameSym, l)
    && |l'.out.complete| >= |l.out.complete| && l'.out.complete[..|l.out.complete|] == l.out.complete
  }

  lemma FollowsTrans(frameSym: map<nat, nat>, a: Run, b: Run, c: Run)
    requires Follows(frameSym, a, b) && Follows(frameSym, b, c)
    ensures Follows(frameSym, a, c)
  {
    assert c.out.complete[..|a.out.complete|] == c.out.complete[..|b.out.complete|][..|a.out.complete|];
  }

  /** Why the packet loop stopped. */
  datatype Why = Emptied | NotReady | Full

  datatype StepR = StepFail | StepNext(l: Run) | StepStop(l: Run, why: Why)

  /** `list::remove` of a MODCOD from the ordered list. */
  function Remove(ms: seq<nat>, m: nat): (r: seq<nat>)
    ensures forall x :: x in r <==> x in ms && x != m
    ensures (forall i, j :: 0 <= i < j < |ms| ==> ms[i] != ms[j]) ==> (forall i, j :: 0 <= i < j < |r| ==> r[i] != r[j])
  {
    if |ms| == 0 then []
    else if ms[0] == m then Remove(ms[1..], m)
    else
      var rest := Remove(ms[1..], m);
      assert ms[0] !in ms[1..] ==> ms[0] !in rest;
      [ms[0]] + rest
  }

  /** Taking a frame out of both incomplete lists keeps them consistent. */
  lemma RemoveKeepsConsistent(s: Sched, m: nat, frame: BBFrame)
    requires Consistent(s) && frame.modcod == m
    ensures Consistent(s.(incomplete := s.incomplete[m := frame] - {m}, ordered := Remove(s.ordered, m)))
  {
    var r := Remove(s.ordered, m);
    forall i | 0 <= i < |r|
      ensures r[i] in s.incomplete && r[i] != m
    {
      assert r[i] in r;
      var j :| 0 <= j < |s.ordered| && s.ordered[j] == r[i];
    }
  }

  /** The end of one iteration: the filled frame is stored back; if it is
      full or a fragment is left over, it leaves the incomplete lists and is
      completed, and when the carrier lacks the symbols it goes to the
      pending list and the capacity left is saved for the next superframe. */
  function Complete(env: Env, l: Run, m: nat, frame: BBFrame, rem: Option<Packet>): (r: StepR)
    requires RunInv(l) && m in l.sched.incomplete && frame.modcod == m && l.saved.None?
    ensures r.StepNext? ==> Follows(env.frameSym, l, r.l) && r.l.saved.None? && r.l.fifo == l.fifo
    ensures r.StepNext? ==> r.l.out.capacity <= l.out.capacity
    ensures r.StepNext? && rem.Some? && PositiveSizes(env.frameSym) ==> r.l.out.capacity < l.out.capacity
    ensures r.StepStop? ==> && Follows(env.frameSym, l, r.l) && r.why == Full
                            && r.l.out.capacity == 0 && r.l.saved == Some(l.out.capacity)
                            && r.l.sched.pending == l.sched.pending + [frame]
  {
    var s1 := l.sched.(incomplete := l.sched.incomplete[m := frame]);
    if FreeSpace(frame) == 0 || rem.Some? then
      var a := AddCompleteBBFrame(l.out, frame, env.frameSym, env.maxOptions);
      AddCompleteKeepsBudget(l.out, frame, env.frameSym, env.maxOptions);
      if a.0 == StatusError then StepFail
      else
        var s2 := s1.(incomplete := s1.incomplete - {m}, ordered := Remove(s1.ordered, m));
        RemoveKeepsConsistent(l.sched, m, frame);
        if a.0 == StatusFull then
          StepStop(l.(sched := s2.(pending := s2.pending + [frame]), out := l.out.(capacity := 0), saved := Some(l.out.capacity)), Full)
        else StepNext(l.(sched := s2, out := a.1))
    else StepNext(l.(sched := s1))
  }

  /** Puts the rest of a fragmented packet back at the head of the FIFO, in
      the element it came from. */
  function Requeue(f: DvbFifo.Fifo, e: Element, rest: Packet): (r: DvbFifo.Fifo)
    requires DvbFifo.Valid(f) && |f.queue| < f.maxSize && e.kind == PacketType
    ensures DvbFifo.Valid(r) && r.queue == [SetPacket(e, Some(rest))] + f.queue
  {
    DvbFifo.PushFrontValid(f, SetPacket(e, Some(rest)));
    DvbFifo.PushFront(f, SetPacket(e, Some(rest))).0
  }

  /** The packet has a frame to go into: `getChunk` decides what part of it
      enters the frame (use cases 1 to 4 of the source). */
  function Fill(env: Env, l: Run, e: Element, p: Packet, m: nat): (r: StepR)
    requires RunInv(l) && m in l.sched.incomplete && l.saved.None? && |l.fifo.queue| < l.fifo.maxSize
    ensures r.StepNext? ==> Follows(env.frameSym, l, r.l) && r.l.saved.None?
    ensures r.StepNext? && PositiveSizes(env.frameSym) ==>
              r.l.out.capacity < l.out.capacity || (r.l.out.capacity == l.out.capacity && r.l.fifo == l.fifo)
    ensures r.StepStop? ==> && Follows(env.frameSym, l, r.l) && r.why == Full
                            && r.l.out.capacity == 0 && r.l.saved == Some(l.out.capacity)
  {
    var frame := l.sched.incomplete[m];
    var ch := env.getChunk(p, FreeSpace(frame));
    if !ch.ok then
      // use case 4: the element is dropped
      Complete(env, l, m, frame, ch.remaining)
    else if ch.data.Some? then
      var added := AddPacket(frame, ch.data.value.totalLength);
      if added.None? then StepFail
      else if ch.remaining.None? then
        // use case 1: the whole packet is in the frame
        Complete(env, l.(sent := l.sent + 1), m, added.value, None)
      else if e.kind != PacketType then StepFail
      else
        // use case 2: a fragment is in the frame, the rest goes back
        var r := Complete(env, l.(fifo := Requeue(l.fifo, e, ch.remaining.value)), m, added.value, ch.remaining);
        r
    else if ch.remaining.Some? then
      // use case 3: nothing fits, the packet goes back
      if e.kind != PacketType then StepFail
      else Complete(env, l.(fifo := Requeue(l.fifo, e, ch.remaining.value)), m, frame, ch.remaining)
    else
      // a handler that gives neither part: the element is dropped
      Complete(env, l, m, frame, None)
  }

  /** One iteration of the packet loop. The head is left in place when it
      is not due yet. Otherwise it is popped; a NULL packet, a broadcast
      with no terminal to serve it, or a failure to get a frame abort the
      pass; a packet with no usable MODCOD is dropped; any other is filled
      into the frame of its MODCOD. A broadcast packet takes the MODCOD of
      the terminal with the lowest one. */
  function Step(env: Env, l: Run): (r: StepR)
    requires RunInv(l) && |l.fifo.queue| > 0 && l.saved.None?
    ensures r.StepStop? && r.why == NotReady <==> DvbFifo.TickOut(l.fifo) > env.now
    ensures r.StepStop? && r.why == NotReady ==> r.l == l
    ensures r.StepStop? ==> r.why != Emptied && Follows(env.frameSym, l, r.l)
    ensures r.StepStop? && r.why == Full ==> r.l.out.capacity == 0 && r.l.saved == Some(l.out.capacity)
    ensures r.StepNext? ==> Follows(env.frameSym, l, r.l) && r.l.saved.None?
    ensures r.StepNext? && PositiveSizes(env.frameSym) ==>
              || r.l.out.capacity < l.out.capacity
              || (r.l.out.capacity == l.out.capacity && |r.l.fifo.queue| < |l.fifo.queue|)
  {
    if DvbFifo.TickOut(l.fifo) > env.now then StepStop(l, NotReady)
    else
      var popped := DvbFifo.Pop(l.fifo);
      DvbFifo.PopValid(l.fifo);
      var e := popped.1.value;
      if e.packet.None? then StepFail
      else
        var p := e.packet.value;
        var tal := if p.dstTal == BroadcastTalId then env.lowestTal else p.dstTal;
        if p.dstTal == BroadcastTalId && tal == 255 then StepFail
        else
          var inc := GetIncompleteBBFrame(l.sched, env.terms, tal, env.carrier, env.rates, env.hasHandler);
          if !inc.ok then StepFail
          else if inc.frame.None? then StepNext(l.(fifo := popped.0, sched := inc.sched))
          else Fill(env, l.(fifo := popped.0, sched := inc.sched), e, p, inc.frame.value)
  }

  /** The packet loop: runs while the FIFO holds packets, and stops at the
      first head that is not due yet or at the first frame the carrier
      cannot take. `None` is an aborted pass. */
  function Loop(env: Env, l: Run): (r: Option<(Run, Why)>)
    requires RunInv(l) && l.saved.None? && PositiveSizes(env.frameSym)
    ensures r.Some? ==> Follows(env.frameSym, l, r.value.0)
    ensures r.Some? && r.value.1 == Emptied ==> |r.value.0.fifo.queue| == 0 && r.value.0.saved.None?
    ensures r.Some? && r.value.1 == NotReady ==>
              && |r.value.0.fifo.queue| > 0 && DvbFifo.TickOut(r.value.0.fifo) > env.now
              && r.value.0.saved.None?
    ensures r.Some? && r.value.1 == Full ==> r.value.0.out.capacity == 0 && r.value.0.saved.Some?
    decreases l.out.capacity, |l.fifo.queue|
  {
    if |l.fifo.queue| == 0 then Some((l, Emptied))
    else
      var st := Step(env, l);
      match st
      case StepFail => None
      case StepStop(l', why) => Some((l', why))
      case StepNext(l') =>
        var rest := Loop(env, l');
        if rest.Some? then FollowsTrans(env.frameSym, l, l', rest.value.0); rest else rest
  }

  // ---------------------------------------------------------------------
  // Sending the incomplete frames that are left
  // ---------------------------------------------------------------------

  /** Dropping the head of the ordered list, and optionally its frame from
      the map, keeps the lists consistent. */
  lemma DropHeadConsistent(s: Sched, drop: bool)
    requires Consistent(s) && |s.ordered| > 0
    ensures Consistent(s.(ordered := s.ordered[1..],
                          incomplete := if drop then s.incomplete - {s.ordered[0]} else s.incomplete))
  {
    var s' := s.(ordered := s.ordered[1..],
                 incomplete := if drop then s.incomplete - {s.ordered[0]} else s.incomplete);
    forall i | 0 <= i < |s'.ordered|
      ensures s'.ordered[i] in s'.incomplete
    {
      assert s'.ordered[i] == s.ordered[i + 1];
    }
  }

  /** The loop over the ordered incomplete frames after the packet loop: it
      stops when no capacity is left, and otherwise offers each frame to the
      complete list. Every frame it visits leaves the ordered list; only a
      sent frame leaves the map. `None` is a frame with no symbol size. */
  function SendIncomplete(s: Sched, o: Out, frameSym: map<nat, nat>, maxOptions: nat): (r: Option<(Sched, Out)>)
    requires Consistent(s)
    ensures r.Some? ==> Consistent(r.value.0) && r.value.0.pending == s.pending
    ensures r.Some? ==> r.value.1.capacity + Spent(frameSym, r.value.1.complete) == o.capacity + Spent(frameSym, o.complete)
    ensures r.Some? ==> |r.value.1.complete| >= |o.complete| && r.value.1.complete[..|o.complete|] == o.complete
    decreases |s.ordered|
  {
    if |s.ordered| == 0 || o.capacity == 0 then Some((s, o))
    else
      var m := s.ordered[0];
      var a := AddCompleteBBFrame(o, s.incomplete[m], frameSym, maxOptions);
      AddCompleteKeepsBudget(o, s.incomplete[m], frameSym, maxOptions);
      if a.0 == StatusError then None
      else
        var s' := s.(ordered := s.ordered[1..], incomplete := if a.0 == StatusOk then s.incomplete - {m} else s.incomplete);
        DropHeadConsistent(s, a.0 == StatusOk);
        var rest := SendIncomplete(s', a.1, frameSym, maxOptions);
        if rest.Some? then
          PrefixOfPrefix(rest.value.1.complete, a.1.complete, o.complete);
          rest
        else rest
  }

  /** The final loop visits the ordered list from its head: what is left
      of it is a suffix, and it is left only when no capacity is. */
  lemma {:induction false} SendIncompleteVisitsInOrder(s: Sched, o: Out, frameSym: map<nat, nat>, maxOptions: nat)
    requires Consistent(s)
    ensures var r := SendIncomplete(s, o, frameSym, maxOptions);
            r.Some? ==> |r.value.0.ordered| <= |s.ordered| && r.value.0.ordered == s.ordered[|s.ordered| - |r.value.0.ordered|..]
    ensures var r := SendIncomplete(s, o, frameSym, maxOptions);
            r.Some? && |r.value.0.ordered| > 0 ==> r.value.1.capacity == 0
    decreases |s.ordered|
  {
    if |s.ordered| > 0 && o.capacity > 0 {
      var m := s.ordered[0];
      var a := AddCompleteBBFrame(o, s.incomplete[m], frameSym, maxOptions);
      if a.0 != StatusError {
        var s' := s.(ordered := s.ordered[1..], incomplete := if a.0 == StatusOk then s.incomplete - {m} else s.incomplete);
        DropHeadConsistent(s, a.0 == StatusOk);
        SendIncompleteVisitsInOrder(s', a.1, frameSym, maxOptions);
        var rest := SendIncomplete(s', a.1, frameSym, maxOptions);
        assert SendIncomplete(s, o, frameSym, maxOptions) == rest;
        if rest.Some? {
          assert |s'.ordered| == |s.ordered| - 1 && s'.ordered == s.ordered[1..];
          SuffixOfTail(s.ordered, rest.value.0.ordered);
        }
      }
    }
  }

  /** A frame the carrier cannot take in the final loop leaves the ordered
      list but stays in the incomplete map: it can still be filled later, but
      the final loop no longer offers it. */
  lemma SendIncompleteFullFrameStaysInMap(s: Sched, o: Out, frameSym: map<nat, nat>, maxOptions: nat)
    requires Consistent(s) && |s.ordered| > 0 && o.capacity > 0
    requires s.incomplete[s.ordered[0]].modcod in frameSym && o.capacity < frameSym[s.incomplete[s.ordered[0]].modcod]
    ensures var r := SendIncomplete(s, o, frameSym, maxOptions);
            r.Some? ==> s.ordered[0] in r.value.0.incomplete && s.ordered[0] !in r.value.0.ordered
  {
    var m := s.ordered[0];
    var s' := s.(ordered := s.ordered[1..]);
    assert s'.ordered == s.ordered[1..];
    assert m !in s'.ordered by {
      forall i | 0 <= i < |s'.ordered| ensures s'.ordered[i] != m {
        assert s'.ordered[i] == s.ordered[i + 1];
      }
    }
    SendIncompleteKeepsKeys(s', o, frameSym, maxOptions, m);
  }

  /** The final loop removes from the map only frames it visits, and
      never adds any MODCOD to the ordered list. */
  lemma {:induction false} SendIncompleteKeepsKeys(s: Sched, o: Out, frameSym: map<nat, nat>, maxOptions: nat, k: nat)
    requires Consistent(s) && k in s.incomplete && k !in s.ordered
    ensures var r := SendIncomplete(s, o, frameSym, maxOptions);
            r.Some? ==> k in r.value.0.incomplete && k !in r.value.0.ordered
    decreases |s.ordered|
  {
    if |s.ordered| > 0 && o.capacity > 0 {
      var m := s.ordered[0];
      var a := AddCompleteBBFrame(o, s.incomplete[m], frameSym, maxOptions);
      if a.0 != StatusError {
        var s' := s.(ordered := s.ordered[1..], incomplete := if a.0 == StatusOk then s.incomplete - {m} else s.incomplete);
        assert k !in s'.ordered by {
          forall i | 0 <= i < |s'.ordered| ensures s'.ordered[i] != k {
            assert s'.ordered[i] == s.ordered[i + 1];
          }
        }
        DropHeadConsistent(s, a.0 == StatusOk);
        SendIncompleteKeepsKeys(s', a.1, frameSym, maxOptions, k);
      }
    }
  }

  // ---------------------------------------------------------------------
  // scheduleEncapPackets
  // ---------------------------------------------------------------------

  /** What a successful `scheduleEncapPackets` leaves: the FIFO, the frame
      lists, the complete frames and advertisement queue, the carrier, and
      why the packet loop ended (`Emptied` also when the FIFO was empty from
      the start). */
  datatype Encap = Encap(fifo: DvbFifo.Fifo, sched: Sched, out: Out, carrier: Carrier, why: Why)

  function Min(a: nat, b: nat): nat {
    if a <= b then a else b
  }

  /** The part of `scheduleEncapPackets` after the packet loop: the final
      loop over the incomplete frames, then the carrier keeps what capacity
      is left, and, when a frame did not fit, the capacity saved for
      superframe `sf + 1`. */
  function AfterLoop(env: Env, l: Run, why: Why, c1: Carrier, sf: nat): (r: Option<Encap>)
    requires RunInv(l) && (why == Full <==> l.saved.Some?) && (why == Full ==> l.out.capacity == 0)
    ensures r.Some? ==> && r.value.fifo == l.fifo && r.value.why == why && Consistent(r.value.sched)
                        && |r.value.out.complete| >= |l.out.complete|
                        && r.value.out.complete[..|l.out.complete|] == l.out.complete
    ensures r.Some? ==> r.value.carrier.remaining + r.value.carrier.previous + Spent(env.frameSym, r.value.out.complete)
                        == Budget(env.frameSym, l) + (if why == Full then 0 else c1.previous)
    ensures r.Some? && why == Full ==> r.value.carrier.previousSf == sf + 1 && r.value.carrier.remaining == 0
    ensures r.Some? && why != Full ==> r.value.carrier.previous == c1.previous
  {
    var c2 := if why == Full then c1.(previous := l.saved.value, previousSf := sf + 1) else c1;
    var fin := SendIncomplete(l.sched, l.out, env.frameSym, env.maxOptions);
    if fin.None? then None
    else Some(Encap(l.fifo, fin.value.0, fin.value.1, c2.(remaining := fin.value.1.capacity), why))
  }

  /** The packet loop followed by the final loop, from a run with nothing
      saved yet. */
  function LoopThenFinish(env: Env, l: Run, c1: Carrier, sf: nat): (r: Option<Encap>)
    requires RunInv(l) && l.saved.None? && PositiveSizes(env.frameSym)
    ensures r.Some? ==> && DvbFifo.Valid(r.value.fifo) && Consistent(r.value.sched)
                        && |r.value.out.complete| >= |l.out.complete|
                        && r.value.out.complete[..|l.out.complete|] == l.out.complete
    ensures r.Some? ==> r.value.carrier.remaining + r.value.carrier.previous + Spent(env.frameSym, r.value.out.complete)
                        == Budget(env.frameSym, l) + (if r.value.why == Full then 0 else c1.previous)
    ensures r.Some? && r.value.why == Emptied ==> |r.value.fifo.queue| == 0
    ensures r.Some? && r.value.why == NotReady ==> |r.value.fifo.queue| > 0 && DvbFifo.TickOut(r.value.fifo) > env.now
    ensures r.Some? && r.value.why != Full ==> r.value.carrier.previous == c1.previous
    ensures r.Some? && r.value.why == Full ==> r.value.carrier.previousSf == sf + 1 && r.value.carrier.remaining == 0
  {
    var lp := Loop(env, l);
    if lp.None? then None
    else
      var r := AfterLoop(env, lp.value.0, lp.value.1, c1, sf);
      if r.Some? then
        var l' := lp.value.0;
        assert r.value.out.complete[..|l.out.complete|] == r.value.out.complete[..|l'.out.complete|][..|l.out.complete|];
        r
      else r
  }

  /** `scheduleEncapPackets` on one carrier. The capacity is the carrier's
      remaining capacity plus `previousSym`, the capacity saved for this
      superframe; the pending frames are offered first; then the capacity is
      capped at the remaining capacity alone, the packet loop and the final
      loop run, and what is left becomes the carrier's remaining capacity.
      A frame that did not fit saves the capacity left for superframe
      `sf + 1`. As written, an empty FIFO returns before the remaining
      capacity is written back, so what the pending frames spent is not
      taken from it; `Intended` writes it back. `None` is a failed pass. */
  function ScheduleEncapPackets(mode: Mode, env: Env, fifo: DvbFifo.Fifo, s: Sched, o: Out,
                                previousSym: nat, sf: nat): (r: Option<Encap>)
    requires DvbFifo.Valid(fifo) && Consistent(s) && PositiveSizes(env.frameSym)
    ensures r.Some? ==> DvbFifo.Valid(r.value.fifo) && Consistent(r.value.sched)
    ensures r.Some? ==> |r.value.out.complete| >= |o.complete| && r.value.out.complete[..|o.complete|] == o.complete
    ensures r.Some? && r.value.why == Emptied ==> |r.value.fifo.queue| == 0
    ensures r.Some? && r.value.why == NotReady ==> |r.value.fifo.queue| > 0 && DvbFifo.TickOut(r.value.fifo) > env.now
    ensures r.Some? && r.value.why != Full ==> r.value.carrier.previous == 0
    ensures r.Some? && r.value.why == Full ==> r.value.carrier.previousSf == sf + 1 && r.value.carrier.remaining == 0
    // the capacity bookkeeping holds unless the FIFO is empty as written
    // (see `EmptyFifoOverbooks`)
    ensures r.Some? && (mode == Intended || |fifo.queue| > 0) ==>
              Used(env.frameSym, r.value) <= env.carrier.remaining + previousSym + Spent(env.frameSym, o.complete)
    ensures r.Some? && (mode == Intended || |fifo.queue| > 0) && previousSym == 0 ==>
              Used(env.frameSym, r.value) == env.carrier.remaining + Spent(env.frameSym, o.complete)
  {
    var c := env.carrier;
    var init := c.remaining;
    var pend := SchedulePending(s.pending, c.fmtIds, o.(capacity := init + previousSym), env.frameSym, env.maxOptions);
    var s1 := s.(pending := pend.0);
    var c1 := c.(previous := 0, previousSf := 0);
    var cap := Min(init, pend.1.capacity);
    var spent := Spent(env.frameSym, pend.1.complete);
    BudgetArith(init, previousSym, pend.1.capacity, spent, Spent(env.frameSym, o.complete), cap + spent);
    if DvbFifo.CurrentSize(fifo) == 0 then
      if mode == AsWritten then Some(Encap(fifo, s1, pend.1, c1, Emptied))
      else Some(Encap(fifo, s1, pend.1.(capacity := cap), c1.(remaining := cap), Emptied))
    else
      var r := LoopThenFinish(env, Run(fifo, s1, pend.1.(capacity := cap), None, 0), c1, sf);
      if r.Some? then
        PrefixOfPrefix(r.value.out.complete, pend.1.complete, o.complete);
        r
      else r
  }

  /** What a pass leaves the carrier, saves for the next superframe and
      spends on complete frames. */
  function Used(frameSym: map<nat, nat>, e: Encap): nat {
    e.carrier.remaining + e.carrier.previous + Spent(frameSym, e.out.complete)
  }

  /** The capacity left after the pending frames, capped at the carrier's
      remaining capacity, plus what they spent: at most what there was, and
      exactly the remaining capacity when nothing was saved. */
  lemma BudgetArith(init: nat, previous: nat, left: nat, spent: nat, spentBefore: nat, sum: nat)
    requires left + spent == init + previous + spentBefore && left <= init + previous
    requires sum == Min(init, left) + spent
    ensures sum <= init + previous + spentBefore
    ensures previous == 0 ==> sum == init + spentBefore
  {
  }

  /** A carrier with 100 symbols left, 50 more saved from the previous
      superframe, and a pending frame of 120 symbols; the FIFO is empty. */
  const ExampleCarrier: Carrier := Carrier([1], x => x, 100, 100, 0, 0)
  const ExampleEnv: Env := Env(map[], 0, ExampleCarrier, map[1 := 120], map[], 0, true,
                               (p, n) => Chunk(false, None, None), 0)
  const ExampleSched: Sched := Sched(map[], [], [BBFrame(1, 4026, 4026, [])])

  /** As written, the pending frame is sent with 120 of the 150 symbols,
      but the carrier still reports its 100 symbols: the next FIFO on this
      carrier may spend symbols that were already used. */
  lemma EmptyFifoOverbooks()
    ensures var r := ScheduleEncapPackets(AsWritten, ExampleEnv, DvbFifo.New(0, "EF", "NONE", 0, 10, 0),
                                          ExampleSched, Out([], 0, []), 50, 7);
            && r.Some? && r.value.carrier.remaining == 100
            && Spent(ExampleEnv.frameSym, r.value.out.complete) == 120
            && r.value.carrier.remaining + Spent(ExampleEnv.frameSym, r.value.out.complete) > 100 + 50
  {
    var r := ScheduleEncapPackets(AsWritten, ExampleEnv, DvbFifo.New(0, "EF", "NONE", 0, 10, 0),
                                  ExampleSched, Out([], 0, []), 50, 7);
    var sent := BBFrame(1, 4026, 4026, []);
    assert r.value.out.complete == [sent];
    assert Spent(ExampleEnv.frameSym, [sent]) == 120 by {
      assert [sent][..0] == [];
    }
  }

  /** With the remaining capacity written back, the same call leaves the 30
      symbols the pending frame did not use. */
  lemma EmptyFifoIntended()
    ensures var r := ScheduleEncapPackets(Intended, ExampleEnv, DvbFifo.New(0, "EF", "NONE", 0, 10, 0),
                                          ExampleSched, Out([], 0, []), 50, 7);
            r.Some? && r.value.carrier.remaining == 30
  {
  }

  // ---------------------------------------------------------------------
  // schedule: which carriers serve a FIFO, and capacity bookkeeping
  // ---------------------------------------------------------------------

  /** The access type of a FIFO. */
  datatype Access = Acm | Vcm | OtherAccess

  /** The visit of one carriers group with `n` VCM carriers, from carrier
      `j` on, with VCM counter `v`: the carriers the FIFO is scheduled on,
      and the counter after the group. A group of at most one carrier serves
      ACM FIFOs only; a larger one serves only the VCM FIFO whose VCM id is
      the counter's value, and the counter moves past each carrier until it
      is past the FIFO's id. */
  function GroupTargets(access: Access, vcmId: nat, g: nat, n: nat, j: nat, v: nat): (r: (seq<(nat, nat)>, nat))
    requires j <= n
    ensures r.1 >= v
    ensures n >= 2 && access == Vcm ==> r.1 == (if vcmId < v then v else if vcmId < v + (n - j) then vcmId + 1 else v + (n - j))
    ensures n < 2 || access != Vcm ==> r.1 == v
    ensures forall t :: t in r.0 ==> t.0 == g && j <= t.1 < n
    decreases n - j
  {
    if j == n then ([], v)
    else if n <= 1 then
      if access != Acm then ([], v)
      else
        var rest := GroupTargets(access, vcmId, g, n, j + 1, v);
        ([(g, j)] + rest.0, rest.1)
    else if access != Vcm || vcmId < v then ([], v)
    else if vcmId != v then GroupTargets(access, vcmId, g, n, j + 1, v + 1)
    else
      var rest := GroupTargets(access, vcmId, g, n, j + 1, v + 1);
      ([(g, j)] + rest.0, rest.1)
  }

  /** The carriers `schedule` runs `scheduleEncapPackets` on for one FIFO,
      as (group, carrier) pairs in visiting order, from group `g` on with
      VCM counter `v`; `groups[g]` is the number of VCM carriers of group
      `g`. The counter is shared by all groups. */
  function TargetsFrom(access: Access, vcmId: nat, groups: seq<nat>, g: nat, v: nat): (r: seq<(nat, nat)>)
    requires g <= |groups|
    ensures forall t :: t in r ==> g <= t.0 < |groups| && t.1 < groups[t.0]
    decreases |groups| - g
  {
    if g == |groups| then []
    else
      var here := GroupTargets(access, vcmId, g, groups[g], 0, v);
      here.0 + TargetsFrom(access, vcmId, groups, g + 1, here.1)
  }

  function Targets(access: Access, vcmId: nat, groups: seq<nat>): seq<(nat, nat)> {
    TargetsFrom(access, vcmId, groups, 0, 0)
  }

  /** The number of carriers of the VCM groups (groups of two or more
      carriers) before group `g`: the VCM index of group `g`'s first carrier. */
  function VcmBase(groups: seq<nat>, g: nat): nat
    requires g <= |groups|
  {
    if g == 0 then 0 else VcmBase(groups, g - 1) + (if groups[g - 1] >= 2 then groups[g - 1] else 0)
  }

  lemma {:induction false} GroupTargetsVcm(vcmId: nat, g: nat, n: nat, j: nat, v: nat)
    requires 2 <= n && j <= n
    ensures var r := GroupTargets(Vcm, vcmId, g, n, j, v);
            && |r.0| <= 1
            && forall t :: t in r.0 <==> t.0 == g && j <= t.1 < n && v <= vcmId && t.1 - j == vcmId - v
    decreases n - j
  {
    if j < n && v <= vcmId {
      GroupTargetsVcm(vcmId, g, n, j + 1, v + 1);
    }
  }

  lemma {:induction false} GroupTargetsOther(access: Access, vcmId: nat, g: nat, n: nat, j: nat, v: nat)
    requires j <= n && access != Vcm
    ensures forall t :: t in GroupTargets(access, vcmId, g, n, j, v).0 <==> access == Acm && n == 1 && j == 0 && t == (g, 0)
    decreases n - j
  {
    if j < n && n <= 1 && access == Acm {
      GroupTargetsOther(access, vcmId, g, n, j + 1, v);
    }
  }

  lemma {:induction false} VcmPastIdEmpty(vcmId: nat, groups: seq<nat>, g: nat, v: nat)
    requires g <= |groups| && v > vcmId
    ensures TargetsFrom(Vcm, vcmId, groups, g, v) == []
    decreases |groups| - g
  {
    if g < |groups| {
      if groups[g] >= 2 {
        GroupTargetsVcm(vcmId, g, groups[g], 0, v);
      } else {
        GroupTargetsOther(Acm, vcmId, g, groups[g], 0, v);
        assert GroupTargets(Vcm, vcmId, g, groups[g], 0, v).0 == [];
      }
      VcmPastIdEmpty(vcmId, groups, g + 1, v);
    }
  }

  /** The counter after group `g` is again the VCM index of the next group,
      capped just past the FIFO's VCM id. */
  lemma GroupTargetsNext(vcmId: nat, groups: seq<nat>, g: nat, v: nat)
    requires g < |groups| && v == Min(VcmBase(groups, g), vcmId + 1)
    ensures GroupTargets(Vcm, vcmId, g, groups[g], 0, v).1 == Min(VcmBase(groups, g + 1), vcmId + 1)
  {
  }

  /** A VCM FIFO is scheduled on at most one carrier. */
  lemma {:induction false} TargetsFromVcmOne(vcmId: nat, groups: seq<nat>, g: nat, v: nat)
    requires g <= |groups| && v == Min(VcmBase(groups, g), vcmId + 1)
    ensures |TargetsFrom(Vcm, vcmId, groups, g, v)| <= 1
    decreases |groups| - g
  {
    if g < |groups| {
      var n := groups[g];
      var here := GroupTargets(Vcm, vcmId, g, n, 0, v);
      if n >= 2 {
        GroupTargetsVcm(vcmId, g, n, 0, v);
      } else {
        GroupTargetsOther(Acm, vcmId, g, n, 0, v);
        assert here.0 == [];
      }
      GroupTargetsNext(vcmId, groups, g, v);
      TargetsFromVcmOne(vcmId, groups, g + 1, here.1);
      if |here.0| > 0 {
        assert here.0[0] in here.0;
        VcmPastIdEmpty(vcmId, groups, g + 1, here.1);
      }
    }
  }

  /** The carrier a VCM FIFO is scheduled on is the one whose index among
      the carriers of VCM groups, counted across groups, is the FIFO's VCM
      id. */
  lemma {:induction false} TargetsFromVcm(vcmId: nat, groups: seq<nat>, g: nat, v: nat)
    requires g <= |groups| && v == Min(VcmBase(groups, g), vcmId + 1)
    ensures forall t :: t in TargetsFrom(Vcm, vcmId, groups, g, v) <==>
                          && g <= t.0 < |groups| && groups[t.0] >= 2 && t.1 < groups[t.0]
                          && VcmBase(groups, t.0) + t.1 == vcmId
    decreases |groups| - g
  {
    if g < |groups| {
      var n := groups[g];
      var here := GroupTargets(Vcm, vcmId, g, n, 0, v);
      var rest := TargetsFrom(Vcm, vcmId, groups, g + 1, here.1);
      assert TargetsFrom(Vcm, vcmId, groups, g, v) == here.0 + rest;
      if n >= 2 {
        GroupTargetsVcm(vcmId, g, n, 0, v);
      } else {
        GroupTargetsOther(Acm, vcmId, g, n, 0, v);
        assert here.0 == [];
      }
      GroupTargetsNext(vcmId, groups, g, v);
      TargetsFromVcm(vcmId, groups, g + 1, here.1);
      forall t | t in rest
        ensures VcmBase(groups, t.0) >= VcmBase(groups, g + 1)
      {
        VcmBaseGrows(groups, g + 1, t.0);
      }
    }
  }

  lemma {:induction false} VcmBaseGrows(groups: seq<nat>, a: nat, b: nat)
    requires a <= b <= |groups|
    ensures VcmBase(groups, a) <= VcmBase(groups, b)
    decreases b - a
  {
    if a < b {
      VcmBaseGrows(groups, a, b - 1);
    }
  }

  /** An ACM FIFO is scheduled on every group that has a single carrier; a
      FIFO of any other access type on none. */
  lemma {:induction false} TargetsFromOther(access: Access, vcmId: nat, groups: seq<nat>, g: nat, v: nat)
    requires g <= |groups| && access != Vcm
    ensures forall t :: t in TargetsFrom(access, vcmId, groups, g, v) <==>
                          access == Acm && g <= t.0 < |groups| && groups[t.0] == 1 && t.1 == 0
    decreases |groups| - g
  {
    if g < |groups| {
      GroupTargetsOther(access, vcmId, g, groups[g], 0, v);
      TargetsFromOther(access, vcmId, groups, g + 1, GroupTargets(access, vcmId, g, groups[g], 0, v).1);
    }
  }

  /** The carriers `schedule` serves a FIFO from, described without the
      loop: for ACM the single-carrier groups, for VCM the one carrier whose
      VCM index is the FIFO's VCM id, otherwise none. */
  lemma TargetsSpec(access: Access, vcmId: nat, groups: seq<nat>)
    ensures access == Vcm ==> |Targets(access, vcmId, groups)| <= 1
    ensures forall t :: t in Targets(access, vcmId, groups) <==>
              && t.0 < |groups|
              && (access == Acm ==> groups[t.0] == 1 && t.1 == 0)
              && (access == Vcm ==> groups[t.0] >= 2 && t.1 < groups[t.0] && VcmBase(groups, t.0) + t.1 == vcmId)
              && access != OtherAccess
  {
    if access == Vcm {
      TargetsFromVcmOne(vcmId, groups, 0, 0);
      TargetsFromVcm(vcmId, groups, 0, 0);
    } else {
      TargetsFromOther(access, vcmId, groups, 0, 0);
    }
  }

  /** The total of the remaining capacities of a list of carriers. */
  function SumRemaining(cs: seq<Carrier>): nat {
    if |cs| == 0 then 0 else cs[0].remaining + SumRemaining(cs[1..])
  }

  function SumTotal(cs: seq<Carrier>): nat {
    if |cs| == 0 then 0 else cs[0].total + SumTotal(cs[1..])
  }

  /** The first loop of `schedule`: each carrier's remaining capacity grows
      by its total capacity for the frame. */
  function InitCapacities(cs: seq<Carrier>): (r: seq<Carrier>)
    ensures |r| == |cs|
    ensures forall i :: 0 <= i < |cs| ==> r[i] == cs[i].(remaining := cs[i].total + cs[i].remaining)
  {
    if |cs| == 0 then [] else [cs[0].(remaining := cs[0].total + cs[0].remaining)] + InitCapacities(cs[1..])
  }

  /** The last loop of `schedule`: every carrier's remaining capacity is
      added to the 32-bit `remaining_allocation`, then set to 0. */
  function FinishCapacities(cs: seq<Carrier>, alloc: nat): (r: (seq<Carrier>, nat))
    requires IsU32(alloc)
    ensures r.1 == ToU32(alloc + SumRemaining(cs))
    ensures |r.0| == |cs| && SumRemaining(r.0) == 0
    ensures forall i :: 0 <= i < |cs| ==> r.0[i] == cs[i].(remaining := 0)
  {
    if |cs| == 0 then ([], alloc)
    else
      var rest := FinishCapacities(cs[1..], ToU32(alloc + cs[0].remaining));
      ToU32Shift(alloc + cs[0].remaining, SumRemaining(cs[1..]));
      ([cs[0].(remaining := 0)] + rest.0, rest.1)
  }

  /** When no carrier sends anything, the allocation `schedule` reports as
      remaining is all the capacity it made available. */
  lemma {:induction false} IdleFrameReportsAll(cs: seq<Carrier>, alloc: nat)
    requires IsU32(alloc)
    ensures FinishCapacities(InitCapacities(cs), alloc).1 == ToU32(alloc + SumTotal(cs) + SumRemaining(cs))
  {
    InitSums(cs);
  }

  lemma {:induction false} InitSums(cs: seq<Carrier>)
    ensures SumRemaining(InitCapacities(cs)) == SumTotal(cs) + SumRemaining(cs)
  {
    if |cs| > 0 {
      InitSums(cs[1..]);
      assert InitCapacities(cs)[1..] == InitCapacities(cs[1..]);
    }
  }
}

=== FILE: mac_fifo_element.dfy ===
/** A MAC FIFO element (opensand-core/src/dvb_rcs/utils/MacFifoElement.cpp):
    either a DVB frame (type 0) or a network packet (type 1), with the clock
    ticks at which it entered the FIFO and may leave it. The frame and the
    packet are pointers; `None` stands for NULL. */
module MacFifoElement {
  import opened Wrappers

  /** The lengths of a DVB frame the FIFO code reads. */
  datatype Frame = Frame(totalLength: nat, dataLength: nat)

  /** The parts of an encapsulation packet the MAC layer reads: its total
      length and its destination terminal. */
  datatype Packet = Packet(totalLength: nat, dstTal: nat)

  datatype Element = Element(kind: int, frame: Option<Frame>, packet: Option<Packet>, tickIn: int, tickOut: int)

  const FrameType: int := 0
  const PacketType: int := 1

  /** The frame constructor. */
  function FromFrame(frame: Option<Frame>, tickIn: int, tickOut: int): (e: Element)
    ensures e.kind == FrameType && e.packet == None && e.frame == frame
  {
    Element(FrameType, frame, None, tickIn, tickOut)
  }

  /** The packet constructor. */
  function FromPacket(packet: Option<Packet>, tickIn: int, tickOut: int): (e: Element)
    ensures e.kind == PacketType && e.frame == None && e.packet == packet
  {
    Element(PacketType, None, packet, tickIn, tickOut)
  }

  /** `getTotalLength`: the length of whichever payload the type names, 0
      for any other type. `None` where the code would dereference NULL. */
  function TotalLength(e: Element): (r: Option<nat>)
    ensures e.kind != FrameType && e.kind != PacketType ==> r == Some(0)
    ensures e.kind == FrameType ==> (r.Some? <==> e.frame.Some?)
    ensures e.kind == FrameType && e.frame.Some? ==> r == Some(e.frame.value.totalLength)
    ensures e.kind == PacketType ==> (r.Some? <==> e.packet.Some?)
    ensures e.kind == PacketType && e.packet.Some? ==> r == Some(e.packet.value.totalLength)
  {
    if e.kind == FrameType then
      if e.frame.Some? then Some(e.frame.value.totalLength) else None
    else if e.kind == PacketType then
      if e.packet.Some? then Some(e.packet.value.totalLength) else None
    else Some(0)
  }

  /** `setPacket`: replaces the packet pointer and nothing else. */
  function SetPacket(e: Element, packet: Option<Packet>): (r: Element)
    ensures r.packet == packet
    ensures r.kind == e.kind && r.frame == e.frame && r.tickIn == e.tickIn && r.tickOut == e.tickOut
  {
    e.(packet := packet)
  }

  /** The getters give back what the constructors were given, and the total
      length is the length of the payload the constructor received. */
  lemma ConstructorsAndGetters(f: Frame, p: Packet, tickIn: int, tickOut: int)
    ensures TotalLength(FromFrame(Some(f), tickIn, tickOut)) == Some(f.totalLength)
    ensures TotalLength(FromPacket(Some(p), tickIn, tickOut)) == Some(p.totalLength)
    ensures FromFrame(Some(f), tickIn, tickOut).tickIn == tickIn
    ensures FromFrame(Some(f), tickIn, tickOut).tickOut == tickOut
    ensures FromPacket(Some(p), tickIn, tickOut).tickIn == tickIn
    ensures FromPacket(Some(p), tickIn, tickOut).tickOut == tickOut
  {
  }

  /** Setting the packet of a frame element does not change its length, and
      setting the packet of a packet element makes the new packet's length
      the element's length. */
  lemma SetPacketLength(e: Element, p: Packet)
    ensures e.kind == FrameType ==> TotalLength(SetPacket(e, Some(p))) == TotalLength(e)
    ensures e.kind == PacketType ==> TotalLength(SetPacket(e, Some(p))) == Some(p.totalLength)
  {
  }
}

=== FILE: mode.dfy ===
/** Where the code as it stands differs from what its authors evidently
    intended, an operation takes a `Mode`: `AsWritten` follows the code,
    `Intended` the corrected behaviour. */
module ModelMode {
  datatype Mode = AsWritten | Intended
}

=== FILE: routes.dfy ===
/** The daemon's route manager (opensand-daemon/opensand_daemon/routes.py).

    The manager keeps two tables, host -> (prefix, gateway), one per address
    family, and the flags `started`, `initialized`, `unused` and `is_ws`. It
    installs the kernel routes of the hosts in its own gateway group when the
    platform starts, and removes them when it stops. It also keeps a snapshot
    of the tables on disk, so that a restarted daemon knows what is installed.

    The kernel is a set of installed routes. Each call into the netlink layer
    takes its result from a sequence of outcomes (`outs`). The snapshot file is
    a `RouteFile` value and the topology is an input map. The route lock is a
    flag: an operation that finds it held blocks forever (`Blocked`). An
    exception that escapes without the `release()` call leaves it held. */
module Routes {
  import opened Wrappers
  import opened OpenSandCore
  import opened ModelMode

  /** One table value: the normalised prefix "network/prefixlen" and the
      optional gateway. */
  datatype Entry = Entry(prefix: string, gw: Option<string>)

  /** A table maps a host name to an entry. After a reload the entry can be
      `None`: the snapshot stores `None` for a family the host had no entry in. */
  type Table = map<string, Option<Entry>>

  type Snapshot = map<string, (Option<Entry>, Option<Entry>)>

  /** The snapshot file as `load` finds it: missing or unreadable, empty,
      unpicklable, or holding a pickled snapshot. */
  datatype RouteFile = NoFile | EmptyFile | CorruptFile | Pickled(snap: Snapshot)

  /** Exceptions that can leave an operation. */
  datatype Exc = NlErrorExc | KeyErrorExc | TypeErrorExc

  datatype Status = Done | Raised(exc: Exc) | Blocked

  /** What one netlink add or delete reports. */
  datatype NlOutcome = NlOk | NlExists | NlMissing | NlError

  /** The source writes `except KeyError, TypeError:`. In Python 2 this catches
      `KeyError` only and binds it to the name `TypeError`. `AsWritten` models
      that. `Intended` also treats a `None` table entry as absent, which is what
      a tuple `except (KeyError, TypeError):` would do. */

  /** The two tables and the kernel routes: the part of the state the netlink
      helpers change. */
  datatype RouteState = RouteState(v4: Table, v6: Table, kernel: set<Entry>)

  datatype Daemon = Daemon(
    name: string,
    instance: string,
    iface: string,
    rs: RouteState,
    started: bool,
    initialized: bool,
    unused: bool,
    isWs: bool,
    file: RouteFile,
    lockHeld: bool)

  /** The state after an operation, the netlink outcomes not yet consumed, and
      how the operation ended. */
  datatype Step = Step(d: Daemon, outs: seq<NlOutcome>, status: Status)

  /** The same for the netlink helpers, which only see the route state. */
  datatype RStep = RStep(rs: RouteState, outs: seq<NlOutcome>, status: Status)

  /** The class attributes before any `load`. */
  const Fresh: Daemon :=
    Daemon("", "", "", RouteState(map[], map[], {}), false, false, true, false, NoFile, false)

  /* ---------------------------------------------------------------------- */
  /* Helpers                                                                 */

  /** The hosts present in either table. */
  function Hosts(rs: RouteState): set<string> {
    rs.v4.Keys + rs.v6.Keys
  }

  /** The entry a serialisation records for `h`: absent keys and `None` values
      both read as `None`. */
  function Get(t: Table, h: string): Option<Entry> {
    if h in t then t[h] else None
  }

  /** Python truthiness of the prefix handed to the netlink layer. */
  predicate Truthy(r: Option<Entry>) {
    r.Some? && r.value.prefix != ""
  }

  /** The routes an entry installs: its own route when truthy, else none. */
  function Installed(r: Option<Entry>): set<Entry> {
    if Truthy(r) then {r.value} else {}
  }

  function Head(outs: seq<NlOutcome>): NlOutcome {
    if |outs| == 0 then NlOk else outs[0]
  }

  function Tail(outs: seq<NlOutcome>): seq<NlOutcome> {
    if |outs| == 0 then [] else outs[1..]
  }

  /** `order` lists every element of `s` exactly once (Python's iteration order
      over a set). */
  ghost predicate IsEnumeration(order: seq<string>, s: set<string>) {
    && (forall i, j :: 0 <= i < j < |order| ==> order[i] != order[j])
    && (forall h :: h in order <==> h in s)
  }

  function LowerChar(c: char): char {
    if 'A' <= c <= 'Z' then (c as int - 'A' as int + 'a' as int) as char else c
  }

  /** ASCII `str.lower()`. */
  function Lower(s: string): (r: string)
    ensures |r| == |s|
    ensures forall i :: 0 <= i < |s| ==> r[i] == LowerChar(s[i])
  {
    if |s| == 0 then [] else [LowerChar(s[0])] + Lower(s[1..])
  }

  /** A parsed network: its network address text and its prefix length.
      Masking the address is the `ipaddr` library's job and is not modelled. */
  datatype Net = Net(network: string, prefixLen: nat)

  /** The normalised prefix "network/prefixlen" stored by `add_distant_host`;
      never empty, so the routes it names are always handed to the kernel. */
  function Prefix(n: Net): (p: string)
    ensures |p| > |n.network| && p[..|n.network|] == n.network && p[|n.network|] == '/'
  {
    assert (n.network + "/" + Decimal(n.prefixLen))[..|n.network|] == n.network;
    n.network + "/" + Decimal(n.prefixLen)
  }

  /* ---------------------------------------------------------------------- */
  /* Host ids and gateway groups                                             */

  /** Index of the first digit of `s`, or `|s|` when there is none. */
  function FirstDigit(s: string): (i: nat)
    ensures i <= |s|
    ensures forall j :: 0 <= j < i ==> !IsDigit(s[j])
    ensures i < |s| ==> IsDigit(s[i])
  {
    if |s| == 0 || IsDigit(s[0]) then 0 else 1 + FirstDigit(s[1..])
  }

  /** The group `^(?:[^0-9]*)([0-9]*)` captures: the digits that follow the
      non-digit prefix of the host name. The pattern always matches, so the
      result can be empty but never missing, and no other run of digits
      fits the pattern. */
  function HostId(host: string): (k: string)
    ensures exists i :: CapturedAt(host, k, i)
    ensures AllDigits(k)
    ensures forall k', i :: CapturedAt(host, k', i) && AllDigits(k') ==> k' == k
  {
    var i := FirstDigit(host);
    var n := DigitRun(host[i..]);
    assert host[i..i + n] == host[i..][..n];
    assert CapturedAt(host, host[i..i + n], i);
    host[i..i + n]
  }

  predicate AllDigits(k: string) {
    forall j :: 0 <= j < |k| ==> IsDigit(k[j])
  }

  /** `k` sits at offset `i` of `host`, right after the whole run of
      non-digits that starts the name (so at its end or at a digit), and
      is not followed by a digit. */
  predicate CapturedAt(host: string, k: string, i: int) {
    && 0 <= i <= |host| - |k| && host[i..i + |k|] == k
    && (forall j :: 0 <= j < i ==> !IsDigit(host[j]))
    && (i == |host| || IsDigit(host[i]))
    && (i + |k| < |host| ==> !IsDigit(host[i + |k|]))
  }

  /** A gateway id: the text of an XML attribute, or the integer 0 used when no
      default gateway is configured. Python compares `"0"` and `0` as unequal. */
  datatype GwId = GwName(id: string) | GwZero

  type Topology = map<string, GwId>

  /** The gateway of `key`, falling back to the entry "*". */
  function GroupOf(topo: Topology, key: string): (r: Result<GwId, Exc>)
    ensures key in topo ==> r == Success(topo[key])
    ensures key !in topo && "*" in topo ==> r == Success(topo["*"])
    ensures r.Failure? <==> key !in topo && "*" !in topo
  {
    if key in topo then Success(topo[key])
    else if "*" in topo then Success(topo["*"])
    else Failure(KeyErrorExc)
  }

  predicate InGroup(topo: Topology, curr: GwId, h: string) {
    GroupOf(topo, HostId(h)) == Success(curr)
  }

  /** The children of the `gw_table` element of the topology file. */
  datatype GwChild = DefaultGw(text: Option<string>) | Gw(id: string, tals: seq<string>) | OtherTag

  predicate Mentions(c: GwChild, k: string) {
    c.Gw? && (k == c.id || k in c.tals)
  }

  function AddTals(tals: seq<string>, gw: string, m: Topology): (r: Topology)
    ensures r.Keys == m.Keys + set t | t in tals
    ensures forall k :: k in tals ==> r[k] == GwName(gw)
    ensures forall k :: k in m && k !in tals ==> r[k] == m[k]
    decreases |tals|
  {
    if |tals| == 0 then m else AddTals(tals[1..], gw, m[tals[0] := GwName(gw)])
  }

  /** One `gw` child: the gateway maps to itself, then each of its terminals
      maps to it. */
  function ApplyChild(c: GwChild, m: Topology): (r: Topology)
    ensures forall k :: Mentions(c, k) ==> k in r && r[k] == GwName(c.id)
    ensures forall k :: !Mentions(c, k) ==> (k in r <==> k in m)
    ensures forall k :: !Mentions(c, k) && k in m ==> r[k] == m[k]
  {
    if c.Gw? then AddTals(c.tals, c.id, m[c.id := GwName(c.id)]) else m
  }

  /** The terminal -> gateway map and the default gateway text found so far. */
  function ScanTable(children: seq<GwChild>, m: Topology, def: Option<string>): (Topology, Option<string>)
    decreases |children|
  {
    if |children| == 0 then (m, def)
    else
      var c := children[0];
      var def' := if c.DefaultGw? then c.text else def;
      ScanTable(children[1..], ApplyChild(c, m), def')
  }

  /** `get_all_gw_by_tal`. `None` is a topology without a `gw_table`, for
      which the source returns the list `[]`. */
  function GwByTal(table: Option<seq<GwChild>>): (r: Option<Topology>)
    ensures table.None? <==> r.None?
    ensures r.Some? ==> "*" in r.value
  {
    if table.None? then None
    else
      var (m, def) := ScanTable(table.value, map[], None);
      Some(m["*" := if def.Some? then GwName(def.value) else GwZero])
  }

  lemma {:induction false} ScanTableKeeps(children: seq<GwChild>, m: Topology, def: Option<string>, k: string)
    requires forall j :: 0 <= j < |children| ==> !Mentions(children[j], k)
    ensures k in ScanTable(children, m, def).0 <==> k in m
    ensures k in m ==> ScanTable(children, m, def).0[k] == m[k]
    decreases |children|
  {
    if |children| > 0 {
      var c := children[0];
      assert !Mentions(c, k);
      ScanTableKeeps(children[1..], ApplyChild(c, m), if c.DefaultGw? then c.text else def, k);
    }
  }

  lemma {:induction false} ScanTableLastWins(children: seq<GwChild>, m: Topology, def: Option<string>, i: nat, k: string)
    requires i < |children| && Mentions(children[i], k)
    requires forall j :: i < j < |children| ==> !Mentions(children[j], k)
    ensures k in ScanTable(children, m, def).0
    ensures ScanTable(children, m, def).0[k] == GwName(children[i].id)
    decreases |children|
  {
    var c := children[0];
    var def' := if c.DefaultGw? then c.text else def;
    if i == 0 {
      ScanTableKeeps(children[1..], ApplyChild(c, m), def', k);
    } else {
      ScanTableLastWins(children[1..], ApplyChild(c, m), def', i - 1, k);
    }
  }

  lemma {:induction false} ScanTableDefault(children: seq<GwChild>, m: Topology, def: Option<string>, i: nat)
    requires i < |children| && children[i].DefaultGw?
    requires forall j :: i < j < |children| ==> !children[j].DefaultGw?
    ensures ScanTable(children, m, def).1 == children[i].text
    decreases |children|
  {
    var c := children[0];
    var def' := if c.DefaultGw? then c.text else def;
    if i == 0 {
      ScanTableNoDefault(children[1..], ApplyChild(c, m), def');
    } else {
      ScanTableDefault(children[1..], ApplyChild(c, m), def', i - 1);
    }
  }

  lemma {:induction false} ScanTableNoDefault(children: seq<GwChild>, m: Topology, def: Option<string>)
    requires forall j :: 0 <= j < |children| ==> !children[j].DefaultGw?
    ensures ScanTable(children, m, def).1 == def
    decreases |children|
  {
    if |children| > 0 {
      ScanTableNoDefault(children[1..], ApplyChild(children[0], m), def);
    }
  }

  /** The topology map: each gateway id maps to itself and each terminal to
      its gateway, the last mention in the file winning; "*" maps to the text
      of the last `default_gw` element, or to the integer 0 when there is none. */
  lemma GwByTalMapsMentions(children: seq<GwChild>, i: nat, k: string)
    requires i < |children| && Mentions(children[i], k) && k != "*"
    requires forall j :: i < j < |children| ==> !Mentions(children[j], k)
    ensures k in GwByTal(Some(children)).value
    ensures GwByTal(Some(children)).value[k] == GwName(children[i].id)
  {
    ScanTableLastWins(children, map[], None, i, k);
  }

  lemma GwByTalUnmentioned(children: seq<GwChild>, k: string)
    requires k != "*"
    requires forall j :: 0 <= j < |children| ==> !Mentions(children[j], k)
    ensures k !in GwByTal(Some(children)).value
  {
    ScanTableKeeps(children, map[], None, k);
  }

  lemma GwByTalDefault(children: seq<GwChild>)
    ensures (forall j :: 0 <= j < |children| ==> !children[j].DefaultGw?) ==>
      GwByTal(Some(children)).value["*"] == GwZero
    ensures forall i :: (0 <= i < |children| && children[i].DefaultGw? && children[i].text.Some?
                         && (forall j :: i < j < |children| ==> !children[j].DefaultGw?)) ==>
                           GwByTal(Some(children)).value["*"] == GwName(children[i].text.value)
  {
    if forall j :: 0 <= j < |children| ==> !children[j].DefaultGw? {
      ScanTableNoDefault(children, map[], None);
    }
    forall i | 0 <= i < |children| && children[i].DefaultGw? && children[i].text.Some?
      && (forall j :: i < j < |children| ==> !children[j].DefaultGw?)
      ensures GwByTal(Some(children)).value["*"] == GwName(children[i].text.value)
    {
      ScanTableDefault(children, map[], None, i);
    }
  }

  /* ---------------------------------------------------------------------- */
  /* Serialisation and loading                                               */

  /** The snapshot `serialize` builds: one pair per host, with `None` for a
      family the host has no (or a `None`) entry in. */
  function SnapshotOf(rs: RouteState): (s: Snapshot)
    ensures s.Keys == Hosts(rs)
    ensures forall h :: h in s ==> s[h] == (Get(rs.v4, h), Get(rs.v6, h))
  {
    map h | h in Hosts(rs) :: (Get(rs.v4, h), Get(rs.v6, h))
  }

  /** `serialize`: writes nothing when unused, for a workstation, or when both
      tables are empty; otherwise replaces the file by the snapshot. Write
      errors are only logged by the source and are not modelled. */
  function Serialize(d: Daemon): (r: Daemon)
    ensures r == d.(file := r.file)
    ensures d.unused || d.isWs || Hosts(d.rs) == {} ==> r.file == d.file
    ensures !d.unused && !d.isWs && Hosts(d.rs) != {} ==> r.file == Pickled(SnapshotOf(d.rs))
  {
    if d.unused || d.isWs then d
    else
      var s := SnapshotOf(d.rs);
      if |s| == 0 then d else d.(file := Pickled(s))
  }

  /** The tables after merging a snapshot: each snapshot host gets the
      snapshot's pair, other hosts keep theirs. */
  function Merge(rs: RouteState, s: Snapshot): (r: RouteState)
    ensures Hosts(r) == Hosts(rs) + s.Keys && r.kernel == rs.kernel
    ensures forall h :: h in s ==> Get(r.v4, h) == s[h].0 && Get(r.v6, h) == s[h].1
    ensures forall h :: h !in s ==> Get(r.v4, h) == Get(rs.v4, h) && Get(r.v6, h) == Get(rs.v6, h)
  {
    var m4: Table := map h | h in s :: s[h].0;
    var m6: Table := map h | h in s :: s[h].1;
    assert m4.Keys == s.Keys && m6.Keys == s.Keys;
    rs.(v4 := rs.v4 + m4, v6 := rs.v6 + m6)
  }

  /** `load`: takes the route lock, then records the (lower-cased) name, the
      instance, the interface and the workstation flag and merges a readable
      snapshot into the tables. An empty file means stopped; a missing or
      corrupt file leaves `started` as it was. A workstation is always
      started. The manager is afterwards initialised and in use. With the
      lock already held the call blocks: it is `Blocked` and nothing
      changes. */
  function Load(d: Daemon, file: RouteFile, name: string, iface: string, isWs: bool, instance: string): (res: (Daemon, Status))
    ensures d.lockHeld ==> res == (d, Blocked)
    ensures !d.lockHeld ==> res.1 == Done
    ensures var r := res.0; !d.lockHeld ==>
      && r.name == Lower(name) && r.instance == instance && r.isWs == isWs && r.iface == iface
      && r.initialized && !r.unused
      && (isWs ==> r.started)
      && (!isWs && file.Pickled? ==> r.started)
      && (!isWs && file.EmptyFile? ==> !r.started)
      && (!isWs && (file.NoFile? || file.CorruptFile?) ==> r.started == d.started)
      && (!file.Pickled? ==> r.rs == d.rs)
      && r.file == d.file && !r.lockHeld
    ensures var r := res.0; !d.lockHeld && file.Pickled? ==>
      && Hosts(r.rs) == Hosts(d.rs) + file.snap.Keys && r.rs.kernel == d.rs.kernel
      && (forall h :: h in file.snap ==> Get(r.rs.v4, h) == file.snap[h].0 && Get(r.rs.v6, h) == file.snap[h].1)
      && (forall h :: h !in file.snap ==> Get(r.rs.v4, h) == Get(d.rs.v4, h) && Get(r.rs.v6, h) == Get(d.rs.v6, h))
  {
    if d.lockHeld then (d, Blocked)
    else
      var rs := if file.Pickled? then Merge(d.rs, file.snap) else d.rs;
      var started := if file.Pickled? then true else if file.EmptyFile? then false else d.started;
      (d.(name := Lower(name), instance := instance, iface := iface, isWs := isWs, rs := rs,
          started := started || isWs, initialized := true, unused := false), Done)
  }

  /** `set_unused`: a satellite needs no routes. */
  function SetUnused(d: Daemon): (r: Daemon)
    ensures r.initialized && r.unused
    ensures r.(initialized := d.initialized, unused := d.unused) == d
  {
    d.(initialized := true, unused := true)
  }

  /** A snapshot written by `serialize` and read back by `load` restores what
      every host had in each family, reading a missing entry and a `None` entry
      alike, and the reloaded manager is started. */
  lemma SerializeLoadRoundTrip(d: Daemon, d0: Daemon, name: string, iface: string, instance: string)
    requires !d.unused && !d.isWs && Hosts(d.rs) != {}
    requires d0.rs.v4 == map[] && d0.rs.v6 == map[] && !d0.lockHeld
    ensures var r := Load(d0, Serialize(d).file, name, iface, false, instance).0;
      r.started && Hosts(r.rs) == Hosts(d.rs)
      && forall h :: Get(r.rs.v4, h) == Get(d.rs.v4, h) && Get(r.rs.v6, h) == Get(d.rs.v6, h)
  {
    var s := Serialize(d).file.snap;
    var r := Load(d0, Serialize(d).file, name, iface, false, instance).0;
    forall h ensures Get(r.rs.v4, h) == Get(d.rs.v4, h) && Get(r.rs.v6, h) == Get(d.rs.v6, h) {
      if h !in s {
        assert h !in Hosts(d.rs);
      }
    }
  }

  /** Reloading a snapshot turns a host known in one family only into a key
      with a `None` value in the other table. */
  lemma ReloadCreatesNoneEntry(d: Daemon, d0: Daemon, h: string, name: string, iface: string, instance: string)
    requires !d.unused && !d.isWs
    requires h in d.rs.v6 && h !in d.rs.v4 && !d0.lockHeld
    ensures var r := Load(d0, Serialize(d).file, name, iface, false, instance).0;
      h in r.rs.v4 && r.rs.v4[h] == None
  {
    assert h in Hosts(d.rs);
  }

  /* ---------------------------------------------------------------------- */
  /* Netlink calls                                                           */

  /** `add` on the IPv4 table (`v6` false) or the IPv6 one: "exists" is
      tolerated and counts as installed; any other failure deletes this
      family's entry and raises, or raises `KeyError` if there is none. */
  function AddFamily(rs: RouteState, outs: seq<NlOutcome>, host: string, v6: bool, r: Option<Entry>): (s: RStep)
    ensures s.status == Done || s.status == Raised(NlErrorExc) || s.status == Raised(KeyErrorExc)
    ensures s.status == Done ==> s.rs == rs.(kernel := rs.kernel + Installed(r))
    ensures s.status != Done ==> Truthy(r) && Head(outs) != NlOk && Head(outs) != NlExists && s.rs.kernel == rs.kernel
    ensures s.status == Raised(NlErrorExc) ==>
      if v6 then host in rs.v6 && s.rs == rs.(v6 := rs.v6 - {host})
      else host in rs.v4 && s.rs == rs.(v4 := rs.v4 - {host})
    ensures s.status == Raised(KeyErrorExc) ==> s.rs == rs && host !in (if v6 then rs.v6 else rs.v4)
    ensures s.outs == if Truthy(r) then Tail(outs) else outs
  {
    if !Truthy(r) then RStep(rs, outs, Done)
    else
      match Head(outs)
      case NlOk => RStep(rs.(kernel := rs.kernel + {r.value}), Tail(outs), Done)
      case NlExists => RStep(rs.(kernel := rs.kernel + {r.value}), Tail(outs), Done)
      case _ =>
        if v6 then
          if host in rs.v6 then RStep(rs.(v6 := rs.v6 - {host}), Tail(outs), Raised(NlErrorExc))
          else RStep(rs, Tail(outs), Raised(KeyErrorExc))
        else
          if host in rs.v4 then RStep(rs.(v4 := rs.v4 - {host}), Tail(outs), Raised(NlErrorExc))
          else RStep(rs, Tail(outs), Raised(KeyErrorExc))
  }

  /** `add_route` for a manager in use (every caller has already returned when
      unused). The local host `name` is purged from both tables and nothing is
      installed; for another host IPv4 is installed, then IPv6. */
  function AddRoute(rs: RouteState, outs: seq<NlOutcome>, name: string, host: string,
                    r4: Option<Entry>, r6: Option<Entry>): (s: RStep)
    ensures s.status != Blocked && s.status != Raised(TypeErrorExc)
    ensures rs.kernel <= s.rs.kernel <= rs.kernel + Installed(r4) + Installed(r6)
    ensures forall h :: h != host ==> Get(s.rs.v4, h) == Get(rs.v4, h) && Get(s.rs.v6, h) == Get(rs.v6, h)
    ensures s.rs.v4.Keys <= rs.v4.Keys && s.rs.v6.Keys <= rs.v6.Keys
  {
    if host == name then
      if host !in rs.v4 then RStep(rs, outs, Raised(KeyErrorExc))
      else if host !in rs.v6 then RStep(rs.(v4 := rs.v4 - {host}), outs, Raised(KeyErrorExc))
      else RStep(rs.(v4 := rs.v4 - {host}, v6 := rs.v6 - {host}), outs, Done)
    else
      var s4 := AddFamily(rs, outs, host, false, r4);
      if s4.status != Done then s4
      else AddFamily(s4.rs, s4.outs, host, true, r6)
  }

  /** `add_route` for the local host: both entries are deleted and nothing is
      installed; a missing entry raises `KeyError` (a missing IPv4 entry
      before the IPv6 one is looked at). */
  lemma AddRouteSelf(rs: RouteState, outs: seq<NlOutcome>, name: string, r4: Option<Entry>, r6: Option<Entry>)
    ensures var s := AddRoute(rs, outs, name, name, r4, r6);
      && s.rs.kernel == rs.kernel && s.outs == outs && name !in s.rs.v4
      && (s.status == Done <==> name in rs.v4 && name in rs.v6)
      && (s.status == Done ==> s.rs.v4 == rs.v4 - {name} && s.rs.v6 == rs.v6 - {name})
      && (name !in rs.v4 ==> s.rs == rs)
  {
  }

  /** `add_route` for another host: "exists" is tolerated per family. An IPv4
      error deletes only the IPv4 entry and raises before IPv6 is tried; an
      IPv6 error deletes only the IPv6 entry, IPv4 staying installed. */
  lemma AddRouteOther(rs: RouteState, outs: seq<NlOutcome>, name: string, host: string,
                      r4: Option<Entry>, r6: Option<Entry>)
    requires host != name
    ensures var s := AddRoute(rs, outs, name, host, r4, r6);
      && (s.status == Done <==>
            (Truthy(r4) ==> Head(outs) in {NlOk, NlExists})
            && (Truthy(r6) ==> Head(if Truthy(r4) then Tail(outs) else outs) in {NlOk, NlExists}))
      && (s.status == Done ==> s.rs == rs.(kernel := rs.kernel + Installed(r4) + Installed(r6)))
      && (Truthy(r4) && Head(outs) !in {NlOk, NlExists} && host in rs.v4 ==>
            s.status == Raised(NlErrorExc) && s.rs == rs.(v4 := rs.v4 - {host}) && s.outs == Tail(outs))
      && (Truthy(r4) && Head(outs) in {NlOk, NlExists} && Truthy(r6) && Head(Tail(outs)) !in {NlOk, NlExists}
          && host in rs.v6 ==>
            s.status == Raised(NlErrorExc)
            && s.rs == RouteState(rs.v4, rs.v6 - {host}, rs.kernel + {r4.value}))
  {
  }

  /** `delete` on one family: "missing" is tolerated and counts as removed;
      any other failure is reported. */
  function RemoveFamily(rs: RouteState, outs: seq<NlOutcome>, r: Option<Entry>): (s: RStep)
    ensures s.status == Done || s.status == Raised(NlErrorExc)
    ensures s.status == Done ==> s.rs == rs.(kernel := rs.kernel - Installed(r))
    ensures s.status != Done ==> s.rs == rs && Truthy(r) && Head(outs) != NlOk && Head(outs) != NlMissing
    ensures s.outs == if Truthy(r) then Tail(outs) else outs
  {
    if !Truthy(r) then RStep(rs, outs, Done)
    else
      match Head(outs)
      case NlOk => RStep(rs.(kernel := rs.kernel - {r.value}), Tail(outs), Done)
      case NlMissing => RStep(rs.(kernel := rs.kernel - {r.value}), Tail(outs), Done)
      case _ => RStep(rs, Tail(outs), Raised(NlErrorExc))
  }

  /** `remove_route` for a manager in use: the IPv6 deletion is attempted even
      when the IPv4 one failed (it runs in a `finally`), either failure raises
      `NlError`, and the tables are never touched. */
  function RemoveRoute(rs: RouteState, outs: seq<NlOutcome>, r4: Option<Entry>, r6: Option<Entry>): (s: RStep)
    ensures s.rs.v4 == rs.v4 && s.rs.v6 == rs.v6
    ensures rs.kernel - Installed(r4) - Installed(r6) <= s.rs.kernel <= rs.kernel
    ensures s.status == Done || s.status == Raised(NlErrorExc)
    ensures s.status == Done <==>
      (Truthy(r4) ==> Head(outs) in {NlOk, NlMissing})
      && (Truthy(r6) ==> Head(if Truthy(r4) then Tail(outs) else outs) in {NlOk, NlMissing})
    ensures s.status == Done ==> s.rs.kernel == rs.kernel - Installed(r4) - Installed(r6)
    // the IPv6 route is removed whatever happened to the IPv4 one
    ensures Truthy(r6) && Head(if Truthy(r4) then Tail(outs) else outs) in {NlOk, NlMissing} ==>
      r6.value !in s.rs.kernel
  {
    var s4 := RemoveFamily(rs, outs, r4);
    var s6 := RemoveFamily(s4.rs, s4.outs, r6);
    RStep(s6.rs, s6.outs, if s4.status == Done && s6.status == Done then Done else Raised(NlErrorExc))
  }

  /** The entry `setup_routes`, `remove_routes` and `remove_distant_host` read
      for a host: absent gives `None`; a `None` value raises `TypeError` in the
      code as written (the subscript `None[0]`). */
  function HostEntry(mode: Mode, t: Table, h: string): (r: Result<Option<Entry>, Exc>)
    ensures r.Failure? <==> mode == AsWritten && h in t && t[h].None?
    ensures r.Failure? ==> r.error == TypeErrorExc
    ensures r.Success? ==> r.value == Get(t, h)
  {
    if h !in t then Success(None)
    else if t[h].None? && mode == AsWritten then Failure(TypeErrorExc)
    else Success(t[h])
  }

  /* ---------------------------------------------------------------------- */
  /* Public operations                                                       */

  /** `add_distant_host`: stores both families as normalised prefixes; only a
      started manager installs the routes and then serialises. An install
      error releases the lock and propagates without serialising. */
  function AddDistantHost(d: Daemon, outs: seq<NlOutcome>, name: string, n4: Net, n6: Net,
                          gw4: Option<string>, gw6: Option<string>): (s: Step)
    ensures d.unused ==> s == Step(d, outs, Done)
    ensures !d.unused && d.lockHeld ==> s == Step(d, outs, Blocked)
    ensures !d.unused && !d.lockHeld ==> !s.d.lockHeld && (s.status == Done || s.status == Raised(NlErrorExc))
  {
    if d.unused then Step(d, outs, Done)
    else if d.lockHeld then Step(d, outs, Blocked)
    else
      var rs1 := WithHost(d.rs, name, Entry(Prefix(n4), gw4), Entry(Prefix(n6), gw6));
      if !d.started then Step(d.(rs := rs1), outs, Done)
      else
        var s := AddRoute(rs1, outs, d.name, name, rs1.v4[name], rs1.v6[name]);
        AddRouteKnownHost(rs1, outs, d.name, name, rs1.v4[name], rs1.v6[name]);
        if s.status == Done then Step(Serialize(d.(rs := s.rs)), s.outs, Done)
        else Step(d.(rs := s.rs), s.outs, s.status)
  }

  /** The tables with `host` mapped to the two entries. */
  function WithHost(rs: RouteState, host: string, e4: Entry, e6: Entry): (r: RouteState)
    ensures host in r.v4 && host in r.v6
    ensures r.v4[host] == Some(e4) && r.v6[host] == Some(e6) && r.kernel == rs.kernel
  {
    rs.(v4 := rs.v4[host := Some(e4)], v6 := rs.v6[host := Some(e6)])
  }

  /** A stopped manager only records the host; nothing is installed and the
      file is not rewritten. */
  lemma AddDistantHostStopped(d: Daemon, outs: seq<NlOutcome>, name: string, n4: Net, n6: Net,
                              gw4: Option<string>, gw6: Option<string>)
    requires !d.unused && !d.lockHeld && !d.started
    ensures var s := AddDistantHost(d, outs, name, n4, n6, gw4, gw6);
      && s.status == Done && s.outs == outs && s.d.rs.kernel == d.rs.kernel && s.d.file == d.file
      && s.d.rs.v4 == d.rs.v4[name := Some(Entry(Prefix(n4), gw4))]
      && s.d.rs.v6 == d.rs.v6[name := Some(Entry(Prefix(n6), gw6))]
  {
  }

  /** A started manager installs both routes of a distant host and saves the
      new tables; an install error leaves the file as it was. */
  lemma AddDistantHostStarted(d: Daemon, outs: seq<NlOutcome>, name: string, n4: Net, n6: Net,
                              gw4: Option<string>, gw6: Option<string>)
    requires !d.unused && !d.lockHeld && d.started && name != d.name
    ensures var s := AddDistantHost(d, outs, name, n4, n6, gw4, gw6);
      && (s.status == Raised(NlErrorExc) || d.isWs ==> s.d.file == d.file)
      && (s.status == Done ==>
            && s.d.rs.v4 == d.rs.v4[name := Some(Entry(Prefix(n4), gw4))]
            && s.d.rs.v6 == d.rs.v6[name := Some(Entry(Prefix(n6), gw6))]
            && s.d.rs.kernel == d.rs.kernel + {Entry(Prefix(n4), gw4), Entry(Prefix(n6), gw6)}
            && (!d.isWs ==> s.d.file == Pickled(SnapshotOf(s.d.rs))))
  {
    var e4 := Entry(Prefix(n4), gw4);
    var e6 := Entry(Prefix(n6), gw6);
    var rs1 := WithHost(d.rs, name, e4, e6);
    AddRouteOther(rs1, outs, d.name, name, Some(e4), Some(e6));
    assert name in Hosts(rs1);
  }

  /** Adding the local host itself purges it from both tables. */
  lemma AddDistantHostSelf(d: Daemon, outs: seq<NlOutcome>, n4: Net, n6: Net,
                           gw4: Option<string>, gw6: Option<string>)
    requires !d.unused && !d.lockHeld && d.started
    ensures var s := AddDistantHost(d, outs, d.name, n4, n6, gw4, gw6);
      s.status == Done && d.name !in s.d.rs.v4 && d.name !in s.d.rs.v6 && s.d.rs.kernel == d.rs.kernel
  {
    var rs1 := WithHost(d.rs, d.name, Entry(Prefix(n4), gw4), Entry(Prefix(n6), gw6));
    AddRouteSelf(rs1, outs, d.name, rs1.v4[d.name], rs1.v6[d.name]);
  }

  /** `AddRoute` on a host that is present in both tables never raises
      `KeyError`. */
  lemma AddRouteKnownHost(rs: RouteState, outs: seq<NlOutcome>, name: string, host: string,
                              r4: Option<Entry>, r6: Option<Entry>)
    requires host in rs.v4 && host in rs.v6
    ensures var s := AddRoute(rs, outs, name, host, r4, r6);
      s.status == Done || s.status == Raised(NlErrorExc)
  {
  }

  /** `remove_distant_host`. */
  function RemoveDistantHost(mode: Mode, d: Daemon, outs: seq<NlOutcome>, host: string): (s: Step)
    ensures d.unused ==> s == Step(d, outs, Done)
    ensures !d.unused && d.lockHeld ==> s == Step(d, outs, Blocked)
    // stopped: delete both entries; an unknown IPv4 entry stops the deletion
    ensures !d.unused && !d.lockHeld && !d.started ==>
      && s.status == Done && s.outs == outs && s.d.rs.kernel == d.rs.kernel && s.d.file == d.file
      && (host !in d.rs.v4 ==> s.d == d)
      && (host in d.rs.v4 ==> s.d.rs.v4 == d.rs.v4 - {host} && s.d.rs.v6 == d.rs.v6 - {host})
    // started: netlink errors are ignored, present entries are deleted, then serialise
    ensures !d.unused && !d.lockHeld && d.started && s.status == Done ==>
      && !s.d.lockHeld
      && s.d.rs.v4 == (if Truthy(Get(d.rs.v4, host)) then d.rs.v4 - {host} else d.rs.v4)
      && s.d.rs.v6 == (if Truthy(Get(d.rs.v6, host)) then d.rs.v6 - {host} else d.rs.v6)
      && d.rs.kernel - Installed(Get(d.rs.v4, host)) - Installed(Get(d.rs.v6, host)) <= s.d.rs.kernel <= d.rs.kernel
      && s.d == Serialize(s.d)
    ensures mode == Intended ==> s.status == Done || s.status == Blocked
    ensures s.status == Raised(TypeErrorExc) ==> s.d.lockHeld && s.d.rs == d.rs
  {
    if d.unused then Step(d, outs, Done)
    else if d.lockHeld then Step(d, outs, Blocked)
    else if d.started then
      match HostEntry(mode, d.rs.v4, host)
      case Failure(e) => Step(d.(lockHeld := true), outs, Raised(e))
      case Success(r4) =>
        match HostEntry(mode, d.rs.v6, host)
        case Failure(e) => Step(d.(lockHeld := true), outs, Raised(e))
        case Success(r6) =>
          var s := RemoveRoute(d.rs, outs, r4, r6);
          var t4 := if Truthy(r4) then s.rs.v4 - {host} else s.rs.v4;
          var t6 := if Truthy(r6) then s.rs.v6 - {host} else s.rs.v6;
          Step(Serialize(d.(rs := RouteState(t4, t6, s.rs.kernel))), s.outs, Done)
    else if host !in d.rs.v4 then Step(d, outs, Done)
    else if host !in d.rs.v6 then Step(d.(rs := d.rs.(v4 := d.rs.v4 - {host})), outs, Done)
    else Step(d.(rs := d.rs.(v4 := d.rs.v4 - {host}, v6 := d.rs.v6 - {host})), outs, Done)
  }

  /** The per-host loop of `setup_routes`, with the lock held. Hosts of another
      gateway group are skipped; the first error ends the loop. It never
      blocks, the kernel only gains routes, and the tables only lose keys
      (the local host's entries, and an entry whose route failed, are
      deleted). */
  function SetupLoop(mode: Mode, rs: RouteState, outs: seq<NlOutcome>, name: string, topo: Topology,
                     curr: GwId, hosts: seq<string>): (s: RStep)
    ensures s.status != Blocked
    ensures rs.kernel <= s.rs.kernel
    ensures s.rs.v4.Keys <= rs.v4.Keys && s.rs.v6.Keys <= rs.v6.Keys
    decreases |hosts|
  {
    if |hosts| == 0 then RStep(rs, outs, Done)
    else
      var h := hosts[0];
      match GroupOf(topo, HostId(h))
      case Failure(e) => RStep(rs, outs, Raised(e))
      case Success(g) =>
        if g != curr then SetupLoop(mode, rs, outs, name, topo, curr, hosts[1..])
        else
          match HostEntry(mode, rs.v4, h)
          case Failure(e) => RStep(rs, outs, Raised(e))
          case Success(r4) =>
            match HostEntry(mode, rs.v6, h)
            case Failure(e) => RStep(rs, outs, Raised(e))
            case Success(r6) =>
              var s := AddRoute(rs, outs, name, h, r4, r6);
              if s.status != Done then s
              else SetupLoop(mode, s.rs, s.outs, name, topo, curr, hosts[1..])
  }

  /** `setup_routes(iface)`: marks the manager started and serialises before
      the apply loop; an `NlError` releases the lock and propagates, any other
      exception leaves the lock held. A topology without a gateway table makes
      the first lookup raise `TypeError` before anything changes.

      Unused, nothing changes. Otherwise, once the lock is taken, the manager
      is started, the snapshot of the tables as they were before the loop is
      on disk, the kernel only gains routes, and entries of hosts outside the
      group are untouched. On success every truthy entry of the group's
      other hosts is installed and the lock is free. */
  function SetupRoutes(mode: Mode, d: Daemon, outs: seq<NlOutcome>, iface: Option<string>,
                       topo: Option<Topology>, order: seq<string>): (s: Step)
    requires IsEnumeration(order, Hosts(d.rs))
    ensures d.unused ==> s == Step(d, outs, Done)
    ensures !d.unused && topo.None? ==> s == Step(d, outs, Raised(TypeErrorExc))
    ensures !d.unused && topo.Some? && GroupOf(topo.value, d.instance).Success? && d.lockHeld ==>
      s == Step(d, outs, Blocked)
    ensures !d.unused && topo.Some? && GroupOf(topo.value, d.instance).Success? && !d.lockHeld ==>
      var curr := GroupOf(topo.value, d.instance).value;
      && s.d.started
      && s.d.file == Serialize(d.(started := true)).file
      && (forall h :: !InGroup(topo.value, curr, h) ==>
            Get(s.d.rs.v4, h) == Get(d.rs.v4, h) && Get(s.d.rs.v6, h) == Get(d.rs.v6, h))
      && d.rs.kernel <= s.d.rs.kernel
      && (s.status == Done ==>
            && !s.d.lockHeld
            && forall h :: (h in Hosts(d.rs) && InGroup(topo.value, curr, h) && h != d.name) ==>
                 Installed(Get(d.rs.v4, h)) + Installed(Get(d.rs.v6, h)) <= s.d.rs.kernel)
  {
    if d.unused then Step(d, outs, Done)
    else if topo.None? then Step(d, outs, Raised(TypeErrorExc))
    else
      match GroupOf(topo.value, d.instance)
      case Failure(e) => Step(d, outs, Raised(e))
      case Success(curr) =>
        if d.lockHeld then Step(d, outs, Blocked)
        else
          var d1 := Serialize(d.(lockHeld := true, started := true, iface := iface.GetOr(d.iface)));
          SetupLoopInstalls(mode, d.rs, outs, d.name, topo.value, curr, order);
          assert forall h :: !InGroup(topo.value, curr, h) ==>
            && Get(SetupLoop(mode, d.rs, outs, d.name, topo.value, curr, order).rs.v4, h) == Get(d.rs.v4, h)
            && Get(SetupLoop(mode, d.rs, outs, d.name, topo.value, curr, order).rs.v6, h) == Get(d.rs.v6, h) by {
            forall h | !InGroup(topo.value, curr, h)
              ensures Get(SetupLoop(mode, d.rs, outs, d.name, topo.value, curr, order).rs.v4, h) == Get(d.rs.v4, h)
              ensures Get(SetupLoop(mode, d.rs, outs, d.name, topo.value, curr, order).rs.v6, h) == Get(d.rs.v6, h)
            {
              SetupLoopFrame(mode, d.rs, outs, d.name, topo.value, curr, order, h);
            }
          }
          var s := SetupLoop(mode, d1.rs, outs, d.name, topo.value, curr, order);
          var release := s.status == Done || s.status == Raised(NlErrorExc);
          Step(d1.(rs := s.rs, lockHeld := !release), s.outs, s.status)
  }

  /** The per-host loop of `remove_routes`; only `NlMissing` is tolerated and
      it is already absorbed by `remove_route`, so an `NlError` ends the loop.
      It never blocks, never edits the tables, and the kernel only loses
      routes. */
  function RemoveLoop(mode: Mode, rs: RouteState, outs: seq<NlOutcome>, topo: Topology, curr: GwId,
                      hosts: seq<string>): (s: RStep)
    ensures s.status != Blocked
    ensures s.rs.v4 == rs.v4 && s.rs.v6 == rs.v6 && s.rs.kernel <= rs.kernel
    decreases |hosts|
  {
    if |hosts| == 0 then RStep(rs, outs, Done)
    else
      var h := hosts[0];
      match GroupOf(topo, HostId(h))
      case Failure(e) => RStep(rs, outs, Raised(e))
      case Success(g) =>
        if g != curr then RemoveLoop(mode, rs, outs, topo, curr, hosts[1..])
        else
          match HostEntry(mode, rs.v4, h)
          case Failure(e) => RStep(rs, outs, Raised(e))
          case Success(r4) =>
            match HostEntry(mode, rs.v6, h)
            case Failure(e) => RStep(rs, outs, Raised(e))
            case Success(r6) =>
              var s := RemoveRoute(rs, outs, r4, r6);
              if s.status != Done then s
              else RemoveLoop(mode, s.rs, s.outs, topo, curr, hosts[1..])
  }

  /** `remove_routes`: clears `started`, removes the group's routes and deletes
      the snapshot file (a missing file is ignored). Any exception from the
      loop leaves the lock held and the file in place.

      The tables are never edited and the kernel only loses routes. Unused,
      nothing changes; otherwise, once the lock is taken, `started` is
      cleared, and on success the group's routes are gone from the kernel,
      the file is deleted and the lock is free. */
  function RemoveRoutes(mode: Mode, d: Daemon, outs: seq<NlOutcome>, topo: Option<Topology>,
                        order: seq<string>): (s: Step)
    requires IsEnumeration(order, Hosts(d.rs))
    ensures s.d.rs.v4 == d.rs.v4 && s.d.rs.v6 == d.rs.v6 && s.d.rs.kernel <= d.rs.kernel
    ensures d.unused ==> s == Step(d, outs, Done)
    ensures !d.unused && topo.None? ==> s == Step(d, outs, Raised(TypeErrorExc))
    ensures !d.unused && topo.Some? && GroupOf(topo.value, d.instance).Success? && d.lockHeld ==>
      s == Step(d, outs, Blocked)
    ensures !d.unused && topo.Some? && GroupOf(topo.value, d.instance).Success? && !d.lockHeld ==>
      var curr := GroupOf(topo.value, d.instance).value;
      && !s.d.started
      && (s.status == Done ==>
            && s.d.file == NoFile && !s.d.lockHeld
            && forall h :: h in Hosts(d.rs) && InGroup(topo.value, curr, h) ==>
                 s.d.rs.kernel !! (Installed(Get(d.rs.v4, h)) + Installed(Get(d.rs.v6, h))))
      && (s.status != Done ==> s.d.lockHeld && s.d.file == d.file)
  {
    if d.unused then Step(d, outs, Done)
    else if topo.None? then Step(d, outs, Raised(TypeErrorExc))
    else
      match GroupOf(topo.value, d.instance)
      case Failure(e) => Step(d, outs, Raised(e))
      case Success(curr) =>
        if d.lockHeld then Step(d, outs, Blocked)
        else
          RemoveLoopSpec(mode, d.rs, outs, topo.value, curr, order);
          var s := RemoveLoop(mode, d.rs, outs, topo.value, curr, order);
          if s.status == Done then Step(d.(rs := s.rs, started := false, file := NoFile), s.outs, Done)
          else Step(d.(rs := s.rs, started := false, lockHeld := true), s.outs, s.status)
  }

  /* ---------------------------------------------------------------------- */
  /* Properties of the loops                                                 */

  /** Hosts outside the group, and hosts not in the list, keep their entries. */
  lemma {:induction false} SetupLoopFrame(mode: Mode, rs: RouteState, outs: seq<NlOutcome>, name: string,
                                          topo: Topology, curr: GwId, hosts: seq<string>, h: string)
    requires !(h in hosts && InGroup(topo, curr, h))
    ensures var s := SetupLoop(mode, rs, outs, name, topo, curr, hosts);
      Get(s.rs.v4, h) == Get(rs.v4, h) && Get(s.rs.v6, h) == Get(rs.v6, h)
    decreases |hosts|
  {
    if |hosts| > 0 {
      var x := hosts[0];
      if GroupOf(topo, HostId(x)).Success? {
        if GroupOf(topo, HostId(x)).value != curr {
          SetupLoopFrame(mode, rs, outs, name, topo, curr, hosts[1..], h);
        } else if HostEntry(mode, rs.v4, x).Success? && HostEntry(mode, rs.v6, x).Success? {
          var s := AddRoute(rs, outs, name, x, HostEntry(mode, rs.v4, x).value, HostEntry(mode, rs.v6, x).value);
          if s.status == Done {
            SetupLoopFrame(mode, s.rs, s.outs, name, topo, curr, hosts[1..], h);
          }
        }
      }
    }
  }

  /** The kernel only grows during the apply loop, and when the loop completes
      every touched host other than the local one has its truthy entries
      installed. */
  lemma {:induction false} SetupLoopInstalls(mode: Mode, rs: RouteState, outs: seq<NlOutcome>, name: string,
                                             topo: Topology, curr: GwId, hosts: seq<string>)
    ensures var s := SetupLoop(mode, rs, outs, name, topo, curr, hosts);
      && rs.kernel <= s.rs.kernel
      && (s.status == Done ==>
            forall h :: h in hosts && InGroup(topo, curr, h) && h != name ==>
              Installed(Get(rs.v4, h)) + Installed(Get(rs.v6, h)) <= s.rs.kernel)
    decreases |hosts|
  {
    var s := SetupLoop(mode, rs, outs, name, topo, curr, hosts);
    if |hosts| > 0 {
      var x := hosts[0];
      if GroupOf(topo, HostId(x)).Success? {
        if GroupOf(topo, HostId(x)).value != curr {
          SetupLoopInstalls(mode, rs, outs, name, topo, curr, hosts[1..]);
        } else if HostEntry(mode, rs.v4, x).Success? && HostEntry(mode, rs.v6, x).Success? {
          var r4 := HostEntry(mode, rs.v4, x).value;
          var r6 := HostEntry(mode, rs.v6, x).value;
          var s1 := AddRoute(rs, outs, name, x, r4, r6);
          if s1.status == Done {
            SetupLoopInstalls(mode, s1.rs, s1.outs, name, topo, curr, hosts[1..]);
            if x != name {
              AddRouteOther(rs, outs, name, x, r4, r6);
            }
          }
        }
      }
    }
  }

  /** In the intended reading no `None` entry can raise: the apply loop only
      ends in `NlError`, a `KeyError` for the local host or a topology without
      a "*" entry, or success. */
  lemma {:induction false} SetupLoopNoTypeError(rs: RouteState, outs: seq<NlOutcome>, name: string,
                                                topo: Topology, curr: GwId, hosts: seq<string>)
    ensures SetupLoop(Intended, rs, outs, name, topo, curr, hosts).status != Raised(TypeErrorExc)
    ensures SetupLoop(Intended, rs, outs, name, topo, curr, hosts).status != Blocked
    decreases |hosts|
  {
    if |hosts| > 0 {
      var x := hosts[0];
      if GroupOf(topo, HostId(x)).Success? {
        var s1 := AddRoute(rs, outs, name, x, Get(rs.v4, x), Get(rs.v6, x));
        if GroupOf(topo, HostId(x)).value != curr {
          SetupLoopNoTypeError(rs, outs, name, topo, curr, hosts[1..]);
        } else if s1.status == Done {
          SetupLoopNoTypeError(s1.rs, s1.outs, name, topo, curr, hosts[1..]);
        }
      }
    }
  }

  /** The removal loop never edits the tables; it only removes routes from the
      kernel, and on success every truthy entry of a touched host is gone from
      the kernel. */
  lemma {:induction false} RemoveLoopSpec(mode: Mode, rs: RouteState, outs: seq<NlOutcome>, topo: Topology,
                                          curr: GwId, hosts: seq<string>)
    ensures var s := RemoveLoop(mode, rs, outs, topo, curr, hosts);
      && s.rs.v4 == rs.v4 && s.rs.v6 == rs.v6 && s.rs.kernel <= rs.kernel && s.status != Blocked
      && (s.status == Done ==> forall h :: h in hosts && InGroup(topo, curr, h) ==>
            s.rs.kernel !! (Installed(Get(rs.v4, h)) + Installed(Get(rs.v6, h))))
    decreases |hosts|
  {
    if |hosts| > 0 {
      var x := hosts[0];
      if GroupOf(topo, HostId(x)).Success? {
        if GroupOf(topo, HostId(x)).value != curr {
          RemoveLoopSpec(mode, rs, outs, topo, curr, hosts[1..]);
        } else if HostEntry(mode, rs.v4, x).Success? && HostEntry(mode, rs.v6, x).Success? {
          var s1 := RemoveRoute(rs, outs, HostEntry(mode, rs.v4, x).value, HostEntry(mode, rs.v6, x).value);
          if s1.status == Done {
            RemoveLoopSpec(mode, s1.rs, s1.outs, topo, curr, hosts[1..]);
          }
        }
      }
    }
  }

  /** Every public mutator returns at once, changing nothing, when the manager
      is unused. */
  lemma UnusedChangesNothing(mode: Mode, d: Daemon, outs: seq<NlOutcome>, host: string, n4: Net, n6: Net,
                             gw4: Option<string>, gw6: Option<string>, iface: Option<string>,
                             topo: Option<Topology>, order: seq<string>)
    requires d.unused
    requires IsEnumeration(order, Hosts(d.rs))
    ensures AddDistantHost(d, outs, host, n4, n6, gw4, gw6) == Step(d, outs, Done)
    ensures RemoveDistantHost(mode, d, outs, host) == Step(d, outs, Done)
    ensures SetupRoutes(mode, d, outs, iface, topo, order) == Step(d, outs, Done)
    ensures RemoveRoutes(mode, d, outs, topo, order) == Step(d, outs, Done)
    ensures Serialize(d) == d
  {
  }

  /* ---------------------------------------------------------------------- */
  /* A host with a `None` entry after a reload                               */

  const ReloadedSnapshot: Snapshot := map["st2" := (None, Some(Entry("fd00::/64", None)))]

  /** The daemon after loading that snapshot. */
  lemma ReloadedDaemon()
    ensures var d := Load(Fresh, Pickled(ReloadedSnapshot), "gw0", "eth0", false, "0").0;
      && d.rs.v4 == map["st2" := None]
      && d.rs.v6 == map["st2" := Some(Entry("fd00::/64", None))]
      && Hosts(d.rs) == {"st2"} && !d.unused && !d.lockHeld && d.instance == "0"
  {
  }

  /** The loop of `setup_routes` raises `TypeError` when its first host
      belongs to the group and has a `None` IPv4 entry. */
  lemma SetupLoopRaisesOnNoneHead(rs: RouteState, outs: seq<NlOutcome>, name: string, topo: Topology,
                                  curr: GwId, hosts: seq<string>)
    requires |hosts| > 0 && GroupOf(topo, HostId(hosts[0])) == Success(curr)
    requires hosts[0] in rs.v4 && rs.v4[hosts[0]].None?
    ensures SetupLoop(AsWritten, rs, outs, name, topo, curr, hosts).status == Raised(TypeErrorExc)
  {
  }

  /** Any started-afresh daemon whose only host has no IPv4 entry raises
      in `setup_routes` and keeps the lock. */
  lemma SetupRoutesRaisesOnNoneEntry(d: Daemon)
    requires d.rs.v4 == map["st2" := None] && Hosts(d.rs) == {"st2"}
    requires !d.unused && !d.lockHeld && d.instance == "0"
    ensures var s := SetupRoutes(AsWritten, d, [], None, Some(map["*" := GwZero]), ["st2"]);
      && s.status == Raised(TypeErrorExc) && s.d.lockHeld
      && AddDistantHost(s.d, [], "st3", Net("10.0.3.0", 24), Net("fd00:3::", 64), None, None).status == Blocked
  {
    var topo := map["*" := GwZero];
    assert GroupOf(topo, d.instance) == Success(GwZero);
    GroupOfSt2();
    var d1 := Serialize(d.(lockHeld := true, started := true, iface := d.iface));
    SetupLoopRaisesOnNoneHead(d1.rs, [], d.name, topo, GwZero, ["st2"]);
    SetupRoutesAfterLoop(AsWritten, d, [], None, topo, ["st2"]);
  }

  /** Host "st2" has id "2", which the wildcard table puts in group 0. */
  lemma GroupOfSt2()
    ensures GroupOf(map["*" := GwZero], HostId("st2")) == Success(GwZero)
  {
    assert HostId("st2") == "2" by {
      assert FirstDigit("st2") == 2;
      assert DigitRun("st2"[2..]) == 1;
    }
  }

  /** When the manager is in use, unlocked and in a known group,
      `setup_routes` is the loop over the serialised tables, and an
      exception other than `NlError` keeps the lock. */
  lemma SetupRoutesAfterLoop(mode: Mode, d: Daemon, outs: seq<NlOutcome>, iface: Option<string>,
                             topo: Topology, order: seq<string>)
    requires IsEnumeration(order, Hosts(d.rs))
    requires !d.unused && !d.lockHeld && GroupOf(topo, d.instance).Success?
    ensures var d1 := Serialize(d.(lockHeld := true, started := true, iface := iface.GetOr(d.iface)));
      var l := SetupLoop(mode, d1.rs, outs, d.name, topo, GroupOf(topo, d.instance).value, order);
      var s := SetupRoutes(mode, d, outs, iface, Some(topo), order);
      && s.status == l.status && s.d.rs == l.rs
      && (l.status != Done && l.status != Raised(NlErrorExc) ==> s.d.lockHeld)
  {
  }

  /** As written: a snapshot records `None` for the IPv4 family of a host
      whose IPv4 route failed, `load` copies that `None` into the table, and
      the next `setup_routes` raises `TypeError` on `None[0]`, which escapes
      with the route lock held; every later locked operation then blocks. */
  lemma SetupRoutesRaisesOnReloadedHost()
    ensures var d := Load(Fresh, Pickled(ReloadedSnapshot), "gw0", "eth0", false, "0").0;
      var topo := map["*" := GwZero];
      var s := SetupRoutes(AsWritten, d, [], None, Some(topo), ["st2"]);
      && s.status == Raised(TypeErrorExc) && s.d.lockHeld
      && AddDistantHost(s.d, [], "st3", Net("10.0.3.0", 24), Net("fd00:3::", 64), None, None).status == Blocked
  {
    ReloadedDaemon();
    SetupRoutesRaisesOnNoneEntry(Load(Fresh, Pickled(ReloadedSnapshot), "gw0", "eth0", false, "0").0);
  }

  /** Intended: with a `None` entry read as absent, `setup_routes` on a
      topology with a gateway table never raises `TypeError`. */
  lemma SetupRoutesIntendedNoTypeError(d: Daemon, outs: seq<NlOutcome>, iface: Option<string>,
                                       topo: Topology, order: seq<string>)
    requires IsEnumeration(order, Hosts(d.rs))
    ensures SetupRoutes(Intended, d, outs, iface, Some(topo), order).status != Raised(TypeErrorExc)
  {
    if !d.unused && GroupOf(topo, d.instance).Success? && !d.lockHeld {
      SetupLoopNoTypeError(d.rs, outs, d.name, topo, GroupOf(topo, d.instance).value, order);
    }
  }
}

=== FILE: saloha.dfy ===
/** Slotted Aloha data packets as the NCC sees them, and the order in
    which the NCC sorts the packets it decoded before it hands them to the
    encapsulation block
    (opensand-core/src/dvb_rcs/saloha/SlottedAlohaNcc.h). */
module SlottedAloha {
  import opened ModelMode

  /** A received replica of a data packet: its source terminal (0 for
      simulated traffic), the id its source gave the packet, and the slots
      of all its replicas, the first replica first. */
  datatype AlohaPacket = AlohaPacket(src: nat, uniqueId: nat, replicas: seq<nat>)

  /** The slot of the first replica (`getReplica(0)`); a packet without
      replica is not built by the terminal, 0 stands for it here. */
  function FirstReplica(p: AlohaPacket): nat {
    if |p.replicas| > 0 then p.replicas[0] else 0
  }

  /** `AlohaPacketComparator::operator()`, the order given to `std::sort`.
      As written, two packets compare only when they come from the same
      real terminal; `Intended` also orders packets of different sources,
      by source first, which makes it a strict weak order. */
  predicate Before(mode: Mode, p1: AlohaPacket, p2: AlohaPacket) {
    match mode
    case AsWritten =>
      FirstReplica(p1) < FirstReplica(p2) && p1.src == p2.src && p1.src != 0
    case Intended =>
      p1.src < p2.src || (p1.src == p2.src && FirstReplica(p1) < FirstReplica(p2))
  }

  /** Packets of one real terminal are ordered by their first replica, in
      both readings. */
  lemma SameSourceOrder(mode: Mode, p1: AlohaPacket, p2: AlohaPacket)
    requires p1.src == p2.src && p1.src != 0
    ensures Before(mode, p1, p2) <==> FirstReplica(p1) < FirstReplica(p2)
  {
  }

  /** As written: packets of different sources, and simulated traffic,
      never compare, in either direction. */
  lemma AsWrittenUnordered(p1: AlohaPacket, p2: AlohaPacket)
    requires p1.src != p2.src || p1.src == 0
    ensures !Before(AsWritten, p1, p2) && !Before(AsWritten, p2, p1)
  {
  }

  /** Both readings are irreflexive and transitive: strict partial orders. */
  lemma StrictPartialOrder(mode: Mode, p1: AlohaPacket, p2: AlohaPacket, p3: AlohaPacket)
    ensures !Before(mode, p1, p1)
    ensures Before(mode, p1, p2) && Before(mode, p2, p3) ==> Before(mode, p1, p3)
  {
  }

  predicate Incomparable(mode: Mode, p1: AlohaPacket, p2: AlohaPacket) {
    !Before(mode, p1, p2) && !Before(mode, p2, p1)
  }

  /** `std::sort` needs incomparability to be transitive too. As written it
      is not: a packet of another terminal is incomparable with two
      ordered packets of one terminal. */
  lemma AsWrittenNotStrictWeak()
    ensures var a, b, c := AlohaPacket(1, 0, [1]), AlohaPacket(2, 0, [5]), AlohaPacket(1, 1, [3]);
      Incomparable(AsWritten, a, b) && Incomparable(AsWritten, b, c) && !Incomparable(AsWritten, a, c)
  {
  }

  /** The intended order is a strict weak order, and it keeps every pair
      the written comparator orders. */
  lemma IntendedStrictWeak(p1: AlohaPacket, p2: AlohaPacket, p3: AlohaPacket)
    ensures Incomparable(Intended, p1, p2) && Incomparable(Intended, p2, p3) ==> Incomparable(Intended, p1, p3)
    ensures Before(AsWritten, p1, p2) ==> Before(Intended, p1, p2)
  {
  }
}

=== FILE: stack_plugin.dfy ===
/** The part of a protocol-stack plugin that links it to the protocol it
    carries (opensand-core/src/common/StackPlugin.h): the list of upper
    protocols a plugin accepts for each satellite payload type, the choice
    of the upper packet handler of a context, and the creation of a plugin
    with its context and packet handler. */
module StackPlugin {
  import opened Wrappers
  import opened OpenSandCore

  /** A packet handler, known to a context by the protocol name it
      returns. */
  datatype Handler = Handler(name: string)

  /** A plugin: its name, configuration path, EtherType and, for each
      payload type, the names of the protocols it may carry. */
  datatype Plugin = Plugin(name: string, confPath: string, etherType: nat, upper: map<SatType, seq<string>>)

  /** `upper[sat_type]`: a payload type with no list has the empty one. */
  function UpperOf(p: Plugin, t: SatType): seq<string> {
    if t in p.upper then p.upper[t] else []
  }

  /** A context of the plugin and the upper packet handler it hands its
      packets to, if any. */
  datatype Context = Context(plugin: Plugin, current: Option<Handler>)

  /** `getAvailableUpperProto`: the list of the plugin for that payload
      type, exactly. */
  function AvailableUpperProto(ctx: Context, t: SatType): (r: seq<string>)
    ensures t in ctx.plugin.upper ==> r == ctx.plugin.upper[t]
    ensures t !in ctx.plugin.upper ==> r == []
  {
    UpperOf(ctx.plugin, t)
  }

  /** `setUpperPacketHandler`: no handler clears the current one and
      fails; a handler whose protocol is not in the list for the payload
      type fails and changes nothing; any other becomes the current one. */
  function SetUpperPacketHandler(ctx: Context, h: Option<Handler>, t: SatType): (r: (Context, bool))
    ensures r.1 <==> h.Some? && h.value.name in UpperOf(ctx.plugin, t)
    ensures h.None? ==> r.0 == ctx.(current := None)
    ensures h.Some? && h.value.name !in UpperOf(ctx.plugin, t) ==> r.0 == ctx
    ensures r.1 ==> r.0 == ctx.(current := h)
  {
    match h
    case None => (ctx.(current := None), false)
    case Some(hd) =>
      if hd.name !in UpperOf(ctx.plugin, t) then (ctx, false)
      else (ctx.(current := h), true)
  }

  /** The current handler, if any, carries a protocol the plugin accepts
      for the payload type. */
  predicate CarriesAllowed(ctx: Context, t: SatType) {
    ctx.current.Some? ==> ctx.current.value.name in AvailableUpperProto(ctx, t)
  }

  /** Setting the upper handler keeps the current one among the accepted
      protocols, whatever the handler offered. */
  lemma SetUpperKeepsAllowed(ctx: Context, h: Option<Handler>, t: SatType)
    requires CarriesAllowed(ctx, t)
    ensures CarriesAllowed(SetUpperPacketHandler(ctx, h, t).0, t)
  {
  }

  /** The objects `create` builds, in the order their `init` runs. */
  datatype Part = PluginPart | ContextPart | HandlerPart

  /** `create`: the plugin, its context and its handler are built, the
      name and configuration path recorded, then the three are
      initialised in order, stopping at the first failure, which frees all
      three and gives nothing. The outcome of each `init` is an input; the
      second result lists the `init` calls made. */
  function Create(name: string, confPath: string, base: Plugin, pluginOk: bool, contextOk: bool, handlerOk: bool): (r: (Option<Plugin>, seq<Part>))
    ensures r.0.Some? <==> pluginOk && contextOk && handlerOk
    ensures r.0.Some? ==> r.0.value == base.(name := name, confPath := confPath)
    ensures 1 <= |r.1| <= 3 && r.1 == [PluginPart, ContextPart, HandlerPart][..|r.1|]
    ensures |r.1| == 3 || !r.1[|r.1| - 1].HandlerPart?
  {
    var p := base.(name := name, confPath := confPath);
    if !pluginOk then (None, [PluginPart])
    else if !contextOk then (None, [PluginPart, ContextPart])
    else if !handlerOk then (None, [PluginPart, ContextPart, HandlerPart])
    else (Some(p), [PluginPart, ContextPart, HandlerPart])
  }

  /** An `init` runs only if every earlier one succeeded, and the last one
      run failed whenever nothing is returned. */
  lemma CreateStopsAtFirstFailure(name: string, confPath: string, base: Plugin, pluginOk: bool, contextOk: bool, handlerOk: bool)
    ensures var (p, calls) := Create(name, confPath, base, pluginOk, contextOk, handlerOk);
      var oks := [pluginOk, contextOk, handlerOk];
      && (forall k :: 0 <= k < |calls| - 1 ==> oks[k])
      && (p.None? ==> !oks[|calls| - 1])
      && (p.Some? ==> |calls| == 3)
  {
  }
}

=== FILE: ule_padding.dfy ===
/** The optional Padding extension header of ULE, the Unidirectional
    Lightweight Encapsulation of RFC 4326 (section 5, extension headers),
    as the ULE plugin builds and decodes it
    (platine-plugins/ule/src/UleExtPadding.cpp).

    The extension is made of 16-bit fields: padding fields, then the type
    of what follows (the Next-Header field), then the payload. The Next
    Header value announcing the extension packs H-LEN, the number of
    16-bit fields, in bits 8 to 10 and H-Type, the extension type, in the
    low byte. */
module UleExtPadding {
  import opened OpenSandCore

  datatype Status = ExtOk | ExtError

  /** The state of an extension object: whether the extension is mandatory,
      its type, the payload it carries and the type of that payload. */
  datatype Ext = Ext(mandatory: bool, extType: nat, payload: seq<Byte>, payloadType: nat)

  /** H-LEN of the extension this plugin builds: five 16-bit fields. */
  const BuiltHLen: nat := 5

  /** H-LEN, the length field of a Next Header value. */
  function HLen(nextHeader: nat): (h: nat)
    ensures h < 8
  {
    (nextHeader / 0x100) % 8
  }

  /** H-Type, the type field of a Next Header value. */
  function HType(nextHeader: nat): (t: nat)
    ensures t < 0x100
  {
    nextHeader % 0x100
  }

  /** The constructor: an optional extension of type 0x00. The fields the
      base class sets are taken empty. */
  function NewPadding(): (e: Ext)
    ensures !e.mandatory && e.extType == 0x00
  {
    Ext(false, 0x00, [], 0)
  }

  /** The two bytes of a 16-bit field, most significant first. */
  function Field16(v: nat): (b: seq<Byte>)
    requires IsU16(v)
    ensures |b| == 2 && (b[0] as int) * 0x100 + b[1] as int == v
  {
    [v / 0x100, v % 0x100]
  }

  /** `build`: four zero padding fields, the payload type `ptype` in the
      Next-Header field, then the payload; the Next Header value of the
      extension announces H-LEN 5 and the extension's type. */
  function Build(e: Ext, ptype: nat, payload: seq<Byte>): (r: (Status, Ext))
    requires IsU16(ptype)
    ensures r.0 == ExtOk
    ensures |r.1.payload| == 2 * BuiltHLen + |payload|
    ensures forall i :: 0 <= i < 2 * BuiltHLen - 2 ==> r.1.payload[i] == 0
    ensures (r.1.payload[8] as int) * 0x100 + r.1.payload[9] as int == ptype
    ensures r.1.payload[2 * BuiltHLen..] == payload
    ensures HLen(r.1.payloadType) == BuiltHLen && HType(r.1.payloadType) == e.extType % 0x100
    ensures r.1.mandatory == e.mandatory && r.1.extType == e.extType
  {
    var padding: seq<Byte> := [0, 0, 0, 0, 0, 0, 0, 0];
    var nextHeader := (BuiltHLen % 8) * 0x100 + e.extType % 0x100;
    assert nextHeader / 0x100 == BuiltHLen;
    (ExtOk, e.(payload := padding + Field16(ptype) + payload, payloadType := nextHeader))
  }

  /** `decode`: H-LEN must be 1 to 5 and the data must hold the `hlen`
      16-bit fields; the payload type is the last field and the payload
      what follows the fields. On an error nothing changes. */
  function Decode(e: Ext, hlen: nat, data: seq<Byte>): (r: (Status, Ext))
    requires IsU8(hlen)
    ensures r.0 == ExtOk <==> 1 <= hlen <= 5 && |data| >= 2 * hlen
    ensures r.0 == ExtError ==> r.1 == e
    ensures r.0 == ExtOk ==>
      && r.1.payloadType == (data[2 * hlen - 2] as int) * 0x100 + data[2 * hlen - 1] as int
      && r.1.payload == data[2 * hlen..]
      && r.1.mandatory == e.mandatory && r.1.extType == e.extType
  {
    if hlen < 1 || hlen > 5 then (ExtError, e)
    else if |data| < hlen * 2 then (ExtError, e)
    else (ExtOk, e.(payloadType := (data[hlen * 2 - 2] as int) * 0x100 + data[hlen * 2 - 1] as int, payload := data[hlen * 2..]))
  }

  /** Round trip: decoding with the announced H-LEN what `build` produced
      gives back the payload type and the payload. */
  lemma DecodeBuild(e: Ext, d: Ext, ptype: nat, payload: seq<Byte>)
    requires IsU16(ptype)
    ensures var b := Build(e, ptype, payload).1;
      var r := Decode(d, HLen(b.payloadType), b.payload);
      r.0 == ExtOk && r.1.payloadType == ptype && r.1.payload == payload
  {
  }

  /** A shorter H-LEN reads a padding field as the payload type: the type
      comes out as 0 and the payload keeps the remaining fields. */
  lemma DecodeShortHeader(e: Ext, d: Ext, ptype: nat, payload: seq<Byte>, hlen: nat)
    requires IsU16(ptype) && 1 <= hlen < BuiltHLen
    ensures var b := Build(e, ptype, payload).1;
      var r := Decode(d, hlen, b.payload);
      r.0 == ExtOk && r.1.payloadType == 0 && |r.1.payload| == |payload| + 2 * (BuiltHLen - hlen)
  {
  }
}

=== FILE: wrappers.dfy ===
/** Failure-compatible wrappers used by every module of the model: an optional
    value (the source's NULL pointers and Python `None`) and a result carrying
    either a value or an error (the source's `false` returns and exceptions). */
module Wrappers {

  datatype Option<+T> = None | Some(value: T) {

    predicate IsFailure() {
      None?
    }

    function PropagateFailure<U>(): Option<U>
      requires None?
    {
      None
    }

    function Extract(): T
      requires Some?
    {
      value
    }

    /** The wrapped value, or `default` when there is none. */
    function GetOr(default: T): (r: T)
      ensures Some? ==> r == value
      ensures None? ==> r == default
    {
      match this
      case Some(v) => v
      case None => default
    }
  }

  datatype Result<+R, +E> = Success(value: R) | Failure(error: E) {

    predicate IsFailure() {
      Failure?
    }

    function PropagateFailure<U>(): Result<U, E>
      requires Failure?
    {
      Failure(error)
    }

    function Extract(): R
      requires Success?
    {
      value
    }
  }
}
